=== FILE: README.md ===
# vibePy core in Dafny

This project models the sequential core of vibePy. vibePy has two halves:
- VibeWeb: an app-spec driven web framework.
- VibeLang: a small S-expression language that compiles to Python.

Each part is a pure function over an explicit JSON `Value`, each with a contract and partner lemmas.

- **Paths and conditions** (`paths.dfy`, `conditions.dfy`):
  - `lookup_path`, the dot-path resolver over nested objects and lists;
  - `eval_condition`, the JSON predicate language: equality maps, `$and/$or/$not`, comparisons, `$in/$contains/$startsWith/$endsWith/$regex`, `$any/$all` with `item` binding, `$exists/$truthy`, and every `ConditionError`.
- **Templates** (`render.dfy`): `${path}` expansion. A string that is exactly one placeholder keeps the typed value.
- **Workflow engine** (`flow.dfy`, `flow_laws.dfy`): the `flow` action.
  - Steps run in sequence. Consecutive `parallel` steps form a group.
  - Each step has `when` gating, an auth ceiling and a nesting limit.
  - A step retries until its deadline, against an integer clock.
  - Each step stores its result under `steps`, and `set` writes `vars`.
  - The engine then chooses the flow's result.
  - Actions other than `value` and nested `flow` are an oracle given as a parameter.
- **App spec** (`spec.dfy`): `validate_spec`, with its records, defaults and error messages.
- **Database helpers** (`db.dfy`, `db_args.dfy`):
  - identifier checks, SQL column types, value coercion and `normalize_row`;
  - the field selection and statement text of `insert_row`/`update_row`;
  - the action helpers `_safe_order_by` and `_coerce_row_id`.
- **Server helpers** (`server.dfy`): the rate limiter, HTML escaping, query-parameter parsing, `WHERE` building, query clamps and pagination arithmetic.
- **Spec generation** (`ai.dfy`): `_openai_url` and the defaulting of `normalize_spec`.
- **Gallery** (`gallery.dfy`): `_slugify` and the archive names of `_build_zip`.
- **Version checks** (`version.dfy`):
  - the SemVer acceptance of `scripts/check_version.py`;
  - its changelog heading parser and error list;
  - its fallback pyproject scanner, and the one in `vibeweb/version.py`.
- **VibeLang front end**:
  - the tokenizer (`vbl_lexer.dfy`);
  - the S-expression reader (`vbl_parser.dfy`);
  - the form-to-IR translation of `parse_vbl` (`vbl_forms.dfy`, `vbl_laws.dfy`);
  - the IR validator (`vbl_ir.dfy`);
  - the Python source emitter (`vbl_compiler.dfy`, `vbl_compiler_laws.dfy`).
- **Shared pieces**: `base.dfy` (Option and Result), `json.dfy` (the `Value` datatype and Python's `==` on it) and `strings.dfy` (strip, split, case mapping, integer text).

**Python equality.** Python's `==` equates `True` with `1` and `False` with `0`. `Json.PyEq` models that, and equality maps, `$eq` and `$in` use it.

**Parallel groups.** A parallel group runs its steps one after another, each against a copy of the pre-group snapshot. The results are then merged in declared order.

## Model

| member | source | states |
|---|---|---|
| Paths.Segments | vibeweb/conditions.py:26 | the path pieces are the non-empty dot-free parts of the trimmed path |
| Paths.LookupPath | vibeweb/conditions.py:14-41 | a path with no non-empty piece resolves to None; otherwise the lookup is the walk of its pieces from the context |
| Paths.Step | vibeweb/conditions.py:31-40 | one walk step: a dict is read by key, a list by an in-range ASCII-digit index, and anything else gives None |
| Paths.WalkStep | vibeweb/conditions.py:30-41 | a walk is its first step followed by the walk of the remaining pieces |
| Paths.WalkNull | vibeweb/conditions.py:39-40 | once the value is None, the rest of the path resolves to None |
| Paths.WalkAppend | vibeweb/conditions.py:30-41 | resolving `p.q` equals resolving `q` from the value at `p` |
| Paths.WalkNullCases | vibeweb/conditions.py:31-40 | a missing key, a non-digit or out-of-range list index, and a scalar each end the lookup with None |
| Paths.LookupBlank | vibeweb/conditions.py:26-28 | an empty or blank path resolves to None |
| Paths.LookupDotted | vibeweb/conditions.py:26-41 | a path joined from space-free keys resolves key by key, and doubled, leading or trailing dots are ignored |
| Paths.LookupTwoKeys | vibeweb/conditions.py:29-33 | `a.b` reads entry `b` of the value stored under `a`, with a missing entry reading as None |
| Paths.LookupThreeKeys | vibeweb/conditions.py:29-37 | `a.b.c` takes three steps from the context |
| Paths.WalkAsWritten | vibeweb/conditions.py:34-35 | the walk with `isdigit()` then `int()`: it raises only on a piece that `isdigit()` accepts but that is not ASCII digits, and otherwise agrees with the corrected walk |
| Paths.LookupPathAsWritten | vibeweb/conditions.py:14-41 | when the as-written lookup does not raise, it agrees with the corrected lookup |
| Paths.SuperscriptIndexRaises | vibeweb/conditions.py:34-35 | `xs.²` on a list raises in the as-written lookup and gives None in the corrected one |
| Conditions.ParseOperator | vibeweb/conditions.py:108-243 | a key names an operator exactly when it is that operator's spelling |
| Conditions.Eval | vibeweb/conditions.py:51-243 | `eval_condition`; it carries no contract of its own: the *Semantics lemmas, DeMorgan, QuantifierEdges and the error lemmas below state each branch |
| Conditions.NamesDiffer | vibeweb/conditions.py:121-135 | distinct operators have distinct spellings |
| Conditions.NameIsOperatorKey | vibeweb/conditions.py:105 | every operator spelling starts with `$` and matches the operator-key pattern |
| Conditions.OperatorDispatch | vibeweb/conditions.py:101-106 | a one-key object whose key spells an operator applies that operator to its argument |
| Conditions.EvalAll | vibeweb/conditions.py:87 | the conjunction holds iff every element holds; a false result comes from some false element |
| Conditions.EvalAny | vibeweb/conditions.py:116 | the disjunction is false iff every element is false; a true result comes from some true element |
| Conditions.ListIsConjunction | vibeweb/conditions.py:85-87 | a list holds iff every element holds; `[c]` evaluates as `c`, and `[]` is true |
| Conditions.ScalarConditions | vibeweb/conditions.py:79-90 | None is true, a bool is itself, and an int or a string is false |
| Conditions.EqualityMapSemantics | vibeweb/conditions.py:92-99 | an object with no `$` key holds iff every key is a non-blank path whose value equals the expected one under Python `==`; `{}` is true and a blank key makes it false |
| Conditions.NotNegates | vibeweb/conditions.py:118-119 | `$not c` is the negation of `c`, and an error from `c` passes through |
| Conditions.AndOrSemantics | vibeweb/conditions.py:108-116 | `$and` holds iff every element holds, `$or` fails iff every element fails, and a non-list argument raises the matching error |
| Conditions.DeMorgan | vibeweb/conditions.py:108-119 | `$not` of `$and` equals `$or` of the negations, errors included |
| Conditions.BinaryDispatch | vibeweb/conditions.py:136-141 | a binary operator with a non-blank path resolves the path and then applies the operator |
| Conditions.OrderingSemantics | vibeweb/conditions.py:148-160 | the ordering operators never raise on a well-formed pair, and are false unless both sides are non-bool numbers, in which case they compare them |
| Conditions.EqualitySemantics | vibeweb/conditions.py:143-144 | `$eq` is Python `==` between the resolved value and the operand |
| Conditions.InequalitySemantics | vibeweb/conditions.py:145-146 | `$ne` is Python `!=` between the resolved value and the operand |
| Conditions.InSemantics | vibeweb/conditions.py:162-165 | `$in` is membership under Python `==` in a list operand, and a non-list operand raises |
| Conditions.ContainsSemantics | vibeweb/conditions.py:167-176 | `$contains` is substring, list membership or dict-key presence by the resolved value's type, and false otherwise |
| Conditions.StartsWithSemantics | vibeweb/conditions.py:178-183 | `$startsWith` raises on a non-string prefix, is false on a non-string value, and is the prefix test otherwise |
| Conditions.EndsWithSemantics | vibeweb/conditions.py:185-190 | `$endsWith` raises on a non-string suffix, is false on a non-string value, and is the suffix test otherwise |
| Conditions.RegexSemantics | vibeweb/conditions.py:192-200 | `$regex` raises on a non-string pattern, is false on a non-string value, and otherwise gives the search answer, raising on an invalid pattern |
| Conditions.AnyItem | vibeweb/conditions.py:211-217 | `$any` is false iff the body is false for every element bound as `item`; true means some element satisfies it |
| Conditions.AllItems | vibeweb/conditions.py:218-224 | `$all` is true iff the body holds for every element bound as `item`; false means some element fails it |
| Conditions.AnySemantics | vibeweb/conditions.py:202-217 | `$any` on a path that resolves to a list quantifies the body over the list's elements |
| Conditions.AllSemantics | vibeweb/conditions.py:202-224 | `$all` on a path that resolves to a list quantifies the body over the list's elements |
| Conditions.QuantifierOverNothing | vibeweb/conditions.py:205-224 | over None or an empty list, `$all` is true and `$any` is false |
| Conditions.QuantifierEdges | vibeweb/conditions.py:203-210 | a value that is neither a list nor None makes both false, and a non-object body raises |
| Conditions.ItemBinding | vibeweb/conditions.py:212-224 | inside the body, `item` resolves to the element and every other binding is unchanged |
| Conditions.AnyItemTotal | vibeweb/conditions.py:211-217 | when no element's evaluation raises, `$any` does not raise |
| Conditions.AllItemsTotal | vibeweb/conditions.py:218-224 | when no element's evaluation raises, `$all` does not raise |
| Conditions.ExistsSemantics | vibeweb/conditions.py:226-236 | `$exists p` holds iff `p` resolves to something other than None |
| Conditions.ExistsPairSemantics | vibeweb/conditions.py:229-236 | `$exists [p, b]` compares that answer with the truthiness of `b` |
| Conditions.TruthySemantics | vibeweb/conditions.py:238-241 | `$truthy p` is the truthiness of the resolved value |
| Conditions.ExistsShapeError | vibeweb/conditions.py:229-231 | a `$exists` list that is not a pair raises |
| Conditions.ExistsExprError | vibeweb/conditions.py:233-234 | a `$exists` argument that is not a non-blank string path raises |
| Conditions.TruthyError | vibeweb/conditions.py:239-240 | a `$truthy` argument that is not a non-blank string raises |
| Conditions.TooManyOperators | vibeweb/conditions.py:101-102 | an object with a `$` key and more than one key raises |
| Conditions.BadOperatorKey | vibeweb/conditions.py:104-106 | a `$` key outside the operator-key pattern raises |
| Conditions.UnknownOperatorError | vibeweb/conditions.py:243 | a key in the pattern that names no operator raises "Unknown operator" with the key |
| Conditions.BinaryShapeError | vibeweb/conditions.py:136-137 | a binary operator whose argument is not a two-element list raises |
| Conditions.BinaryExprError | vibeweb/conditions.py:138-140 | a binary operator whose pair does not start with a non-blank string raises |
| Conditions.UnknownOperatorExample | tests/test_conditions.py:70-72 | `{"$wat": 123}` raises "Unknown operator: $wat" |
| Render.TemplateLookup | vibeweb/actions.py:94-96 | a placeholder's value is never None: a found value is itself and a missing one reads as "" |
| Render.FirstCloseSpec | vibeweb/actions.py:34 | the scan finds the first `}` at or after a position, or reports that there is none |
| Render.OpeningShape | vibeweb/actions.py:34 | a placeholder at the head of a template is `${`, a non-empty text without `}`, and its closing `}` |
| Render.PiecesUnparse | vibeweb/actions.py:99-105 | cutting a template into literals and placeholders loses no character |
| Render.PiecesPlain | vibeweb/actions.py:99-105 | text with no `${` is all literal |
| Render.PiecesHole | vibeweb/actions.py:99-105 | `${x}` at the head is one placeholder, and the scan resumes after its `}` |
| Render.RenderPiecesAppend | vibeweb/actions.py:99-105 | rendering distributes over concatenation of pieces |
| Render.RenderPlain | vibeweb/actions.py:99-105 | text without `${` renders to itself |
| Render.RenderLiteralPrefix | vibeweb/actions.py:99-105 | a `$`-free prefix is copied unchanged ahead of the rendered rest |
| Render.RenderHole | vibeweb/actions.py:99-105 | a placeholder renders as the `str()` of its trimmed path's value, or "" when missing, followed by the rendered rest |
| Render.RenderStr | vibeweb/actions.py:99-105 | `render_str`; no contract of its own: RenderPlain, RenderLiteralPrefix, RenderHole and RenderPiecesAppend state it |
| Render.RenderTyped | vibeweb/actions.py:108-113 | a string that trims to exactly one placeholder renders to the typed value of the path, None included |
| Render.RenderValue | vibeweb/actions.py:108-120 | `render_value`; no contract of its own: RenderTyped, RenderShape, RenderItems, RenderFields and RenderIdentity state it |
| Render.RenderShape | vibeweb/actions.py:115-119 | lists and dicts render element by element, keeping length and keys; None, bools and ints are returned unchanged |
| Render.RenderItems | vibeweb/actions.py:115-116 | each list element is rendered in place |
| Render.RenderFields | vibeweb/actions.py:117-118 | each dict entry keeps its key and has its value rendered |
| Render.RenderIdentity | vibeweb/actions.py:108-119 | a value with no placeholder anywhere renders to itself |
| Render.NoWholePlaceholder | vibeweb/actions.py:110-112 | a string without `${` never counts as a whole placeholder |
| Flow.Result3 | vibeweb/actions.py:463 | a result object carries the given `ok`, `status` and `data` |
| Flow.AuthLevel | vibeweb/actions.py:466-474 | the level is at most 2; it is 2 exactly for "admin" and 1 exactly for "api", and every other string is 0 |
| Flow.StepDeadline | vibeweb/actions.py:535-553 | without a step timeout the parent deadline is kept; with one, the deadline is never later than the parent's nor than now plus the non-negative timeout, and it is one of the two |
| Flow.RemainingMs | vibeweb/actions.py:40-48 | the time left is absent exactly when there is no deadline, is never negative, and reaches the deadline from now |
| Flow.ClampTimeoutMs | vibeweb/actions.py:51-60 | the wait lies between 0 and the non-negative timeout, never exceeds the time left, and is one of those two bounds |
| Flow.Backoff | vibeweb/actions.py:202-205 | the corrected backoff lies between 250 ms and 2.5 s, and from attempt 4 on it is the 2.5 s cap |
| Flow.BackoffDoubles | vibeweb/actions.py:204 | the backoff doubles with each attempt until the cap, and never shrinks |
| Flow.BackoffAsWritten | vibeweb/actions.py:202-205 | the as-written sleep raises exactly from attempt 1024 on, and otherwise waits the corrected backoff |
| Flow.BackoffOverflows | vibeweb/actions.py:628-629 | attempt 1023 sleeps 2.5 s, while attempt 1024 raises in the as-written code and sleeps 2.5 s in the corrected one |
| Flow.ShouldRun | vibeweb/actions.py:555-561 | a falsy `when` runs the step; otherwise the condition decides, and exactly a malformed condition raises, with the step id and the condition's error |
| Flow.Store | vibeweb/actions.py:708 | the result is stored under the step id, every other id keeps its entry, and vars and the clock are untouched |
| Flow.View | vibeweb/actions.py:498-525 | the context templates and conditions read; no contract of its own: the live `steps` and `vars` come first, which FlowLaws.SetReadsOwnStep and FlowLaws.OwnStepRenders rely on |
| Flow.ApplySet | vibeweb/actions.py:507-515 | a falsy mapping changes nothing; a non-object raises; otherwise every key is written unless an empty key raises; no variable is lost, keys outside the mapping keep their values, and a first key not written again holds `render_value` of its entry against the live context |
| Flow.SetEntries | vibeweb/actions.py:512-515 | the entries are written in order; the write raises exactly when some key is empty; every key of a successful write is present afterwards, other keys are unchanged, and a first key not written again holds `render_value` of its entry against the context before the write |
| Flow.SetEntriesLastWrite | vibeweb/actions.py:512-515 | after a successful `set`, each key holds `render_value` of its last entry, rendered against the context whose `vars` already hold the entries before it |
| Flow.InitVars | vibeweb/actions.py:528-533 | flow-level vars touch neither the stored steps nor the clock, and absent vars change nothing |
| Flow.WriteNonEmpty | vibeweb/actions.py:530-533 | each non-empty key of the rendered vars object is written, other keys keep their values, and no variable is lost |
| Flow.ValueResult | vibeweb/actions.py:461-463 | a value action returns its `ok` and `status` with the data rendered against the context |
| Flow.GroupEnd | vibeweb/actions.py:645-650 | a group is the maximal run of consecutive parallel steps starting at `i` |
| Flow.PreEval | vibeweb/actions.py:659-666 | every `when` of a group is decided against the pre-group context, in order; an error is the error of some step's `when` |
| Flow.Finish | vibeweb/actions.py:721-728 | with no return step the result is the last stored one, or `{ok: true, status: 200, data: null}` when none; a named return step gives its stored result, or the "flow return_step missing" 500 result |
| Flow.Record | vibeweb/actions.py:706-710 | the step's result is stored under its id and other ids are kept; a successful `set` leaves every key of its mapping present, variables outside the mapping keep their values, and a first key not written again holds `render_value` of its entry against the context in which the result is already stored |
| Flow.RecordSetValue | vibeweb/actions.py:706-710 | after a step is recorded, each key its `set` writes last holds `render_value` of that entry against the context holding the step's own result and the earlier entries |
| Flow.ExecuteAction | vibeweb/actions.py:731-766 | running an action only moves the clock forward and never drops a stored step or variable |
| Flow.ExecuteFlow | vibeweb/actions.py:518-525 | a flow run only moves the clock forward and never drops a stored step or variable |
| Flow.RunSteps | vibeweb/actions.py:639-719 | the step loop only moves the clock forward and never drops a stored step or variable |
| Flow.RunSiblings | vibeweb/actions.py:668-672 | a parallel group ends no earlier than its start, at its slowest sibling |
| Flow.Merge | vibeweb/actions.py:674-697 | a merge that runs to the end stores a result for every step of the group, keeps the clock, and never drops a stored step or variable |
| Flow.MergeLast | vibeweb/actions.py:684-685 | a group merged to its end leaves its last step's collected result as the last result |
| Flow.MergeStep | vibeweb/actions.py:675-694 | one merged step stores its collected result, which becomes the last result; the merge stops exactly when the `set` raises or the step fails without `continue` |
| Flow.RunStep | vibeweb/actions.py:563-637 | the only errors that escape a step are an unknown action and a privilege escalation |
| Flow.RunStepCounted | vibeweb/actions.py:611 | a step calls its action at most `retries + 1` times |
| Flow.Attempts | vibeweb/actions.py:610-637 | the retry loop calls the action at most once per remaining attempt and never raises; with no attempt at all it fails with 502 |
| Flow.AfterAttempt | vibeweb/actions.py:625-635 | an attempt's outcome counts as one call, the remaining attempts bound the calls, the clock only moves forward, and nothing is raised |
| Flow.AttemptRuns | vibeweb/actions.py:611-623 | an attempt that is due, before the deadline, calls the action once and goes on with its outcome |
| Flow.DeadlineStopsAttempts | vibeweb/actions.py:611-613 | at any due attempt, a deadline already passed gives the 504 timeout with no call |
| Flow.RetryStep | vibeweb/actions.py:625-630 | a failed attempt with attempts left sleeps `Backoff(attempt)` and goes on with the next attempt, the call counted |
| Flow.FinalFailure | vibeweb/actions.py:632-635 | a failed last attempt gives the 504 timeout exactly when some attempt raised and the deadline has passed, and otherwise its own result |
| Flow.BackoffPastDeadline | vibeweb/actions.py:611-630 | a failed attempt whose back-off reaches the deadline ends the step with the 504 timeout after that one call |
| FlowLaws.TooDeepRefused | vibeweb/actions.py:519-521 | a flow deeper than 24 raises "Flow nesting too deep" with nothing changed |
| FlowLaws.RegistryRequired | vibeweb/actions.py:477-487 | a flow without a non-empty registry raises |
| FlowLaws.EmptyFlow | vibeweb/actions.py:721-728 | a flow with no steps returns the empty success, or the "return_step missing" result when its return step was never stored |
| FlowLaws.StepRaisesOnlyRefusals | vibeweb/actions.py:569-577 | an unknown `use` raises the unknown-action error and a more privileged action raises the escalation error, before any call |
| FlowLaws.NestedTooDeepCaught | vibeweb/actions.py:605-623 | at the deepest allowed level, a nested flow's "too deep" error comes back as a 500 result after one attempt |
| FlowLaws.LastAttemptFails | vibeweb/actions.py:632-635 | without a deadline, a failing last attempt is the step's result |
| FlowLaws.TooDeepRaises | vibeweb/actions.py:518-521 | a flow action called beyond the depth limit raises at once |
| FlowLaws.ExpiredStepTimesOut | vibeweb/actions.py:612-613 | a non-positive step timeout or an already passed deadline gives the 504 timeout result with no call |
| FlowLaws.NoAttemptFails | vibeweb/actions.py:637 | a negative retry count gives the 502 "step failed" result with no call |
| FlowLaws.FirstOkReturned | vibeweb/actions.py:625-626 | the first ok attempt ends the loop with its result |
| FlowLaws.RetriesExhausted | vibeweb/actions.py:610-635 | without a deadline, an action that always fails is called exactly once per remaining attempt, and the step ends with the failed result and state of one of those calls |
| FlowLaws.RefusalEndsFlow | vibeweb/actions.py:707 | a refusal escaping a sequential step ends the flow with that error, before anything is stored |
| FlowLaws.StepRecords | vibeweb/actions.py:706-719 | a step that ran, with any `set` mapping, is stored and its mapping applied; a malformed mapping raises, a failure without `continue` ends the flow with the step's result, and otherwise the loop goes on |
| FlowLaws.FailureEndsFlow | vibeweb/actions.py:707-717 | a failing sequential step without `continue` ends the flow with its own result once it is stored, whatever `return_step` says |
| FlowLaws.StepGoesOn | vibeweb/actions.py:707-719 | a step that succeeds, or fails with `on_error` "continue" in any letter case, is stored and becomes the last result, and the loop goes on |
| FlowLaws.GatedOutSkips | vibeweb/actions.py:700-705 | a gated-out sequential step stores the skip result `{ok: true, status: 204, data: null, skipped: true}` without running |
| FlowLaws.GatedOutRecords | vibeweb/actions.py:700-705 | a gated-out step still applies its `set` against the context holding the skip result; a malformed mapping raises |
| FlowLaws.SetReadsOwnStep | vibeweb/actions.py:707-710 | a `set` entry `${steps.<id>.<field>}` naming the step's own id stores that field of the result just stored |
| FlowLaws.OwnStepRenders | vibeweb/actions.py:108-113 | `${steps.<id>.<field>}` renders, typed, to the field of the result stored under `id` |
| FlowLaws.SiblingsKeep | vibeweb/actions.py:668-672 | siblings that are gated out, or that use another id, leave a collected entry alone |
| FlowLaws.SiblingCollected | vibeweb/actions.py:672-680 | a sibling that runs contributes its result from the pre-group state, with a raised error turned into a 500 result |
| FlowLaws.MergeStopsAtFirstFailure | vibeweb/actions.py:688-694 | a stopping merge stops at the first step, in declared order, whose result failed without `continue`, and returns that result |
| FlowLaws.ParallelGroup | vibeweb/actions.py:645-697 | a group that merges without stopping lets the loop go on after the group, and a malformed `when` in the group raises before anything runs |
| Spec.AfterFirst | vibeweb/spec.py:50 | the text after the first `c` is absent exactly when `c` does not occur (where Python's `split(c, 1)[1]` raises), and is shorter than the input |
| Spec.AfterFirstSplits | vibeweb/spec.py:46 | the input is a `c`-free prefix, the first `c`, and what `AfterFirst` returns |
| Spec.RefTypeShape | vibeweb/spec.py:45-50 | a reference type is "ref:" followed by a non-empty name, and its target is that name |
| Spec.IsRefType | vibeweb/spec.py:45-46 | `_is_ref_type`; no contract of its own: RefTypeShape states it |
| Spec.RefTarget | vibeweb/spec.py:49-50 | `_ref_target`; no contract of its own: RefTypeShape states it |
| Spec.CollectNames | vibeweb/spec.py:69-78 | the first loop succeeds iff every model is an object with a non-empty string name and no name repeats, and then collects the names in order |
| Spec.NamesCons | vibeweb/spec.py:70-78 | the names of a list whose first model is named are that name followed by the rest's names |
| Spec.RepeatNotDistinct | vibeweb/spec.py:76-77 | a name seen before makes the list of names not distinct |
| Spec.CheckFields | vibeweb/spec.py:91-103 | the field loop succeeds iff every field has a non-empty name and a string type that is allowed or names a declared model |
| Spec.ParseModel | vibeweb/spec.py:81-104 | one model entry passes iff it is well formed against the declared names, and then yields its name and fields |
| Spec.ParseModels | vibeweb/spec.py:80-104 | the second loop passes iff every entry passes, and keeps the entries' number and order |
| Spec.ParseCrud | vibeweb/spec.py:109-114 | `api.crud` passes iff it is a list of strings each naming a declared model, and the result is those strings in order |
| Spec.FirstUnknown | vibeweb/spec.py:112-114 | the reported unknown model is the first string not among the declared names |
| Spec.ParseAdmin | vibeweb/spec.py:122-142 | the path is the given `admin_path`, or "/admin" when absent, and one not starting with `/` raises; an auth block is present iff one was given, and then it is "basic", turns the admin on, and carries the given non-empty username and password; a non-object block, another type, or a missing username or password each raise their own message; without a block the admin flag is the truthiness of `admin` |
| Spec.Strs | vibeweb/spec.py:159-160 | a list of strings read element by element |
| Spec.ParsePage | vibeweb/spec.py:145-161 | one page entry passes iff it is well formed against the declared names, and then yields its path, model, title and fields |
| Spec.ParsePages | vibeweb/spec.py:144-161 | the page loop passes iff every page passes, and keeps the pages' number and order |
| Spec.ParseDb | vibeweb/spec.py:58-67 | the db block passes iff it is an object whose path is a string and whose models are a list; the path and models are the input's |
| Spec.ParseApi | vibeweb/spec.py:106-114 | an accepted api block is an object and every crud entry names a declared model |
| Spec.ParseUi | vibeweb/spec.py:116-161 | the ui block passes iff it is an object with a list of pages, valid admin settings and valid pages; the pages keep their order |
| Spec.ParsedModelsWellFormed | vibeweb/spec.py:69-104 | the models both loops accept are well formed, and their names are the collected names |
| Spec.ModelOfWellFormed | vibeweb/spec.py:81-104 | the record of an accepted model entry is well formed |
| Spec.ValidateSpec | vibeweb/spec.py:53-174 | an accepted spec passes every check; the name and database path fall back to "VibeWeb App" and "vibeweb.db"; the models, crud list and pages are the input's, in the input's order; the five admin settings are those the `ui` block gives; a non-string name raises "name must be a string" |
| Spec.ValidateSpecAccepts | vibeweb/spec.py:53-174 | the spec is accepted iff every part of it passes its check |
| Db.RequireSafeIdentAsWritten | vibeweb/db.py:18-24 | the guard as written passes exactly what `re.match` with `^…$` matches, which includes one trailing newline, and raises "Invalid … identifier" otherwise |
| Db.SafeIdentAcceptsNewline | vibeweb/db.py:18 | a name followed by a newline passes the guard as written, although it is not an identifier, and the corrected guard refuses it |
| Db.RequireSafeIdent | vibeweb/db.py:18-24 | the corrected check passes exactly the identifiers (a letter or `_`, then letters, digits and `_`) |
| Db.SafeIdentHasNoSqlSyntax | vibeweb/db.py:22 | a name that passes is non-empty and has no whitespace, quote, punctuation or statement separator |
| Db.SqlType | vibeweb/db.py:27-30 | a "ref:" type is INTEGER; a type has a column type iff it is a reference or one of the six allowed types, and the others raise `KeyError` |
| Db.SqlTypeOfValidType | vibeweb/db.py:9-16 | every type a validated spec allows has a column type; only `float` is REAL, and INTEGER holds exactly ints, bools and references |
| Db.PyInt | vibeweb/db.py:184 | Python `int(value)` on a JSON value: an int is itself, a bool is 0 or 1, a string parses as a decimal or raises, and anything else raises `TypeError` |
| Db.CoerceValue | vibeweb/db.py:178-199 | None stays None; a reference stores None for "" and `int(value)` otherwise; json stores strings as given and `json.dumps` of the rest; bool stores 0 or 1; int stores `int(value)`; other types store the value |
| Db.BoolCellIsFlag | vibeweb/db.py:191-194 | a bool field never raises and stores 0 or 1; a string stores 1 iff it is "1", "true", "yes" or "on" in any ASCII case, and a bool stores its own flag |
| Db.JsonFieldRoundTrip | vibeweb/db.py:185-190 | a json field stores text that reads back as the value given whenever `json.loads` inverts `json.dumps` on it |
| Db.NormalizeValue | vibeweb/db.py:74-93 | bool cells come back as None or a bool (an int is true iff non-zero); json text is parsed when it parses and kept otherwise; other types are kept |
| Db.HasFieldSnoc | vibeweb/db.py:74 | a field is declared in a list iff it is declared in all but the last entry or by the last entry |
| Db.NormalizeRow | vibeweb/db.py:65-94 | the normalised row has exactly the key "id" and the declared fields, and "id" carries the row's id |
| Db.NormalizeInto | vibeweb/db.py:75-93 | one field's write sets that field to its normalised value and leaves every other key alone |
| Db.NormalizeRowValues | vibeweb/db.py:74-93 | each declared field (its last declaration) holds its stored value normalised by its own type |
| Db.Selected | vibeweb/db.py:143-146 | the selected names are the model's fields present in the payload, and there are no more of them than fields |
| Db.SelectedInModelOrder | vibeweb/db.py:143-145 | the selected names are a subsequence of the model's field names: model order, absent ones dropped |
| Db.FieldNamesOf | vibeweb/db.py:143 | the names of the model's fields, in order |
| Db.SelectedFields | vibeweb/db.py:159-162 | the selected `(name, type)` pairs are exactly the model's pairs whose name the payload carries, in model order |
| Db.SelectsFromCons | vibeweb/db.py:159-162 | the head pair is selected exactly when the payload carries its name |
| Db.CoerceField | vibeweb/db.py:146 | one selected field is coerced by its own type from the payload's value |
| Db.SelectedValues | vibeweb/db.py:143-146 | the coercion succeeds iff every selected field coerces; the values keep the fields' order; an error is the first failing field's |
| Db.Placeholders | vibeweb/db.py:149 | the placeholder text holds exactly `n` question marks |
| Db.InsertStatement | vibeweb/db.py:140-151 | no selected field raises "No fields provided"; otherwise the parameters are the coerced selected values, one per field, in model order, and the SQL names the fields followed by as many placeholders |
| Db.Assignments | vibeweb/db.py:161 | each selected name becomes `name = ?`, in order |
| Db.UpdateStatement | vibeweb/db.py:156-167 | the update succeeds iff every selected field coerces; with none selected the row is only read again; otherwise the parameters are the coerced values followed by the row id |
| Db.CountJoin | vibeweb/db.py:150 | a join adds no character that neither the parts nor the separator hold |
| Db.InsertPlaceholdersMatch | vibeweb/db.py:149-151 | when the table and field names pass the identifier check, the INSERT has exactly as many `?` as parameters |
| Db.InsertSqlCount | vibeweb/db.py:150 | the INSERT text over identifier names holds exactly one `?` per name |
| DbArgs.PyUpperChar | vibeweb/actions.py:372 | a character upper-cases to a different ASCII capital only if it is an ASCII lower-case letter, the long s or the dotless i |
| DbArgs.PyUpper | vibeweb/actions.py:372 | upper-casing keeps the length and maps every character on its own |
| DbArgs.UpperDirections | vibeweb/actions.py:371-374 | "desc", "DESC" and "ASC" upper-case to a direction |
| DbArgs.SafeOrderBy | vibeweb/actions.py:363-377 | a blank clause gives "id DESC"; otherwise the clause is accepted iff it has at most two words, the direction (by default desc) upper-cases to ASC or DESC, and the field is "id" or declared; each refusal raises its own message |
| DbArgs.SafeOrderByStable | vibeweb/actions.py:363-377 | an accepted clause is a field, one space and ASC or DESC, and is accepted again unchanged |
| DbArgs.OrderClauseAccepted | vibeweb/actions.py:363-377 | a known space-free field followed by "ASC" or "DESC" is accepted as written |
| DbArgs.DirectionWordAccepted | vibeweb/actions.py:371-377 | any word that upper-cases to a direction is accepted in its place, in upper case |
| DbArgs.LongSDescending | vibeweb/actions.py:372 | "deſc" upper-cases to "DESC", so Python reads it as a descending order |
| DbArgs.CoerceRowId | vibeweb/actions.py:395-408 | an int is itself; a bool and every other non-string raise "must be an int or string"; a blank string raises "is required"; otherwise the stripped text must parse as a decimal |
| DbArgs.CoerceRowIdRoundTrip | vibeweb/actions.py:395-408 | an int, and its decimal text, read back as itself, and `True` is refused |
| DbArgs.CoerceRowIdIgnoresPadding | vibeweb/actions.py:401 | surrounding whitespace never changes the outcome |
| Server.NewLimiter | vibeweb/server.py:99-102 | the limit is at least 1 and at least the requested one, equal to it when it is positive, and no key has hits |
| Server.Allow | vibeweb/server.py:104-111 | the hit is counted under its key, in a new window when the key is new or its window is 60 s old; other keys are untouched; the hit is allowed iff the window's count stays within the limit |
| Server.AllowAll | vibeweb/server.py:104-111 | one answer per hit, and the limit never changes |
| Server.BurstWithinWindow | vibeweb/server.py:106-111 | within one window that holds `used` hits, the i-th further hit is allowed iff `used + i + 1` is within the limit |
| Server.FirstMinute | vibeweb/server.py:104-111 | a new key gets exactly `limit` hits in its first minute, and every later hit in that minute is refused |
| Server.EscapeChar | vibeweb/server.py:117 | a character is kept iff it is none of `&<>"'`, which become entities starting with `&` |
| Server.EscapeHtml | vibeweb/server.py:117 | escaped text holds none of `<>"'` and is never shorter than the input |
| Server.Esc | vibeweb/server.py:114-117 | None is "", and any escaped text holds none of `<>"'` |
| Server.EscapeRoundTrip | vibeweb/server.py:117 | unescaping escaped text gives the text back |
| Server.Lookup | vibeweb/server.py:665 | a parameter is found iff some entry has its name, and the value found is that entry's |
| Server.ParseFilters | vibeweb/server.py:652-662 | the filters are exactly the `f_<field>` parameters naming a declared field with a non-empty first value, keyed by that field |
| Server.IntParam | vibeweb/server.py:664-669 | a missing parameter gives the default; otherwise the first value parsed as an integer, or the default when it does not parse; an empty value list raises `IndexError` |
| Server.FieldType | vibeweb/server.py:677 | a field's type is found iff the field is declared, and is its declared type |
| Server.KeepRefsMembers | vibeweb/server.py:674-680 | the expansion keeps exactly the trimmed comma pieces that name a reference field |
| Server.ParseExpand | vibeweb/server.py:671-680 | an empty request expands nothing, and every field kept is a reference field |
| Server.CoerceFilterValue | vibeweb/server.py:698-705 | reference and int filters parse as integers or raise; other types never raise; bool stores 1 iff the value is a true word |
| Server.ReplaceChar | vibeweb/server.py:725 | the replacement keeps the length and swaps exactly the matching characters |
| Server.LikePattern | vibeweb/server.py:723-727 | the pattern holds no `*`; a filter with a wildcard keeps its length with `*` read as `%`; any other filter is wrapped in `%` |
| Server.TextFields | vibeweb/server.py:716 | the search looks in exactly the text fields |
| Server.SearchClause | vibeweb/server.py:715-720 | a search clause exists iff the search is non-empty and the model has text fields, with one `%q%` parameter per text field |
| Server.FilterClause | vibeweb/server.py:721-732 | one filter gives one parameter; text and json filters are a LIKE on the pattern |
| Server.FilterClauses | vibeweb/server.py:721-732 | one clause per filter, in order |
| Server.WhereClause | vibeweb/server.py:707-734 | the parameters are the search's, one per text field, followed by one per filter |
| Server.WherePlaceholders | vibeweb/server.py:707-734 | when no field name holds `?`, the WHERE text has exactly one `?` per parameter |
| Server.ClampLimit | vibeweb/server.py:756 | the page size lies between 1 and 500 and is the requested one when that is in range |
| Server.QueryArgs | vibeweb/server.py:756-762 | the limit is clamped to 1..500, a negative offset becomes 0, an unknown sort column becomes "id", and only "asc" in any case sorts ascending |
| Server.CeilDiv | vibeweb/server.py:995 | the ceiling of `a / b` is the least `r` with `r * b >= a` |
| Server.TotalPages | vibeweb/server.py:995 | there is at least one page, the pages cover every row, and with rows there is no empty last page |
| Server.ShownPage | vibeweb/server.py:996 | the shown page lies between 1 and the page count and is the requested one when that is in range |
| Server.AdminOffsetAsWritten | vibeweb/server.py:468 | the offset as written, from the requested limit, is never negative |
| Server.AdminPagesSkipRows | vibeweb/server.py:468 | with a requested limit above 500, no page's offset as written brings row 500 on screen |
| Server.AdminOffset | vibeweb/server.py:468 | the corrected offset is never negative and is 0 on the first page |
| Server.AdminPagesTile | vibeweb/server.py:468 | with the corrected offset, row `n` is on page `n / limit + 1` and the pages do not overlap |
| Ai.RStripChar | vibeweb/ai.py:90 | `rstrip` keeps a prefix that does not end in the character, and removes only copies of it |
| Ai.OpenAiUrl | vibeweb/ai.py:89-97 | the URL built from any base ends in "/chat/completions" |
| Ai.CompletionsUrl | vibeweb/ai.py:91-97 | whichever of the four tests decides, the URL ends in "/chat/completions" |
| Ai.OpenAiUrlIdempotent | vibeweb/ai.py:89-97 | the URL never ends with a slash, starts with the base without its trailing slashes, and building it again changes nothing |
| Ai.ThirdBranchUnreachable | vibeweb/ai.py:95-96 | the third test can never decide, since a base ending in "/v1/chat/completions" already ends in "/chat/completions" |
| Ai.PyIn | vibeweb/ai.py:193 | `key in container` tests a dict's keys, and raises on anything but a dict, a list or a string |
| Ai.SetItem | vibeweb/ai.py:198 | item assignment succeeds iff the container is a dict, writes the key and leaves every other key alone |
| Ai.SetDefault | vibeweb/ai.py:199-204 | on a dict, `if key not in d: d[key] = v` leaves a present key alone, adds a missing one with `v`, and touches no other key |
| Ai.ModelNameValues | vibeweb/ai.py:196 | the model names can be read iff the models are a dict, a list or a string; a list gives its named entries |
| Ai.NamedEntries | vibeweb/ai.py:196 | only truthy names are collected, and no more than there are models |
| Ai.DefaultPages | vibeweb/ai.py:209-212 | the default pages are built iff every name is a string, one page per name, in order |
| Ai.NormalizeApi | vibeweb/ai.py:197-204 | a dict `api` gets `crud` defaulting to the model names and `actions` and `hooks` to empty lists, and keeps every key it had |
| Ai.AdminDefaults | vibeweb/ai.py:213-218 | `admin` defaults to true and `admin_path` to "/admin"; the admin/admin credentials are added only when the admin is then on and none are given; other keys are kept |
| Ai.PagesDefault | vibeweb/ai.py:208-212 | given pages are kept; missing pages default to one per model name, which needs every name to be a string; other keys are kept |
| Ai.NormalizeUi | vibeweb/ai.py:206-218 | the `ui` block normalises iff it is a dict and its pages are given or can be built, and then it gets the page and admin defaults |
| Ai.DbModels | vibeweb/ai.py:193-196 | the models are read iff `db` is a dict holding `models`, and a dict without it raises "Spec missing 'db.models'" |
| Ai.TopDefaults | vibeweb/ai.py:188-190 | `spec_version` becomes 1, `name` defaults to "VibeWeb App", and every other key is kept |
| Ai.NormalizeBlocks | vibeweb/ai.py:197-218 | the spec normalises iff both blocks do, and then holds the normalised `api` and `ui` and keeps every other key |
| Ai.NormalizeSpec | vibeweb/ai.py:187-220 | a spec without `db` raises "Spec missing 'db'"; a normalised spec has `spec_version` 1 and the default name, and keeps every key other than the blocks |
| Ai.NormalizedHasModels | vibeweb/ai.py:191-196 | a spec that normalises has a `db` whose models and their names could be read |
| Ai.SpecIsBlocks | vibeweb/ai.py:187-220 | once the names are read, normalising is the block step on the spec with its top-level defaults |
| Ai.NormalizedApi | vibeweb/ai.py:197-204 | the normalised `api` is the given block, or `{}`, with its defaults filled in from the named models |
| Ai.NormalizedUi | vibeweb/ai.py:206-218 | the normalised `ui` is the given block, or `{}`, with its defaults filled in |
| Ai.NormalizeRefusals | vibeweb/ai.py:191-194 | no `db` raises "Spec missing 'db'" and a `db` dict without `models` raises "Spec missing 'db.models'" |
| Gallery.DashRuns | vibeweb/gallery.py:223 | each run of non-alphanumerics becomes one dash: the result has only letters, digits and single dashes, is empty iff the input is, and starts with a dash iff the input starts with a non-alphanumeric |
| Gallery.DashRunsKeepsAlnum | vibeweb/gallery.py:223 | every letter and digit survives the substitution, in order |
| Gallery.StripDash | vibeweb/gallery.py:223 | stripped text neither starts nor ends with a dash |
| Gallery.StripDashKeepsAlnum | vibeweb/gallery.py:223 | stripping dashes removes no letter or digit |
| Gallery.StripDashIsInfix | vibeweb/gallery.py:223 | what remains after stripping dashes is a contiguous part of the input |
| Gallery.StripKeepsAlnum | vibeweb/gallery.py:223 | stripping whitespace removes no letter or digit |
| Gallery.EmptyIffNoAlnum | vibeweb/gallery.py:224 | the cleaned text is empty exactly when the input has no ASCII letter or digit |
| Gallery.Slugify | vibeweb/gallery.py:222-224 | the slug is never empty; without letters or digits it is "vibeweb_app"; otherwise it is a slug whose letters and digits are the input's, lower-cased |
| Gallery.SlugifyStable | vibeweb/gallery.py:222-224 | a slug is its own slug |
| Gallery.LowerAlnum | vibeweb/gallery.py:223 | ASCII lower-casing commutes with keeping the letters and digits |
| Gallery.BuildZipNames | vibeweb/gallery.py:204-219 | the names are built iff the name is absent or a string; the archive is `<slug>.zip` and holds `<slug>/app.vweb.json` and `<slug>/README.md` |
| Gallery.ZipEntriesInFolder | vibeweb/gallery.py:217-219 | both entries live in one folder named after the archive, and that name is a slug or "vibeweb_app" |
| Version.Component | scripts/check_version.py:9 | a numeric identifier is read off the front, and what follows it starts with no digit |
| Version.CoreOf | scripts/check_version.py:9 | a parsed version is three numeric identifiers joined with dots, followed by a tail that starts with no digit |
| Version.SemVerOfNumbers | scripts/check_version.py:9 | any three natural numbers written out and joined with dots are accepted |
| Version.IsSemVer | scripts/check_version.py:9 | `SEMVER_RE.match`; no contract of its own: SemVerOfNumbers, SemVerWithSuffix, CoreAccepts and LeadingZeroRefused state it |
| Version.SemVerWithSuffix | scripts/check_version.py:9 | numbers without leading zeros followed by `-` or `+` and a suffix of letters, digits, dots and dashes are accepted |
| Version.CoreAccepts | scripts/check_version.py:9 | three numeric identifiers followed by a valid tail are accepted |
| Version.LeadingZeroRefused | scripts/check_version.py:9 | a number with a leading zero is refused |
| Version.HeadingName | scripts/check_version.py:56 | a heading starts with `##`, and its name holds no `]` |
| Version.HeadingRoundTrip | scripts/check_version.py:56-62 | the line `## [name]` gives the name back, for a name without `]` or surrounding whitespace |
| Version.HeadingOfBody | scripts/check_version.py:56-62 | `##`, whitespace, `[`, a name and `]` make a heading whose name is the stripped name |
| Version.ChangelogVersions | scripts/check_version.py:53-63 | no listed name holds `]`, and a name is listed iff some line is a heading with that name |
| Version.IndexOf | scripts/check_version.py:103 | `index` finds the first position holding the element |
| Version.ChangelogErrors | scripts/check_version.py:94-104 | the missing-`[Unreleased]`, missing-entry and out-of-order errors are each reported iff their condition holds, so there is no error iff `[Unreleased]` is listed and the version, if any, is listed no earlier |
| Version.CheckErrors | scripts/check_version.py:71-104 | each missing or unreadable file is reported, and there is no error iff both files exist, the version reads, is empty or SemVer, and the changelog is empty or passes its checks |
| Version.MainExit | scripts/check_version.py:106-112 | the exit code is 0 or 1, and 0 iff no error was collected |
| Version.ReleasePasses | scripts/check_version.py:66-112 | a SemVer version listed after `[Unreleased]` in the changelog passes |
| Version.EmptyChangelogPasses | scripts/check_version.py:94 | an empty CHANGELOG.md passes, although its checks would refuse it |
| Version.CheckErrorsIntended | scripts/check_version.py:94-104 | the corrected check reports every changelog error of an existing CHANGELOG.md, empty or not, so a changelog without `[Unreleased]` always fails |
| Version.EmptyChangelogRefused | scripts/check_version.py:94 | the corrected check refuses an empty CHANGELOG.md |
| Version.SectionName | scripts/check_version.py:33 | a section header names a non-empty text without `]` |
| Version.VersionValue | scripts/check_version.py:34 | the quoted value of a version line is non-empty and holds no quote |
| Version.ScanChecked | scripts/check_version.py:35-50 | the loop finds a version iff some later version line in `[project]` has a value that strips to something, and otherwise raises "Could not read version from pyproject.toml" |
| Version.ScanRegex | vibeweb/version.py:55-70 | the loop's answer is the stripped value of some version line in `[project]`, and with no version line it gives None |
| Version.ReadPyprojectChecked | scripts/check_version.py:32-50 | a version read has no surrounding whitespace and no quote |
| Version.ReadPyprojectRegex | vibeweb/version.py:44-70 | a version read has no surrounding whitespace and no quote |
| Version.ReadersAgree | vibeweb/version.py:66-69 | whenever the package's reader finds a version, the script's reader finds the same one |
| Version.BlankFirstVersion | vibeweb/version.py:68-69 | where the first version line in `[project]` is blank, the package's reader gives None and the script's reader goes on to later lines |
| Strings.LStripIsSuffix | vibeweb/conditions.py:26 | what `lstrip()` keeps is a suffix of its input, and what it drops is whitespace |
| Strings.BlankIffStripsEmpty | vibeweb/actions.py:364-366 | a string is blank exactly when it strips to nothing |
| Strings.StripIsInfix | vibeweb/actions.py:364 | the stripped text is a contiguous part of the original |
| Strings.Split | vibeweb/conditions.py:26 | splitting on one character yields at least one piece, none holding the separator, and joining them back gives the input |
| Strings.SplitJoin | vibeweb/conditions.py:26 | splitting pieces joined with a separator they do not hold gives them back |
| Strings.SplitWsWords | vibeweb/actions.py:367 | every piece `split()` yields is a non-empty run of non-whitespace |
| Strings.SplitWsJoin | vibeweb/actions.py:367 | splitting words joined with single spaces gives them back |
| Strings.Lower | vibeweb/db.py:193 | lower-casing keeps the length and maps each character on its own |
| Strings.IdentifierReMatchNewline | vibeweb/db.py:18 | the `^[A-Za-z_][A-Za-z0-9_]*$` match accepts every identifier and also that identifier followed by a newline, which is not one |
| Strings.NatToStr | vibeweb/server.py:665 | `str(n)` is digits without a leading zero whose value is `n` |
| Strings.ParseInt | vibeweb/server.py:667 | `int(s)` succeeds only on text holding a digit |
| Strings.ParseIntOfDigits | vibeweb/server.py:667 | a plain digit string parses to its decimal value |
| Strings.ParseIntOfNegDigits | vibeweb/server.py:667 | a minus sign followed by digits parses to the negated value |
| Strings.ParseIntOfIntToStr | vibeweb/server.py:665-667 | `int(str(i)) == i` for every integer |
| Strings.Lines | scripts/check_version.py:58 | no line of `splitlines()` holds a line break |
| Strings.LinesJoin | scripts/check_version.py:58 | lines joined with newlines split back into the same lines when the last one is not empty |
| Json.Get | vibeweb/conditions.py:32 | `d.get(k)` finds a value iff `k` is a key, and the value is that entry's |
| Json.Put | vibeweb/actions.py:515 | `d[k] = v` makes `k` read `v` and leaves every other key alone |
| Json.PutKeys | vibeweb/actions.py:515 | assignment keeps the key order: an existing key stays where it is, and a new key goes last |
| Json.PutUnique | vibeweb/actions.py:515 | assignment keeps a dict free of duplicate keys |
| Json.TrueEqualsOne | vibeweb/conditions.py:144 | Python `==` has `True == 1` and `False == 0`, but `True != 2`, `None != False` and `"1" != 1` |
| Json.PyEqRefl | vibeweb/conditions.py:144 | Python `==` is reflexive on well-formed values |
| Json.PyEq | vibeweb/conditions.py:144 | Python `==` on JSON values; no contract of its own: TrueEqualsOne and PyEqRefl state it |
| Json.GetUnique | vibeweb/conditions.py:32 | in a dict without duplicate keys, looking up an entry's key finds that entry |
| Json.QuoteFor | vibelang/compiler.py:27 | `repr` uses double quotes exactly when the text holds a single quote and no double quote |
| Json.ReprPlainStr | vibelang/compiler.py:27 | a string without quotes, backslashes or control characters is shown between single quotes, unchanged |
| Json.Repr | vibelang/compiler.py:27 | `repr` of a JSON value; no contract of its own: ReprPlainStr and VblCompilerLaws.NameAndLiteralText state it |
| Json.StrOfIntParses | vibeweb/actions.py:104 | `int(str(n)) == n` for an int value |
| Json.StrOf | vibeweb/actions.py:104 | `str` of a JSON value; no contract of its own: StrOfIntParses states it |
| VblLexer.Unescape | vibelang/parser.py:26-37 | an escape other than `n`, `t` and `r` stands for the character itself, quote and backslash included |
| VblLexer.ReadBody | vibelang/parser.py:19-45 | a string body read ends at its closing quote and is shorter than what was consumed; a missing closing quote, or a final backslash, raises "Unterminated string literal" |
| VblLexer.ReadString | vibelang/parser.py:16-45 | the index returned lies past the closing quote, and the read fails iff the body does |
| VblLexer.LiteralChar | vibelang/parser.py:26-37 | each character is written as itself or as an escape that reads back as it |
| VblLexer.ReadLiteralBody | vibelang/parser.py:16-45 | an escaped text followed by a quote reads back as the text, whatever follows |
| VblLexer.ReadLiteralChar | vibelang/parser.py:19-44 | reading an escaped character adds exactly that character and consumes its escape |
| VblLexer.CommentLen | vibelang/parser.py:56-59 | a comment runs up to, not including, the next newline |
| VblLexer.AtomLen | vibelang/parser.py:73-76 | an atom runs up to the first whitespace or paren |
| VblLexer.ClassifyAtom | vibelang/parser.py:77-89 | an atom is an int iff it matches the number pattern without a dot, a float iff it matches with one, `true`/`false`/`null` otherwise, else a symbol with its own text |
| VblLexer.Tokenize | vibelang/parser.py:48-90 | the only error is an unterminated string |
| VblLexer.TokenizeUntokenize | vibelang/parser.py:48-90 | writing tokens out and tokenizing the text gives the tokens back |
| VblLexer.TokenizeQuote | vibelang/parser.py:68-71 | a string literal at the front becomes one string token, and the scan resumes after its closing quote |
| VblLexer.AtomThenSpace | vibelang/parser.py:73-89 | an atom followed by a space tokenizes as that atom |
| VblLexer.IntTextIsAtom | vibelang/parser.py:77-81 | `str(n)` is one atom that classifies as the integer `n` |
| VblLexer.NumeralEdges | vibelang/parser.py:13 | "1." and "-" and "+1" are symbols, "-12" is an int and "1.5" a float |
| VblParser.AtomNode | vibelang/parser.py:112-116 | a token that is not a paren parses to a leaf |
| VblParser.ParseExpr | vibelang/parser.py:96-116 | a parsed node consumes at least one token, and the only errors are end of input, a missing `)` and a stray `)` |
| VblParser.ParseItems | vibelang/parser.py:104-108 | the items of a list consume at least their closing `)`, with the same three errors |
| VblParser.ParseTokens | vibelang/parser.py:93-121 | the only errors are end of input, a missing `)` and a stray `)` |
| VblParser.ParseNodeTokens | vibelang/parser.py:96-116 | parsing a node's tokens gives the node back and leaves what follows |
| VblParser.ParseFormsTokens | vibelang/parser.py:118-121 | parsing the tokens of a list of forms gives the forms back |
| VblParser.ParseExprSound | vibelang/parser.py:96-116 | a successful parse consumed exactly the tokens of the node it returns |
| VblParser.ParseTokensSound | vibelang/parser.py:93-121 | the forms parsed from lexed tokens are exactly the forms those tokens write out |
| VblParser.TokenizeLexed | vibelang/parser.py:48-90 | every token the lexer makes is one the parser's round trip covers |
| VblParser.ParsedParensBalance | vibelang/parser.py:93-121 | every token list that parses holds as many `(` as `)` |
| VblParser.StrayCloseRefused | vibelang/parser.py:110-120 | a `)` after any sequence of whole forms raises "Unexpected ')'", whatever follows it |
| VblParser.MissingCloseRefused | vibelang/parser.py:102-107 | a `(` whose items run to the end of the input raises "Missing closing parenthesis" |
| VblForms.SymName | vibelang/parser.py:127-130 | a name is read iff the node is a symbol, and then it is the symbol's name; anything else raises "Expected symbol, got: " followed by the node as an f-string shows it |
| VblLaws.ExpectedSymbolShowsString | vibelang/parser.py:130 | a refused string literal is shown as its bare text |
| VblLaws.ExpectedSymbolShowsInt | vibelang/parser.py:130 | a refused number is shown in decimal |
| VblLaws.ExpectedSymbolShowsList | vibelang/parser.py:130 | a refused list is shown as a Python list of `repr`s, a symbol as `Symbol(name='a')` |
| VblForms.SymNames | vibelang/parser.py:398 | a list of symbols reads as their names, in order, and any other node in it raises |
| VblForms.Expr | vibelang/parser.py:133-232 | every expression read is an IR object |
| VblForms.ExprList | vibelang/parser.py:161 | the expressions of a list keep its length and order, each being the expression of its node, and an error comes from some node |
| VblForms.Stmt | vibelang/parser.py:235-341 | every statement read is an IR object |
| VblForms.DictEntries | vibelang/parser.py:165-170 | a dict form gives one key/value entry per item |
| VblForms.ParallelTasks | vibelang/parser.py:200-205 | a parallel form gives one task per item |
| VblForms.StmtList | vibelang/parser.py:269 | the statements of a list keep its length and order, each being the statement of its node |
| VblForms.WithItems | vibelang/parser.py:321-329 | a list of with items gives one item per entry |
| VblForms.TopForm | vibelang/parser.py:354-437 | a top-level form never removes the run entry, and only a `run` form changes it; a head outside the seven known forms raises "Unknown top-level form: <name>" |
| VblForms.StepOption | vibelang/parser.py:393-426 | a step option key outside the seven known ones raises "Unknown step attribute: <key>" |
| VblForms.ValidateEntries | vibelang/parser.py:180-191 | a validate entry keyed other than schema, data or model raises "Unknown validate key: <key>" |
| VblForms.TopForms | vibelang/parser.py:354-437 | the form loop never removes the run entry, leaves it alone when no form is a `run` form, and sets it only through some `run` form |
| VblForms.ParseVbl | vibelang/parser.py:344-441 | a lexing or parsing error passes through; a program whose forms are accepted but hold no `run` form raises "Program requires a run form"; an accepted program has a `run` form and is an object with keys meta, imports, inputs, steps and run |
| VblLaws.FoldBinopIsLeftFold | vibelang/parser.py:149-150 | the loop over extra operands is the left fold of their expressions, and fails with the first operand that fails |
| VblLaws.OperatorIsLeftFold | vibelang/parser.py:143-151 | an operator form with at least two operands is the left fold of its operands, and with fewer it raises "Operator <op> requires operands" |
| VblLaws.CallArgsPositional | vibelang/parser.py:225-231 | without keyword items, the arguments are the items' expressions in order, and the first failing item's error is raised |
| VblLaws.CallArgsUniqueKeys | vibelang/parser.py:229 | the keyword arguments never repeat a key |
| VblLaws.CallArgsSplit | vibelang/parser.py:225-232 | with keyword and positional items mixed, the call succeeds iff the positional items and the keyword items each succeed alone, and the arguments are then the positional expressions in order and the keyword assignments in order |
| VblLaws.CallIrValid | vibelang/ir.py:35-39 | a call object whose arguments are a list and whose keywords are an object passes the expression check |
| VblLaws.ExprValid | vibelang/ir.py:29-64 | every expression the reader builds passes `_validate_expr` |
| VblLaws.DictEntriesValid | vibelang/ir.py:55-60 | the key/value entries of a dict form pass the validator's entry check |
| VblLaws.StmtValid | vibelang/ir.py:67-160 | every statement the reader builds passes `_validate_stmt` |
| VblLaws.StmtListValid | vibelang/ir.py:93-94 | every statement list the reader builds passes the statement check |
| VblLaws.DoBlockValid | vibelang/ir.py:108-109 | every `(do ...)` body the reader builds passes the statement check |
| VblLaws.IfIrValid | vibelang/ir.py:86-100 | an if object whose branches are valid statement lists passes |
| VblLaws.ForIrValid | vibelang/ir.py:101-110 | a for object whose body is a valid statement list passes |
| VblLaws.ForBodyRefusals | vibelang/parser.py:280-284 | a `for` body that is not a non-empty list raises "for body must be (do ...) " with its trailing space, and one headed by another symbol raises the message without it |
| VblLaws.WhileIrValid | vibelang/ir.py:111-125 | a while object whose body is a valid statement list passes |
| VblLaws.WithIrValid | vibelang/ir.py:134-151 | a with object whose items and body are valid passes |
| VblLaws.WithItemOk | vibelang/ir.py:141-146 | one with item the reader builds has a valid context and a string `as` when it has one |
| VblLaws.RunBlockValid | vibelang/ir.py:243-250 | every `(run (block ...))` payload the reader builds passes the run check: a list of valid statements |
| VblLaws.StepBodyValid | vibelang/ir.py:222-235 | every body a `(body ...)` step option builds passes the step body check |
| VblIr.MemberOr | vibelang/ir.py:171 | `v.get(k, default)` is the entry when the key is present and the default otherwise |
| VblIr.ValidateExpr | vibelang/ir.py:29-64 | scalars pass and lists are refused; an object is checked only for the shape of the node kinds it names |
| VblIr.DictItemsValid | vibelang/ir.py:55-60 | the entries of a list-shaped dict node pass iff each is an object with a key and a value that are both valid expressions |
| VblIr.ValidateStmt | vibelang/ir.py:67-160 | a statement that is not an object is refused |
| VblIr.StmtsValid | vibelang/ir.py:93-94 | a body passes iff every statement in it does |
| VblIr.ImportValid | vibelang/ir.py:174-191 | an import passes iff it is a string, a `from` object with a string module and a list of string names, or an `import` object with a string module and a string `as` if any |
| VblIr.ImportsValid | vibelang/ir.py:171-191 | the imports pass iff each import does |
| VblIr.StepValid | vibelang/ir.py:206-241 | a step that passes has an identifier name not seen before, and a body or a return |
| VblIr.StepsValidNames | vibelang/ir.py:205-214 | the step loop passes only steps whose names are identifiers, new, and pairwise distinct |
| VblIr.ValidateIrAsWritten | vibelang/ir.py:163-250 | an IR the validator as written accepts has a run entry |
| VblIr.FirstBadKey | vibelang/ir.py:197-199 | the first input name that is not an identifier, the one `validate_ir` reports in "Input name must be identifier: <key>"; none iff every name is one |
| VblIr.ValidateIr | vibelang/ir.py:163-250 | an IR the corrected validator accepts has a run entry |
| VblIr.NewlineStepName | vibelang/ir.py:8-12 | the validator as written accepts a step named by an identifier followed by a newline, and the corrected one refuses the same IR |
| VblCompiler.Pad | vibelang/compiler.py:94 | `" " * n` is `n` spaces |
| VblCompiler.ExprToPy | vibelang/compiler.py:20-90 | a string is source text, None, bools and ints are their `repr`, a list raises; a `python` payload wins over `name`, each returned as it is; any non-string result is such a payload |
| VblCompiler.ExprText | vibelang/compiler.py:85 | an expression placed in an f-string is the `str()` of its rendering, so a payload of any type is shown |
| VblCompiler.ExprStr | vibelang/compiler.py:109 | an expression concatenated to text must render to a string, and a non-string payload raises `TypeError` |
| VblCompiler.Texts | vibelang/compiler.py:37 | the items `str.join` receives are all strings, or it raises `TypeError` |
| VblCompiler.TupleText | vibelang/compiler.py:68-70 | a one-element tuple is written with its trailing comma, and every other tuple without one |
| VblCompiler.ItemsToPy | vibelang/compiler.py:34 | the items render iff each does, keeping the number and order |
| VblCompiler.IterToPy | vibelang/compiler.py:66 | iterating a list renders its items, and iterating a string renders each character |
| VblCompiler.KwargsToPy | vibelang/compiler.py:36 | one keyword part per keyword |
| VblCompiler.BinopToPy | vibelang/compiler.py:80-85 | a binop is always written in parentheses |
| VblCompiler.PyLines | vibelang/compiler.py:96-100 | a string's lines are its `splitlines()`, and a false value gives none |
| VblCompiler.Indent | vibelang/compiler.py:101 | each line gets `n` spaces in front and is otherwise kept |
| VblCompiler.StmtToLines | vibelang/compiler.py:93-143 | a statement renders to at least one line, every line indented at least `indent` |
| VblCompiler.IfLines | vibelang/compiler.py:115-130 | an if statement renders to at least one line, all indented |
| VblCompiler.ForLines | vibelang/compiler.py:131-142 | a for statement renders to at least one line, all indented |
| VblCompiler.Suite | vibelang/compiler.py:119-124 | a suite is indented four deeper, and a missing or empty body is one `pass` |
| VblCompiler.ReturnText | vibelang/compiler.py:110-114 | a return is a real `return` exactly inside a step |
| VblCompiler.RenderBlock | vibelang/compiler.py:146-152 | a false block is one `pass`, and otherwise the block renders to at least one line, all indented |
| VblCompiler.DecoratorArgs | vibelang/compiler.py:156-159 | one `key=repr(value)` keyword per decorator key the step has, and nothing else; each sits at the position given by how many of retry, timeout, guard, produces before it the step has, so they come in that order |
| VblCompiler.RenderStep | vibelang/compiler.py:155-181 | a step renders to its decorator line with the keywords joined by commas, its `def` line and an indented body |
| VblCompiler.StepBody | vibelang/compiler.py:163-180 | a step body is at least one line, indented by four |
| VblCompiler.FormatImport | vibelang/compiler.py:8-17 | an import line starts with "import " or "from " |
| VblCompiler.FormatImports | vibelang/compiler.py:192-193 | one line per import |
| VblCompiler.InputLines | vibelang/compiler.py:199-200 | one line per input |
| VblCompiler.RunLines | vibelang/compiler.py:207-223 | the run entry renders to at least one line |
| VblCompiler.Assemble | vibelang/compiler.py:225 | the source keeps the prelude and ends with exactly one newline after its last non-blank character |
| VblCompiler.CompileIrToSource | vibelang/compiler.py:184-225 | an IR the validator refuses raises the validator's error; compiled source starts with the prelude and ends with one newline after a non-blank character |
| VblCompilerLaws.NameAndLiteralText | vibelang/compiler.py:24-27 | a name compiles to itself and a literal to its `repr` |
| VblCompilerLaws.BinopText | vibelang/compiler.py:80-85 | a binop compiles to its operands' texts around the operator, in parentheses |
| VblCompilerLaws.LeftFoldText | vibelang/compiler.py:80-85 | a left fold compiles to the left-nested, fully parenthesised text of its operands |
| VblCompilerLaws.ThreeOperandText | vibelang/parser.py:143-151 | `(op a b c)` over three symbols reads and compiles to `((a op b) op c)` |
| VblCompilerLaws.NonStringPayload | vibelang/compiler.py:22-25 | a non-string `name` payload is kept as it is: an f-string shows its `str()`, while an expression statement and a list display raise `TypeError` |
| VblCompilerLaws.KwargsText | vibelang/compiler.py:36 | keyword parts are rendered in order as `key=` and the value's `str()` |
| VblCompilerLaws.ArgsText | vibelang/compiler.py:34 | positional arguments that compile to strings render to those strings, in order |
| VblCompilerLaws.CallText | vibelang/compiler.py:28-38 | a call of a named function compiles to the name, then its positional arguments and its `key=value` keywords, separated by commas, in parentheses |
| VblCompiler.CallToPy | vibelang/compiler.py:28-38 | the call branch of `_expr_to_py`; no contract of its own: CallText and CallRefusesNonStringArg state it |
| VblCompilerLaws.CallRefusesNonStringArg | vibelang/compiler.py:34-37 | a positional argument that compiles to a non-string makes the call raise `TypeError` |
| VblCompilerLaws.ValidImportFormats | vibelang/compiler.py:8-17 | every import the validator accepts has a rendering |
| VblCompilerLaws.ImportText | vibelang/compiler.py:8-17 | `import m`, `import m as a` and `from m import a, b` are rendered for the shapes the reader builds |
| VblCompilerLaws.UnrenderedStatements | vibelang/compiler.py:143 | while, with, break, continue, raise and assert statements have no rendering |
| VblCompilerLaws.WhileReadsButDoesNotCompile | vibelang/compiler.py:143 | a while form reads into a statement the validator accepts and the compiler refuses |
| VblCompilerLaws.DecoratorsIgnoreKeyOrder | vibelang/compiler.py:157-159 | the decorator keywords depend only on the step's entries, not on the order they were written in |
| VblCompilerLaws.DecoratorOrder | vibelang/compiler.py:157-159 | a step with all four keys gets `retry=…, timeout=…, guard=…, produces=…` in that order |
| VblCompilerLaws.NoDecorators | vibelang/compiler.py:157-160 | a step with none of the four keys gets a bare `@step()` argument list |
| VblCompilerLaws.ReturnInStep | vibelang/compiler.py:110-114 | a return statement renders as `return <text>` inside a step and as `__vbl_result__ = <text>` elsewhere |

## Left out

- HTTP plumbing is not modelled, because it is I/O:
  - the request handlers and HTML page rendering;
  - Basic-auth header decoding;
  - the audit log and static file serving.
- SQLite execution is not modelled: connecting, schema creation, and the listing, count, get and delete queries. Only the pure coercion, field selection and statement text are.
- Outbound HTTP and LLM actions are an oracle parameter (`ExternalCall`), as are the outbound host allow-list and spec generation through a model server. Their behaviour depends on the network.
- The thread pool that runs a parallel group is not modelled. Its steps run one after another against snapshots, which gives the same stored results because siblings cannot see each other's writes.
- The wall clock is not modelled. `time.monotonic` becomes an integer millisecond clock carried in the state, and an external call reports its elapsed time. Sleeping only advances that clock.
- Server.Allow: `time.time()` float seconds become a whole-second `now` parameter, so the 60-second window test is on integers.
- Two Python library calls are parameters, not models (`str()` and `repr()` are modelled, as Json.StrOf and Json.Repr):
  - `json.dumps`/`json.loads`;
  - `re.search` for `$regex` (a `RegexSearch` function that returns found, not found or a bad pattern).
- VibeLang execution (`compile_ir`/`execute_ir`, the runtime, the standard library), the command-line tools and file reads are not modelled. They run Python code or touch the file system.
- Json.Repr: `repr` shows every character from U+00AE upwards as itself. Python escapes the non-printable ones, such as U+2028, U+200B and U+3000, as `\u` escapes. Json.StrOf inherits this for non-string values.
- Conditions.Eval: paths resolve through the corrected Paths.LookupPath. Where `lookup_path` raises ValueError on a superscript index (see Findings), the condition reads None instead of raising.
- Render.RenderValue: placeholders resolve through the corrected Paths.LookupPath. A superscript index reads None (or "" inside text) instead of raising ValueError, and the flow engine inherits this through its `when` and `set` rendering.
- Flow.Backoff: the engine sleeps for the corrected backoff, in integer milliseconds. The as-written float formula is kept only as Flow.BackoffAsWritten (see Findings).
- Flow.Attempts: it works on the integer millisecond clock. The deadline and timeout arithmetic of the source is in float seconds.
- Flow.RunSiblings: each sibling gets its own copy of the pre-group snapshot and its writes are discarded. In vibeweb/actions.py:598-608 all siblings share one snapshot dict, so one sibling's nested writes could be seen by a later one.
- Flow.View: the context a step sees holds `steps`, `vars`, `input`, `query` and the caller's outer entries. It has no `_flow_depth`, `_deadline_ts` or `actions` entries; the engine carries those in its own frame.
- Conditions.Eval: `$gt/$gte/$lt/$lte` compare integers. The source's `float()` coercion and its OverflowError on huge integers are not modelled, because numbers are integers here.
- VblForms.Expr: a float literal such as `1.5` is refused with the `FloatsLeftOut` error. The source reads it as a float literal.
- VblForms.RawValue: floats are refused as in VblForms.Expr. A symbol nested inside a list value, as in `(produces (a b))`, stays a `Symbol` object in the source, and here it becomes its name as a string, giving `["a", "b"]`. The IR is JSON, which has no symbols. A bare symbol becomes its name in both.
- VblForms.SymName: a float numeral in the refused node is shown as written, where Python shows `str(float(...))`. Characters from U+00AE upwards are shown raw, as in Json.Repr.
- VblLexer.ClassifyAtom: only ASCII digits make a number, whereas Python's `\d` matches every Unicode decimal digit.
- Db.CoerceValue: a `float` field keeps its value as an uninterpreted `Float` cell and never raises. Python's `float("x")` raises ValueError.
- Server.CoerceFilterValue: a `float` filter is kept as an uninterpreted `Float` cell and never raises, as in Db.CoerceValue.
- Strings.IsDigits: ASCII digits only. Python's `isdigit()` also accepts other Unicode digits.
- Strings.ParseInt: ASCII digits only. Python's `int()` also accepts other Unicode decimal digits.
- Paths.IndexesInto: a list index must be ASCII digits. Python's `isdigit()`/`int()` also index with other Unicode decimal digits such as "３".
- Paths.PyIsDigits: besides ASCII digits it knows only the superscript and subscript digits. Other characters that `isdigit()` accepts, such as "①", are not included.
- Version.IsSemVer: ASCII digits only, where the regex's `\d` is Unicode-aware.
- Version.ChangelogVersions: the date after a heading is matched with ASCII digits only.
- Version.ReadPyprojectChecked: only the fallback line scanner is modelled. The `tomllib` path is not.
- Ai.DefaultPage: the page path lower-cases ASCII letters only. Python's `lower()` is Unicode-aware.
- Ai.NormalizeUi: a `ui` value that is not an object gives a single TypeError outcome.
- VblIr.ValidateExpr: error messages are the source's message text without the interpolated value.
- VblIr.StepValid: error messages leave out the interpolated step name.
- VblCompiler.ExprToPy: the compiler's errors are named by kind (`TypeError`, unsupported node) rather than by Python's full message.
- VblCompiler.CompileIrToSource: it validates with the corrected VblIr.ValidateIr. That identifier check does not accept a trailing newline (see Findings).

## Findings

| source | as written | input that shows it | evidently intended | confidence | as-written member | corrected member |
|---|---|---|---|---|---|---|
| vibeweb/conditions.py:34-35 | a list segment passes `isdigit()` and is then converted with `int()`; superscript digits pass the first test and fail the second, so `lookup_path` raises instead of returning None | path "xs.²" over a context whose `xs` is a list | a segment that is not a usable index gives None, as `lookup_path` is total | not executed | Paths.SuperscriptIndexRaises | Paths.LookupPath |
| vibeweb/actions.py:202-205 | the retry backoff is `0.25 * (2 ** attempt)` before the cap of 2.5 s; for attempt 1024 the float product overflows and OverflowError escapes the step | a step with `retry` of 1025 or more that keeps failing | the delay is capped at 2.5 s for every attempt | not executed | Flow.BackoffOverflows | Flow.Backoff |
| vibeweb/db.py:18-24 | `re.match` with a `$`-anchored pattern accepts an identifier followed by one trailing newline | table name "name\n" | only `[A-Za-z_][A-Za-z0-9_]*` is accepted | not executed | Db.SafeIdentAcceptsNewline | Db.RequireSafeIdent |
| vibelang/ir.py:8-12 | `_is_identifier` uses the same `$`-anchored pattern, so a name with a trailing newline passes | step name "s\n" | step, param and input names are plain identifiers | not executed | VblIr.NewlineStepName | VblIr.ValidateIr |
| vibeweb/server.py:468 | the admin page offset uses the raw `limit`, while the query clamps the limit to 500 | `limit` of 600, page 2: the offset is 600 but page 1 showed only rows 0-499 | consecutive pages tile the rows with no gap | not executed | Server.AdminPagesSkipRows | Server.AdminPagesTile |
| scripts/check_version.py:94 | the changelog checks run only when the text is non-empty, so an existing but empty CHANGELOG.md collects no error and the script exits 0 | an empty CHANGELOG.md next to a valid pyproject.toml | a changelog without an "Unreleased" heading or a version entry is reported | not executed | Version.EmptyChangelogPasses | Version.EmptyChangelogRefused |

=== FILE: ai.dfy ===
/**
 * The pure parts of vibeweb/ai.py (also used by vibeweb/actions.py): the
 * chat-completions URL built from a base URL, and `normalize_spec`, which
 * fills the defaults of a generated app spec in place before it is
 * validated.
 *
 * `normalize_spec` applies Python's `in` and item assignment to whatever
 * the generated JSON holds, so a value of the wrong type raises a
 * `TypeError` or `AttributeError` at the first operation that cannot
 * apply to it; both are modelled, as `PyTypeError`.
 */
module Ai {
  import opened Base
  import opened Strings
  import opened Json

  // ---------------------------------------------------------------------
  // _openai_url
  // ---------------------------------------------------------------------

  /** `s.rstrip(c)` for one character. */
  function RStripChar(s: string, c: char): (r: string)
    ensures |r| <= |s| && r == s[..|r|]
    ensures r == [] || r[|r| - 1] != c
    ensures forall i | |r| <= i < |s| :: s[i] == c
  {
    if s == [] || s[|s| - 1] != c then s else RStripChar(s[..|s| - 1], c)
  }

  /** `_openai_url(base_url)`. */
  function OpenAiUrl(base: string): (url: string)
    ensures EndsWith(url, "/chat/completions")
  {
    CompletionsUrl(RStripChar(base, '/'))
  }

  /** The tests of `_openai_url` on the base without trailing slashes. */
  function CompletionsUrl(b: string): (url: string)
    ensures EndsWith(url, "/chat/completions")
  {
    if EndsWith(b, "/chat/completions") then b
    else if EndsWith(b, "/v1") then
      EndsWithAppend(b, "/chat/completions");
      b + "/chat/completions"
    else if EndsWith(b, "/v1/chat/completions") then
      ThirdBranchUnreachable(b);
      b
    else
      EndsWithAppend(b, "/v1/chat/completions");
      ThirdBranchUnreachable(b + "/v1/chat/completions");
      b + "/v1/chat/completions"
  }

  /** The URL never ends with a slash, keeps the base (without its
      trailing slashes) as a prefix, and building it again changes
      nothing. */
  lemma OpenAiUrlIdempotent(base: string)
    ensures var url := OpenAiUrl(base);
      && url[|url| - 1] != '/'
      && StartsWith(url, RStripChar(base, '/'))
      && OpenAiUrl(url) == url
  {
    var url := OpenAiUrl(base);
    assert url[|url| - 1] == 's' by {
      assert url[|url| - |"/chat/completions"|..] == "/chat/completions";
    }
    assert RStripChar(url, '/') == url;
  }

  /** The third test of `_openai_url` can never decide: a base ending in
      "/v1/chat/completions" already ends in "/chat/completions". */
  lemma ThirdBranchUnreachable(b: string)
    requires EndsWith(b, "/v1/chat/completions")
    ensures EndsWith(b, "/chat/completions")
  {
    var n := |b|;
    assert b[n - 20..] == "/v1/chat/completions";
    assert b[n - 17..] == b[n - 20..][3..];
  }

  // ---------------------------------------------------------------------
  // normalize_spec
  // ---------------------------------------------------------------------

  datatype NormError = Missing(message: string) | PyTypeError

  /** Python's `key in container`: a dict tests its keys, a list its
      elements, a string its substrings; anything else raises. */
  function PyIn(key: string, container: Value): (r: Result<bool, NormError>)
    ensures container.Obj? ==> r == Ok(Get(container.fields, key).Some?)
    ensures r.Err? <==> !(container.Obj? || container.Arr? || container.Str?)
  {
    match container
    case Obj(fs) => Ok(Get(fs, key).Some?)
    case Arr(xs) => Ok(InList(Str(key), xs))
    case Str(s) => Ok(Contains(s, key))
    case _ => Err(PyTypeError)
  }

  /** `container[key] = v`, which only a dict accepts here. */
  function SetItem(container: Value, key: string, v: Value): (r: Result<Value, NormError>)
    ensures r.Ok? <==> container.Obj?
    ensures r.Ok? ==> r.value.Obj? && Get(r.value.fields, key) == Some(v)
    ensures r.Ok? ==> forall k | k != key :: Get(r.value.fields, k) == Get(container.fields, k)
  {
    if container.Obj? then Ok(Obj(Put(container.fields, key, v))) else Err(PyTypeError)
  }

  /** `d.setdefault(key, v)` on a dict known to be one. */
  function PutMissing(d: Dict, key: string, v: Value): (r: Dict)
    ensures Get(r, key) == Some(Get(d, key).GetOr(v))
    ensures forall k | k != key :: Get(r, k) == Get(d, k)
  {
    if Get(d, key).None? then Put(d, key, v) else d
  }

  /** `if key not in container: container[key] = v`. */
  function SetDefault(container: Value, key: string, v: Value): (r: Result<Value, NormError>)
    ensures container.Obj? ==> r.Ok? && r.value.Obj?
    ensures container.Obj? ==> Get(r.value.fields, key) == Some(Get(container.fields, key).GetOr(v))
    ensures container.Obj? ==> forall k | k != key :: Get(r.value.fields, k) == Get(container.fields, k)
    ensures container.Obj? && key in Keys(container.fields) ==> r.value == container
  {
    var present :- PyIn(key, container);
    if present then Ok(container) else SetItem(container, key, v)
  }

  /** `[m["name"] for m in models if isinstance(m, dict) and m.get("name")]`;
      iterating a dict or a string yields no dict, and iterating anything
      else raises. */
  function ModelNameValues(models: Value): (r: Result<seq<Value>, NormError>)
    ensures r.Ok? <==> models.Obj? || models.Arr? || models.Str?
    ensures models.Arr? ==> r == Ok(NamedEntries(models.items))
  {
    match models
    case Arr(xs) => Ok(NamedEntries(xs))
    case Obj(_) => Ok([])
    case Str(_) => Ok([])
    case _ => Err(PyTypeError)
  }

  function NamedEntries(xs: seq<Value>): (r: seq<Value>)
    ensures |r| <= |xs|
    ensures forall i | 0 <= i < |r| :: Truthy(r[i])
    decreases |xs|
  {
    if xs == [] then []
    else
      var rest := NamedEntries(xs[1..]);
      if xs[0].Obj? && Truthy(GetOrNull(xs[0].fields, "name")) then [GetOrNull(xs[0].fields, "name")] + rest
      else rest
  }

  /** The default page of one model: `/<lower-cased name>`, the model, and
      "<name> List"; a name that is not a string has no `lower()`. */
  function DefaultPage(name: Value): Result<Value, NormError> {
    if !name.Str? then Err(PyTypeError)
    else Ok(Obj([("path", Str("/" + Lower(name.s))), ("model", name), ("title", Str(name.s + " List"))]))
  }

  function DefaultPages(names: seq<Value>): (r: Result<seq<Value>, NormError>)
    ensures r.Ok? <==> forall i | 0 <= i < |names| :: names[i].Str?
    ensures r.Ok? ==> |r.value| == |names|
    ensures r.Ok? ==> forall i | 0 <= i < |names| :: Ok(r.value[i]) == DefaultPage(names[i])
    decreases |names|
  {
    if names == [] then Ok([])
    else
      var p :- DefaultPage(names[0]);
      var rest :- DefaultPages(names[1..]);
      assert forall i | 1 <= i < |names| :: names[i] == names[1..][i - 1];
      Ok([p] + rest)
  }

  /** The credentials added when the admin is enabled without any. */
  function DefaultAdminAuth(): Value {
    Obj([("type", Str("basic")), ("username", Str("admin")), ("password", Str("admin"))])
  }

  /** The `api` block: `crud` defaults to the model names, `actions` and
      `hooks` to empty lists. */
  function NormalizeApi(api: Value, names: seq<Value>): (r: Result<Value, NormError>)
    ensures api.Obj? ==> r.Ok? && r.value.Obj?
    ensures api.Obj? ==> Get(r.value.fields, "crud") == Some(Get(api.fields, "crud").GetOr(Arr(names)))
    ensures api.Obj? ==> Get(r.value.fields, "actions") == Some(Get(api.fields, "actions").GetOr(Arr([])))
    ensures api.Obj? ==> Get(r.value.fields, "hooks") == Some(Get(api.fields, "hooks").GetOr(Arr([])))
    ensures api.Obj? ==> forall k | k in Keys(api.fields) :: Get(r.value.fields, k) == Get(api.fields, k)
  {
    var a1 :- SetDefault(api, "crud", Arr(names));
    var a2 :- SetDefault(a1, "actions", Arr([]));
    SetDefault(a2, "hooks", Arr([]))
  }

  /** The admin settings of a `ui` dict: `admin` defaults to true and
      `admin_path` to "/admin"; default credentials are added only when the
      admin is then enabled and no `admin_auth` is given. */
  function AdminDefaults(fs: Dict): (r: Dict)
    ensures Get(r, "admin") == Some(Get(fs, "admin").GetOr(Bool(true)))
    ensures Get(r, "admin_path") == Some(Get(fs, "admin_path").GetOr(Str("/admin")))
    ensures Get(r, "admin_auth") ==
      if Get(fs, "admin_auth").None? && Truthy(Get(fs, "admin").GetOr(Bool(true)))
      then Some(DefaultAdminAuth()) else Get(fs, "admin_auth")
    ensures forall k | k !in ["admin", "admin_path", "admin_auth"] :: Get(r, k) == Get(fs, k)
  {
    var f1 := PutMissing(fs, "admin", Bool(true));
    var f2 := PutMissing(f1, "admin_path", Str("/admin"));
    assert Get(f2, "admin") == Get(f1, "admin") && Get(f2, "admin_auth") == Get(fs, "admin_auth");
    if Truthy(GetOrNull(f2, "admin")) then PutMissing(f2, "admin_auth", DefaultAdminAuth())
    else f2
  }

  /** `pages` defaults to one page per model name. */
  function PagesDefault(fs: Dict, names: seq<Value>): (r: Result<Dict, NormError>)
    ensures r.Ok? <==> Get(fs, "pages").Some? || forall i | 0 <= i < |names| :: names[i].Str?
    ensures r.Ok? && Get(fs, "pages").Some? ==> r.value == fs
    ensures r.Ok? && Get(fs, "pages").None? ==>
      Get(r.value, "pages") == Some(Arr(DefaultPages(names).value))
    ensures r.Ok? ==> forall k | k != "pages" :: Get(r.value, k) == Get(fs, k)
  {
    if Get(fs, "pages").Some? then Ok(fs)
    else
      var pages :- DefaultPages(names);
      Ok(Put(fs, "pages", Arr(pages)))
  }

  /** The `ui` block. Whatever else happens, `get` is finally called on it,
      so a `ui` that is not a dict always ends in a type error (raised by
      `in`, by item assignment or by `get`, whichever comes first). */
  function NormalizeUi(ui: Value, names: seq<Value>): (r: Result<Value, NormError>)
    ensures r.Ok? <==> ui.Obj? && (Get(ui.fields, "pages").Some? || forall i | 0 <= i < |names| :: names[i].Str?)
    ensures r.Ok? ==> r.value.Obj? && r.value.fields == AdminDefaults(PagesDefault(ui.fields, names).value)
  {
    if !ui.Obj? then Err(PyTypeError)
    else
      var fs :- PagesDefault(ui.fields, names);
      Ok(Obj(AdminDefaults(fs)))
  }

  /** The `models` entry of `db`: `"models" in db` must hold, and only a
      dict can then be indexed by it. */
  function DbModels(db: Value): (r: Result<Value, NormError>)
    ensures r.Ok? <==> db.Obj? && Get(db.fields, "models").Some?
    ensures r.Ok? ==> Some(r.value) == Get(db.fields, "models")
    ensures db.Obj? && Get(db.fields, "models").None? ==> r == Err(Missing("Spec missing 'db.models'"))
  {
    var hasModels :- PyIn("models", db);
    if !hasModels then Err(Missing("Spec missing 'db.models'"))
    else if !db.Obj? then Err(PyTypeError)
    else Ok(GetOrNull(db.fields, "models"))
  }

  /** The top-level defaults set before anything is checked. */
  function TopDefaults(spec: Dict): (r: Dict)
    ensures Get(r, "spec_version") == Some(Int(1))
    ensures Get(r, "name") == Some(Get(spec, "name").GetOr(Str("VibeWeb App")))
    ensures forall k | k != "spec_version" && k != "name" :: Get(r, k) == Get(spec, k)
  {
    PutMissing(Put(spec, "spec_version", Int(1)), "name", Str("VibeWeb App"))
  }

  /** The `api` and `ui` blocks of a spec, each defaulting to `{}`. */
  function NormalizeBlocks(s: Dict, names: seq<Value>): (r: Result<Dict, NormError>)
    ensures r.Ok? <==> NormalizeApi(Get(s, "api").GetOr(Obj([])), names).Ok? &&
                       NormalizeUi(Get(s, "ui").GetOr(Obj([])), names).Ok?
    ensures r.Ok? ==> Get(r.value, "api") == Some(NormalizeApi(Get(s, "api").GetOr(Obj([])), names).value)
    ensures r.Ok? ==> Get(r.value, "ui") == Some(NormalizeUi(Get(s, "ui").GetOr(Obj([])), names).value)
    ensures r.Ok? ==> forall k | k != "api" && k != "ui" :: Get(r.value, k) == Get(s, k)
  {
    var api :- NormalizeApi(Get(s, "api").GetOr(Obj([])), names);
    var s3 := Put(s, "api", api);
    assert Get(s3, "ui") == Get(s, "ui");
    var ui :- NormalizeUi(Get(s3, "ui").GetOr(Obj([])), names);
    Ok(Put(s3, "ui", ui))
  }

  /** `normalize_spec(spec)`. */
  function NormalizeSpec(spec: Dict): (r: Result<Dict, NormError>)
    ensures Get(spec, "db").None? ==> r == Err(Missing("Spec missing 'db'"))
    ensures r.Ok? ==> Get(r.value, "spec_version") == Some(Int(1))
    ensures r.Ok? ==> Get(r.value, "name") == Some(Get(spec, "name").GetOr(Str("VibeWeb App")))
    ensures r.Ok? ==> forall k | k != "spec_version" && k != "name" && k != "api" && k != "ui" :: Get(r.value, k) == Get(spec, k)
  {
    var s2 := TopDefaults(spec);
    if Get(spec, "db").None? then Err(Missing("Spec missing 'db'"))
    else
    var models :- DbModels(Get(spec, "db").value);
    var names :- ModelNameValues(models);
    var r := NormalizeBlocks(s2, names);
    r
  }

  /** A spec that normalises has a `db` whose models and their names
      could be read. */
  lemma NormalizedHasModels(spec: Dict)
    requires NormalizeSpec(spec).Ok?
    ensures Get(spec, "db").Some? && DbModels(Get(spec, "db").value).Ok?
    ensures ModelNameValues(DbModels(Get(spec, "db").value).value).Ok?
  {
  }

  /** Once the model names are read, normalisation is the block step on
      the spec with its top-level defaults, which keep `api` and `ui`. */
  lemma SpecIsBlocks(spec: Dict, names: seq<Value>)
    requires Get(spec, "db").Some? && DbModels(Get(spec, "db").value).Ok?
    requires ModelNameValues(DbModels(Get(spec, "db").value).value) == Ok(names)
    ensures NormalizeSpec(spec) == NormalizeBlocks(TopDefaults(spec), names)
  {
  }

  /** The top-level defaults leave a block alone. */
  lemma TopDefaultsKeep(spec: Dict, k: string)
    requires k == "api" || k == "ui"
    ensures Get(TopDefaults(spec), k) == Get(spec, k)
  {
  }

  /** What the normalised `api` block holds: the given block (or `{}`)
      with its defaults filled in from the names of the named models. */
  lemma NormalizedApi(spec: Dict, names: seq<Value>)
    requires NormalizeSpec(spec).Ok?
    requires Get(spec, "db").Some? && DbModels(Get(spec, "db").value).Ok?
    requires ModelNameValues(DbModels(Get(spec, "db").value).value) == Ok(names)
    ensures NormalizeApi(Get(spec, "api").GetOr(Obj([])), names).Ok?
    ensures Get(NormalizeSpec(spec).value, "api") == Some(NormalizeApi(Get(spec, "api").GetOr(Obj([])), names).value)
  {
    SpecIsBlocks(spec, names);
    TopDefaultsKeep(spec, "api");
  }

  /** What the normalised `ui` block holds, in the same way. */
  lemma NormalizedUi(spec: Dict, names: seq<Value>)
    requires NormalizeSpec(spec).Ok?
    requires Get(spec, "db").Some? && DbModels(Get(spec, "db").value).Ok?
    requires ModelNameValues(DbModels(Get(spec, "db").value).value) == Ok(names)
    ensures NormalizeUi(Get(spec, "ui").GetOr(Obj([])), names).Ok?
    ensures Get(NormalizeSpec(spec).value, "ui") == Some(NormalizeUi(Get(spec, "ui").GetOr(Obj([])), names).value)
  {
    SpecIsBlocks(spec, names);
    TopDefaultsKeep(spec, "ui");
  }

  /** The two refusals of `normalize_spec`: no `db`, or a `db` dict without
      `models`. */
  lemma NormalizeRefusals(spec: Dict)
    ensures Get(spec, "db").None? ==> NormalizeSpec(spec) == Err(Missing("Spec missing 'db'"))
    ensures Get(spec, "db").Some? && Get(spec, "db").value.Obj? && Get(Get(spec, "db").value.fields, "models").None? ==>
      NormalizeSpec(spec) == Err(Missing("Spec missing 'db.models'"))
  {
    assert Get(TopDefaults(spec), "db") == Get(spec, "db");
  }
}

=== FILE: base.dfy ===
/**
 * Small failure-carrying datatypes shared by every module of the model.
 *
 * Python signals failure by raising; the model returns `Err` with a value
 * that names the exception that would have been raised.
 */
module Base {

  /** Python `None` versus a present value. */
  datatype Option<+T> = None | Some(value: T) {

    /** The carried value, or `default` when absent. */
    function GetOr(default: T): T {
      match this
      case Some(v) => v
      case None => default
    }
  }

  /** A computation that either produced a value or raised `error`. */
  datatype Result<+T, +E> = Ok(value: T) | Err(error: E) {

    predicate IsFailure() {
      Err?
    }

    function PropagateFailure<U>(): Result<U, E>
      requires Err?
    {
      Err(error)
    }

    function Extract(): T
      requires Ok?
    {
      value
    }
  }

  function Max(a: int, b: int): int {
    if a >= b then a else b
  }

  function Min(a: int, b: int): int {
    if a <= b then a else b
  }
}

=== FILE: conditions.dfy ===
/**
 * The condition language of vibeweb/conditions.py (`eval_condition`): a
 * closed JSON predicate language used by flow `when` gates.
 *
 * Evaluation either gives a boolean or raises `ConditionError`; the model
 * returns `Err` with one variant per raise site. `re.search` is a
 * parameter.
 */
module Conditions {
  import opened Base
  import opened Strings
  import opened Json
  import opened Paths

  /** What `re.search(pattern, text)` did. */
  datatype RegexOutcome = Found | NotFound | BadPattern(message: string)

  /** `re.search`, as a function of (pattern, text). */
  type RegexSearch = (string, string) -> RegexOutcome

  /** The `ConditionError`s, one per raise site. */
  datatype CondError =
    | NotExactlyOneOperator
    | InvalidOperatorKey
    | AndExpectsList
    | OrExpectsList
    | BinaryShape(op: string)
    | BinaryExpr(op: string)
    | InExpectsList
    | StartsWithExpectsString
    | EndsWithExpectsString
    | RegexExpectsString
    | InvalidRegex(detail: string)
    | QuantifierBody(op: string)
    | ExistsShape
    | ExistsExpr
    | TruthyExpr
    | UnknownOperator(op: string)

  /** The text each `ConditionError` carries. */
  function Message(e: CondError): string {
    match e
    case NotExactlyOneOperator => "Operator condition objects must have exactly one $operator key"
    case InvalidOperatorKey => "Invalid $operator key"
    case AndExpectsList => "$and expects a list"
    case OrExpectsList => "$or expects a list"
    case BinaryShape(op) => op + " expects [expr, value]"
    case BinaryExpr(op) => op + " expr must be a non-empty string"
    case InExpectsList => "$in expects [expr, [values...]]"
    case StartsWithExpectsString => "$startsWith expects [expr, prefix_string]"
    case EndsWithExpectsString => "$endsWith expects [expr, suffix_string]"
    case RegexExpectsString => "$regex expects [expr, pattern_string]"
    case InvalidRegex(detail) => "Invalid regex: " + detail
    case QuantifierBody(op) => op + " expects [expr, <condition_object>]"
    case ExistsShape => "$exists expects 'expr' or ['expr', bool]"
    case ExistsExpr => "$exists expr must be a non-empty string"
    case TruthyExpr => "$truthy expects 'expr'"
    case UnknownOperator(op) => "Unknown operator: " + op
  }

  /** The operators `eval_condition` knows. */
  datatype Operator =
    | AndOp | OrOp | NotOp
    | EqOp | NeOp | GtOp | GteOp | LtOp | LteOp | InOp | ContainsOp
    | StartsWithOp | EndsWithOp | RegexOp | AnyOp | AllOp
    | ExistsOp | TruthyOp
  {
    /** Operators that take `[expr, value]`. */
    predicate IsBinary() {
      !(AndOp? || OrOp? || NotOp? || ExistsOp? || TruthyOp?)
    }

    predicate IsOrdering() {
      GtOp? || GteOp? || LtOp? || LteOp?
    }
  }

  /** The key spelling of each operator. */
  function Name(o: Operator): string {
    match o
    case AndOp => "$and"
    case OrOp => "$or"
    case NotOp => "$not"
    case EqOp => "$eq"
    case NeOp => "$ne"
    case GtOp => "$gt"
    case GteOp => "$gte"
    case LtOp => "$lt"
    case LteOp => "$lte"
    case InOp => "$in"
    case ContainsOp => "$contains"
    case StartsWithOp => "$startsWith"
    case EndsWithOp => "$endsWith"
    case RegexOp => "$regex"
    case AnyOp => "$any"
    case AllOp => "$all"
    case ExistsOp => "$exists"
    case TruthyOp => "$truthy"
  }

  /** The operator a key names, if any. */
  function ParseOperator(op: string): (r: Option<Operator>)
    ensures r.Some? ==> Name(r.value) == op
    ensures r.None? ==> forall o: Operator :: Name(o) != op
  {
    if op == "$and" then Some(AndOp)
    else if op == "$or" then Some(OrOp)
    else if op == "$not" then Some(NotOp)
    else if op == "$eq" then Some(EqOp)
    else if op == "$ne" then Some(NeOp)
    else if op == "$gt" then Some(GtOp)
    else if op == "$gte" then Some(GteOp)
    else if op == "$lt" then Some(LtOp)
    else if op == "$lte" then Some(LteOp)
    else if op == "$in" then Some(InOp)
    else if op == "$contains" then Some(ContainsOp)
    else if op == "$startsWith" then Some(StartsWithOp)
    else if op == "$endsWith" then Some(EndsWithOp)
    else if op == "$regex" then Some(RegexOp)
    else if op == "$any" then Some(AnyOp)
    else if op == "$all" then Some(AllOp)
    else if op == "$exists" then Some(ExistsOp)
    else if op == "$truthy" then Some(TruthyOp)
    else None
  }

  /** Each operator is found again from its spelling. */
  lemma ParseName(o: Operator)
    ensures ParseOperator(Name(o)) == Some(o)
  {
    var r := ParseOperator(Name(o));
    assert r.Some?;
    NameInjective(r.value, o);
  }

  lemma NameInjective(a: Operator, b: Operator)
    requires Name(a) == Name(b)
    ensures a == b
  {
    if a != b {
      NamesDiffer(a, b);
    }
  }

  /** Distinct operators have distinct spellings: they differ in length or
      in some character. */
  lemma NamesDiffer(a: Operator, b: Operator)
    requires a != b
    ensures Name(a) != Name(b)
  {
    var x, y := Name(a), Name(b);
    if |x| == |y| {
      var k := if x[1] != y[1] then 1 else if x[2] != y[2] then 2 else 3;
      assert x[k] != y[k];
    }
  }

  /** Some key starts with '$' (`_is_op_dict`). */
  predicate HasOperatorKey(fs: Dict) {
    exists i | 0 <= i < |fs| :: StartsWith(fs[i].0, "$")
  }

  /** `^\$[a-zA-Z_][a-zA-Z0-9_]*$` under `re.match`; the final `$` also
      matches just before a trailing newline. */
  predicate OperatorKeyMatches(op: string) {
    || (|op| >= 2 && op[0] == '$' && IsIdentifier(op[1..]))
    || (|op| >= 3 && op[0] == '$' && op[|op| - 1] == '\n' && IsIdentifier(op[1..|op| - 1]))
  }

  /** A non-blank string: usable as a path. */
  predicate IsPathExpr(v: Value) {
    v.Str? && !IsBlank(v.s)
  }

  /** The equality-map form: every key is a non-blank path whose value is
      `==` to the entry's value. */
  predicate EqualityMap(fs: Dict, ctx: Dict) {
    forall i | 0 <= i < |fs| :: !IsBlank(fs[i].0) && PyEq(LookupPath(fs[i].0, ctx), fs[i].1)
  }

  /** `eval_condition(cond, ctx)`. */
  function Eval(cond: Value, ctx: Dict, re: RegexSearch): (r: Result<bool, CondError>)
    decreases cond, 1, 0
  {
    match cond
    case Null => Ok(true)
    case Bool(b) => Ok(b)
    case Arr(xs) => EvalAll(xs, ctx, re)
    case Obj(fs) =>
      if !HasOperatorKey(fs) then Ok(EqualityMap(fs, ctx))
      else if |fs| != 1 then Err(NotExactlyOneOperator)
      else
        var e := fs[0];
        assert e.1 < e;
        EvalOperator(e.0, e.1, ctx, re)
    case _ => Ok(false)
  }

  /** `all(eval_condition(c, ctx) for c in xs)`: stops at the first false
      condition, so only errors before it surface. */
  function EvalAll(xs: seq<Value>, ctx: Dict, re: RegexSearch): (r: Result<bool, CondError>)
    ensures r == Ok(true) <==> forall i | 0 <= i < |xs| :: Eval(xs[i], ctx, re) == Ok(true)
    ensures r == Ok(false) ==> exists i | 0 <= i < |xs| :: Eval(xs[i], ctx, re) == Ok(false)
    decreases xs, 0, 0
  {
    if xs == [] then Ok(true)
    else
      var h :- Eval(xs[0], ctx, re);
      if !h then Ok(false) else EvalAll(xs[1..], ctx, re)
  }

  /** `any(eval_condition(c, ctx) for c in xs)`: stops at the first true
      condition. */
  function EvalAny(xs: seq<Value>, ctx: Dict, re: RegexSearch): (r: Result<bool, CondError>)
    ensures r == Ok(false) <==> forall i | 0 <= i < |xs| :: Eval(xs[i], ctx, re) == Ok(false)
    ensures r == Ok(true) ==> exists i | 0 <= i < |xs| :: Eval(xs[i], ctx, re) == Ok(true)
    decreases xs, 0, 0
  {
    if xs == [] then Ok(false)
    else
      var h :- Eval(xs[0], ctx, re);
      if h then Ok(true) else EvalAny(xs[1..], ctx, re)
  }

  /** The context a `$any`/`$all` body sees: a copy with `item` bound. */
  function ItemCtx(ctx: Dict, item: Value): Dict {
    Put(ctx, "item", item)
  }

  /** No element makes the body raise. */
  predicate NoneRaises(body: Value, items: seq<Value>, ctx: Dict, re: RegexSearch) {
    forall i | 0 <= i < |items| :: Eval(body, ItemCtx(ctx, items[i]), re).Ok?
  }

  /** `$any`: true at the first item whose body holds. */
  function AnyItem(body: Value, items: seq<Value>, ctx: Dict, re: RegexSearch): (r: Result<bool, CondError>)
    ensures r == Ok(false) <==> forall i | 0 <= i < |items| :: Eval(body, ItemCtx(ctx, items[i]), re) == Ok(false)
    ensures r == Ok(true) ==> exists i | 0 <= i < |items| :: Eval(body, ItemCtx(ctx, items[i]), re) == Ok(true)
    decreases body, 1, |items| + 1
  {
    if items == [] then Ok(false)
    else
      var h :- Eval(body, ItemCtx(ctx, items[0]), re);
      if h then Ok(true) else AnyItem(body, items[1..], ctx, re)
  }

  /** `$all`: false at the first item whose body fails; vacuously true. */
  function AllItems(body: Value, items: seq<Value>, ctx: Dict, re: RegexSearch): (r: Result<bool, CondError>)
    ensures r == Ok(true) <==> forall i | 0 <= i < |items| :: Eval(body, ItemCtx(ctx, items[i]), re) == Ok(true)
    ensures r == Ok(false) ==> exists i | 0 <= i < |items| :: Eval(body, ItemCtx(ctx, items[i]), re) == Ok(false)
    decreases body, 1, |items| + 1
  {
    if items == [] then Ok(true)
    else
      var h :- Eval(body, ItemCtx(ctx, items[0]), re);
      if !h then Ok(false) else AllItems(body, items[1..], ctx, re)
  }

  /** A single-key `{op: arg}` object. */
  function EvalOperator(op: string, arg: Value, ctx: Dict, re: RegexSearch): (r: Result<bool, CondError>)
    decreases arg, 4, 0
  {
    if !OperatorKeyMatches(op) then Err(InvalidOperatorKey)
    else
      match ParseOperator(op)
      case None => Err(UnknownOperator(op))
      case Some(o) => Apply(o, arg, ctx, re)
  }

  /** A known operator applied to its argument. */
  function Apply(o: Operator, arg: Value, ctx: Dict, re: RegexSearch): (r: Result<bool, CondError>)
    decreases arg, 3, 0
  {
    match o
    case AndOp => if !arg.Arr? then Err(AndExpectsList) else EvalAll(arg.items, ctx, re)
    case OrOp => if !arg.Arr? then Err(OrExpectsList) else EvalAny(arg.items, ctx, re)
    case NotOp =>
      var b :- Eval(arg, ctx, re);
      Ok(!b)
    case ExistsOp =>
      var pair := arg.Arr? && |arg.items| == 2;
      var expr := if pair then arg.items[0] else arg;
      var want := if pair then arg.items[1] else Null;
      if arg.Arr? && !pair then Err(ExistsShape)
      else if !IsPathExpr(expr) then Err(ExistsExpr)
      else
        var found := LookupPath(expr.s, ctx) != Null;
        Ok(if want == Null then found else found == Truthy(want))
    case TruthyOp =>
      if !IsPathExpr(arg) then Err(TruthyExpr)
      else Ok(Truthy(LookupPath(arg.s, ctx)))
    case _ =>
      if !arg.Arr? || |arg.items| != 2 then Err(BinaryShape(Name(o)))
      else if !IsPathExpr(arg.items[0]) then Err(BinaryExpr(Name(o)))
      else
        var expected := arg.items[1];
        assert expected < arg;
        EvalBinary(o, LookupPath(arg.items[0].s, ctx), expected, ctx, re)
  }

  /** A number for the ordering operators: an int that is not a bool. */
  predicate IsPlainNumber(v: Value) {
    v.Int?
  }

  /** `needle in hay` as `$contains` applies it. */
  predicate ContainsValue(hay: Value, needle: Value) {
    if hay.Str? && needle.Str? then Contains(hay.s, needle.s)
    else if hay.Arr? then InList(needle, hay.items)
    else if hay.Obj? && needle.Str? then needle.s in Keys(hay.fields)
    else false
  }

  /** A binary operator once its path has been resolved to `actual`. */
  function EvalBinary(o: Operator, actual: Value, expected: Value, ctx: Dict, re: RegexSearch)
    : (r: Result<bool, CondError>)
    requires o.IsBinary()
    decreases expected, 3, 0
  {
    match o
    case EqOp => Ok(PyEq(actual, expected))
    case NeOp => Ok(!PyEq(actual, expected))
    case InOp => if !expected.Arr? then Err(InExpectsList) else Ok(InList(actual, expected.items))
    case ContainsOp => Ok(ContainsValue(actual, expected))
    case StartsWithOp =>
      if !expected.Str? then Err(StartsWithExpectsString)
      else Ok(actual.Str? && StartsWith(actual.s, expected.s))
    case EndsWithOp =>
      if !expected.Str? then Err(EndsWithExpectsString)
      else Ok(actual.Str? && EndsWith(actual.s, expected.s))
    case RegexOp =>
      if !expected.Str? then Err(RegexExpectsString)
      else if !actual.Str? then Ok(false)
      else (
        match re(expected.s, actual.s)
        case Found => Ok(true)
        case NotFound => Ok(false)
        case BadPattern(m) => Err(InvalidRegex(m)))
    case AnyOp => Quantify(false, actual, expected, ctx, re)
    case AllOp => Quantify(true, actual, expected, ctx, re)
    case GtOp | GteOp | LtOp | LteOp =>
      if !IsPlainNumber(actual) || !IsPlainNumber(expected) then Ok(false)
      else Ok(Compare(o, actual.i, expected.i))
    case AndOp | OrOp | NotOp | ExistsOp | TruthyOp =>
      assert false;
      Ok(false)
  }

  /** `$all` (when `all`) or `$any` over the resolved value: a missing
      value is an empty list, and anything else that is not a list is
      false. */
  function Quantify(all: bool, actual: Value, body: Value, ctx: Dict, re: RegexSearch)
    : (r: Result<bool, CondError>)
    decreases body, 2, 0
  {
    if !body.Obj? then Err(QuantifierBody(if all then "$all" else "$any"))
    else if actual.Null? then Ok(all)
    else if !actual.Arr? then Ok(false)
    else if all then AllItems(body, actual.items, ctx, re)
    else AnyItem(body, actual.items, ctx, re)
  }

  function Compare(o: Operator, a: int, b: int): bool
    requires o.IsOrdering()
  {
    match o
    case GtOp => a > b
    case GteOp => a >= b
    case LtOp => a < b
    case LteOp => a <= b
  }

  // ---------------------------------------------------------------------
  // Properties
  // ---------------------------------------------------------------------

  /** A one-key operator object `{op: arg}`. */
  function Op(op: string, arg: Value): Value {
    Obj([(op, arg)])
  }

  /** Every operator spelling passes the key pattern. */
  lemma NameIsOperatorKey(o: Operator)
    ensures StartsWith(Name(o), "$") && OperatorKeyMatches(Name(o))
  {
    var n := Name(o);
    assert n[0] == '$';
    assert IsIdentifier(n[1..]);
  }

  /** An object whose single key spells an operator applies it. */
  lemma OperatorDispatch(o: Operator, arg: Value, ctx: Dict, re: RegexSearch)
    ensures Eval(Op(Name(o), arg), ctx, re) == Apply(o, arg, ctx, re)
  {
    NameIsOperatorKey(o);
    ParseName(o);
    assert StartsWith(Op(Name(o), arg).fields[0].0, "$");
  }

  /** A list is the conjunction of its elements: `[c]` is `c` and `[]` is
      true. */
  lemma ListIsConjunction(c: Value, xs: seq<Value>, ctx: Dict, re: RegexSearch)
    ensures Eval(Arr([c]), ctx, re) == Eval(c, ctx, re)
    ensures Eval(Arr([]), ctx, re) == Ok(true)
    ensures Eval(Arr(xs), ctx, re) == Ok(true) <==> forall i | 0 <= i < |xs| :: Eval(xs[i], ctx, re) == Ok(true)
  {
    assert [c][1..] == [];
  }

  /** `None` is true, a bool is itself, other scalars are false. */
  lemma ScalarConditions(b: bool, i: int, s: string, ctx: Dict, re: RegexSearch)
    ensures Eval(Null, ctx, re) == Ok(true)
    ensures Eval(Bool(b), ctx, re) == Ok(b)
    ensures Eval(Int(i), ctx, re) == Ok(false) && Eval(Str(s), ctx, re) == Ok(false)
  {
  }

  /** Without a '$' key an object is an equality map: true exactly when
      every key is a non-blank path resolving to a value `==` to the
      entry's value; `{}` is true and a blank key makes it false. */
  lemma EqualityMapSemantics(fs: Dict, ctx: Dict, re: RegexSearch)
    requires !HasOperatorKey(fs)
    ensures Eval(Obj(fs), ctx, re) == Ok(EqualityMap(fs, ctx))
    ensures fs == [] ==> Eval(Obj(fs), ctx, re) == Ok(true)
    ensures (exists i | 0 <= i < |fs| :: IsBlank(fs[i].0)) ==> Eval(Obj(fs), ctx, re) == Ok(false)
  {
  }

  /** `$not` negates, and passes an error through. */
  lemma NotNegates(c: Value, ctx: Dict, re: RegexSearch)
    ensures Eval(Op(Name(NotOp), c), ctx, re) ==
      match Eval(c, ctx, re)
      case Ok(b) => Ok(!b)
      case Err(e) => Err(e)
  {
    OperatorDispatch(NotOp, c, ctx, re);
  }

  /** `$and` holds iff every element holds; `$or` fails iff every element
      fails; a non-list argument raises. */
  lemma AndOrSemantics(arg: Value, ctx: Dict, re: RegexSearch)
    ensures arg.Arr? ==>
      (Eval(Op(Name(AndOp), arg), ctx, re) == Ok(true) <==>
        forall i | 0 <= i < |arg.items| :: Eval(arg.items[i], ctx, re) == Ok(true))
    ensures arg.Arr? ==>
      (Eval(Op(Name(OrOp), arg), ctx, re) == Ok(false) <==>
        forall i | 0 <= i < |arg.items| :: Eval(arg.items[i], ctx, re) == Ok(false))
    ensures !arg.Arr? ==> Eval(Op(Name(AndOp), arg), ctx, re) == Err(AndExpectsList)
    ensures !arg.Arr? ==> Eval(Op(Name(OrOp), arg), ctx, re) == Err(OrExpectsList)
  {
    OperatorDispatch(AndOp, arg, ctx, re);
    OperatorDispatch(OrOp, arg, ctx, re);
  }

  /** Each condition of `xs` wrapped in `$not`. */
  function Negated(xs: seq<Value>): (ys: seq<Value>)
    ensures |ys| == |xs|
    ensures forall i | 0 <= i < |xs| :: ys[i] == Op(Name(NotOp), xs[i])
  {
    seq(|xs|, i requires 0 <= i < |xs| => Op(Name(NotOp), xs[i]))
  }

  /** De Morgan, errors included: `$not` of `$and` is `$or` of the `$not`s,
      since both stop at the first false element. */
  lemma DeMorgan(xs: seq<Value>, ctx: Dict, re: RegexSearch)
    ensures Eval(Op(Name(NotOp), Op(Name(AndOp), Arr(xs))), ctx, re)
         == Eval(Op(Name(OrOp), Arr(Negated(xs))), ctx, re)
  {
    NotNegates(Op(Name(AndOp), Arr(xs)), ctx, re);
    OperatorDispatch(AndOp, Arr(xs), ctx, re);
    OperatorDispatch(OrOp, Arr(Negated(xs)), ctx, re);
    AnyOfNegated(xs, ctx, re);
  }

  lemma {:induction false} AnyOfNegated(xs: seq<Value>, ctx: Dict, re: RegexSearch)
    ensures EvalAny(Negated(xs), ctx, re) ==
      match EvalAll(xs, ctx, re)
      case Ok(b) => Ok(!b)
      case Err(e) => Err(e)
  {
    if xs != [] {
      NotNegates(xs[0], ctx, re);
      AnyOfNegated(xs[1..], ctx, re);
      assert Negated(xs)[1..] == Negated(xs[1..]);
    }
  }

  /** `{op: [path, operand]}` for a binary operator. */
  function BinaryCond(o: Operator, path: string, operand: Value): Value {
    Op(Name(o), Arr([Str(path), operand]))
  }

  /** A binary operator with a non-blank path resolves the path and then
      applies the operator. */
  lemma BinaryDispatch(o: Operator, path: string, operand: Value, ctx: Dict, re: RegexSearch)
    requires o.IsBinary() && !IsBlank(path)
    ensures Eval(BinaryCond(o, path, operand), ctx, re) ==
      EvalBinary(o, LookupPath(path, ctx), operand, ctx, re)
  {
    OperatorDispatch(o, Arr([Str(path), operand]), ctx, re);
  }

  /** The ordering operators never raise on a well-formed argument, and
      are false unless both sides are (non-bool) numbers. */
  lemma OrderingSemantics(o: Operator, path: string, n: Value, ctx: Dict, re: RegexSearch)
    requires o.IsOrdering() && !IsBlank(path)
    ensures var r := Eval(BinaryCond(o, path, n), ctx, re);
      var actual := LookupPath(path, ctx);
      && r.Ok?
      && (r.value ==> actual.Int? && n.Int?)
      && (actual.Int? && n.Int? ==> r.value == Compare(o, actual.i, n.i))
  {
    BinaryDispatch(o, path, n, ctx, re);
    OrderingBinary(o, LookupPath(path, ctx), n, ctx, re);
  }

  lemma OrderingBinary(o: Operator, actual: Value, n: Value, ctx: Dict, re: RegexSearch)
    requires o.IsOrdering()
    ensures var r := EvalBinary(o, actual, n, ctx, re);
      && r.Ok?
      && (r.value ==> actual.Int? && n.Int?)
      && (actual.Int? && n.Int? ==> r.value == Compare(o, actual.i, n.i))
  {
  }

  /** `$eq` is Python `==` on the resolved value. */
  lemma EqualitySemantics(path: string, v: Value, ctx: Dict, re: RegexSearch)
    requires !IsBlank(path)
    ensures Eval(BinaryCond(EqOp, path, v), ctx, re) == Ok(PyEq(LookupPath(path, ctx), v))
  {
    BinaryDispatch(EqOp, path, v, ctx, re);
  }

  /** `$ne` is Python `!=` on the resolved value. */
  lemma InequalitySemantics(path: string, v: Value, ctx: Dict, re: RegexSearch)
    requires !IsBlank(path)
    ensures Eval(BinaryCond(NeOp, path, v), ctx, re) == Ok(!PyEq(LookupPath(path, ctx), v))
  {
    BinaryDispatch(NeOp, path, v, ctx, re);
  }

  /** `$any` (when `all` is false) or `$all` over a missing value or an
      empty list: `$all` is true and `$any` false. */
  lemma QuantifierOverNothing(all: bool, actual: Value, body: Value, ctx: Dict, re: RegexSearch)
    requires body.Obj? && (actual == Null || actual == Arr([]))
    ensures Quantify(all, actual, body, ctx, re) == Ok(all)
  {
  }

  /** `$any`/`$all` over a value that is neither a list nor `None` is
      false, and a body that is not an object raises. */
  lemma QuantifierEdges(all: bool, actual: Value, body: Value, ctx: Dict, re: RegexSearch)
    ensures body.Obj? && !(actual.Null? || actual.Arr?) ==> Quantify(all, actual, body, ctx, re) == Ok(false)
    ensures !body.Obj? ==> Quantify(all, actual, body, ctx, re) == Err(QuantifierBody(if all then "$all" else "$any"))
  {
  }

  /** The body of `$any`/`$all` sees each element as `item`, and every
      other binding unchanged. */
  lemma ItemBinding(ctx: Dict, x: Value, k: string)
    ensures LookupPath("item", ItemCtx(ctx, x)) == x
    ensures k != "item" ==> Get(ItemCtx(ctx, x), k) == Get(ctx, k)
  {
    SegmentsOfOne("item");
  }

  lemma SegmentsOfOne(k: string)
    requires PathKey(k)
    ensures Segments(k) == [k]
  {
    LookupDotted([k], []);
    NonEmptyOfNonEmpty([k]);
  }

  /** `$any` on a list path quantifies the body over its elements, each
      bound as `item`. */
  lemma AnySemantics(path: string, items: seq<Value>, body: Value, ctx: Dict, re: RegexSearch)
    requires !IsBlank(path) && body.Obj? && LookupPath(path, ctx) == Arr(items)
    ensures Eval(BinaryCond(AnyOp, path, body), ctx, re) == AnyItem(body, items, ctx, re)
  {
    BinaryDispatch(AnyOp, path, body, ctx, re);
    assert EvalBinary(AnyOp, Arr(items), body, ctx, re) == Quantify(false, Arr(items), body, ctx, re);
  }

  /** `$all` on a list path quantifies the body over its elements. */
  lemma AllSemantics(path: string, items: seq<Value>, body: Value, ctx: Dict, re: RegexSearch)
    requires !IsBlank(path) && body.Obj? && LookupPath(path, ctx) == Arr(items)
    ensures Eval(BinaryCond(AllOp, path, body), ctx, re) == AllItems(body, items, ctx, re)
  {
    BinaryDispatch(AllOp, path, body, ctx, re);
    assert EvalBinary(AllOp, Arr(items), body, ctx, re) == Quantify(true, Arr(items), body, ctx, re);
  }

  /** With no raising element, `$any` does not raise, so by its contract
      it is "some element satisfies the body". */
  lemma {:induction false} AnyItemTotal(body: Value, items: seq<Value>, ctx: Dict, re: RegexSearch)
    requires NoneRaises(body, items, ctx, re)
    ensures AnyItem(body, items, ctx, re).Ok?
  {
    if items != [] {
      assert Eval(body, ItemCtx(ctx, items[0]), re).Ok?;
      NoneRaisesTail(body, items, ctx, re);
      AnyItemTotal(body, items[1..], ctx, re);
    }
  }

  /** With no raising element, `$all` does not raise. */
  lemma {:induction false} AllItemsTotal(body: Value, items: seq<Value>, ctx: Dict, re: RegexSearch)
    requires NoneRaises(body, items, ctx, re)
    ensures AllItems(body, items, ctx, re).Ok?
  {
    if items != [] {
      assert Eval(body, ItemCtx(ctx, items[0]), re).Ok?;
      NoneRaisesTail(body, items, ctx, re);
      AllItemsTotal(body, items[1..], ctx, re);
    }
  }

  lemma NoneRaisesTail(body: Value, items: seq<Value>, ctx: Dict, re: RegexSearch)
    requires items != [] && NoneRaises(body, items, ctx, re)
    ensures NoneRaises(body, items[1..], ctx, re)
  {
    forall i | 0 <= i < |items| - 1
      ensures Eval(body, ItemCtx(ctx, items[1..][i]), re).Ok?
    {
      assert items[1..][i] == items[i + 1];
    }
  }

  /** `$exists p` is "p resolves to something other than `None`". */
  lemma ExistsSemantics(path: string, ctx: Dict, re: RegexSearch)
    requires !IsBlank(path)
    ensures Eval(Op(Name(ExistsOp), Str(path)), ctx, re) == Ok(LookupPath(path, ctx) != Null)
  {
    OperatorDispatch(ExistsOp, Str(path), ctx, re);
  }

  /** `$exists [p, b]` compares that answer with `bool(b)`; a `None` `b` is
      ignored. */
  lemma ExistsPairSemantics(path: string, want: Value, ctx: Dict, re: RegexSearch)
    requires !IsBlank(path)
    ensures Eval(Op(Name(ExistsOp), Arr([Str(path), want])), ctx, re) ==
      Ok(if want == Null then LookupPath(path, ctx) != Null
         else (LookupPath(path, ctx) != Null) == Truthy(want))
  {
    var pair := Arr([Str(path), want]);
    OperatorDispatch(ExistsOp, pair, ctx, re);
    assert pair.items[0] == Str(path) && pair.items[1] == want;
  }

  /** `$truthy p` is the truthiness of the resolved value. */
  lemma TruthySemantics(path: string, ctx: Dict, re: RegexSearch)
    requires !IsBlank(path)
    ensures Eval(Op(Name(TruthyOp), Str(path)), ctx, re) == Ok(Truthy(LookupPath(path, ctx)))
  {
    OperatorDispatch(TruthyOp, Str(path), ctx, re);
  }

  /** A `$exists` list that is not a pair raises. */
  lemma ExistsShapeError(arg: Value, ctx: Dict, re: RegexSearch)
    requires arg.Arr? && |arg.items| != 2
    ensures Eval(Op(Name(ExistsOp), arg), ctx, re) == Err(ExistsShape)
  {
    OperatorDispatch(ExistsOp, arg, ctx, re);
  }

  /** A `$exists` argument that is neither a list nor a non-blank string
      raises. */
  lemma ExistsExprError(arg: Value, ctx: Dict, re: RegexSearch)
    requires !arg.Arr? && !IsPathExpr(arg)
    ensures Eval(Op(Name(ExistsOp), arg), ctx, re) == Err(ExistsExpr)
  {
    OperatorDispatch(ExistsOp, arg, ctx, re);
  }

  /** A `$truthy` argument that is not a non-blank string raises. */
  lemma TruthyError(arg: Value, ctx: Dict, re: RegexSearch)
    requires !IsPathExpr(arg)
    ensures Eval(Op(Name(TruthyOp), arg), ctx, re) == Err(TruthyExpr)
  {
    OperatorDispatch(TruthyOp, arg, ctx, re);
  }

  /** Several keys with a '$' among them raise. */
  lemma TooManyOperators(fs: Dict, ctx: Dict, re: RegexSearch)
    requires HasOperatorKey(fs) && |fs| != 1
    ensures Eval(Obj(fs), ctx, re) == Err(NotExactlyOneOperator)
  {
  }

  /** A '$' key outside the operator pattern raises. */
  lemma BadOperatorKey(op: string, arg: Value, ctx: Dict, re: RegexSearch)
    requires StartsWith(op, "$") && !OperatorKeyMatches(op)
    ensures Eval(Op(op, arg), ctx, re) == Err(InvalidOperatorKey)
  {
    assert StartsWith(Op(op, arg).fields[0].0, "$");
  }

  /** A key in the operator pattern that names no operator raises. */
  lemma UnknownOperatorError(op: string, arg: Value, ctx: Dict, re: RegexSearch)
    requires StartsWith(op, "$") && OperatorKeyMatches(op) && ParseOperator(op).None?
    ensures Eval(Op(op, arg), ctx, re) == Err(UnknownOperator(op))
  {
    assert StartsWith(Op(op, arg).fields[0].0, "$");
  }

  /** A binary operator whose argument is not a pair raises. */
  lemma BinaryShapeError(o: Operator, arg: Value, ctx: Dict, re: RegexSearch)
    requires o.IsBinary() && !(arg.Arr? && |arg.items| == 2)
    ensures Eval(Op(Name(o), arg), ctx, re) == Err(BinaryShape(Name(o)))
  {
    OperatorDispatch(o, arg, ctx, re);
  }

  /** A binary operator whose pair does not start with a non-blank string
      raises. */
  lemma BinaryExprError(o: Operator, arg: Value, ctx: Dict, re: RegexSearch)
    requires o.IsBinary() && arg.Arr? && |arg.items| == 2 && !IsPathExpr(arg.items[0])
    ensures Eval(Op(Name(o), arg), ctx, re) == Err(BinaryExpr(Name(o)))
  {
    OperatorDispatch(o, arg, ctx, re);
  }

  /** `{"$wat": 123}` raises "Unknown operator: $wat". */
  lemma UnknownOperatorExample(ctx: Dict, re: RegexSearch)
    ensures Eval(Op("$wat", Int(123)), ctx, re) == Err(UnknownOperator("$wat"))
    ensures Message(UnknownOperator("$wat")) == "Unknown operator: $wat"
  {
    WatIsUnknown();
    UnknownOperatorError("$wat", Int(123), ctx, re);
  }

  lemma WatIsUnknown()
    ensures StartsWith("$wat", "$") && OperatorKeyMatches("$wat") && ParseOperator("$wat").None?
  {
    var op := "$wat";
    assert IsIdentifier(op[1..]);
  }

  /** `$in` is list membership under Python `==`; its operand must be a
      list. */
  lemma InSemantics(path: string, expected: Value, ctx: Dict, re: RegexSearch)
    requires !IsBlank(path)
    ensures Eval(BinaryCond(InOp, path, expected), ctx, re) ==
      if !expected.Arr? then Err(InExpectsList)
      else Ok(InList(LookupPath(path, ctx), expected.items))
  {
    BinaryDispatch(InOp, path, expected, ctx, re);
  }

  /** `$contains` is substring, list membership or dict key presence,
      depending on the resolved value. */
  lemma ContainsSemantics(path: string, expected: Value, ctx: Dict, re: RegexSearch)
    requires !IsBlank(path)
    ensures var actual := LookupPath(path, ctx);
      Eval(BinaryCond(ContainsOp, path, expected), ctx, re) ==
        Ok(if actual.Str? && expected.Str? then Contains(actual.s, expected.s)
           else if actual.Arr? then InList(expected, actual.items)
           else actual.Obj? && expected.Str? && expected.s in Keys(actual.fields))
  {
    BinaryDispatch(ContainsOp, path, expected, ctx, re);
  }

  /** `$startsWith` needs a string prefix and is false on a non-string
      value. */
  lemma StartsWithSemantics(path: string, expected: Value, ctx: Dict, re: RegexSearch)
    requires !IsBlank(path)
    ensures var actual := LookupPath(path, ctx);
      Eval(BinaryCond(StartsWithOp, path, expected), ctx, re) ==
        if !expected.Str? then Err(StartsWithExpectsString)
        else Ok(actual.Str? && StartsWith(actual.s, expected.s))
  {
    BinaryDispatch(StartsWithOp, path, expected, ctx, re);
  }

  /** `$endsWith` needs a string suffix and is false on a non-string
      value. */
  lemma EndsWithSemantics(path: string, expected: Value, ctx: Dict, re: RegexSearch)
    requires !IsBlank(path)
    ensures var actual := LookupPath(path, ctx);
      Eval(BinaryCond(EndsWithOp, path, expected), ctx, re) ==
        if !expected.Str? then Err(EndsWithExpectsString)
        else Ok(actual.Str? && EndsWith(actual.s, expected.s))
  {
    BinaryDispatch(EndsWithOp, path, expected, ctx, re);
  }

  /** `$regex` needs a string pattern, is false on a non-string value, and
      otherwise is what `re.search` says; a bad pattern raises. */
  lemma RegexSemantics(path: string, expected: Value, ctx: Dict, re: RegexSearch)
    requires !IsBlank(path)
    ensures var actual := LookupPath(path, ctx);
      Eval(BinaryCond(RegexOp, path, expected), ctx, re) ==
        if !expected.Str? then Err(RegexExpectsString)
        else if !actual.Str? then Ok(false)
        else match re(expected.s, actual.s)
          case Found => Ok(true)
          case NotFound => Ok(false)
          case BadPattern(m) => Err(InvalidRegex(m))
  {
    BinaryDispatch(RegexOp, path, expected, ctx, re);
  }
}

=== FILE: db.dfy ===
/**
 * The pure logic of vibeweb/db.py: the identifier check guarding the SQL
 * text the module builds, the column type of each field type, the
 * coercion of request values before they are stored, the normalisation of
 * stored rows, and which fields an insert or an update writes.
 *
 * `json.dumps` and `json.loads` are parameters (`dumps`, `loads`), and
 * `float(value)` is left uninterpreted as the cell `Float(value)`.
 */
module Db {
  import opened Base
  import opened Strings
  import opened Json
  import opened Spec

  // ---------------------------------------------------------------------
  // _require_safe_ident
  // ---------------------------------------------------------------------

  function IdentError(value: string, what: string): string {
    "Invalid " + what + " identifier: " + ReprStr(value)
  }

  /** `_require_safe_ident(value, what=what)` as written: `re.match` with
      `$` lets one trailing newline through. */
  function RequireSafeIdentAsWritten(value: string, what: string): (r: Result<(), string>)
    ensures r.Ok? <==> IdentifierReMatch(value)
    ensures r.Err? ==> r.error == IdentError(value, what)
  {
    if IdentifierReMatch(value) then Ok(()) else Err(IdentError(value, what))
  }

  /** A model or field name with a trailing newline passes the check as
      written, although it is not an identifier. */
  lemma SafeIdentAcceptsNewline(name: string, what: string)
    requires IsIdentifier(name)
    ensures RequireSafeIdentAsWritten(name + "\n", what).Ok?
    ensures !IsIdentifier(name + "\n")
    ensures RequireSafeIdent(name + "\n", what).Err?
  {
    IdentifierReMatchNewline(name);
  }

  /** The check as intended: exactly the identifiers pass. */
  function RequireSafeIdent(value: string, what: string): (r: Result<(), string>)
    ensures r.Ok? <==> IsIdentifier(value)
    ensures r.Err? ==> r.error == IdentError(value, what)
  {
    if IsIdentifier(value) then Ok(()) else Err(IdentError(value, what))
  }

  /** What passes is safe inside SQL text: no whitespace, quote,
      punctuation or statement separator, and never empty. */
  lemma SafeIdentHasNoSqlSyntax(value: string, what: string)
    requires RequireSafeIdent(value, what).Ok?
    ensures value != [] && NoSpace(value)
    ensures forall i | 0 <= i < |value| :: value[i] !in "'\";(),.-*=?"
  {
  }

  // ---------------------------------------------------------------------
  // _sql_type
  // ---------------------------------------------------------------------

  /** `_sql_type(field_type)`; a type outside the table raises `KeyError`. */
  function SqlType(t: string): (r: Result<string, string>)
    ensures StartsWith(t, "ref:") ==> r == Ok("INTEGER")
    ensures r.Ok? <==> StartsWith(t, "ref:") || IsAllowedType(t)
    ensures r.Ok? ==> r.value in ["TEXT", "INTEGER", "REAL"]
    ensures r.Err? ==> r.error == "KeyError"
  {
    if StartsWith(t, "ref:") then Ok("INTEGER")
    else if t == "text" then Ok("TEXT")
    else if t == "int" then Ok("INTEGER")
    else if t == "float" then Ok("REAL")
    else if t == "bool" then Ok("INTEGER")
    else if t == "datetime" then Ok("TEXT")
    else if t == "json" then Ok("TEXT")
    else Err("KeyError")
  }

  /** Every field type a validated spec holds has a column type, and only
      floats are stored as REAL. */
  lemma SqlTypeOfValidType(t: string, names: seq<string>)
    requires TypeOk(t, names)
    ensures SqlType(t).Ok?
    ensures SqlType(t).value == "REAL" <==> t == "float"
    ensures SqlType(t).value == "INTEGER" <==> t in ["int", "bool"] || IsRefType(t)
  {
    RefTypeShape(t);
  }

  // ---------------------------------------------------------------------
  // _coerce_value
  // ---------------------------------------------------------------------

  /** A value handed to SQLite. `Float(v)` stands for `float(v)` and `Raw`
      for a value passed through unchanged. */
  datatype Cell = NullCell | Integer(i: int) | Text(s: string) | Float(of: Value) | Raw(v: Value)

  /** Python's `int(value)`: an int is itself, a bool is 0 or 1, a string
      is parsed, anything else raises. */
  function PyInt(v: Value): (r: Result<int, string>)
    ensures v.Int? ==> r == Ok(v.i)
    ensures v.Bool? ==> r == Ok(if v.b then 1 else 0)
    ensures v.Str? ==> (r.Ok? <==> ParseInt(v.s).Some?)
    ensures v.Str? && r.Ok? ==> r.value == ParseInt(v.s).value
    ensures v.Null? || v.Arr? || v.Obj? ==> r == Err("TypeError")
  {
    match v
    case Int(i) => Ok(i)
    case Bool(b) => Ok(if b then 1 else 0)
    case Str(s) => if ParseInt(s).Some? then Ok(ParseInt(s).value) else Err("ValueError")
    case _ => Err("TypeError")
  }

  /** The strings a bool field reads as true, compared after lower-casing. */
  predicate TrueWord(s: string) {
    Lower(s) in ["1", "true", "yes", "on"]
  }

  /** `_coerce_value(field_type, value)`. */
  function CoerceValue(t: string, v: Value, dumps: Value -> string): (r: Result<Cell, string>)
    ensures v.Null? ==> r == Ok(NullCell)
    ensures !v.Null? && StartsWith(t, "ref:") && v == Str("") ==> r == Ok(NullCell)
    ensures !v.Null? && StartsWith(t, "ref:") && v != Str("") ==>
      r == (match PyInt(v) case Ok(n) => Ok(Integer(n)) case Err(e) => Err(e))
    ensures !v.Null? && t == "json" ==> r == Ok(if v.Str? then Text(v.s) else Text(dumps(v)))
    ensures !v.Null? && t == "bool" ==>
      r == Ok(Integer(if v.Str? then (if TrueWord(v.s) then 1 else 0) else if Truthy(v) then 1 else 0))
    ensures !v.Null? && t == "int" ==>
      r == (match PyInt(v) case Ok(n) => Ok(Integer(n)) case Err(e) => Err(e))
    ensures !v.Null? && t == "float" ==> r == Ok(Float(v))
    ensures !v.Null? && !StartsWith(t, "ref:") && t !in ["json", "bool", "int", "float"] ==> r == Ok(Raw(v))
  {
    if v.Null? then Ok(NullCell)
    else if StartsWith(t, "ref:") then
      assert t != "json" && t != "float" by {
        assert t[0] == 'r';
      }
      if v == Str("") then Ok(NullCell)
      else
        var n :- PyInt(v);
        Ok(Integer(n))
    else if t == "json" then
      if v.Arr? || v.Obj? then Ok(Text(dumps(v)))
      else if !v.Str? then Ok(Text(dumps(v)))
      else Ok(Text(v.s))
    else if t == "bool" then
      if v.Str? then Ok(Integer(if TrueWord(v.s) then 1 else 0))
      else Ok(Integer(if Truthy(v) then 1 else 0))
    else if t == "int" then
      var n :- PyInt(v);
      Ok(Integer(n))
    else if t == "float" then Ok(Float(v))
    else Ok(Raw(v))
  }

  /** A bool field always stores 0 or 1, and the words of a checkbox or a
      form ("on", "yes", "true", "1", in any ASCII case) store 1. */
  lemma BoolCellIsFlag(v: Value, dumps: Value -> string)
    requires !v.Null?
    ensures CoerceValue("bool", v, dumps).Ok?
    ensures CoerceValue("bool", v, dumps).value in [Integer(0), Integer(1)]
    ensures v.Str? ==> (CoerceValue("bool", v, dumps) == Ok(Integer(1)) <==> TrueWord(v.s))
    ensures v.Bool? ==> CoerceValue("bool", v, dumps) == Ok(Integer(if v.b then 1 else 0))
  {
  }

  /** The stored text of a json field reads back, through `json.loads`,
      as the value given, whenever `loads` inverts `dumps` on it. */
  lemma JsonFieldRoundTrip(v: Value, dumps: Value -> string, loads: string -> Option<Value>)
    requires !v.Null? && !v.Str?
    requires loads(dumps(v)) == Some(v)
    ensures CoerceValue("json", v, dumps).Ok? && CoerceValue("json", v, dumps).value.Text?
    ensures NormalizeValue("json", Str(CoerceValue("json", v, dumps).value.s), loads) == v
  {
  }

  // ---------------------------------------------------------------------
  // normalize_row
  // ---------------------------------------------------------------------

  /** How one stored value is turned back into JSON: bool fields become
      booleans (through `int`, falling back on truthiness), json text is
      parsed when it parses, everything else is kept. */
  function NormalizeValue(t: string, v: Value, loads: string -> Option<Value>): (r: Value)
    ensures t == "bool" ==> r.Null? || r.Bool?
    ensures t == "bool" && v.Int? ==> r == Bool(v.i != 0)
    ensures t == "bool" && v.Null? ==> r == Null
    ensures t == "json" && v.Str? && loads(v.s).Some? ==> r == loads(v.s).value
    ensures t == "json" && !(v.Str? && loads(v.s).Some?) ==> r == v
    ensures t != "bool" && t != "json" ==> r == v
  {
    if t == "bool" then
      if v.Null? then Null
      else
        match PyInt(v)
        case Ok(n) => Bool(n != 0)
        case Err(_) => Bool(Truthy(v))
    else if t == "json" then
      if v.Str? then
        match loads(v.s)
        case Some(x) => x
        case None => v
      else v
    else v
  }

  /** The name of the `i`-th field is not declared again later. */
  predicate LastDeclared(fields: seq<(string, string)>, i: nat)
    requires i < |fields|
  {
    forall j | i < j < |fields| :: fields[j].0 != fields[i].0
  }

  /** A field is declared in a list iff in all but its last entry, or
      by that entry. */
  lemma HasFieldSnoc(fields: seq<(string, string)>)
    requires fields != []
    ensures forall k :: HasField(fields, k) <==>
      HasField(fields[..|fields| - 1], k) || fields[|fields| - 1].0 == k
  {
    var init := fields[..|fields| - 1];
    forall k | HasField(init, k) ensures HasField(fields, k) {
      var i :| 0 <= i < |init| && init[i].0 == k;
      assert fields[i].0 == k;
    }
  }

  /** `normalize_row(model, row)`: "id" first, then each field in order. */
  function NormalizeRow(fields: seq<(string, string)>, row: Dict, loads: string -> Option<Value>): (r: Dict)
    ensures forall k: string :: Get(r, k).Some? <==> k == "id" || HasField(fields, k)
    ensures !HasField(fields, "id") ==> Get(r, "id") == Some(GetOrNull(row, "id"))
    decreases |fields|
  {
    if fields == [] then [("id", GetOrNull(row, "id"))]
    else
      var init := fields[..|fields| - 1];
      var (name, t) := fields[|fields| - 1];
      var prev := NormalizeRow(init, row, loads);
      var r := NormalizeInto(prev, fields[|fields| - 1], row, loads);
      HasFieldSnoc(fields);
      r
  }

  /** `normalized[field] = ...` for one field. */
  function NormalizeInto(acc: Dict, field: (string, string), row: Dict, loads: string -> Option<Value>): (r: Dict)
    ensures Get(r, field.0) == Some(NormalizeValue(field.1, GetOrNull(row, field.0), loads))
    ensures forall k | k != field.0 :: Get(r, k) == Get(acc, k)
  {
    Put(acc, field.0, NormalizeValue(field.1, GetOrNull(row, field.0), loads))
  }

  /** Each declared field holds its stored value, normalised by its own
      type (the last declaration of a name is the one that counts). */
  lemma {:induction false} NormalizeRowValues(fields: seq<(string, string)>, row: Dict, loads: string -> Option<Value>)
    ensures forall i | 0 <= i < |fields| && LastDeclared(fields, i) ::
      Get(NormalizeRow(fields, row, loads), fields[i].0) ==
        Some(NormalizeValue(fields[i].1, GetOrNull(row, fields[i].0), loads))
    decreases |fields|
  {
    if fields != [] {
      var init := fields[..|fields| - 1];
      var last := fields[|fields| - 1];
      NormalizeRowValues(init, row, loads);
      var prev := NormalizeRow(init, row, loads);
      var r := NormalizeInto(prev, last, row, loads);
      assert NormalizeRow(fields, row, loads) == r;
      forall i | 0 <= i < |fields| && LastDeclared(fields, i)
        ensures Get(r, fields[i].0) == Some(NormalizeValue(fields[i].1, GetOrNull(row, fields[i].0), loads))
      {
        if i < |init| {
          var f := fields[i];
          assert init[i] == f && f.0 != last.0;
          assert LastDeclared(init, i);
          assert Get(prev, f.0) == Some(NormalizeValue(f.1, GetOrNull(row, f.0), loads));
          assert Get(r, f.0) == Get(prev, f.0);
        } else {
          assert i == |fields| - 1;
        }
      }
    }
  }

  // ---------------------------------------------------------------------
  // insert_row / update_row: which fields are written
  // ---------------------------------------------------------------------

  /** The model's field names present in the payload, in model order. */
  function Selected(fields: seq<(string, string)>, data: Dict): (names: seq<string>)
    ensures |names| <= |fields|
    ensures forall k :: k in names <==> HasField(fields, k) && Get(data, k).Some?
    decreases |fields|
  {
    if fields == [] then []
    else
      var rest := Selected(fields[1..], data);
      assert forall k | HasField(fields[1..], k) :: HasField(fields, k) by {
        forall k | HasField(fields[1..], k) ensures HasField(fields, k) {
          var i :| 0 <= i < |fields[1..]| && fields[1..][i].0 == k;
          assert fields[i + 1].0 == k;
        }
      }
      assert forall k | HasField(fields, k) && k != fields[0].0 :: HasField(fields[1..], k) by {
        forall k | HasField(fields, k) && k != fields[0].0 ensures HasField(fields[1..], k) {
          var i :| 0 <= i < |fields| && fields[i].0 == k;
          assert fields[1..][i - 1].0 == k;
        }
      }
      if Get(data, fields[0].0).Some? then [fields[0].0] + rest else rest
  }

  /** `Selected` keeps the model's order: it is the model's names with the
      absent ones dropped. */
  lemma {:induction false} SelectedInModelOrder(fields: seq<(string, string)>, data: Dict)
    ensures IsSubsequence(Selected(fields, data), FieldNamesOf(fields))
    decreases |fields|
  {
    if fields != [] {
      SelectedInModelOrder(fields[1..], data);
      assert FieldNamesOf(fields) == [fields[0].0] + FieldNamesOf(fields[1..]);
    }
  }

  function FieldNamesOf(fields: seq<(string, string)>): (names: seq<string>)
    ensures |names| == |fields|
    ensures forall i | 0 <= i < |fields| :: names[i] == fields[i].0
  {
    seq(|fields|, i requires 0 <= i < |fields| => fields[i].0)
  }

  /** `xs` is `ys` with some elements dropped, order kept. */
  predicate IsSubsequence(xs: seq<string>, ys: seq<string>)
    decreases |ys|
  {
    if xs == [] then true
    else if ys == [] then false
    else if xs[0] == ys[0] then IsSubsequence(xs[1..], ys[1..])
    else IsSubsequence(xs, ys[1..])
  }

  /** `sel` lists, in order, the model's `(name, type)` pairs for the
      names `Selected` picks, each present in the payload. */
  predicate SelectsFrom(sel: seq<(string, string)>, fields: seq<(string, string)>, data: Dict) {
    && |sel| == |Selected(fields, data)|
    && (forall i | 0 <= i < |sel| :: sel[i].0 == Selected(fields, data)[i])
    && (forall i | 0 <= i < |sel| :: sel[i] in fields && Get(data, sel[i].0).Some?)
  }

  /** The model's `(name, type)` pairs whose name the payload carries, in
      model order: the fields `insert_row` and `update_row` write. */
  function SelectedFields(fields: seq<(string, string)>, data: Dict): (sel: seq<(string, string)>)
    ensures SelectsFrom(sel, fields, data)
    decreases |fields|
  {
    if fields == [] then []
    else
      var rest := SelectedFields(fields[1..], data);
      SelectsFromCons(fields, data, rest);
      if Get(data, fields[0].0).Some? then [fields[0]] + rest else rest
  }

  /** The step of `SelectedFields`: the head pair is kept exactly when the
      payload carries its name. */
  lemma SelectsFromCons(fields: seq<(string, string)>, data: Dict, rest: seq<(string, string)>)
    requires fields != [] && SelectsFrom(rest, fields[1..], data)
    ensures Get(data, fields[0].0).Some? ==> SelectsFrom([fields[0]] + rest, fields, data)
    ensures Get(data, fields[0].0).None? ==> SelectsFrom(rest, fields, data)
  {
    var names := Selected(fields[1..], data);
    assert forall i | 0 <= i < |rest| :: rest[i] in fields by {
      forall i | 0 <= i < |rest| ensures rest[i] in fields {
        assert rest[i] in fields[1..];
      }
    }
    if Get(data, fields[0].0).Some? {
      assert Selected(fields, data) == [fields[0].0] + names;
      var sel := [fields[0]] + rest;
      forall i | 0 <= i < |sel| ensures sel[i].0 == Selected(fields, data)[i] {
        if i > 0 {
          assert sel[i] == rest[i - 1];
        }
      }
    } else {
      assert Selected(fields, data) == names;
    }
  }

  /** `_coerce_value(model.fields[name], data[name])` for one selected
      field. */
  function CoerceField(f: (string, string), data: Dict, dumps: Value -> string): (r: Result<Cell, string>)
    requires Get(data, f.0).Some?
    ensures r == CoerceValue(f.1, Get(data, f.0).value, dumps)
  {
    CoerceValue(f.1, Get(data, f.0).value, dumps)
  }

  /** No selected field's coercion raises. */
  predicate AllCoerce(sel: seq<(string, string)>, data: Dict, dumps: Value -> string)
    requires forall i | 0 <= i < |sel| :: Get(data, sel[i].0).Some?
  {
    forall i | 0 <= i < |sel| :: CoerceField(sel[i], data, dumps).Ok?
  }

  /** `cells` begins with the coerced values of the selected fields, in
      order. */
  predicate CoercedTo(sel: seq<(string, string)>, data: Dict, dumps: Value -> string, cells: seq<Cell>)
    requires forall i | 0 <= i < |sel| :: Get(data, sel[i].0).Some?
  {
    |sel| <= |cells| && forall i | 0 <= i < |sel| :: CoerceField(sel[i], data, dumps) == Ok(cells[i])
  }

  /** The coerced values of the selected fields, in the same order; the
      first coercion that raises aborts the write with its error. */
  function SelectedValues(sel: seq<(string, string)>, data: Dict, dumps: Value -> string)
    : (r: Result<seq<Cell>, string>)
    requires forall i | 0 <= i < |sel| :: Get(data, sel[i].0).Some?
    ensures r.Ok? <==> forall i | 0 <= i < |sel| :: CoerceField(sel[i], data, dumps).Ok?
    ensures r.Ok? ==> |r.value| == |sel|
    ensures r.Ok? ==> forall i | 0 <= i < |sel| :: CoerceField(sel[i], data, dumps) == Ok(r.value[i])
    ensures r.Err? ==> exists i | 0 <= i < |sel| ::
      && CoerceField(sel[i], data, dumps) == Err(r.error)
      && forall j | 0 <= j < i :: CoerceField(sel[j], data, dumps).Ok?
    decreases |sel|
  {
    if sel == [] then Ok([])
    else
      var c :- CoerceField(sel[0], data, dumps);
      var rest :- SelectedValues(sel[1..], data, dumps);
      assert forall i | 1 <= i < |sel| :: sel[i] == sel[1..][i - 1];
      Ok([c] + rest)
  }

  /** `n` question marks joined with ", ". */
  function Placeholders(n: nat): (r: string)
    ensures Count(r, '?') == n
  {
    if n == 0 then ""
    else if n == 1 then "?"
    else
      assert Count("?, ", '?') == 1 by {
        assert "?, " == ['?'] + ", ";
      }
      "?, " + Placeholders(n - 1)
  }

  /** Occurrences of `c` in `s`. */
  function Count(s: string, c: char): nat {
    multiset(s)[c]
  }

  /** The SQL text and parameters a write executes. */
  datatype Statement = Statement(sql: string, params: seq<Cell>)

  /** The text of an INSERT up to its placeholders. */
  function InsertHead(table: string, names: seq<string>): string {
    "INSERT INTO " + table + " (" + Join(names, ", ") + ") VALUES ("
  }

  /** `insert_row` up to the `execute`: no selected field raises; the
      statement names the selected fields and has one placeholder per
      value. */
  function InsertStatement(m: ModelSpec, data: Dict, dumps: Value -> string): (r: Result<Statement, string>)
    ensures Selected(m.fields, data) == [] ==> r == Err("No fields provided")
    ensures r.Ok? ==> |r.value.params| == |Selected(m.fields, data)| > 0
    ensures r.Ok? ==> CoercedTo(SelectedFields(m.fields, data), data, dumps, r.value.params)
    ensures !AllCoerce(SelectedFields(m.fields, data), data, dumps) ==> r.Err?
    ensures r.Ok? ==> r.value.sql == InsertHead(m.name, Selected(m.fields, data)) + Placeholders(|r.value.params|) + ")"
  {
    var names := Selected(m.fields, data);
    var values :- SelectedValues(SelectedFields(m.fields, data), data, dumps);
    if names == [] then Err("No fields provided")
    else Ok(Statement(InsertHead(m.name, names) + Placeholders(|names|) + ")", values))
  }

  /** The `name = ?` assignments of an UPDATE. */
  function Assignments(names: seq<string>): (r: seq<string>)
    ensures |r| == |names|
    ensures forall i | 0 <= i < |names| :: r[i] == names[i] + " = ?"
  {
    seq(|names|, i requires 0 <= i < |names| => names[i] + " = ?")
  }

  /** `update_row` up to the `execute`: with no selected field the row is
      only read again (`None` here); otherwise the row id is the last
      parameter, after one per selected field. */
  function UpdateStatement(m: ModelSpec, rowId: int, data: Dict, dumps: Value -> string)
    : (r: Result<Option<Statement>, string>)
    ensures r.Ok? <==> AllCoerce(SelectedFields(m.fields, data), data, dumps)
    ensures r.Ok? ==> (r.value.None? <==> Selected(m.fields, data) == [])
    ensures r.Ok? && r.value.Some? ==> |r.value.value.params| == |Selected(m.fields, data)| + 1
    ensures r.Ok? && r.value.Some? ==> CoercedTo(SelectedFields(m.fields, data), data, dumps, r.value.value.params)
    ensures r.Ok? && r.value.Some? ==> r.value.value.params[|r.value.value.params| - 1] == Integer(rowId)
    ensures r.Ok? && r.value.Some? ==>
      r.value.value.sql == "UPDATE " + m.name + " SET " + Join(Assignments(Selected(m.fields, data)), ", ") + " WHERE id = ?"
  {
    var names := Selected(m.fields, data);
    var sel := SelectedFields(m.fields, data);
    var coerced := SelectedValues(sel, data, dumps);
    if coerced.Err? then Err(coerced.error)
    else if names == [] then Ok(None)
    else
      var sql := "UPDATE " + m.name + " SET " + Join(Assignments(names), ", ") + " WHERE id = ?";
      var params := coerced.value + [Integer(rowId)];
      assert forall i | 0 <= i < |sel| :: params[i] == coerced.value[i];
      Ok(Some(Statement(sql, params)))
  }

  /** No `c` in any of the parts or in the separator: none in the join. */
  lemma {:induction false} CountJoin(parts: seq<string>, sep: string, c: char)
    requires c !in sep
    requires forall i | 0 <= i < |parts| :: c !in parts[i]
    ensures c !in Join(parts, sep)
    decreases |parts|
  {
    if |parts| > 1 {
      CountJoin(parts[1..], sep, c);
    }
  }

  /** When the table and its fields pass the identifier check, the INSERT
      has exactly as many placeholders as parameters. */
  lemma InsertPlaceholdersMatch(m: ModelSpec, data: Dict, dumps: Value -> string)
    requires InsertStatement(m, data, dumps).Ok?
    requires IsIdentifier(m.name)
    requires forall i | 0 <= i < |m.fields| :: IsIdentifier(m.fields[i].0)
    ensures var st := InsertStatement(m, data, dumps).value;
      Count(st.sql, '?') == |st.params|
  {
    var names := Selected(m.fields, data);
    SelectedHaveNoMark(m, data);
    NoMarkInIdentifier(m.name);
    CountJoin(names, ", ", '?');
    InsertSqlCount(m.name, names);
  }

  lemma NoMarkInIdentifier(s: string)
    requires IsIdentifier(s)
    ensures '?' !in s
  {
  }

  lemma InsertSqlCount(table: string, names: seq<string>)
    requires '?' !in table && '?' !in Join(names, ", ")
    ensures Count(InsertHead(table, names) + Placeholders(|names|) + ")", '?') == |names|
  {
    InsertHeadFree(table, names);
    CountAround(InsertHead(table, names), |names|);
  }

  lemma CountAround(head: string, n: nat)
    ensures Count(head + Placeholders(n) + ")", '?') == Count(head, '?') + n
  {
    assert multiset(head + Placeholders(n) + ")") == multiset(head) + multiset(Placeholders(n)) + multiset(")");
    assert '?' !in multiset(")");
  }

  lemma SelectedHaveNoMark(m: ModelSpec, data: Dict)
    requires forall i | 0 <= i < |m.fields| :: IsIdentifier(m.fields[i].0)
    ensures forall i | 0 <= i < |Selected(m.fields, data)| :: '?' !in Selected(m.fields, data)[i]
  {
    var names := Selected(m.fields, data);
    forall i | 0 <= i < |names| ensures '?' !in names[i] {
      assert names[i] in names;
      var j :| 0 <= j < |m.fields| && m.fields[j].0 == names[i];
      NoMarkInIdentifier(m.fields[j].0);
    }
  }

  lemma InsertHeadFree(table: string, names: seq<string>)
    requires '?' !in table && '?' !in Join(names, ", ")
    ensures Count(InsertHead(table, names), '?') == 0
  {
    var h := InsertHead(table, names);
    var a, b, c := "INSERT INTO ", " (", ") VALUES (";
    assert '?' !in a && '?' !in b && '?' !in c;
    assert h == a + table + b + Join(names, ", ") + c;
    assert '?' !in h;
    assert '?' !in multiset(h);
  }
}

=== FILE: db_args.dfy ===
/**
 * The two argument checks of the database actions in vibeweb/actions.py:
 * `_safe_order_by`, which turns a user-supplied "field [asc|desc]" into a
 * safe ORDER BY clause, and `_coerce_row_id`, which accepts a row id given
 * as an integer or a numeric string.
 */
module DbArgs {
  import opened Base
  import opened Strings
  import opened Json
  import opened Spec

  // ---------------------------------------------------------------------
  // _safe_order_by
  // ---------------------------------------------------------------------

  /** Python's `str.upper()` on one character, as far as it can matter
      for a comparison with "ASC" or "DESC": the ASCII letters, and the two
      non-ASCII letters whose upper case is an ASCII letter (the long s
      and the dotless i). Every other character maps to itself here; in
      Python its upper case is never one of the letters of "ASC"/"DESC". */
  function PyUpperChar(c: char): (u: char)
    ensures 'A' <= u <= 'Z' && u != c ==> 'a' <= c <= 'z' || c == 'ſ' || c == 'ı'
  {
    if c == 'ſ' then 'S'
    else if c == 'ı' then 'I'
    else AsciiUpperChar(c)
  }

  function PyUpper(s: string): (r: string)
    ensures |r| == |s|
    ensures forall i | 0 <= i < |s| :: r[i] == PyUpperChar(s[i])
  {
    seq(|s|, i requires 0 <= i < |s| => PyUpperChar(s[i]))
  }

  predicate IsDirection(d: string) {
    d == "ASC" || d == "DESC"
  }

  /** Upper-casing leaves an upper-case direction as it is and turns
      "desc" into "DESC". */
  lemma UpperDirections()
    ensures PyUpper("desc") == "DESC"
    ensures PyUpper("DESC") == "DESC"
    ensures PyUpper("ASC") == "ASC"
  {
    var d := PyUpper("desc");
    assert d[0] == 'D' && d[1] == 'E' && d[2] == 'S' && d[3] == 'C';
    var e := PyUpper("DESC");
    assert e[0] == 'D' && e[1] == 'E' && e[2] == 'S' && e[3] == 'C';
    var a := PyUpper("ASC");
    assert a[0] == 'A' && a[1] == 'S' && a[2] == 'C';
  }

  const OrderByShape := "action.db.order_by must be '<field> [asc|desc]'"
  const OrderByDirection := "action.db.order_by direction must be 'asc' or 'desc'"

  /** A stripped non-empty string splits into at least one word. */
  lemma StrippedHasWord(s: string)
    requires Strip(s) != []
    ensures SplitWs(Strip(s)) != []
  {
    var t := Strip(s);
    assert !IsSpace(t[0]) by {
      RStripIsPrefix(LStrip(s));
      assert t[0] == LStrip(s)[0];
    }
    assert LStrip(t) == t;
  }

  /** `_safe_order_by(order_by, model)` on the model's fields; a `None`
      argument reads as "". */
  function SafeOrderBy(orderBy: string, fields: seq<(string, string)>): (r: Result<string, string>)
    ensures IsBlank(orderBy) ==> r == Ok("id DESC")
    ensures !IsBlank(orderBy) ==> SplitWs(Strip(orderBy)) != []
    ensures !IsBlank(orderBy) ==>
      var parts := SplitWs(Strip(orderBy));
      var dir := if |parts| == 2 then PyUpper(parts[1]) else "DESC";
      && (r.Ok? <==> |parts| <= 2 && IsDirection(dir) && (parts[0] == "id" || HasField(fields, parts[0])))
      && (r.Ok? ==> r.value == parts[0] + " " + dir)
      && (|parts| > 2 ==> r == Err(OrderByShape))
      && (|parts| <= 2 && !IsDirection(dir) ==> r == Err(OrderByDirection))
      && (|parts| <= 2 && IsDirection(dir) && !r.Ok? ==>
            r == Err("action.db.order_by unknown field: " + parts[0]))
  {
    BlankIffStripsEmpty(orderBy);
    var raw := Strip(orderBy);
    if raw == [] then Ok("id DESC")
    else
      StrippedHasWord(orderBy);
      var parts := SplitWs(raw);
      if |parts| > 2 then Err(OrderByShape)
      else
        var field := parts[0];
        var direction := if |parts| == 2 then parts[1] else "desc";
        var directionU := PyUpper(direction);
        UpperDirections();
        if !IsDirection(directionU) then Err(OrderByDirection)
        else if field != "id" && !HasField(fields, field) then Err("action.db.order_by unknown field: " + field)
        else Ok(field + " " + directionU)
  }

  /** An accepted clause is a known field, one space and an upper-case
      direction, and it is accepted again unchanged. */
  lemma SafeOrderByStable(orderBy: string, fields: seq<(string, string)>)
    requires SafeOrderBy(orderBy, fields).Ok?
    ensures var c := SafeOrderBy(orderBy, fields).value;
      SafeOrderBy(c, fields) == Ok(c)
  {
    if IsBlank(orderBy) {
      DefaultClauseStable(fields);
    } else {
      WordsClauseStable(orderBy, fields);
    }
  }

  lemma DefaultClauseStable(fields: seq<(string, string)>)
    ensures SafeOrderBy("id DESC", fields) == Ok("id DESC")
  {
    assert "id DESC" == "id" + " " + "DESC";
    OrderClauseAccepted("id", "DESC", fields);
  }

  lemma WordsClauseStable(orderBy: string, fields: seq<(string, string)>)
    requires SafeOrderBy(orderBy, fields).Ok? && !IsBlank(orderBy)
    ensures var c := SafeOrderBy(orderBy, fields).value;
      SafeOrderBy(c, fields) == Ok(c)
  {
    var parts := SplitWs(Strip(orderBy));
    SplitWsWords(Strip(orderBy));
    var dir := if |parts| == 2 then PyUpper(parts[1]) else "DESC";
    OrderClauseAccepted(parts[0], dir, fields);
  }

  /** A field name without whitespace followed by one of the two
      directions is accepted as written. */
  lemma OrderClauseAccepted(field: string, dir: string, fields: seq<(string, string)>)
    requires field != [] && NoSpace(field)
    requires field == "id" || HasField(fields, field)
    requires IsDirection(dir)
    ensures SafeOrderBy(field + " " + dir, fields) == Ok(field + " " + dir)
  {
    var c := field + " " + dir;
    assert Words([field, dir]) by {
      assert NoSpace(dir);
    }
    SplitWsJoin([field, dir]);
    assert Join([field, dir], " ") == c;
    assert NoSpace(dir) && dir[|dir| - 1] == c[|c| - 1];
    StripOfNoEdgeSpace(c);
    UpperDirections();
  }

  /** Any word that upper-cases to a direction is accepted in its place. */
  lemma DirectionWordAccepted(field: string, w: string, fields: seq<(string, string)>)
    requires field != [] && NoSpace(field)
    requires field == "id" || HasField(fields, field)
    requires w != [] && NoSpace(w) && IsDirection(PyUpper(w))
    ensures SafeOrderBy(field + " " + w, fields) == Ok(field + " " + PyUpper(w))
  {
    assert Words([field, w]);
    SplitWsJoin([field, w]);
    var c := field + " " + w;
    assert Join([field, w], " ") == c;
    assert c[|c| - 1] == w[|w| - 1];
    StripOfNoEdgeSpace(c);
  }

  /** The long s upper-cases to S, so "deſc" is read as DESC. */
  lemma LongSDescending()
    ensures PyUpper("deſc") == "DESC"
  {
    var u := PyUpper("deſc");
    assert u[0] == 'D' && u[1] == 'E' && u[2] == 'S' && u[3] == 'C';
  }

  // ---------------------------------------------------------------------
  // _coerce_row_id
  // ---------------------------------------------------------------------

  const IdType := "action.db.id must be an int or string"

  /** `_coerce_row_id(value)`: `bool` is refused before `int` is tried,
      since Python's `bool` is a kind of `int`. */
  function CoerceRowId(v: Value): (r: Result<int, string>)
    ensures v.Int? ==> r == Ok(v.i)
    ensures !(v.Int? || v.Str?) ==> r == Err(IdType)
    ensures v.Str? && IsBlank(v.s) ==> r == Err("action.db.id is required")
    ensures v.Str? && !IsBlank(v.s) ==>
      r == (match ParseInt(Strip(v.s))
            case Some(n) => Ok(n)
            case None => Err("action.db.id must be an int or numeric string"))
  {
    match v
    case Bool(_) => Err(IdType)
    case Int(i) => Ok(i)
    case Str(s) =>
      BlankIffStripsEmpty(s);
      var stripped := Strip(s);
      if stripped == [] then Err("action.db.id is required")
      else if ParseInt(stripped).None? then Err("action.db.id must be an int or numeric string")
      else Ok(ParseInt(stripped).value)
    case _ => Err(IdType)
  }

  /** A row id written out as decimal text reads back as itself; `True`
      is never taken for row 1. */
  lemma CoerceRowIdRoundTrip(i: int)
    ensures CoerceRowId(Int(i)) == Ok(i)
    ensures CoerceRowId(Str(IntToStr(i))) == Ok(i)
    ensures CoerceRowId(Bool(true)).Err?
  {
    var t := IntToStr(i);
    assert NoSpace(t) by {
      if i < 0 {
        assert t == "-" + NatToStr(-i);
      }
    }
    StripOfNoSpace(t);
    ParseIntOfIntToStr(i);
  }

  /** Surrounding whitespace never changes the outcome. */
  lemma CoerceRowIdIgnoresPadding(s: string)
    ensures CoerceRowId(Str(s)) == CoerceRowId(Str(Strip(s)))
  {
    StripTwice(s);
  }

  lemma StripTwice(s: string)
    ensures Strip(Strip(s)) == Strip(s)
  {
    var t := Strip(s);
    assert t == [] || (!IsSpace(t[0]) && !IsSpace(t[|t| - 1])) by {
      if t != [] {
        RStripIsPrefix(LStrip(s));
        assert t[0] == LStrip(s)[0];
      }
    }
    StripOfNoEdgeSpace(t);
  }
}

=== FILE: flow.dfy ===
/**
 * The workflow engine of vibeweb/actions.py: `execute_action` dispatch,
 * value actions, and `_execute_flow` with its steps, parallel groups,
 * `when` gates, retries, deadlines, `set` and result selection.
 *
 * Time is an integer count of milliseconds. HTTP, LLM and database
 * actions are an oracle that, given the action, the context and the
 * clock, either returns a result or raises, and reports how long it took.
 * Regular-expression search is the oracle of the condition language.
 *
 * `steps` and `vars` are threaded through every call: a sequential step
 * hands the live maps to the action it runs, so a nested flow writes into
 * its parent's maps. The siblings of a parallel group each run against
 * their own copy of the maps taken before the group, and whatever they
 * write into that copy is dropped.
 */
module Flow {
  import opened Base
  import opened Strings
  import opened Json
  import opened Paths
  import opened Conditions
  import opened Render

  // ---------------------------------------------------------------------
  // Specification records
  // ---------------------------------------------------------------------

  /** The action kinds `execute_action` dispatches on; any other spelling
      is kept to be reported. */
  datatype Kind = HttpKind | LlmKind | DbKind | ValueKind | FlowKind | OtherKind(spelling: string)

  /** `ValueActionSpec`: a fixed result whose data is rendered. */
  datatype ValueSpec = ValueSpec(data: Value, status: int, ok: bool)

  /** `FlowStepSpec`. A `Null` input means "no input given"; an empty
      `onError` means the default "stop". */
  datatype StepSpec = StepSpec(
    id: string,
    use: string,
    input: Value,
    when: Value,
    setMap: Value,
    parallel: bool,
    onError: string,
    retries: int,
    timeoutS: Option<int>)

  /** `FlowActionSpec`. An empty `returnStep` means none. */
  datatype FlowSpec = FlowSpec(steps: seq<StepSpec>, returnStep: string, vars: Option<Value>)

  /** `ActionSpec`. `external` says whether the configuration its kind
      needs (the `http`, `llm` or `db` block) is present; those actions run
      through the oracle. */
  datatype ActionSpec = ActionSpec(
    name: string,
    kind: Kind,
    auth: string,
    external: bool,
    value: Option<ValueSpec>,
    flow: Option<FlowSpec>)

  /** The errors the engine raises (`ActionError`). */
  datatype FlowError =
    | TooDeep
    | NoRegistry
    | UnknownAction(use: string)
    | Escalation(name: string, auth: string, parentAuth: string)
    | BadWhen(stepId: string, cause: CondError)
    | SetNotObject(setStep: string)
    | SetBadKey(keyStep: string)
    | MissingConfig(missing: Kind)
    | UnknownKind(unknown: string)
    | External(message: string)

  /** `str(exc)` for each error. */
  function ErrorText(e: FlowError): string {
    match e
    case TooDeep => "Flow nesting too deep"
    case NoRegistry => "Flow action requires action registry in ctx['actions']"
    case UnknownAction(u) => "Flow step references unknown action: " + u
    case Escalation(n, a, p) =>
      "Flow cannot use action '" + n + "' with auth='" + a + "' from flow auth='" + p + "'"
    case BadWhen(id, c) => "Invalid flow step.when (step: " + id + "): " + Message(c)
    case SetNotObject(id) => "flow step.set must be an object (step: " + id + ")"
    case SetBadKey(id) => "flow step.set keys must be strings (step: " + id + ")"
    case MissingConfig(k) =>
      (match k
       case HttpKind => "HTTP action missing 'http' config"
       case LlmKind => "LLM action missing 'llm' config"
       case DbKind => "DB action missing 'db' config"
       case ValueKind => "Value action missing 'value' config"
       case _ => "Flow action missing 'flow' config")
    case UnknownKind(k) => "Unknown action kind: " + k
    case External(m) => m
  }

  // ---------------------------------------------------------------------
  // Results
  // ---------------------------------------------------------------------

  /** An action result: a dict with `ok`, `status` and `data`. */
  type Outcome = Dict

  function Result3(ok: bool, status: int, data: Value): (r: Outcome)
    ensures GetOrNull(r, "ok") == Bool(ok)
    ensures GetOrNull(r, "status") == Int(status)
    ensures GetOrNull(r, "data") == data
  {
    var r := [("ok", Bool(ok)), ("status", Int(status)), ("data", data)];
    GetHead(r, "ok");
    assert r[1..] == [("status", Int(status)), ("data", data)];
    GetSkip(r, "status");
    GetHead(r[1..], "status");
    assert r[1..][1..] == [("data", data)];
    GetSkip(r, "data");
    GetSkip(r[1..], "data");
    GetHead(r[1..][1..], "data");
    r
  }

  /** `{"ok": False, "status": status, "data": {"error": message}}`. */
  function ErrorResult(status: int, message: string): Outcome {
    Result3(false, status, Obj([("error", Str(message))]))
  }

  /** What a gated-out step stores. */
  function SkipResult(): Outcome {
    Result3(true, 204, Null) + [("skipped", Bool(true))]
  }

  /** `result.get("ok")` is truthy. */
  predicate IsOk(r: Outcome) {
    Truthy(GetOrNull(r, "ok"))
  }

  // ---------------------------------------------------------------------
  // Context
  // ---------------------------------------------------------------------

  /** What the caller supplies and every nested call inherits unchanged:
      the action registry (`None` when `ctx['actions']` is missing or not
      a dict), the query, the other context entries (`env`, `request`,
      `hook`, `services`), and the two oracles. */
  datatype Env = Env(
    registry: Option<map<string, ActionSpec>>,
    query: Dict,
    outer: Dict,
    external: ExternalOracle,
    re: RegexSearch)

  /** What an HTTP, LLM or database action did: returned a result or
      raised, and how many milliseconds it took. */
  datatype ExternalCall = ExternalCall(returned: Option<Outcome>, raised: string, elapsed: nat)

  type ExternalOracle = (ActionSpec, Dict, Option<int>, int) -> ExternalCall

  /** One invocation's own part of the context: its input, nesting depth
      and deadline. */
  datatype Frame = Frame(input: Value, depth: int, deadline: Option<int>)

  /** The mutable part: the `steps` and `vars` maps and the clock. */
  datatype State = State(steps: Dict, vars: Dict, now: int)

  /** `b` comes after `a`: the clock has not gone back, and no stored
      result and no variable has been removed. */
  ghost predicate Later(a: State, b: State) {
    && a.now <= b.now
    && (forall k :: Get(a.steps, k).Some? ==> Get(b.steps, k).Some?)
    && (forall k :: Get(a.vars, k).Some? ==> Get(b.vars, k).Some?)
  }

  lemma LaterTrans(a: State, b: State, c: State)
    requires Later(a, b) && Later(b, c)
    ensures Later(a, c)
  {
  }

  /** The dict that conditions and templates look paths up in. The
      flow's own entries come first, so `steps` and `vars` always name the
      live maps whatever else the caller passed. */
  function View(env: Env, f: Frame, st: State): Dict {
    [("steps", Obj(st.steps)), ("vars", Obj(st.vars)), ("input", f.input), ("query", Obj(env.query))]
    + env.outer
  }

  // ---------------------------------------------------------------------
  // Small helpers of `_execute_flow`
  // ---------------------------------------------------------------------

  /** `_auth_level`: none 0 < api 1 < admin 2, anything else 0. */
  function AuthLevel(auth: string): (n: nat)
    ensures n <= 2
    ensures n == 2 <==> auth == "admin"
    ensures n == 1 <==> auth == "api"
  {
    if auth == "none" then 0
    else if auth == "api" then 1
    else if auth == "admin" then 2
    else 0
  }

  /** `_flow_depth` limit: depth above 24 is refused. */
  const MaxDepth: int := 24

  /** A termination measure: how many more nested flows may start. */
  function Budget(depth: int): nat {
    if depth > MaxDepth then 0 else MaxDepth + 1 - depth
  }

  /** `_step_deadline_ts`: the parent deadline without a step timeout,
      otherwise the earlier of the parent deadline and now plus the
      (non-negative) timeout. */
  function StepDeadline(parent: Option<int>, timeoutS: Option<int>, now: int): (r: Option<int>)
    ensures timeoutS.None? ==> r == parent
    ensures parent.Some? ==> r.Some? && r.value <= parent.value
    ensures timeoutS.Some? ==> r.Some? && r.value <= now + 1000 * Max(0, timeoutS.value)
    ensures timeoutS.Some? ==> r.Some? &&
                               (r.value == now + 1000 * Max(0, timeoutS.value)
                                || (parent.Some? && r.value == parent.value))
  {
    match timeoutS
    case None => parent
    case Some(t) =>
      var proposed := now + 1000 * Max(0, t);
      match parent
      case None => Some(proposed)
      case Some(p) => Some(Min(p, proposed))
  }

  /** `_deadline_remaining_s`: time left, never negative. */
  function RemainingMs(deadline: Option<int>, now: int): (r: Option<int>)
    ensures r.None? <==> deadline.None?
    ensures r.Some? ==> r.value >= 0 && r.value >= deadline.value - now
    ensures r.Some? && now <= deadline.value ==> now + r.value == deadline.value
    ensures r.Some? && now >= deadline.value ==> r.value == 0
  {
    match deadline
    case None => None
    case Some(d) => Some(Max(0, d - now))
  }

  /** `_clamp_timeout_s`: a wait that is neither negative, nor longer than
      asked, nor past the deadline; it is one of those two bounds. */
  function ClampTimeoutMs(timeoutMs: int, deadline: Option<int>, now: int): (r: int)
    ensures 0 <= r <= Max(0, timeoutMs)
    ensures deadline.Some? ==> r <= RemainingMs(deadline, now).value
    ensures deadline.None? ==> r == Max(0, timeoutMs)
    ensures r == Max(0, timeoutMs) || (deadline.Some? && r == RemainingMs(deadline, now).value)
  {
    var base := Max(0, timeoutMs);
    match RemainingMs(deadline, now)
    case None => base
    case Some(rem) => Max(0, Min(base, rem))
  }

  /** `_retry_sleep(attempt)`: 250 ms doubled per attempt, at most 2.5 s. */
  function Backoff(attempt: nat): (ms: nat)
    ensures 250 <= ms <= 2500
    ensures attempt >= 4 ==> ms == 2500
  {
    Pow2Grows(attempt);
    Min(2500, 250 * Pow2(attempt))
  }

  lemma {:induction false} Pow2Grows(n: nat)
    ensures n >= 4 ==> Pow2(n) >= 16
    ensures n < 4 ==> 250 * Pow2(n) < 2500
  {
    if n > 0 {
      Pow2Grows(n - 1);
    }
  }

  function Pow2(n: nat): (p: nat)
    ensures p >= 1
  {
    if n == 0 then 1 else 2 * Pow2(n - 1)
  }

  /** The backoff doubles until it reaches the cap. */
  lemma BackoffDoubles(attempt: nat)
    ensures attempt < 3 ==> Backoff(attempt + 1) == 2 * Backoff(attempt)
    ensures Backoff(attempt) <= Backoff(attempt + 1)
  {
  }

  /** `_retry_sleep` as written: the power of two is an unbounded integer
      that is converted to a float before the cap applies, and from 2^1024
      on that conversion raises `OverflowError`. */
  function BackoffAsWritten(attempt: nat): (r: Result<nat, string>)
    ensures r.Ok? <==> attempt < 1024
    ensures r.Ok? ==> r.value == Backoff(attempt)
  {
    if attempt >= 1024 then Err("OverflowError") else Ok(Min(2500, 250 * Pow2(attempt)))
  }

  /** A step allowed more than 1024 retries whose attempts keep failing
      reaches attempt 1024, where the sleep raises instead of waiting the
      capped 2.5 s; the raise happens outside the step's handler. */
  lemma BackoffOverflows()
    ensures BackoffAsWritten(1023) == Ok(2500)
    ensures BackoffAsWritten(1024).Err? && Backoff(1024) == 2500
  {
  }

  /** `(step.on_error or "stop").lower() == "continue"`. */
  predicate Continues(step: StepSpec) {
    Lower(step.onError) == "continue"
  }

  /** After a step's result is recorded the flow goes on when the result
      is ok or the step continues on error. */
  predicate GoesOn(step: StepSpec, result: Outcome) {
    IsOk(result) || Continues(step)
  }

  /** `_step_should_run`: a falsy `when` runs the step; otherwise the
      condition decides, and a malformed one raises. */
  function ShouldRun(step: StepSpec, view: Dict, re: RegexSearch): (r: Result<bool, FlowError>)
    ensures !Truthy(step.when) ==> r == Ok(true)
    ensures r.Err? <==> Truthy(step.when) && Eval(step.when, view, re).Err?
    ensures r.Err? ==> r.error == BadWhen(step.id, Eval(step.when, view, re).error)
    ensures r.Ok? && Truthy(step.when) ==> r.value == Eval(step.when, view, re).value
  {
    if !Truthy(step.when) then Ok(true)
    else
      match Eval(step.when, view, re)
      case Ok(b) => Ok(b)
      case Err(e) => Err(BadWhen(step.id, e))
  }

  /** Store a step's result under its id. */
  function Store(st: State, id: string, r: Outcome): (st': State)
    ensures Get(st'.steps, id) == Some(Obj(r))
    ensures forall k | k != id :: Get(st'.steps, k) == Get(st.steps, k)
    ensures st'.vars == st.vars && st'.now == st.now
  {
    st.(steps := Put(st.steps, id, Obj(r)))
  }

  /** The result of `_apply_flow_set`: the `vars` it leaves behind (with
      the writes made before an error) and the error, if any. */
  datatype SetOutcome = SetOutcome(vars: Dict, error: Option<FlowError>)

  /** `_apply_flow_set`: a falsy mapping does nothing, a non-object
      raises, and each entry in order is rendered against the live context
      and written, until an empty key raises. */
  function ApplySet(id: string, mapping: Value, env: Env, f: Frame, st: State): (r: SetOutcome)
    ensures !Truthy(mapping) ==> r == SetOutcome(st.vars, None)
    ensures Truthy(mapping) && !mapping.Obj? ==> r == SetOutcome(st.vars, Some(SetNotObject(id)))
    ensures r.error.Some? ==> r.error == Some(SetNotObject(id)) || r.error == Some(SetBadKey(id))
    ensures forall k: string :: Get(st.vars, k).Some? ==> Get(r.vars, k).Some?
    ensures mapping.Obj? && r.error.None? ==>
      forall i | 0 <= i < |mapping.fields| :: Get(r.vars, mapping.fields[i].0).Some?
    ensures forall k | !mapping.Obj? || k !in Keys(mapping.fields) :: Get(r.vars, k) == Get(st.vars, k)
    ensures mapping.Obj? && mapping.fields != [] && mapping.fields[0].0 !in Keys(mapping.fields[1..]) && r.error.None? ==>
      Get(r.vars, mapping.fields[0].0) == Some(RenderValue(mapping.fields[0].1, View(env, f, st)))
  {
    if !Truthy(mapping) then SetOutcome(st.vars, None)
    else if !mapping.Obj? then SetOutcome(st.vars, Some(SetNotObject(id)))
    else SetEntries(id, mapping.fields, env, f, st)
  }

  function SetEntries(id: string, fs: Dict, env: Env, f: Frame, st: State): (r: SetOutcome)
    ensures r.error.Some? ==> r.error == Some(SetBadKey(id))
    ensures r.error.None? <==> forall i | 0 <= i < |fs| :: fs[i].0 != []
    ensures forall k: string :: Get(st.vars, k).Some? ==> Get(r.vars, k).Some?
    ensures r.error.None? ==> forall i | 0 <= i < |fs| :: Get(r.vars, fs[i].0).Some?
    ensures forall k | k !in Keys(fs) :: Get(r.vars, k) == Get(st.vars, k)
    ensures fs != [] && fs[0].0 != [] && fs[0].0 !in Keys(fs[1..]) && r.error.None? ==>
      Get(r.vars, fs[0].0) == Some(RenderValue(fs[0].1, View(env, f, st)))
    decreases |fs|
  {
    if fs == [] then SetOutcome(st.vars, None)
    else if fs[0].0 == [] then SetOutcome(st.vars, Some(SetBadKey(id)))
    else
      var v := RenderValue(fs[0].1, View(env, f, st));
      var vars := Put(st.vars, fs[0].0, v);
      var r := SetEntries(id, fs[1..], env, f, st.(vars := vars));
      assert forall i | 1 <= i < |fs| :: fs[i].0 == fs[1..][i - 1].0;
      assert Keys(fs) == [fs[0].0] + Keys(fs[1..]);
      assert Get(vars, fs[0].0).Some?;
      r
  }

  /** The value `set` leaves under each key it writes last: `render_value`
      of the entry against the live context, in which `vars` already holds
      the entries written before it. */
  lemma {:induction false} SetEntriesLastWrite(id: string, fs: Dict, env: Env, f: Frame, st: State, i: nat)
    requires i < |fs| && fs[i].0 !in Keys(fs[i + 1..])
    requires SetEntries(id, fs, env, f, st).error.None?
    ensures SetEntries(id, fs[..i], env, f, st).error.None?
    ensures Get(SetEntries(id, fs, env, f, st).vars, fs[i].0) ==
      Some(RenderValue(fs[i].1, View(env, f, st.(vars := SetEntries(id, fs[..i], env, f, st).vars))))
    decreases i
  {
    SetPrefixOk(id, fs, env, f, st, i);
    if i == 0 {
      SetEntriesFirstWrite(id, fs, env, f, st);
    } else {
      var st' := SetFirst(fs, env, f, st);
      var pre := fs[..i];
      var x := SetEntries(id, pre, env, f, st).vars;
      var y := SetEntries(id, fs[1..][..i - 1], env, f, st').vars;
      assert x == y by {
        assert pre[0] == fs[0] && pre[1..] == fs[1..][..i - 1];
        SetEntriesCons(id, pre, env, f, st);
      }
      assert SetEntries(id, fs, env, f, st) == SetEntries(id, fs[1..], env, f, st') by {
        SetEntriesCons(id, fs, env, f, st);
      }
      assert Get(SetEntries(id, fs[1..], env, f, st').vars, fs[i].0) ==
             Some(RenderValue(fs[i].1, View(env, f, st'.(vars := y)))) by {
        assert fs[1..][i - 1] == fs[i];
        assert fs[1..][i..] == fs[i + 1..];
        SetEntriesLastWrite(id, fs[1..], env, f, st', i - 1);
      }
      assert st'.(vars := y) == st.(vars := x);
    }
  }

  /** A prefix of a mapping whose write succeeds writes successfully. */
  lemma SetPrefixOk(id: string, fs: Dict, env: Env, f: Frame, st: State, i: nat)
    requires i <= |fs| && SetEntries(id, fs, env, f, st).error.None?
    ensures SetEntries(id, fs[..i], env, f, st).error.None?
  {
    assert forall j | 0 <= j < i :: fs[..i][j].0 == fs[j].0;
  }

  /** The first entry, when not written again, is its rendering against
      the context before the write. */
  lemma SetEntriesFirstWrite(id: string, fs: Dict, env: Env, f: Frame, st: State)
    requires fs != [] && fs[0].0 !in Keys(fs[1..])
    requires SetEntries(id, fs, env, f, st).error.None?
    ensures Get(SetEntries(id, fs, env, f, st).vars, fs[0].0) ==
      Some(RenderValue(fs[0].1, View(env, f, st.(vars := SetEntries(id, fs[..0], env, f, st).vars))))
  {
    assert fs[..0] == [];
  }

  /** The state after `set` writes its first entry. */
  function SetFirst(fs: Dict, env: Env, f: Frame, st: State): State
    requires fs != []
  {
    st.(vars := Put(st.vars, fs[0].0, RenderValue(fs[0].1, View(env, f, st))))
  }

  /** Writing a mapping with a good first key is writing that key, then
      the rest. */
  lemma SetEntriesCons(id: string, fs: Dict, env: Env, f: Frame, st: State)
    requires fs != [] && fs[0].0 != []
    ensures SetEntries(id, fs, env, f, st) == SetEntries(id, fs[1..], env, f, SetFirst(fs, env, f, st))
  {
  }

  /** Flow-level `vars`: rendered once against the context, and when the
      rendering is an object each non-empty key is written in order. */
  function InitVars(init: Option<Value>, env: Env, f: Frame, st: State): (st': State)
    ensures st'.steps == st.steps && st'.now == st.now
    ensures init.None? ==> st' == st
    ensures Later(st, st')
  {
    match init
    case None => st
    case Some(v) =>
      var rendered := RenderValue(v, View(env, f, st));
      if rendered.Obj? then st.(vars := WriteNonEmpty(st.vars, rendered.fields)) else st
  }

  function WriteNonEmpty(vars: Dict, fs: Dict): (r: Dict)
    ensures forall i | 0 <= i < |fs| :: fs[i].0 != [] ==> Get(r, fs[i].0).Some?
    ensures forall k | k !in Keys(fs) :: Get(r, k) == Get(vars, k)
    ensures forall k: string :: Get(vars, k).Some? ==> Get(r, k).Some?
    decreases |fs|
  {
    if fs == [] then vars
    else
      var vs := if fs[0].0 != [] then Put(vars, fs[0].0, fs[0].1) else vars;
      var r := WriteNonEmpty(vs, fs[1..]);
      assert Keys(fs) == [fs[0].0] + Keys(fs[1..]);
      assert forall i | 1 <= i < |fs| :: fs[i] == fs[1..][i - 1];
      assert fs[0].0 != [] ==> Get(r, fs[0].0).Some? by {
        if fs[0].0 != [] && fs[0].0 !in Keys(fs[1..]) {
          assert Get(vs, fs[0].0).Some?;
        }
      }
      r
  }

  /** `execute_action`'s value kind: the data rendered against the
      context, with `ok` and `status` as given. */
  function ValueResult(spec: ValueSpec, view: Dict): (r: Outcome)
    ensures GetOrNull(r, "ok") == Bool(spec.ok) && GetOrNull(r, "status") == Int(spec.status)
    ensures GetOrNull(r, "data") == RenderValue(spec.data, view)
  {
    Result3(spec.ok, spec.status, RenderValue(spec.data, view))
  }

  /** The end of a maximal run of parallel steps starting at `i`. */
  function GroupEnd(steps: seq<StepSpec>, i: nat): (j: nat)
    requires i <= |steps|
    ensures i <= j <= |steps|
    ensures forall k | i <= k < j :: steps[k].parallel
    ensures j == |steps| || !steps[j].parallel
    decreases |steps| - i
  {
    if i == |steps| || !steps[i].parallel then i else GroupEnd(steps, i + 1)
  }

  /** The `when` of every step of a group, evaluated in order against the
      context before the group; the first malformed one raises. */
  function PreEval(group: seq<StepSpec>, view: Dict, re: RegexSearch): (r: Result<seq<bool>, FlowError>)
    ensures r.Ok? ==> |r.value| == |group|
    ensures r.Ok? ==> forall k | 0 <= k < |group| :: ShouldRun(group[k], view, re) == Ok(r.value[k])
    ensures r.Err? ==> exists k | 0 <= k < |group| :: ShouldRun(group[k], view, re) == Err(r.error)
  {
    if group == [] then Ok([])
    else
      match ShouldRun(group[0], view, re)
      case Err(e) => Err(e)
      case Ok(b) =>
        match PreEval(group[1..], view, re)
        case Err(e) =>
          assert forall k | 1 <= k < |group| :: group[k] == group[1..][k - 1];
          Err(e)
        case Ok(bs) =>
          assert forall k | 1 <= k < |group| :: group[k] == group[1..][k - 1];
          Ok([b] + bs)
  }

  /** The result chosen once the steps are done: the `return_step` result
      when one is named (a missing one is an error result), else the last
      stored result, else an empty success. */
  function Finish(flow: FlowSpec, st: State, last: Option<Outcome>): (r: Outcome)
    ensures flow.returnStep == [] && last.None? ==> r == Result3(true, 200, Null)
    ensures flow.returnStep == [] && last.Some? ==> r == last.value
    ensures flow.returnStep != [] ==>
      match Get(st.steps, flow.returnStep)
      case Some(Obj(picked)) => r == picked
      case _ => r == ErrorResult(500, "flow return_step missing")
  {
    if flow.returnStep != [] then
      match Get(st.steps, flow.returnStep)
      case Some(Obj(picked)) => picked
      case _ => ErrorResult(500, "flow return_step missing")
    else if last.None? then Result3(true, 200, Null)
    else last.value
  }

  /** What follows a step that did not raise, in the sequential loop and
      in the merge alike: its result is stored under its id, then its
      `set` is applied against the context that already holds it. */
  function Record(env: Env, f: Frame, step: StepSpec, result: Outcome, st: State): (r: (State, Option<FlowError>))
    ensures Get(r.0.steps, step.id) == Some(Obj(result))
    ensures forall k | k != step.id :: Get(r.0.steps, k) == Get(st.steps, k)
    ensures Later(st, r.0) && r.0.now == st.now
    ensures r.1.None? && step.setMap.Obj? ==>
      forall i | 0 <= i < |step.setMap.fields| :: Get(r.0.vars, step.setMap.fields[i].0).Some?
    ensures forall k | !step.setMap.Obj? || k !in Keys(step.setMap.fields) :: Get(r.0.vars, k) == Get(st.vars, k)
    ensures step.setMap.Obj? && step.setMap.fields != [] && r.1.None? &&
            step.setMap.fields[0].0 !in Keys(step.setMap.fields[1..]) ==>
      Get(r.0.vars, step.setMap.fields[0].0) ==
        Some(RenderValue(step.setMap.fields[0].1, View(env, f, Store(st, step.id, result))))
  {
    var st1 := Store(st, step.id, result);
    var applied := ApplySet(step.id, step.setMap, env, f, st1);
    (st1.(vars := applied.vars), applied.error)
  }

  /** After `Record`, each key the step's `set` writes last holds
      `render_value` of its entry against the context in which the step's
      own result is already stored and the earlier entries are written. */
  lemma RecordSetValue(env: Env, f: Frame, step: StepSpec, result: Outcome, st: State, i: nat)
    requires step.setMap.Obj? && i < |step.setMap.fields|
    requires step.setMap.fields[i].0 !in Keys(step.setMap.fields[i + 1..])
    requires Record(env, f, step, result, st).1.None?
    ensures Get(Record(env, f, step, result, st).0.vars, step.setMap.fields[i].0) ==
      Some(RenderValue(step.setMap.fields[i].1, View(env, f,
        Store(st, step.id, result).(vars := SetEntries(step.id, step.setMap.fields[..i], env, f, Store(st, step.id, result)).vars))))
  {
    var fs := step.setMap.fields;
    var st1 := Store(st, step.id, result);
    var entries := SetEntries(step.id, fs, env, f, st1);
    assert Truthy(step.setMap) by { assert step.setMap.fields != []; }
    assert ApplySet(step.id, step.setMap, env, f, st1) == entries;
    assert Record(env, f, step, result, st) == (st1.(vars := entries.vars), entries.error);
    SetEntriesLastWrite(step.id, fs, env, f, st1, i);
  }

  // ---------------------------------------------------------------------
  // The engine
  // ---------------------------------------------------------------------

  /** What a run leaves: its outcome, raised or returned, and the state. */
  datatype Run = Run(raised: Option<FlowError>, result: Outcome, st: State)

  function Returned(r: Outcome, st: State): Run {
    Run(None, r, st)
  }

  function Raise(e: FlowError, st: State): Run {
    Run(Some(e), [], st)
  }

  /** The result a caught error becomes. */
  function Caught(r: Run): Outcome {
    if r.raised.Some? then ErrorResult(500, ErrorText(r.raised.value)) else r.result
  }

  predicate RegistryOk(env: Env) {
    env.registry.Some? && |env.registry.value| > 0
  }

  /** `execute_action(action, ...)`. */
  function ExecuteAction(env: Env, action: ActionSpec, f: Frame, st: State): (r: Run)
    ensures Later(st, r.st)
    decreases Budget(f.depth), 6, 0, 0
  {
    match action.kind
    case ValueKind =>
      if action.value.None? then Raise(MissingConfig(ValueKind), st)
      else Returned(ValueResult(action.value.value, View(env, f, st)), st)
    case FlowKind =>
      if action.flow.None? then Raise(MissingConfig(FlowKind), st)
      else ExecuteFlow(env, action, action.flow.value, f, st)
    case OtherKind(k) => Raise(UnknownKind(k), st)
    case _ =>
      if !action.external then Raise(MissingConfig(action.kind), st)
      else
        var call := env.external(action, View(env, f, st), f.deadline, st.now);
        var st' := st.(now := st.now + call.elapsed);
        if call.returned.Some? then Returned(call.returned.value, st')
        else Raise(External(call.raised), st')
  }

  /** `_execute_flow(parent, flow, ctx)`. */
  function ExecuteFlow(env: Env, parent: ActionSpec, flow: FlowSpec, f: Frame, st: State): (r: Run)
    ensures Later(st, r.st)
    decreases Budget(f.depth), 5, 0, 0
  {
    if f.depth > MaxDepth then Raise(TooDeep, st)
    else if !RegistryOk(env) then Raise(NoRegistry, st)
    else RunSteps(env, parent, flow, f, InitVars(flow.vars, env, f, st), 0, None)
  }

  /** The main loop, from step `i`, with the last stored result. */
  function RunSteps(env: Env, parent: ActionSpec, flow: FlowSpec, f: Frame, st: State, i: nat, last: Option<Outcome>)
    : (r: Run)
    requires f.depth <= MaxDepth && RegistryOk(env) && i <= |flow.steps|
    ensures Later(st, r.st)
    decreases Budget(f.depth), 4, |flow.steps| - i, 0
  {
    if i == |flow.steps| then Returned(Finish(flow, st, last), st)
    else if flow.steps[i].parallel then
      var j := GroupEnd(flow.steps, i);
      var group := flow.steps[i..j];
      match PreEval(group, View(env, f, st), env.re)
      case Err(e) => Raise(e, st)
      case Ok(flags) =>
        var done := RunSiblings(env, parent, f, st, group, flags, 0, [], st.now);
        var m := Merge(env, f, group, done.0, 0, st.(now := done.1), last);
        if m.stop.Some? then m.stop.value
        else RunSteps(env, parent, flow, f, m.st, j, m.last)
    else
      var step := flow.steps[i];
      match ShouldRun(step, View(env, f, st), env.re)
      case Err(e) => Raise(e, st)
      case Ok(false) =>
        var (st2, error) := Record(env, f, step, SkipResult(), st);
        if error.Some? then Raise(error.value, st2)
        else RunSteps(env, parent, flow, f, st2, i + 1, Some(SkipResult()))
      case Ok(true) =>
        var run := RunStep(env, parent, f, st, step);
        if run.raised.Some? then run
        else
          var (st2, error) := Record(env, f, step, run.result, run.st);
          if error.Some? then Raise(error.value, st2)
          else if !GoesOn(step, run.result) then Returned(run.result, st2)
          else RunSteps(env, parent, flow, f, st2, i + 1, Some(run.result))
  }

  /** The siblings of a parallel group that are not gated out, each from
      the state before the group; their results are collected by step id
      (a later step with the same id replaces an earlier one), raised
      errors become 500 results, and the group ends when the slowest
      sibling does. */
  function RunSiblings(env: Env, parent: ActionSpec, f: Frame, st: State, group: seq<StepSpec>,
                       flags: seq<bool>, k: nat, futures: Dict, end: int): (r: (Dict, int))
    requires f.depth <= MaxDepth && RegistryOk(env) && |flags| == |group| && k <= |group|
    ensures end <= r.1
    decreases Budget(f.depth), 3, |group| - k, 0
  {
    if k == |group| then (futures, end)
    else if !flags[k] then RunSiblings(env, parent, f, st, group, flags, k + 1, futures, end)
    else
      var run := RunStep(env, parent, f, st, group[k]);
      RunSiblings(env, parent, f, st, group, flags, k + 1,
                  Put(futures, group[k].id, Obj(Caught(run))), Max(end, run.st.now))
  }

  /** The result a group step contributes: its sibling's result, or the
      skip result for a step that was gated out. */
  function Collected(futures: Dict, id: string): Outcome {
    match Get(futures, id)
    case Some(Obj(r)) => r
    case _ => SkipResult()
  }

  /** The outcome of merging a group: either the flow stops with a run, or
      it goes on with this state and last result. */
  datatype Merged = Merged(stop: Option<Run>, st: State, last: Option<Outcome>)

  /** The merge of a parallel group, in declared order: store each result
      (a gated-out step's is the skip result), apply its `set`, and stop at
      the first failing step that does not continue. */
  function Merge(env: Env, f: Frame, group: seq<StepSpec>, futures: Dict, k: nat, st: State, last: Option<Outcome>)
    : (m: Merged)
    requires k <= |group|
    ensures m.stop.None? ==> m.st.now == st.now
    ensures Later(st, m.st)
    ensures m.stop.Some? ==> m.stop.value.st == m.st
    ensures m.stop.None? ==> forall n | k <= n < |group| :: Get(m.st.steps, group[n].id).Some?
    decreases |group| - k
  {
    if k == |group| then Merged(None, st, last)
    else
      var one := MergeStep(env, f, group[k], futures, st);
      if one.stop.Some? then one
      else
        var m := Merge(env, f, group, futures, k + 1, one.st, one.last);
        MergeCovers(st, one.st, m.st, group, k, m.stop.None?);
        m
  }

  /** A group merged to its end leaves as the last result the collected
      result of its last step. */
  lemma {:induction false} MergeLast(env: Env, f: Frame, group: seq<StepSpec>, futures: Dict, k: nat, st: State, last: Option<Outcome>)
    requires k < |group|
    ensures var m := Merge(env, f, group, futures, k, st, last);
      m.stop.None? ==> m.last == Some(Collected(futures, group[|group| - 1].id))
    decreases |group| - k
  {
    var one := MergeStep(env, f, group[k], futures, st);
    if one.stop.None? {
      var next := Merge(env, f, group, futures, k + 1, one.st, one.last);
      assert Merge(env, f, group, futures, k, st, last) == next;
      if k + 1 < |group| {
        MergeLast(env, f, group, futures, k + 1, one.st, one.last);
      } else {
        assert next.last == one.last;
      }
    }
  }

  /** The merge of one step of a group: store its collected result, apply
      its `set`, and stop if that raised or the step does not go on. */
  function MergeStep(env: Env, f: Frame, s: StepSpec, futures: Dict, st: State): (m: Merged)
    ensures Later(st, m.st) && m.st.now == st.now
    ensures Get(m.st.steps, s.id) == Some(Obj(Collected(futures, s.id)))
    ensures m.last == Some(Collected(futures, s.id))
    ensures m.stop.Some? ==> m.stop.value.st == m.st
    ensures m.stop.None? <==> GoesOn(s, Collected(futures, s.id)) && Record(env, f, s, Collected(futures, s.id), st).1.None?
  {
    var result := Collected(futures, s.id);
    var (st2, error) := Record(env, f, s, result, st);
    if error.Some? then Merged(Some(Raise(error.value, st2)), st2, Some(result))
    else if !GoesOn(s, result) then Merged(Some(Returned(result, st2)), st2, Some(result))
    else Merged(None, st2, Some(result))
  }

  /** One merged step: its own result is stored, and the later steps'
      results and everything stored before are kept. */
  lemma MergeCovers(st: State, st2: State, st3: State, group: seq<StepSpec>, k: nat, goesOn: bool)
    requires k < |group| && Later(st, st2) && Later(st2, st3)
    requires Get(st2.steps, group[k].id).Some?
    requires goesOn ==> forall n | k + 1 <= n < |group| :: Get(st3.steps, group[n].id).Some?
    ensures Later(st, st3)
    ensures goesOn ==> forall n | k <= n < |group| :: Get(st3.steps, group[n].id).Some?
  {
    LaterTrans(st, st2, st3);
  }

  /** The result of `_run_step`, with how many times it invoked the
      action. */
  datatype StepRun = StepRun(run: Run, calls: nat)

  /** `_run_step(step)`: look the action up, refuse a more privileged one,
      render the input, and run the attempts under the step deadline. */
  function RunStep(env: Env, parent: ActionSpec, f: Frame, st: State, step: StepSpec): (r: Run)
    requires f.depth <= MaxDepth && RegistryOk(env)
    ensures Later(st, r.st)
    ensures r.raised.Some? ==> r.raised.value.UnknownAction? || r.raised.value.Escalation?
    decreases Budget(f.depth), 2, 0, 0
  {
    RunStepCounted(env, parent, f, st, step).run
  }

  function RunStepCounted(env: Env, parent: ActionSpec, f: Frame, st: State, step: StepSpec): (r: StepRun)
    requires f.depth <= MaxDepth && RegistryOk(env)
    ensures r.calls <= Max(0, step.retries + 1)
    ensures Later(st, r.run.st)
    ensures r.run.raised.Some? ==> r.run.raised.value.UnknownAction? || r.run.raised.value.Escalation?
    decreases Budget(f.depth), 1, Max(0, step.retries + 1) + 1, 0
  {
    var registry := env.registry.value;
    if step.use !in registry then StepRun(Raise(UnknownAction(step.use), st), 0)
    else
      var sub := registry[step.use];
      if AuthLevel(sub.auth) > AuthLevel(parent.auth) then
        StepRun(Raise(Escalation(sub.name, sub.auth, parent.auth), st), 0)
      else
        var view := View(env, f, st);
        var input := if step.input == Null then f.input else RenderValue(step.input, view);
        var child := Frame(input, f.depth + 1, StepDeadline(f.deadline, step.timeoutS, st.now));
        Attempts(env, sub, f.depth, child, st, 0, step.retries, false)
  }

  function TimeoutResult(): Outcome {
    ErrorResult(504, "timeout")
  }

  /** The retry loop from `attempt` on: stop at a passed deadline, and
      otherwise call the action once and go on with its outcome. With no
      attempt at all the step fails with 502. */
  function Attempts(env: Env, sub: ActionSpec, depth: int, child: Frame, st: State,
                    attempt: nat, retries: int, raisedBefore: bool): (r: StepRun)
    requires depth <= MaxDepth && child.depth == depth + 1
    ensures r.calls <= Max(0, retries + 1 - attempt)
    ensures Later(st, r.run.st)
    ensures r.run.raised.None?
    decreases Budget(depth), 1, Max(0, retries + 1 - attempt), 1
  {
    if attempt > retries then StepRun(Returned(ErrorResult(502, "step failed"), st), 0)
    else if child.deadline.Some? && st.now >= child.deadline.value then
      StepRun(Returned(TimeoutResult(), st), 0)
    else
      var run := ExecuteAction(env, sub, child, st);
      var r := AfterAttempt(env, sub, depth, child, run, attempt, retries, raisedBefore);
      LaterTrans(st, run.st, r.run.st);
      r
  }

  /** One attempt's outcome, `run`, counted as a call: return the first ok
      result, back off before the next attempt, and turn a final failure
      into a timeout when some attempt raised and the deadline has
      passed. */
  function AfterAttempt(env: Env, sub: ActionSpec, depth: int, child: Frame, run: Run,
                        attempt: nat, retries: int, raisedBefore: bool): (r: StepRun)
    requires depth <= MaxDepth && child.depth == depth + 1 && attempt <= retries
    ensures 1 <= r.calls <= Max(0, retries + 1 - attempt)
    ensures Later(run.st, r.run.st)
    ensures r.run.raised.None?
    decreases Budget(depth), 1, Max(0, retries + 1 - attempt), 0
  {
    var result := Caught(run);
    var raised := raisedBefore || run.raised.Some?;
    var st' := run.st;
    if IsOk(result) then StepRun(Returned(result, st'), 1)
    else if attempt < retries then
      var next := st'.(now := st'.now + Backoff(attempt));
      var rest := Attempts(env, sub, depth, child, next, attempt + 1, retries, raised);
      LaterTrans(st', next, rest.run.st);
      StepRun(rest.run, rest.calls + 1)
    else if raised && child.deadline.Some? && st'.now >= child.deadline.value then
      StepRun(Returned(TimeoutResult(), st'), 1)
    else StepRun(Returned(result, st'), 1)
  }

  /** An attempt that is due, with the deadline not yet passed, calls the
      action once and goes on with its outcome. */
  lemma AttemptRuns(env: Env, sub: ActionSpec, depth: int, child: Frame, st: State,
                    attempt: nat, retries: int, raisedBefore: bool)
    requires depth <= MaxDepth && child.depth == depth + 1 && attempt <= retries
    requires child.deadline.None? || st.now < child.deadline.value
    ensures Attempts(env, sub, depth, child, st, attempt, retries, raisedBefore)
      == AfterAttempt(env, sub, depth, child, ExecuteAction(env, sub, child, st), attempt, retries, raisedBefore)
  {
  }

  /** The last attempt, started before the deadline, fails: its result
      stands, unless some attempt so far raised and the deadline has
      passed by the time it returned, when the step times out. */
  lemma FinalFailure(env: Env, sub: ActionSpec, depth: int, child: Frame, st: State,
                     attempt: nat, raisedBefore: bool)
    requires depth <= MaxDepth && child.depth == depth + 1
    requires child.deadline.None? || st.now < child.deadline.value
    requires !IsOk(Caught(ExecuteAction(env, sub, child, st)))
    ensures var run := ExecuteAction(env, sub, child, st);
      Attempts(env, sub, depth, child, st, attempt, attempt, raisedBefore)
        == StepRun(Returned(if (raisedBefore || run.raised.Some?) && child.deadline.Some? && run.st.now >= child.deadline.value
                            then TimeoutResult() else Caught(run), run.st), 1)
  {
    AttemptRuns(env, sub, depth, child, st, attempt, attempt, raisedBefore);
  }

  /** Whenever an attempt is due and the deadline has passed, the step
      times out without calling the action. */
  lemma DeadlineStopsAttempts(env: Env, sub: ActionSpec, depth: int, child: Frame, st: State,
                              attempt: nat, retries: int, raisedBefore: bool)
    requires depth <= MaxDepth && child.depth == depth + 1 && attempt <= retries
    requires child.deadline.Some? && st.now >= child.deadline.value
    ensures Attempts(env, sub, depth, child, st, attempt, retries, raisedBefore)
      == StepRun(Returned(TimeoutResult(), st), 0)
  {
  }

  /** A failed attempt with attempts left backs off and goes on, the call
      counted. */
  lemma RetryStep(env: Env, sub: ActionSpec, depth: int, child: Frame, run: Run,
                  attempt: nat, retries: int, raisedBefore: bool)
    requires depth <= MaxDepth && child.depth == depth + 1 && attempt < retries
    requires !IsOk(Caught(run))
    ensures var rest := Attempts(env, sub, depth, child, run.st.(now := run.st.now + Backoff(attempt)),
                                 attempt + 1, retries, raisedBefore || run.raised.Some?);
      AfterAttempt(env, sub, depth, child, run, attempt, retries, raisedBefore) == StepRun(rest.run, rest.calls + 1)
  {
  }

  /** A failed attempt whose back-off carries the clock past the deadline
      ends the step with a timeout after that one call. */
  lemma BackoffPastDeadline(env: Env, sub: ActionSpec, depth: int, child: Frame, st: State,
                            attempt: nat, retries: int, raisedBefore: bool)
    requires depth <= MaxDepth && child.depth == depth + 1 && attempt < retries
    requires child.deadline.Some? && st.now < child.deadline.value
    requires !IsOk(Caught(ExecuteAction(env, sub, child, st)))
    requires ExecuteAction(env, sub, child, st).st.now + Backoff(attempt) >= child.deadline.value
    ensures var run := ExecuteAction(env, sub, child, st);
      Attempts(env, sub, depth, child, st, attempt, retries, raisedBefore)
        == StepRun(Returned(TimeoutResult(), run.st.(now := run.st.now + Backoff(attempt))), 1)
  {
    var run := ExecuteAction(env, sub, child, st);
    var next := run.st.(now := run.st.now + Backoff(attempt));
    AttemptRuns(env, sub, depth, child, st, attempt, retries, raisedBefore);
    RetryStep(env, sub, depth, child, run, attempt, retries, raisedBefore);
    DeadlineStopsAttempts(env, sub, depth, child, next, attempt + 1, retries, raisedBefore || run.raised.Some?);
  }
}

=== FILE: flow_laws.dfy ===
/**
 * What the workflow engine promises: the nesting limit, the refusals a
 * step raises, the retry loop, the sequential loop's three ways on from a
 * step, the collection of a parallel group's results and its merge, and
 * the choice of the flow's result.
 */
module FlowLaws {
  import opened Base
  import opened Strings
  import opened Json
  import opened Paths
  import opened Render
  import opened Flow

  // ---------------------------------------------------------------------
  // Entering a flow
  // ---------------------------------------------------------------------

  /** A flow entered more than 24 levels deep raises before it reads its
      registry or runs anything. */
  lemma TooDeepRefused(env: Env, parent: ActionSpec, flow: FlowSpec, f: Frame, st: State)
    requires f.depth > MaxDepth
    ensures ExecuteFlow(env, parent, flow, f, st) == Raise(TooDeep, st)
    ensures ErrorText(TooDeep) == "Flow nesting too deep"
  {
  }

  /** A flow with no registry (or an empty one) raises. */
  lemma RegistryRequired(env: Env, parent: ActionSpec, flow: FlowSpec, f: Frame, st: State)
    requires f.depth <= MaxDepth && !RegistryOk(env)
    ensures ExecuteFlow(env, parent, flow, f, st) == Raise(NoRegistry, st)
  {
  }

  /** A flow with no steps returns an empty success, or, when it names a
      return step that nothing stored, the "return_step missing" error. */
  lemma EmptyFlow(env: Env, parent: ActionSpec, flow: FlowSpec, f: Frame, st: State)
    requires f.depth <= MaxDepth && RegistryOk(env) && flow.steps == []
    ensures ExecuteFlow(env, parent, flow, f, st).raised.None?
    ensures flow.returnStep == [] ==>
      ExecuteFlow(env, parent, flow, f, st).result == Result3(true, 200, Null)
    ensures flow.returnStep != [] && !Get(st.steps, flow.returnStep).Some? ==>
      ExecuteFlow(env, parent, flow, f, st).result == ErrorResult(500, "flow return_step missing")
  {
    var st' := InitVars(flow.vars, env, f, st);
    assert st'.steps == st.steps;
  }

  // ---------------------------------------------------------------------
  // One step
  // ---------------------------------------------------------------------

  /** The only errors that escape a step are an unknown action and a more
      privileged one; everything raised while running the action is
      caught by the retry loop. */
  lemma StepRaisesOnlyRefusals(env: Env, parent: ActionSpec, f: Frame, st: State, step: StepSpec)
    requires f.depth <= MaxDepth && RegistryOk(env)
    ensures var r := RunStep(env, parent, f, st, step);
      r.raised.Some? <==>
        (|| step.use !in env.registry.value
         || AuthLevel(env.registry.value[step.use].auth) > AuthLevel(parent.auth))
    ensures step.use !in env.registry.value ==>
      RunStep(env, parent, f, st, step) == Raise(UnknownAction(step.use), st)
    ensures step.use in env.registry.value ==>
      var sub := env.registry.value[step.use];
      AuthLevel(sub.auth) > AuthLevel(parent.auth) ==>
        RunStep(env, parent, f, st, step) == Raise(Escalation(sub.name, sub.auth, parent.auth), st)
  {
  }

  /** A flow running at the deepest level allowed that uses a flow action
      gets the nesting error back as a 500 result, after a single attempt
      and with nothing changed. */
  lemma NestedTooDeepCaught(env: Env, parent: ActionSpec, f: Frame, st: State, step: StepSpec)
    requires RegistryOk(env) && f.depth == MaxDepth
    requires step.use in env.registry.value
    requires var sub := env.registry.value[step.use];
      sub.kind == FlowKind && sub.flow.Some? && AuthLevel(sub.auth) <= AuthLevel(parent.auth)
    requires step.retries == 0 && f.deadline.None? && step.timeoutS.None?
    ensures RunStepCounted(env, parent, f, st, step)
         == StepRun(Returned(ErrorResult(500, "Flow nesting too deep"), st), 1)
  {
    var sub := env.registry.value[step.use];
    var input := if step.input == Null then f.input else RenderValue(step.input, View(env, f, st));
    var child := Frame(input, f.depth + 1, None);
    assert StepDeadline(f.deadline, step.timeoutS, st.now).None?;
    assert RunStepCounted(env, parent, f, st, step) == Attempts(env, sub, f.depth, child, st, 0, 0, false);
    TooDeepRaises(env, sub, child, st);
    assert Caught(Raise(TooDeep, st)) == ErrorResult(500, "Flow nesting too deep");
    LastAttemptFails(env, sub, f.depth, child, st, 0, false);
  }

  /** Without a deadline, a failing last attempt is the step's result. */
  lemma LastAttemptFails(env: Env, sub: ActionSpec, depth: int, child: Frame, st: State,
                         attempt: nat, raisedBefore: bool)
    requires depth <= MaxDepth && child.depth == depth + 1 && child.deadline.None?
    requires !IsOk(Caught(ExecuteAction(env, sub, child, st)))
    ensures var run := ExecuteAction(env, sub, child, st);
      Attempts(env, sub, depth, child, st, attempt, attempt, raisedBefore)
        == StepRun(Returned(Caught(run), run.st), 1)
  {
  }

  /** A flow action called beyond the depth limit raises at once. */
  lemma TooDeepRaises(env: Env, sub: ActionSpec, child: Frame, st: State)
    requires child.depth > MaxDepth && sub.kind == FlowKind && sub.flow.Some?
    ensures ExecuteAction(env, sub, child, st) == Raise(TooDeep, st)
  {
    assert ExecuteFlow(env, sub, sub.flow.value, child, st) == Raise(TooDeep, st);
  }

  /** A step timeout of zero or less, or a parent deadline already passed,
      times the step out before any attempt. */
  lemma ExpiredStepTimesOut(env: Env, parent: ActionSpec, f: Frame, st: State, step: StepSpec)
    requires f.depth <= MaxDepth && RegistryOk(env)
    requires step.use in env.registry.value
    requires AuthLevel(env.registry.value[step.use].auth) <= AuthLevel(parent.auth)
    requires step.retries >= 0
    requires (step.timeoutS.Some? && step.timeoutS.value <= 0) || (f.deadline.Some? && f.deadline.value <= st.now)
    ensures RunStepCounted(env, parent, f, st, step) == StepRun(Returned(TimeoutResult(), st), 0)
  {
    var d := StepDeadline(f.deadline, step.timeoutS, st.now);
    assert d.Some? && d.value <= st.now;
  }

  /** With no retries allowed at all (a negative count) the step fails
      with 502 and the action is never called. */
  lemma NoAttemptFails(env: Env, parent: ActionSpec, f: Frame, st: State, step: StepSpec)
    requires f.depth <= MaxDepth && RegistryOk(env)
    requires step.use in env.registry.value
    requires AuthLevel(env.registry.value[step.use].auth) <= AuthLevel(parent.auth)
    requires step.retries < 0
    ensures RunStepCounted(env, parent, f, st, step) == StepRun(Returned(ErrorResult(502, "step failed"), st), 0)
  {
  }

  /** The first attempt whose result is ok ends the loop with that result. */
  lemma FirstOkReturned(env: Env, sub: ActionSpec, depth: int, child: Frame, st: State,
                        attempt: nat, retries: int, raisedBefore: bool)
    requires depth <= MaxDepth && child.depth == depth + 1 && attempt <= retries
    requires child.deadline.None? || st.now < child.deadline.value
    requires IsOk(Caught(ExecuteAction(env, sub, child, st)))
    ensures var run := ExecuteAction(env, sub, child, st);
      Attempts(env, sub, depth, child, st, attempt, retries, raisedBefore)
        == StepRun(Returned(Caught(run), run.st), 1)
  {
  }

  /** Without a deadline, an action that never succeeds is called once per
      remaining attempt, and the step ends with the failed result and state
      of one of those calls, the last; the bound the retry loop promises is
      therefore reached. */
  lemma {:induction false} RetriesExhausted(env: Env, sub: ActionSpec, depth: int, child: Frame, st: State,
                                             attempt: nat, retries: int, raisedBefore: bool)
    requires depth <= MaxDepth && child.depth == depth + 1 && attempt <= retries
    requires child.deadline.None?
    requires forall s: State :: !IsOk(Caught(ExecuteAction(env, sub, child, s)))
    ensures var r := Attempts(env, sub, depth, child, st, attempt, retries, raisedBefore);
      r.calls == retries + 1 - attempt && !IsOk(r.run.result)
    ensures var r := Attempts(env, sub, depth, child, st, attempt, retries, raisedBefore);
      exists s: State :: r.run == Returned(Caught(ExecuteAction(env, sub, child, s)), ExecuteAction(env, sub, child, s).st)
    decreases retries - attempt
  {
    var run := ExecuteAction(env, sub, child, st);
    assert !IsOk(Caught(run));
    AttemptRuns(env, sub, depth, child, st, attempt, retries, raisedBefore);
    if attempt < retries {
      var st' := run.st.(now := run.st.now + Backoff(attempt));
      var raised := raisedBefore || run.raised.Some?;
      RetryStep(env, sub, depth, child, run, attempt, retries, raisedBefore);
      RetriesExhausted(env, sub, depth, child, st', attempt + 1, retries, raised);
    } else {
      assert AfterAttempt(env, sub, depth, child, run, attempt, retries, raisedBefore)
        == StepRun(Returned(Caught(run), run.st), 1);
    }
  }


  // ---------------------------------------------------------------------
  // The sequential loop
  // ---------------------------------------------------------------------

  /** A sequential step whose refusal escapes ends the flow with that
      error; its result is not stored and nothing after it runs. */
  lemma RefusalEndsFlow(env: Env, parent: ActionSpec, flow: FlowSpec, f: Frame, st: State,
                        i: nat, last: Option<Outcome>)
    requires f.depth <= MaxDepth && RegistryOk(env) && i < |flow.steps|
    requires !flow.steps[i].parallel
    requires ShouldRun(flow.steps[i], View(env, f, st), env.re) == Ok(true)
    requires RunStep(env, parent, f, st, flow.steps[i]).raised.Some?
    ensures RunSteps(env, parent, flow, f, st, i, last) == RunStep(env, parent, f, st, flow.steps[i])
  {
  }

  /** A sequential step that fails and does not continue ends the flow
      with its own result (whatever `return_step` says), once stored. */
  lemma FailureEndsFlow(env: Env, parent: ActionSpec, flow: FlowSpec, f: Frame, st: State,
                        i: nat, last: Option<Outcome>)
    requires f.depth <= MaxDepth && RegistryOk(env) && i < |flow.steps|
    requires var step := flow.steps[i];
      && !step.parallel && !Truthy(step.setMap)
      && ShouldRun(step, View(env, f, st), env.re) == Ok(true)
    requires var run := RunStep(env, parent, f, st, flow.steps[i]);
      run.raised.None? && !GoesOn(flow.steps[i], run.result)
    ensures var run := RunStep(env, parent, f, st, flow.steps[i]);
      RunSteps(env, parent, flow, f, st, i, last)
        == Returned(run.result, Store(run.st, flow.steps[i].id, run.result))
  {
  }

  /** A sequential step that succeeds, or fails with `on_error` set to
      continue, is stored and becomes the last result, and the loop goes
      on with the next step. */
  lemma StepGoesOn(env: Env, parent: ActionSpec, flow: FlowSpec, f: Frame, st: State,
                   i: nat, last: Option<Outcome>)
    requires f.depth <= MaxDepth && RegistryOk(env) && i < |flow.steps|
    requires var step := flow.steps[i];
      && !step.parallel && !Truthy(step.setMap)
      && ShouldRun(step, View(env, f, st), env.re) == Ok(true)
    requires var run := RunStep(env, parent, f, st, flow.steps[i]);
      run.raised.None? && GoesOn(flow.steps[i], run.result)
    ensures var run := RunStep(env, parent, f, st, flow.steps[i]);
      RunSteps(env, parent, flow, f, st, i, last)
        == RunSteps(env, parent, flow, f, Store(run.st, flow.steps[i].id, run.result), i + 1, Some(run.result))
  {
  }

  /** A sequential step that ran, with any `set` mapping: its result is
      stored and its mapping applied; a malformed mapping raises, a
      failure that does not continue ends the flow with the step's result,
      and otherwise the loop goes on from the recorded state. */
  lemma StepRecords(env: Env, parent: ActionSpec, flow: FlowSpec, f: Frame, st: State,
                    i: nat, last: Option<Outcome>)
    requires f.depth <= MaxDepth && RegistryOk(env) && i < |flow.steps|
    requires !flow.steps[i].parallel
    requires ShouldRun(flow.steps[i], View(env, f, st), env.re) == Ok(true)
    requires RunStep(env, parent, f, st, flow.steps[i]).raised.None?
    ensures var run := RunStep(env, parent, f, st, flow.steps[i]);
      var rec := Record(env, f, flow.steps[i], run.result, run.st);
      RunSteps(env, parent, flow, f, st, i, last) ==
        if rec.1.Some? then Raise(rec.1.value, rec.0)
        else if !GoesOn(flow.steps[i], run.result) then Returned(run.result, rec.0)
        else RunSteps(env, parent, flow, f, rec.0, i + 1, Some(run.result))
  {
  }

  /** A sequential step whose `when` is false is not run: the skip result
      (ok, status 204, marked skipped) is stored and becomes the last
      result. */
  lemma GatedOutSkips(env: Env, parent: ActionSpec, flow: FlowSpec, f: Frame, st: State,
                      i: nat, last: Option<Outcome>)
    requires f.depth <= MaxDepth && RegistryOk(env) && i < |flow.steps|
    requires var step := flow.steps[i];
      && !step.parallel && !Truthy(step.setMap)
      && ShouldRun(step, View(env, f, st), env.re) == Ok(false)
    ensures RunSteps(env, parent, flow, f, st, i, last)
         == RunSteps(env, parent, flow, f, Store(st, flow.steps[i].id, SkipResult()), i + 1, Some(SkipResult()))
    ensures IsOk(SkipResult()) && GetOrNull(SkipResult(), "status") == Int(204)
    ensures GetOrNull(SkipResult(), "skipped") == Bool(true)
  {
    var r3 := Result3(true, 204, Null);
    var sk := SkipResult();
    assert |r3| == 3 && sk == r3 + [("skipped", Bool(true))];
    assert IsOk(sk) && GetOrNull(sk, "status") == Int(204) by {
      assert sk[..3] == r3;
      assert GetOrNull(r3, "ok") == Bool(true);
      PrefixGet(r3, [("skipped", Bool(true))], "ok");
      PrefixGet(r3, [("skipped", Bool(true))], "status");
    }
    assert GetOrNull(r3, "skipped") == Null;
    SuffixGet(r3, [("skipped", Bool(true))], "skipped");
    GetHead([("skipped", Bool(true))], "skipped");
  }

  /** A gated-out step still applies its `set` mapping, against the
      context that already holds the skip result: a malformed mapping
      raises, otherwise the loop goes on from the recorded state with the
      skip result as the last one. */
  lemma GatedOutRecords(env: Env, parent: ActionSpec, flow: FlowSpec, f: Frame, st: State,
                        i: nat, last: Option<Outcome>)
    requires f.depth <= MaxDepth && RegistryOk(env) && i < |flow.steps|
    requires !flow.steps[i].parallel
    requires ShouldRun(flow.steps[i], View(env, f, st), env.re) == Ok(false)
    ensures Record(env, f, flow.steps[i], SkipResult(), st).1.Some? ==>
      RunSteps(env, parent, flow, f, st, i, last)
        == Raise(Record(env, f, flow.steps[i], SkipResult(), st).1.value,
                 Record(env, f, flow.steps[i], SkipResult(), st).0)
    ensures Record(env, f, flow.steps[i], SkipResult(), st).1.None? ==>
      RunSteps(env, parent, flow, f, st, i, last)
        == RunSteps(env, parent, flow, f, Record(env, f, flow.steps[i], SkipResult(), st).0, i + 1, Some(SkipResult()))
  {
  }

  /** A `set` entry whose value is exactly `${steps.<id>.<field>}`, for the
      step's own id, reads the result the step just stored: `set` runs
      after the store, so the variable holds that field of the result. */
  lemma SetReadsOwnStep(env: Env, f: Frame, step: StepSpec, result: Outcome, st: State,
                        key: string, field: string, rest: Dict)
    requires PathKey(step.id) && PathKey(field) && '}' !in step.id && '}' !in field
    requires key != [] && key !in Keys(rest) && forall i | 0 <= i < |rest| :: rest[i].0 != []
    requires step.setMap == Obj([(key, Str("${steps." + step.id + "." + field + "}"))] + rest)
    ensures Record(env, f, step, result, st).1.None?
    ensures Get(Record(env, f, step, result, st).0.vars, key) == Some(GetOrNull(result, field))
  {
    var st1 := Store(st, step.id, result);
    var fs := step.setMap.fields;
    var t := "${" + ("steps" + "." + step.id + "." + field) + "}";
    OwnStepTemplate(step.id, field);
    assert fs[0] == (key, Str(t)) && fs[1..] == rest;
    var v := RenderValue(Str(t), View(env, f, st1));
    OwnStepRenders(env, f, st1, step.id, field, result);
    var written := st1.(vars := Put(st1.vars, key, v));
    var applied := SetEntries(step.id, fs[1..], env, f, written);
    assert SetEntries(step.id, fs, env, f, st1) == applied;
    assert Truthy(step.setMap) && step.setMap.Obj?;
    assert ApplySet(step.id, step.setMap, env, f, st1) == applied;
    assert key !in Keys(fs[1..]);
    assert Get(applied.vars, key) == Get(written.vars, key);
  }

  lemma StepsKey()
    ensures PathKey("steps")
  {
    var s := "steps";
    forall i | 0 <= i < |s| ensures !IsSpace(s[i]) && s[i] != '.' {
      assert 'a' <= s[i] <= 'z';
    }
  }

  lemma OwnStepTemplate(id: string, field: string)
    ensures "${steps." + id + "." + field + "}" == "${" + ("steps" + "." + id + "." + field) + "}"
  {
    calc {
      "${steps." + id + "." + field + "}";
      { assert "${steps." == "${" + ("steps" + "."); }
      "${" + ("steps" + ".") + id + "." + field + "}";
      "${" + ("steps" + "." + id) + "." + field + "}";
      "${" + ("steps" + "." + id + ".") + field + "}";
      "${" + ("steps" + "." + id + "." + field) + "}";
    }
  }

  /** The placeholder `${steps.<id>.<field>}` renders, typed, to the field
      of the result stored under `id`. */
  lemma OwnStepRenders(env: Env, f: Frame, st: State, id: string, field: string, result: Outcome)
    requires PathKey(id) && PathKey(field) && '}' !in id && '}' !in field
    requires Get(st.steps, id) == Some(Obj(result))
    ensures RenderValue(Str("${" + ("steps" + "." + id + "." + field) + "}"), View(env, f, st))
         == GetOrNull(result, field)
  {
    var view := View(env, f, st);
    var x := "steps" + "." + id + "." + field;
    OwnStepHole(id, field);
    RenderTyped("${" + x + "}", x, view);
    StepsKey();
    LookupThreeKeys("steps", id, field, view);
    GetHead(view, "steps");
  }

  /** The placeholder text of `OwnStepRenders` is a whole hole with no
      surrounding spaces. */
  lemma OwnStepHole(id: string, field: string)
    requires PathKey(id) && PathKey(field) && '}' !in id && '}' !in field
    ensures IsHoleText("steps" + "." + id + "." + field)
    ensures Strip("steps" + "." + id + "." + field) == "steps" + "." + id + "." + field
    ensures Strip("${" + ("steps" + "." + id + "." + field) + "}") == "${" + ("steps" + "." + id + "." + field) + "}"
  {
    var x := "steps" + "." + id + "." + field;
    var t := "${" + x + "}";
    assert IsHoleText(x);
    assert x[0] == 's' && x[|x| - 1] == field[|field| - 1];
    StripOfNoEdgeSpace(t);
    StripOfNoEdgeSpace(x);
  }

  /** A key found in the front of a dict is found there in the whole. */
  lemma {:induction false} PrefixGet(a: Dict, b: Dict, k: string)
    requires Get(a, k).Some?
    ensures Get(a + b, k) == Get(a, k)
  {
    if a[0].0 == k {
      GetHead(a, k);
      GetHead(a + b, k);
    } else {
      GetSkip(a, k);
      GetSkip(a + b, k);
      assert (a + b)[1..] == a[1..] + b;
      PrefixGet(a[1..], b, k);
    }
  }

  /** A key missing from the front of a dict is looked up in the rest. */
  lemma {:induction false} SuffixGet(a: Dict, b: Dict, k: string)
    requires Get(a, k).None?
    ensures Get(a + b, k) == Get(b, k)
  {
    if a == [] {
      assert a + b == b;
    } else {
      GetSkip(a, k);
      GetSkip(a + b, k);
      assert (a + b)[1..] == a[1..] + b;
      SuffixGet(a[1..], b, k);
    }
  }

  // ---------------------------------------------------------------------
  // Parallel groups
  // ---------------------------------------------------------------------

  /** Siblings that are gated out, or that use another id, leave an entry
      of the collected results alone. */
  lemma {:induction false} SiblingsKeep(env: Env, parent: ActionSpec, f: Frame, st: State, group: seq<StepSpec>,
                                        flags: seq<bool>, k: nat, futures: Dict, end: int, id: string)
    requires f.depth <= MaxDepth && RegistryOk(env) && |flags| == |group| && k <= |group|
    requires forall m | k <= m < |group| :: flags[m] ==> group[m].id != id
    ensures Get(RunSiblings(env, parent, f, st, group, flags, k, futures, end).0, id) == Get(futures, id)
    decreases |group| - k
  {
    if k < |group| {
      if flags[k] {
        var run := RunStep(env, parent, f, st, group[k]);
        SiblingsKeep(env, parent, f, st, group, flags, k + 1,
                     Put(futures, group[k].id, Obj(Caught(run))), Max(end, run.st.now), id);
      } else {
        SiblingsKeep(env, parent, f, st, group, flags, k + 1, futures, end, id);
      }
    }
  }

  /** A sibling that runs contributes its result, with a raised error
      turned into a 500 result, each sibling starting from the state
      before the group; a later sibling with the same id would replace
      it. */
  lemma {:induction false} SiblingCollected(env: Env, parent: ActionSpec, f: Frame, st: State, group: seq<StepSpec>,
                                            flags: seq<bool>, k: nat, futures: Dict, end: int, n: nat)
    requires f.depth <= MaxDepth && RegistryOk(env) && |flags| == |group| && k <= n < |group|
    requires flags[n]
    requires forall m | n < m < |group| :: group[m].id != group[n].id
    ensures Get(RunSiblings(env, parent, f, st, group, flags, k, futures, end).0, group[n].id)
         == Some(Obj(Caught(RunStep(env, parent, f, st, group[n]))))
    decreases |group| - k
  {
    if flags[k] {
      var run := RunStep(env, parent, f, st, group[k]);
      var futures' := Put(futures, group[k].id, Obj(Caught(run)));
      if k == n {
        SiblingsKeep(env, parent, f, st, group, flags, k + 1, futures', Max(end, run.st.now), group[n].id);
      } else {
        SiblingCollected(env, parent, f, st, group, flags, k + 1, futures', Max(end, run.st.now), n);
      }
    } else {
      SiblingCollected(env, parent, f, st, group, flags, k + 1, futures, end, n);
    }
  }

  /** A merge that stops with a result stops at the first step, in
      declared order, whose result failed and which does not continue,
      and returns that result. */
  lemma {:induction false} MergeStopsAtFirstFailure(env: Env, f: Frame, group: seq<StepSpec>, futures: Dict, k: nat,
                                                    st: State, last: Option<Outcome>)
      returns (n: nat)
    requires k <= |group|
    requires var m := Merge(env, f, group, futures, k, st, last);
      m.stop.Some? && m.stop.value.raised.None?
    ensures k <= n < |group|
    ensures !GoesOn(group[n], Collected(futures, group[n].id))
    ensures Merge(env, f, group, futures, k, st, last).stop.value.result == Collected(futures, group[n].id)
    ensures forall p | k <= p < n :: GoesOn(group[p], Collected(futures, group[p].id))
    decreases |group| - k
  {
    var s := group[k];
    var result := Collected(futures, s.id);
    var (st2, error) := Record(env, f, s, result, st);
    if error.None? && GoesOn(s, result) {
      n := MergeStopsAtFirstFailure(env, f, group, futures, k + 1, st2, Some(result));
      forall p | k <= p < n ensures GoesOn(group[p], Collected(futures, group[p].id)) {
        if p == k {
          assert GoesOn(s, result);
        }
      }
    } else {
      n := k;
    }
  }

  /** When every step of a group merges without stopping, the loop goes
      on after the group; a group that raises while deciding its `when`s
      runs nothing. */
  lemma ParallelGroup(env: Env, parent: ActionSpec, flow: FlowSpec, f: Frame, st: State,
                      i: nat, last: Option<Outcome>)
    requires f.depth <= MaxDepth && RegistryOk(env) && i < |flow.steps| && flow.steps[i].parallel
    ensures var j := GroupEnd(flow.steps, i);
      var pre := PreEval(flow.steps[i..j], View(env, f, st), env.re);
      pre.Err? ==> RunSteps(env, parent, flow, f, st, i, last) == Raise(pre.error, st)
    ensures var j := GroupEnd(flow.steps, i);
      var group := flow.steps[i..j];
      var pre := PreEval(group, View(env, f, st), env.re);
      pre.Ok? ==>
        var done := RunSiblings(env, parent, f, st, group, pre.value, 0, [], st.now);
        var m := Merge(env, f, group, done.0, 0, st.(now := done.1), last);
        && st.now <= done.1
        && (m.stop.None? ==> RunSteps(env, parent, flow, f, st, i, last)
                             == RunSteps(env, parent, flow, f, m.st, j, m.last))
  {
  }
}

=== FILE: gallery.dfy ===
/**
 * The naming logic of the gallery's download (vibeweb/gallery.py): the
 * slug made from an app's name, and the names of the archive and of the
 * two entries in it.
 */
module Gallery {
  import opened Base
  import opened Strings
  import opened Json

  /** The ASCII letters and digits of `s`, in order: everything a slug
      keeps. */
  function AlnumOnly(s: string): string
    decreases |s|
  {
    if s == [] then []
    else (if IsAsciiAlnum(s[0]) then [s[0]] else []) + AlnumOnly(s[1..])
  }

  lemma {:induction false} AlnumOnlyAppend(a: string, b: string)
    ensures AlnumOnly(a + b) == AlnumOnly(a) + AlnumOnly(b)
    decreases |a|
  {
    if a == [] {
      assert a + b == b;
    } else {
      AlnumOnlyAppend(a[1..], b);
      assert (a + b)[0] == a[0] && (a + b)[1..] == a[1..] + b;
    }
  }

  lemma {:induction false} AlnumOnlyOfNone(s: string)
    requires forall i | 0 <= i < |s| :: !IsAsciiAlnum(s[i])
    ensures AlnumOnly(s) == []
    decreases |s|
  {
    if s != [] {
      AlnumOnlyOfNone(s[1..]);
    }
  }

  /** The characters a slug is made of. */
  predicate SlugChar(c: char) {
    ('a' <= c <= 'z') || IsDigit(c) || c == '-'
  }

  predicate NoDoubleDash(s: string) {
    forall i | 0 <= i < |s| - 1 :: !(s[i] == '-' && s[i + 1] == '-')
  }

  /** A slug: lower-case letters, digits and single dashes, with a letter
      or digit at each end. */
  predicate IsSlug(s: string) {
    && s != []
    && (forall i | 0 <= i < |s| :: SlugChar(s[i]))
    && NoDoubleDash(s)
    && s[0] != '-' && s[|s| - 1] != '-'
  }

  /** The rest of `s` after its leading run of non-alphanumerics. */
  function DropRun(s: string): (t: string)
    ensures |t| <= |s| && t == s[|s| - |t|..]
    ensures t == [] || IsAsciiAlnum(t[0])
    ensures AlnumOnly(t) == AlnumOnly(s)
    decreases |s|
  {
    if s == [] || IsAsciiAlnum(s[0]) then s else DropRun(s[1..])
  }

  /** `re.sub(r"[^a-zA-Z0-9]+", "-", s)`. */
  function DashRuns(s: string): (r: string)
    ensures forall i | 0 <= i < |r| :: IsAsciiAlnum(r[i]) || r[i] == '-'
    ensures NoDoubleDash(r)
    ensures r == [] <==> s == []
    ensures s != [] ==> (r[0] == '-' <==> !IsAsciiAlnum(s[0]))
    decreases |s|
  {
    if s == [] then []
    else if IsAsciiAlnum(s[0]) then [s[0]] + DashRuns(s[1..])
    else "-" + DashRuns(DropRun(s[1..]))
  }

  /** Every letter and digit survives the substitution, in order. */
  lemma {:induction false} DashRunsKeepsAlnum(s: string)
    ensures AlnumOnly(DashRuns(s)) == AlnumOnly(s)
    decreases |s|
  {
    if s != [] {
      var r := DashRuns(s);
      if IsAsciiAlnum(s[0]) {
        DashRunsKeepsAlnum(s[1..]);
        AlnumOnlyAppend([s[0]], DashRuns(s[1..]));
      } else {
        var t := DropRun(s[1..]);
        DashRunsKeepsAlnum(t);
        AlnumOnlyAppend("-", DashRuns(t));
        assert AlnumOnly("-") == [];
      }
    }
  }

  /** `s.lstrip("-")`. */
  function LStripDash(s: string): (r: string)
    ensures |r| <= |s| && r == s[|s| - |r|..]
    ensures r == [] || r[0] != '-'
    decreases |s|
  {
    if s != [] && s[0] == '-' then LStripDash(s[1..]) else s
  }

  /** `s.rstrip("-")`. */
  function RStripDash(s: string): (r: string)
    ensures |r| <= |s| && r == s[..|r|]
    ensures r == [] || r[|r| - 1] != '-'
    decreases |s|
  {
    if s != [] && s[|s| - 1] == '-' then RStripDash(s[..|s| - 1]) else s
  }

  /** `s.strip("-")`. */
  function StripDash(s: string): (r: string)
    ensures r == [] || (r[0] != '-' && r[|r| - 1] != '-')
  {
    var l := LStripDash(s);
    var r := RStripDash(l);
    assert r == [] || r[0] == l[0];
    r
  }

  lemma {:induction false} LStripDashKeepsAlnum(s: string)
    ensures AlnumOnly(LStripDash(s)) == AlnumOnly(s)
    decreases |s|
  {
    if s != [] && s[0] == '-' {
      LStripDashKeepsAlnum(s[1..]);
    }
  }

  lemma {:induction false} RStripDashKeepsAlnum(s: string)
    ensures AlnumOnly(RStripDash(s)) == AlnumOnly(s)
    decreases |s|
  {
    if s != [] && s[|s| - 1] == '-' {
      var t := s[..|s| - 1];
      RStripDashKeepsAlnum(t);
      assert s == t + "-";
      AlnumOnlyAppend(t, "-");
      assert AlnumOnly("-") == [];
    }
  }

  /** Stripping dashes removes no letter or digit. */
  lemma StripDashKeepsAlnum(s: string)
    ensures AlnumOnly(StripDash(s)) == AlnumOnly(s)
  {
    LStripDashKeepsAlnum(s);
    RStripDashKeepsAlnum(LStripDash(s));
  }

  /** What remains after stripping dashes is a contiguous part of `s`. */
  lemma StripDashIsInfix(s: string) returns (k: nat)
    ensures k + |StripDash(s)| <= |s|
    ensures forall i | 0 <= i < |StripDash(s)| :: StripDash(s)[i] == s[k + i]
  {
    var l := LStripDash(s);
    k := |s| - |l|;
  }

  /** Letters, digits and single dashes keep that shape when the end
      dashes are removed. */
  lemma StripDashShape(s: string)
    requires forall i | 0 <= i < |s| :: IsAsciiAlnum(s[i]) || s[i] == '-'
    requires NoDoubleDash(s)
    ensures var r := StripDash(s);
      && (forall i | 0 <= i < |r| :: IsAsciiAlnum(r[i]) || r[i] == '-')
      && NoDoubleDash(r)
  {
    var k := StripDashIsInfix(s);
    var r := StripDash(s);
    forall i | 0 <= i < |r| - 1 ensures !(r[i] == '-' && r[i + 1] == '-') {
      assert r[i] == s[k + i] && r[i + 1] == s[k + i + 1];
    }
  }

  lemma {:induction false} LStripKeepsAlnum(s: string)
    ensures AlnumOnly(LStrip(s)) == AlnumOnly(s)
    decreases |s|
  {
    if |s| > 0 && IsSpace(s[0]) {
      LStripKeepsAlnum(s[1..]);
      SpaceIsNotAlnum(s[0]);
      assert LStrip(s) == LStrip(s[1..]);
      assert AlnumOnly(s) == AlnumOnly(s[1..]);
    }
  }

  lemma SpaceIsNotAlnum(c: char)
    requires IsSpace(c)
    ensures !IsAsciiAlnum(c)
  {
  }

  lemma {:induction false} RStripKeepsAlnum(s: string)
    ensures AlnumOnly(RStrip(s)) == AlnumOnly(s)
    decreases |s|
  {
    if |s| > 0 && IsSpace(s[|s| - 1]) {
      var t := s[..|s| - 1];
      var c := s[|s| - 1];
      RStripKeepsAlnum(t);
      assert s == t + [c];
      AlnumOnlyAppend(t, [c]);
      SpaceIsNotAlnum(c);
      assert AlnumOnly([c]) == [];
    }
  }

  /** Whitespace holds no letter or digit. */
  lemma StripKeepsAlnum(s: string)
    ensures AlnumOnly(Strip(s)) == AlnumOnly(s)
  {
    LStripKeepsAlnum(s);
    RStripKeepsAlnum(LStrip(s));
  }

  /** A string of letters, digits and dashes is empty after stripping its
      dashes exactly when it has no letter or digit. */
  lemma EmptyIffNoAlnum(s: string)
    requires forall i | 0 <= i < |s| :: IsAsciiAlnum(s[i]) || s[i] == '-'
    ensures StripDash(s) == [] <==> AlnumOnly(s) == []
  {
    StripDashKeepsAlnum(s);
    var r := StripDash(s);
    if r != [] {
      var k := StripDashIsInfix(s);
      assert r[0] == s[k];
      assert IsAsciiAlnum(r[0]);
      assert AlnumOnly(r) != [];
    }
  }

  /** The fallback slug for a name without letters or digits. */
  const DefaultSlug := "vibeweb_app"

  /** `_slugify(value)`. */
  function Slugify(value: string): (r: string)
    ensures r != []
    ensures AlnumOnly(value) == [] ==> r == DefaultSlug
    ensures AlnumOnly(value) != [] ==> IsSlug(r) && AlnumOnly(r) == Lower(AlnumOnly(value))
  {
    var d := DashRuns(Strip(value));
    var c := Lower(StripDash(d));
    SlugifyFacts(value);
    if c == [] then DefaultSlug else c
  }

  lemma SlugifyFacts(value: string)
    ensures var c := Lower(StripDash(DashRuns(Strip(value))));
      && (c == [] <==> AlnumOnly(value) == [])
      && (c != [] ==> IsSlug(c) && AlnumOnly(c) == Lower(AlnumOnly(value)))
  {
    var d := DashRuns(Strip(value));
    var s := StripDash(d);
    var c := Lower(s);
    StripKeepsAlnum(value);
    DashRunsKeepsAlnum(Strip(value));
    StripDashKeepsAlnum(d);
    StripDashShape(d);
    EmptyIffNoAlnum(d);
    if c != [] {
      LowerAlnum(s);
      LowerKeepsShape(s);
    }
  }

  /** Lower-casing letters, digits and single dashes gives a slug when
      both ends are letters or digits. */
  lemma LowerKeepsShape(s: string)
    requires s != [] && s[0] != '-' && s[|s| - 1] != '-'
    requires forall i | 0 <= i < |s| :: IsAsciiAlnum(s[i]) || s[i] == '-'
    requires NoDoubleDash(s)
    ensures IsSlug(Lower(s))
  {
    var c := Lower(s);
    forall i | 0 <= i < |s| ensures SlugChar(c[i]) && (c[i] == '-' <==> s[i] == '-') {
      assert c[i] == AsciiLowerChar(s[i]);
    }
    forall i | 0 <= i < |c| - 1 ensures !(c[i] == '-' && c[i + 1] == '-') {
      assert c[i] == '-' <==> s[i] == '-';
      assert c[i + 1] == '-' <==> s[i + 1] == '-';
    }
  }

  /** ASCII lower-casing commutes with keeping the letters and digits. */
  lemma {:induction false} LowerAlnum(s: string)
    requires forall i | 0 <= i < |s| :: IsAsciiAlnum(s[i]) || s[i] == '-'
    ensures AlnumOnly(Lower(s)) == Lower(AlnumOnly(s))
    decreases |s|
  {
    if s != [] {
      LowerAlnum(s[1..]);
      assert Lower(s) == [AsciiLowerChar(s[0])] + Lower(s[1..]);
      AlnumOnlyAppend([AsciiLowerChar(s[0])], Lower(s[1..]));
      var a := if IsAsciiAlnum(s[0]) then [s[0]] else [];
      assert Lower(a + AlnumOnly(s[1..])) == Lower(a) + Lower(AlnumOnly(s[1..]));
    }
  }

  /** A slug is its own slug. */
  lemma SlugifyStable(s: string)
    requires IsSlug(s)
    ensures Slugify(s) == s
  {
    NoSpaceOfSlug(s);
    StripOfNoSpace(s);
    SlugCharsAreAlnumOrDash(s);
    DashRunsOfSlugChars(s);
    assert StripDash(s) == s by {
      assert LStripDash(s) == s;
      assert RStripDash(s) == s;
    }
    LowerOfSlugChars(s);
  }

  lemma SlugCharsAreAlnumOrDash(s: string)
    requires IsSlug(s)
    ensures forall i | 0 <= i < |s| :: IsAsciiAlnum(s[i]) || s[i] == '-'
    ensures IsAsciiAlnum(s[0])
  {
    forall i | 0 <= i < |s| ensures IsAsciiAlnum(s[i]) || s[i] == '-' {
      assert SlugChar(s[i]);
    }
  }

  lemma LowerOfSlugChars(s: string)
    requires forall i | 0 <= i < |s| :: SlugChar(s[i])
    ensures Lower(s) == s
  {
    forall i | 0 <= i < |s| ensures Lower(s)[i] == s[i] {
      assert SlugChar(s[i]);
    }
  }

  lemma NoSpaceOfSlug(s: string)
    requires forall i | 0 <= i < |s| :: SlugChar(s[i])
    ensures NoSpace(s)
  {
    forall i | 0 <= i < |s| ensures !IsSpace(s[i]) {
      assert SlugChar(s[i]);
    }
  }

  /** Letters, digits and single dashes are left alone by the
      substitution when the text starts with a letter or digit. */
  lemma {:induction false} DashRunsOfSlugChars(s: string)
    requires forall i | 0 <= i < |s| :: IsAsciiAlnum(s[i]) || s[i] == '-'
    requires NoDoubleDash(s)
    requires s == [] || IsAsciiAlnum(s[0]) || |s| == 1 || IsAsciiAlnum(s[1])
    ensures DashRuns(s) == s
    decreases |s|
  {
    if s != [] {
      if IsAsciiAlnum(s[0]) {
        DashRunsOfSlugChars(s[1..]);
        assert s == [s[0]] + s[1..];
      } else if |s| == 1 {
        assert DropRun(s[1..]) == [];
      } else {
        assert DropRun(s[1..]) == s[1..];
        DashRunsOfSlugChars(s[1..]);
        assert s == "-" + s[1..];
      }
    }
  }

  // ---------------------------------------------------------------------
  // _build_zip naming
  // ---------------------------------------------------------------------

  /** The names `_build_zip` gives: the archive and its two entries. */
  datatype ZipNames = ZipNames(archive: string, specEntry: string, readmeEntry: string)

  /** The naming part of `_build_zip(spec)`: the name defaults to
      "vibeweb_app" when absent; a name that is not a string has no
      `strip` and raises. */
  function BuildZipNames(spec: Dict): (r: Result<ZipNames, string>)
    ensures r.Ok? <==> (Get(spec, "name").None? || Get(spec, "name").value.Str?)
    ensures r.Ok? ==>
      var slug := Slugify(if Get(spec, "name").Some? then Get(spec, "name").value.s else DefaultSlug);
      && r.value.archive == slug + ".zip"
      && r.value.specEntry == slug + "/app.vweb.json"
      && r.value.readmeEntry == slug + "/README.md"
  {
    var name := Get(spec, "name").GetOr(Str(DefaultSlug));
    if !name.Str? then Err("AttributeError")
    else
      var slug := Slugify(name.s);
      Ok(ZipNames(slug + ".zip", slug + "/app.vweb.json", slug + "/README.md"))
  }

  /** Both entries live in one folder named after the archive. */
  lemma ZipEntriesInFolder(spec: Dict)
    requires BuildZipNames(spec).Ok?
    ensures var z := BuildZipNames(spec).value;
      var folder := z.archive[..|z.archive| - 4];
      IsSlug(folder) || folder == DefaultSlug
  {
    var z := BuildZipNames(spec).value;
    var name := Get(spec, "name").GetOr(Str(DefaultSlug));
    var slug := Slugify(name.s);
    assert z.archive[..|z.archive| - 4] == slug;
  }
}

=== FILE: json.dfy ===
/**
 * The values the workflow engine manipulates: decoded JSON, as Python holds
 * it (None, bool, int, str, list, dict).
 *
 * A Python dict is an association list here, because its insertion order
 * is observable (through `str()` and through generated source text).
 * Lookup takes the first entry with the key; assignment replaces that entry
 * in place or appends a new one, as `d[k] = v` does.
 */
module Json {
  import opened Base
  import opened Strings

  datatype Value =
    | Null
    | Bool(b: bool)
    | Int(i: int)
    | Str(s: string)
    | Arr(items: seq<Value>)
    | Obj(fields: seq<(string, Value)>)

  type Dict = seq<(string, Value)>

  /** The keys of a dict, in insertion order. */
  function Keys(d: Dict): seq<string> {
    seq(|d|, i requires 0 <= i < |d| => d[i].0)
  }

  /** A real Python dict never holds a key twice. */
  predicate UniqueKeys(d: Dict) {
    forall i, j | 0 <= i < j < |d| :: d[i].0 != d[j].0
  }

  /** Every dict anywhere inside `v` has unique keys. */
  predicate WellFormed(v: Value)
    decreases v, 1
  {
    match v
    case Arr(xs) => WellFormedItems(xs)
    case Obj(fs) => UniqueKeys(fs) && WellFormedFields(fs)
    case _ => true
  }

  predicate WellFormedItems(xs: seq<Value>)
    decreases xs, 0
  {
    forall i | 0 <= i < |xs| :: WellFormed(xs[i])
  }

  predicate WellFormedFields(fs: Dict)
    decreases fs, 0
  {
    if fs == [] then true
    else
      var e := fs[0];
      assert e.1 < e;
      WellFormed(e.1) && WellFormedFields(fs[1..])
  }

  /** `d.get(k)`: the value of the first entry whose key is `k`. */
  function Get(d: Dict, k: string): (r: Option<Value>)
    ensures r.Some? <==> k in Keys(d)
    ensures r.Some? ==> exists i | 0 <= i < |d| :: d[i] == (k, r.value)
  {
    if d == [] then None
    else if d[0].0 == k then
      assert Keys(d)[0] == k;
      Some(d[0].1)
    else
      assert Keys(d) == [d[0].0] + Keys(d[1..]);
      Get(d[1..], k)
  }

  lemma GetHead(d: Dict, k: string)
    requires d != [] && d[0].0 == k
    ensures Get(d, k) == Some(d[0].1)
  {
  }

  /** An entry with another key is passed over. */
  lemma GetSkip(d: Dict, k: string)
    requires d != [] && d[0].0 != k
    ensures Get(d, k) == Get(d[1..], k)
  {
  }

  /** `d.get(k)` where a missing key reads as `None`. */
  function GetOrNull(d: Dict, k: string): Value {
    Get(d, k).GetOr(Null)
  }

  /** `d[k] = v`. */
  function Put(d: Dict, k: string, v: Value): (r: Dict)
    ensures Get(r, k) == Some(v)
    ensures forall k' | k' != k :: Get(r, k') == Get(d, k')
  {
    if d == [] then [(k, v)]
    else if d[0].0 == k then [(k, v)] + d[1..]
    else [d[0]] + Put(d[1..], k, v)
  }

  /** Assignment keeps the key order: an existing key stays where it is,
      a new key goes last. */
  lemma {:induction false} PutKeys(d: Dict, k: string, v: Value)
    ensures Keys(Put(d, k, v)) == if k in Keys(d) then Keys(d) else Keys(d) + [k]
  {
    if d == [] {
      assert Keys([(k, v)]) == [k];
    } else if d[0].0 == k {
      PutKeysHead(d, k, v);
    } else {
      PutKeys(d[1..], k, v);
      PutKeysTail(d, k, v);
    }
  }

  lemma PutKeysHead(d: Dict, k: string, v: Value)
    requires d != [] && d[0].0 == k
    ensures k in Keys(d)
    ensures Keys(Put(d, k, v)) == Keys(d)
  {
    assert Keys(d)[0] == k;
    KeysCons(d[0], d[1..]);
    KeysCons((k, v), d[1..]);
    assert d == [d[0]] + d[1..];
  }

  lemma PutKeysTail(d: Dict, k: string, v: Value)
    requires d != [] && d[0].0 != k
    requires Keys(Put(d[1..], k, v)) == if k in Keys(d[1..]) then Keys(d[1..]) else Keys(d[1..]) + [k]
    ensures Keys(Put(d, k, v)) == if k in Keys(d) then Keys(d) else Keys(d) + [k]
  {
    var p := Put(d[1..], k, v);
    assert Put(d, k, v) == [d[0]] + p;
    KeysCons(d[0], d[1..]);
    KeysCons(d[0], p);
    assert d == [d[0]] + d[1..];
    assert k in Keys(d) <==> k in Keys(d[1..]);
  }

  lemma KeysCons(e: (string, Value), d: Dict)
    ensures Keys([e] + d) == [e.0] + Keys(d)
  {
    assert ([e] + d)[1..] == d;
  }

  /** Assignment keeps a dict free of duplicate keys. */
  lemma {:induction false} PutUnique(d: Dict, k: string, v: Value)
    requires UniqueKeys(d)
    ensures UniqueKeys(Put(d, k, v))
  {
    var r := Put(d, k, v);
    var ks := Keys(r);
    PutKeys(d, k, v);
    forall i, j | 0 <= i < j < |r| ensures r[i].0 != r[j].0 {
      if k in Keys(d) {
        assert ks == Keys(d);
        assert Keys(d)[i] != Keys(d)[j];
      } else if j < |d| {
        assert ks[i] == Keys(d)[i] && ks[j] == Keys(d)[j];
      } else {
        assert ks[j] == k && ks[i] == Keys(d)[i];
      }
    }
  }

  /** Python truthiness, `bool(v)`. */
  predicate Truthy(v: Value) {
    match v
    case Null => false
    case Bool(b) => b
    case Int(i) => i != 0
    case Str(s) => s != []
    case Arr(xs) => xs != []
    case Obj(fs) => fs != []
  }

  /** Python `==` on decoded JSON: `True == 1` and `False == 0`, lists
      compare element-wise, and dicts compare as key-to-value maps,
      ignoring order. */
  predicate PyEq(a: Value, b: Value)
    decreases a, 2
  {
    match (a, b)
    case (Null, Null) => true
    case (Str(x), Str(y)) => x == y
    case (Arr(xs), Arr(ys)) => |xs| == |ys| && ItemsEq(xs, ys)
    case (Obj(fs), Obj(gs)) => |fs| == |gs| && FieldsIn(fs, gs)
    case _ => IsNumber(a) && IsNumber(b) && AsInt(a) == AsInt(b)
  }

  predicate ItemsEq(xs: seq<Value>, ys: seq<Value>)
    requires |xs| == |ys|
    decreases xs, 1
  {
    xs == [] || (PyEq(xs[0], ys[0]) && ItemsEq(xs[1..], ys[1..]))
  }

  /** Every entry of `fs` is present in `gs` with an equal value. */
  predicate FieldsIn(fs: Dict, gs: Dict)
    decreases fs, 1
  {
    if fs == [] then true
    else
      var e := fs[0];
      assert e.1 < e;
      match Get(gs, e.0)
      case None => false
      case Some(w) => PyEq(e.1, w) && FieldsIn(fs[1..], gs)
  }

  /** `bool` is a subclass of `int` in Python. */
  predicate IsNumber(v: Value) {
    v.Int? || v.Bool?
  }

  function AsInt(v: Value): int
    requires IsNumber(v)
  {
    match v
    case Int(i) => i
    case Bool(b) => if b then 1 else 0
  }

  /** `x in xs` for a Python list. */
  predicate InList(x: Value, xs: seq<Value>) {
    exists i | 0 <= i < |xs| :: PyEq(x, xs[i])
  }

  lemma TrueEqualsOne()
    ensures PyEq(Bool(true), Int(1)) && PyEq(Int(1), Bool(true))
    ensures PyEq(Bool(false), Int(0)) && !PyEq(Bool(true), Int(2))
    ensures !PyEq(Null, Bool(false)) && !PyEq(Str("1"), Int(1))
  {
  }

  /** Python `==` is reflexive on well-formed values. */
  lemma {:induction false} PyEqRefl(v: Value)
    requires WellFormed(v)
    ensures PyEq(v, v)
    decreases v, 1
  {
    match v
    case Arr(xs) => ItemsEqRefl(xs);
    case Obj(fs) => FieldsInRefl(fs, fs);
    case _ =>
  }

  lemma {:induction false} ItemsEqRefl(xs: seq<Value>)
    requires WellFormedItems(xs)
    ensures ItemsEq(xs, xs)
    decreases xs, 0
  {
    if xs != [] {
      PyEqRefl(xs[0]);
      ItemsEqRefl(xs[1..]);
    }
  }

  /** A suffix `fs` of the unique-key dict `all` is contained in it. */
  lemma {:induction false} FieldsInRefl(fs: Dict, all: Dict)
    requires UniqueKeys(all) && WellFormedFields(fs)
    requires |fs| <= |all| && fs == all[|all| - |fs|..]
    ensures FieldsIn(fs, all)
    decreases fs, 0
  {
    if fs != [] {
      var e := fs[0];
      assert e.1 < e;
      var n := |all| - |fs|;
      assert all[n] == e;
      GetUnique(all, n);
      PyEqRefl(e.1);
      assert fs[1..] == all[|all| - |fs[1..]|..];
      FieldsInRefl(fs[1..], all);
    }
  }

  /** In a unique-key dict, looking up an entry's key finds that entry. */
  lemma {:induction false} GetUnique(d: Dict, n: nat)
    requires UniqueKeys(d) && n < |d|
    ensures Get(d, d[n].0) == Some(d[n].1)
  {
    if n > 0 {
      assert d[0].0 != d[n].0;
      assert d[1..][n - 1] == d[n];
      GetUnique(d[1..], n - 1);
    }
  }

  // ---------------------------------------------------------------------
  // str() and repr()
  // ---------------------------------------------------------------------

  /** The quote `repr` puts around a string: double quotes only when the
      text holds a single quote and no double quote. */
  function QuoteFor(s: string): (q: char)
    ensures q == '"' <==> ('\'' in s && '"' !in s)
  {
    if '\'' in s && '"' !in s then '"' else '\''
  }

  function HexDigit(n: nat): char
    requires n < 16
  {
    if n < 10 then '0' + n as char else 'a' + (n - 10) as char
  }

  /** One character as it appears inside a `repr` quoted with `q`. */
  function EscapeChar(c: char, q: char): (r: string)
    ensures |r| >= 1
    ensures r == [c] <==> (c != '\\' && c != q && PlainChar(c))
  {
    if c == '\\' then "\\\\"
    else if c == q then ['\\', q]
    else if c == '\n' then "\\n"
    else if c == '\r' then "\\r"
    else if c == '\t' then "\\t"
    else if !PlainChar(c) then
      "\\x" + [HexDigit(c as nat / 16), HexDigit(c as nat % 16)]
    else [c]
  }

  /** Characters `repr` shows as themselves (for code points up to U+00AD;
      later non-printable code points are not distinguished). */
  predicate PlainChar(c: char) {
    ' ' <= c && !('\U{7f}' <= c <= '\U{a0}') && c != '\U{ad}'
  }

  function EscapeBody(s: string, q: char): string {
    if s == [] then "" else EscapeChar(s[0], q) + EscapeBody(s[1..], q)
  }

  function ReprStr(s: string): string {
    var q := QuoteFor(s);
    [q] + EscapeBody(s, q) + [q]
  }

  /** `repr(v)`. */
  function Repr(v: Value): string
    decreases v, 1
  {
    match v
    case Null => "None"
    case Bool(b) => if b then "True" else "False"
    case Int(i) => IntToStr(i)
    case Str(s) => ReprStr(s)
    case Arr(xs) => "[" + ReprItems(xs) + "]"
    case Obj(fs) => "{" + ReprFields(fs) + "}"
  }

  function ReprItems(xs: seq<Value>): string
    decreases xs, 0
  {
    if xs == [] then ""
    else if |xs| == 1 then Repr(xs[0])
    else Repr(xs[0]) + ", " + ReprItems(xs[1..])
  }

  function ReprFields(fs: Dict): string
    decreases fs, 0
  {
    if fs == [] then ""
    else
      var e := fs[0];
      assert e.1 < e;
      var entry := ReprStr(e.0) + ": " + Repr(e.1);
      if |fs| == 1 then entry else entry + ", " + ReprFields(fs[1..])
  }

  /** `str(v)`: a string is itself, everything else is its `repr`. */
  function StrOf(v: Value): string {
    if v.Str? then v.s else Repr(v)
  }

  /** A string without quotes, backslashes or control characters is shown
      between single quotes, unchanged. */
  lemma {:induction false} ReprPlainStr(s: string)
    requires forall i | 0 <= i < |s| :: PlainChar(s[i]) && s[i] != '\'' && s[i] != '\\'
    ensures Repr(Str(s)) == "'" + s + "'"
  {
    assert QuoteFor(s) == '\'';
    EscapeBodyPlain(s, '\'');
  }

  lemma {:induction false} EscapeBodyPlain(s: string, q: char)
    requires forall i | 0 <= i < |s| :: PlainChar(s[i]) && s[i] != q && s[i] != '\\'
    ensures EscapeBody(s, q) == s
  {
    if s != [] {
      EscapeBodyPlain(s[1..], q);
      assert s == [s[0]] + s[1..];
    }
  }

  /** `int(str(n)) == n` for an int value. */
  lemma StrOfIntParses(i: int)
    ensures ParseInt(StrOf(Int(i))) == Some(i)
  {
    ParseIntOfIntToStr(i);
  }
}

=== FILE: paths.dfy ===
/**
 * Dot-path lookup (`lookup_path` in vibeweb/conditions.py): the resolver
 * behind conditions, `when` gates and `${...}` templates.
 *
 * A path is split on '.', empty pieces are dropped, the first piece names
 * a context entry, and each further piece indexes a dict by key or a list
 * by a decimal position. Anything that does not resolve is `None`.
 */
module Paths {
  import opened Base
  import opened Strings
  import opened Json

  /** `[p for p in xs if p]`. */
  function NonEmpty(xs: seq<string>): (r: seq<string>)
    ensures |r| <= |xs|
    ensures forall i | 0 <= i < |r| :: r[i] != [] && r[i] in xs
  {
    if xs == [] then []
    else if xs[0] == [] then NonEmpty(xs[1..])
    else [xs[0]] + NonEmpty(xs[1..])
  }

  /** The pieces of `str(expr).strip().split(".")` that are not empty. */
  function Segments(expr: string): (parts: seq<string>)
    ensures forall i | 0 <= i < |parts| :: parts[i] != [] && '.' !in parts[i]
  {
    NonEmpty(Split(Strip(expr), '.'))
  }

  /** A list index: ASCII digits whose value is in range. */
  predicate IndexesInto(key: string, xs: seq<Value>) {
    IsDigits(key) && DigitsValue(key) < |xs|
  }

  /** One step of the walk: a dict is indexed by key, a list by a decimal
      position; a missing key, a bad or out-of-range position and a
      scalar all give `None`. */
  function Step(v: Value, key: string): (r: Value)
    ensures r != Null ==>
      || (v.Obj? && Get(v.fields, key) == Some(r))
      || (v.Arr? && IndexesInto(key, v.items) && v.items[DigitsValue(key)] == r)
  {
    match v
    case Obj(fs) => GetOrNull(fs, key)
    case Arr(xs) => if IndexesInto(key, xs) then xs[DigitsValue(key)] else Null
    case _ => Null
  }

  /** The loop over the remaining pieces, returning `None` as soon as a
      piece cannot be applied. */
  function Walk(v: Value, keys: seq<string>): Value
    decreases keys
  {
    if keys == [] then v
    else
      match v
      case Obj(fs) => Walk(GetOrNull(fs, keys[0]), keys[1..])
      case Arr(xs) =>
        if IndexesInto(keys[0], xs) then Walk(xs[DigitsValue(keys[0])], keys[1..])
        else Null
      case _ => Null
  }

  /** `lookup_path(expr, ctx)`. */
  function LookupPath(expr: string, ctx: Dict): (r: Value)
    ensures Segments(expr) == [] ==> r == Null
    ensures Segments(expr) != [] ==> r == Walk(Obj(ctx), Segments(expr))
  {
    var parts := Segments(expr);
    if parts == [] then Null else Walk(GetOrNull(ctx, parts[0]), parts[1..])
  }

  /** `None` has nothing inside it. */
  lemma {:induction false} WalkNull(keys: seq<string>)
    ensures Walk(Null, keys) == Null
  {
  }

  /** Each piece is one `Step`; early exits agree because `None` stays
      `None`. */
  lemma WalkStep(v: Value, keys: seq<string>)
    requires keys != []
    ensures Walk(v, keys) == Walk(Step(v, keys[0]), keys[1..])
  {
    WalkNull(keys[1..]);
  }

  /** Resolving a path in two parts is resolving the first part and then
      the second part from there. */
  lemma {:induction false} WalkAppend(v: Value, xs: seq<string>, ys: seq<string>)
    ensures Walk(v, xs + ys) == Walk(Walk(v, xs), ys)
    decreases xs
  {
    if xs == [] {
      assert xs + ys == ys;
    } else {
      assert (xs + ys)[0] == xs[0] && (xs + ys)[1..] == xs[1..] + ys;
      WalkStep(v, xs + ys);
      WalkStep(v, xs);
      WalkAppend(Step(v, xs[0]), xs[1..], ys);
    }
  }

  /** The cases in which a lookup gives `None`. */
  lemma WalkNullCases(v: Value, key: string, rest: seq<string>)
    requires
      || (v.Obj? && Get(v.fields, key).None?)
      || (v.Arr? && !IndexesInto(key, v.items))
      || !(v.Obj? || v.Arr?)
    ensures Walk(v, [key] + rest) == Null
  {
    WalkStep(v, [key] + rest);
    WalkNull(rest);
    assert ([key] + rest)[1..] == rest;
  }

  /** A blank path resolves to `None`. */
  lemma LookupBlank(expr: string, ctx: Dict)
    requires IsBlank(expr)
    ensures LookupPath(expr, ctx) == Null
  {
    BlankIffStripsEmpty(expr);
    assert Split(Strip(expr), '.') == [""];
  }

  /** Removing empty pieces is the identity when there are none. */
  lemma {:induction false} NonEmptyOfNonEmpty(xs: seq<string>)
    requires forall i | 0 <= i < |xs| :: xs[i] != []
    ensures NonEmpty(xs) == xs
  {
    if xs != [] {
      NonEmptyOfNonEmpty(xs[1..]);
    }
  }

  /** A dotted path built from whitespace-free keys is resolved key by key,
      and empty pieces (doubled, leading or trailing dots) are ignored. */
  lemma LookupDotted(keys: seq<string>, ctx: Dict)
    requires |keys| >= 1
    requires forall i | 0 <= i < |keys| :: '.' !in keys[i] && NoSpace(keys[i])
    ensures Segments(Join(keys, ".")) == NonEmpty(keys)
    ensures LookupPath(Join(keys, "."), ctx) ==
      if NonEmpty(keys) == [] then Null else Walk(Obj(ctx), NonEmpty(keys))
  {
    var s := Join(keys, ".");
    JoinNoSpace(keys);
    StripOfNoSpace(s);
    SplitJoin(keys, '.');
    calc {
      Segments(s);
      NonEmpty(Split(Strip(s), '.'));
      NonEmpty(Split(s, '.'));
      NonEmpty(keys);
    }
  }

  lemma {:induction false} JoinNoSpace(keys: seq<string>)
    requires forall i | 0 <= i < |keys| :: NoSpace(keys[i])
    ensures NoSpace(Join(keys, "."))
  {
    if |keys| > 1 {
      JoinNoSpace(keys[1..]);
    }
  }

  /** A two-piece path `a.b` reads entry `b` of the dict stored under `a`,
      and a missing `b` reads as `None` (the shape of the repository's
      lookup test). */
  lemma LookupTwoKeys(a: string, b: string, ctx: Dict)
    requires PathKey(a) && PathKey(b)
    ensures LookupPath(a + "." + b, ctx) == Step(GetOrNull(ctx, a), b)
  {
    SegmentsOfTwo(a, b);
    WalkStep(GetOrNull(ctx, a), [b]);
  }

  lemma SegmentsOfTwo(a: string, b: string)
    requires PathKey(a) && PathKey(b)
    ensures Segments(a + "." + b) == [a, b]
  {
    var keys := [a, b];
    assert Join(keys, ".") == a + "." + b;
    LookupDotted(keys, []);
    NonEmptyOfNonEmpty(keys);
  }

  /** A three-piece path `a.b.c` takes three steps from the context. */
  lemma LookupThreeKeys(a: string, b: string, c: string, ctx: Dict)
    requires PathKey(a) && PathKey(b) && PathKey(c)
    ensures LookupPath(a + "." + b + "." + c, ctx) == Step(Step(GetOrNull(ctx, a), b), c)
  {
    var keys := [a, b, c];
    assert Join(keys, ".") == a + "." + b + "." + c by {
      assert Join(keys[1..], ".") == b + "." + c;
    }
    LookupDotted(keys, ctx);
    NonEmptyOfNonEmpty(keys);
    WalkStep(GetOrNull(ctx, a), [b, c]);
    WalkStep(Step(GetOrNull(ctx, a), b), [c]);
  }

  /** A piece that can appear between dots: non-empty, no dot, no space. */
  predicate PathKey(k: string) {
    k != [] && '.' !in k && NoSpace(k)
  }

  // ---------------------------------------------------------------------
  // The list-index test as written
  // ---------------------------------------------------------------------

  /** Characters that Python's `str.isdigit` accepts but `int()` rejects:
      superscript and subscript digits (a subset of that class). */
  predicate DigitNotDecimal(c: char) {
    || c == '\U{b2}' || c == '\U{b3}' || c == '\U{b9}' || c == '\U{2070}'
    || ('\U{2074}' <= c <= '\U{2079}') || ('\U{2080}' <= c <= '\U{2089}')
  }

  /** `key.isdigit()` over ASCII digits and the characters above. */
  predicate PyIsDigits(key: string) {
    |key| > 0 && forall i | 0 <= i < |key| :: IsDigit(key[i]) || DigitNotDecimal(key[i])
  }

  /** The walk as the source writes it: a list piece that passes
      `isdigit()` is handed to `int()`, which raises `ValueError` when the
      piece holds a superscript or subscript digit. */
  function WalkAsWritten(v: Value, keys: seq<string>): (r: Result<Value, string>)
    ensures r.Ok? ==> r.value == Walk(v, keys)
    ensures r.Err? ==> exists i | 0 <= i < |keys| :: PyIsDigits(keys[i]) && !IsDigits(keys[i])
    decreases keys
  {
    if keys == [] then Ok(v)
    else
      match v
      case Obj(fs) => WalkAsWritten(GetOrNull(fs, keys[0]), keys[1..])
      case Arr(xs) =>
        if !PyIsDigits(keys[0]) then Ok(Null)
        else if !IsDigits(keys[0]) then Err("ValueError")
        else if DigitsValue(keys[0]) < |xs| then WalkAsWritten(xs[DigitsValue(keys[0])], keys[1..])
        else Ok(Null)
      case _ => Ok(Null)
  }

  function LookupPathAsWritten(expr: string, ctx: Dict): (r: Result<Value, string>)
    ensures r.Ok? ==> r.value == LookupPath(expr, ctx)
  {
    var parts := Segments(expr);
    if parts == [] then Ok(Null) else WalkAsWritten(GetOrNull(ctx, parts[0]), parts[1..])
  }

  /** `lookup_path("xs.²", {"xs": [...]})` raises instead of returning
      `None`, while the corrected lookup returns `None`. */
  lemma SuperscriptIndexRaises(name: string, xs: seq<Value>, ctx: Dict)
    requires PathKey(name) && Get(ctx, name) == Some(Arr(xs))
    ensures LookupPathAsWritten(name + "." + "\U{b2}", ctx).Err?
    ensures LookupPath(name + "." + "\U{b2}", ctx) == Null
  {
    var sup := "\U{b2}";
    assert PathKey(sup);
    SegmentsOfTwo(name, sup);
    assert [name, sup][1..] == [sup];
    AsWrittenSuperscript(xs, sup);
  }

  lemma AsWrittenSuperscript(xs: seq<Value>, sup: string)
    requires sup == "\U{b2}"
    ensures WalkAsWritten(Arr(xs), [sup]).Err?
    ensures Walk(Arr(xs), [sup]) == Null
  {
    assert PyIsDigits(sup) && !IsDigit(sup[0]);
  }
}

=== FILE: render.dfy ===
/**
 * `${path}` templates (`render_str` and `render_value` in
 * vibeweb/actions.py).
 *
 * The pattern is `\$\{([^}]+)\}`: a placeholder is "${", at least one
 * character other than '}', and the first '}' after them. `re.sub` scans
 * left to right; where no placeholder starts it keeps the character and
 * moves on by one, and after a replacement it continues behind the '}'.
 */
module Render {
  import opened Base
  import opened Strings
  import opened Json
  import opened Paths

  /** The position of the first '}' at or after `k`. */
  function FirstClose(t: string, k: nat): (r: Option<nat>)
    ensures r.Some? ==> k <= r.value < |t|
    decreases |t| - k
  {
    if k >= |t| then None
    else if t[k] == '}' then Some(k)
    else FirstClose(t, k + 1)
  }

  /** `FirstClose` finds a '}' with none before it, or reports that there
      is none. */
  lemma {:induction false} FirstCloseSpec(t: string, k: nat)
    ensures var r := FirstClose(t, k);
      && (r.Some? ==> t[r.value] == '}' && '}' !in t[k..r.value])
      && (r.None? ==> k >= |t| || '}' !in t[k..])
    decreases |t| - k
  {
    if k < |t| && t[k] != '}' {
      FirstCloseSpec(t, k + 1);
      var r := FirstClose(t, k + 1);
      assert r.Some? ==> t[k..r.value] == [t[k]] + t[k + 1..r.value];
      assert r.None? && k + 1 < |t| ==> t[k..] == [t[k]] + t[k + 1..];
    }
  }

  /** Where a placeholder starting at the head of `t` closes, if one does. */
  function Opening(t: string): (r: Option<nat>)
    ensures r.Some? ==> 3 <= r.value < |t|
  {
    if |t| >= 2 && t[0] == '$' && t[1] == '{' then
      match FirstClose(t, 2)
      case Some(j) => if j > 2 then Some(j) else None
      case None => None
    else None
  }

  /** An opening is "${", placeholder text, and its closing '}'. */
  lemma OpeningShape(t: string)
    requires Opening(t).Some?
    ensures var j := Opening(t).value;
      IsHoleText(t[2..j]) && t[..j + 1] == "${" + t[2..j] + "}"
  {
    var j := Opening(t).value;
    FirstCloseSpec(t, 2);
    assert t[..j + 1] == "${" + t[2..j] + "}";
  }

  /** What `[^}]+` accepts between the braces. */
  predicate IsHoleText(x: string) {
    x != [] && '}' !in x
  }

  /** The value a placeholder stands for: a missing value reads as "". */
  function TemplateLookup(expr: string, ctx: Dict): (r: Value)
    ensures r != Null
    ensures LookupPath(expr, ctx) != Null ==> r == LookupPath(expr, ctx)
  {
    var v := LookupPath(expr, ctx);
    if v == Null then Str("") else v
  }

  /** What a placeholder is replaced with: the `str()` of its trimmed
      path's value. */
  function HoleText(x: string, ctx: Dict): string {
    StrOf(TemplateLookup(Strip(x), ctx))
  }

  /** A template cut into literal characters and placeholders, the way
      `re.sub` scans it. */
  datatype Piece = Lit(c: char) | Hole(expr: string)

  function Pieces(t: string): (ps: seq<Piece>)
    ensures forall i | 0 <= i < |ps| :: ps[i].Hole? ==> IsHoleText(ps[i].expr)
    decreases |t|
  {
    if t == [] then []
    else
      match Opening(t)
      case Some(j) =>
        OpeningShape(t);
        [Hole(t[2..j])] + Pieces(t[j + 1..])
      case None => [Lit(t[0])] + Pieces(t[1..])
  }

  /** The text a piece came from. */
  function Unparse(ps: seq<Piece>): string {
    if ps == [] then []
    else
      (match ps[0]
       case Lit(c) => [c]
       case Hole(x) => "${" + x + "}")
      + Unparse(ps[1..])
  }

  /** The characters of `s`, each as a literal piece. */
  function Lits(s: string): (ps: seq<Piece>)
    ensures |ps| == |s|
    ensures forall i | 0 <= i < |s| :: ps[i] == Lit(s[i])
  {
    seq(|s|, i requires 0 <= i < |s| => Lit(s[i]))
  }

  /** What a piece renders to: a literal is itself, a placeholder is
      replaced. */
  function RenderPiece(p: Piece, ctx: Dict): string {
    match p
    case Lit(c) => [c]
    case Hole(x) => HoleText(x, ctx)
  }

  function RenderPieces(ps: seq<Piece>, ctx: Dict): string {
    if ps == [] then [] else RenderPiece(ps[0], ctx) + RenderPieces(ps[1..], ctx)
  }

  /** `render_str(template, ctx)`: literals are copied and every
      placeholder is replaced by its value's text. */
  function RenderStr(t: string, ctx: Dict): string {
    RenderPieces(Pieces(t), ctx)
  }

  /** Cutting a template into pieces loses nothing. */
  lemma {:induction false} PiecesUnparse(t: string)
    ensures Unparse(Pieces(t)) == t
    decreases |t|
  {
    if t != [] {
      match Opening(t)
      case Some(j) =>
        OpeningShape(t);
        PiecesUnparse(t[j + 1..]);
        assert t == t[..j + 1] + t[j + 1..];
      case None =>
        PiecesUnparse(t[1..]);
        assert t == [t[0]] + t[1..];
    }
  }

  /** Text with no "${" is all literal. */
  lemma {:induction false} PiecesPlain(t: string)
    requires forall i | 0 <= i < |t| - 1 :: !(t[i] == '$' && t[i + 1] == '{')
    ensures Pieces(t) == Lits(t)
    decreases |t|
  {
    if t != [] {
      assert Opening(t).None?;
      PiecesPlain(t[1..]);
      assert Lits(t) == [Lit(t[0])] + Lits(t[1..]);
    }
  }

  /** A prefix without '$' is all literal and does not disturb what
      follows. */
  lemma {:induction false} PiecesLiteralPrefix(a: string, b: string)
    requires '$' !in a
    ensures Pieces(a + b) == Lits(a) + Pieces(b)
    decreases |a|
  {
    if a == [] {
      assert a + b == b;
    } else {
      var t := a + b;
      assert t[0] == a[0] && t[1..] == a[1..] + b;
      assert Opening(t).None?;
      PiecesLiteralPrefix(a[1..], b);
      assert Lits(a) == [Lit(a[0])] + Lits(a[1..]);
    }
  }

  /** "${x}" at the head is one placeholder, and the scan resumes after
      its '}'. */
  lemma PiecesHole(x: string, rest: string)
    requires IsHoleText(x)
    ensures Pieces("${" + x + "}" + rest) == [Hole(x)] + Pieces(rest)
  {
    var t := "${" + x + "}" + rest;
    var j := 2 + |x|;
    assert t[2..j] == x && t[j] == '}' && t[j + 1..] == rest;
    FirstCloseSpec(t, 2);
    assert FirstClose(t, 2) == Some(j);
  }

  /** Rendering distributes over a split of the pieces. */
  lemma {:induction false} RenderPiecesAppend(ps: seq<Piece>, qs: seq<Piece>, ctx: Dict)
    ensures RenderPieces(ps + qs, ctx) == RenderPieces(ps, ctx) + RenderPieces(qs, ctx)
  {
    if ps == [] {
      assert ps + qs == qs;
    } else {
      assert (ps + qs)[0] == ps[0] && (ps + qs)[1..] == ps[1..] + qs;
      RenderPiecesAppend(ps[1..], qs, ctx);
    }
  }

  lemma {:induction false} RenderLits(s: string, ctx: Dict)
    ensures RenderPieces(Lits(s), ctx) == s
  {
    if s != [] {
      assert Lits(s)[1..] == Lits(s[1..]);
      RenderLits(s[1..], ctx);
      assert s == [s[0]] + s[1..];
    }
  }

  /** Text without a "${" is left as it is. */
  lemma RenderPlain(t: string, ctx: Dict)
    requires forall i | 0 <= i < |t| - 1 :: !(t[i] == '$' && t[i + 1] == '{')
    ensures RenderStr(t, ctx) == t
  {
    PiecesPlain(t);
    RenderLits(t, ctx);
  }

  /** A literal prefix free of '$' is copied before the rest is rendered. */
  lemma RenderLiteralPrefix(a: string, b: string, ctx: Dict)
    requires '$' !in a
    ensures RenderStr(a + b, ctx) == a + RenderStr(b, ctx)
  {
    PiecesLiteralPrefix(a, b);
    RenderPiecesAppend(Lits(a), Pieces(b), ctx);
    RenderLits(a, ctx);
  }

  /** A placeholder followed by more text: its value's `str()` (or "" when
      missing), then the rest rendered. */
  lemma RenderHole(x: string, rest: string, ctx: Dict)
    requires IsHoleText(x)
    ensures RenderStr("${" + x + "}" + rest, ctx) == HoleText(x, ctx) + RenderStr(rest, ctx)
    ensures HoleText(x, ctx) ==
      if LookupPath(Strip(x), ctx) == Null then "" else StrOf(LookupPath(Strip(x), ctx))
  {
    PiecesHole(x, rest);
    RenderPiecesAppend([Hole(x)], Pieces(rest), ctx);
  }

  /** The whole-placeholder form `render_value` returns typed: the trimmed
      text is exactly "${X}". */
  predicate IsWholePlaceholder(st: string) {
    |st| >= 4 && st[0] == '$' && st[1] == '{' && st[|st| - 1] == '}'
    && IsHoleText(st[2..|st| - 1])
  }

  /** `render_value(value, ctx)`. */
  function RenderValue(v: Value, ctx: Dict): (r: Value)
    decreases v, 1
  {
    match v
    case Str(s) =>
      var st := Strip(s);
      if IsWholePlaceholder(st) then LookupPath(Strip(st[2..|st| - 1]), ctx)
      else Str(RenderStr(s, ctx))
    case Arr(xs) => Arr(RenderItems(xs, ctx))
    case Obj(fs) => Obj(RenderFields(fs, ctx))
    case _ => v
  }

  function RenderItems(xs: seq<Value>, ctx: Dict): (ys: seq<Value>)
    ensures |ys| == |xs|
    ensures forall i | 0 <= i < |xs| :: ys[i] == RenderValue(xs[i], ctx)
    decreases xs, 0
  {
    if xs == [] then [] else [RenderValue(xs[0], ctx)] + RenderItems(xs[1..], ctx)
  }

  function RenderFields(fs: Dict, ctx: Dict): (gs: Dict)
    ensures |gs| == |fs|
    ensures forall i | 0 <= i < |fs| :: gs[i].0 == fs[i].0
    decreases fs, 0
  {
    if fs == [] then []
    else
      var e := fs[0];
      assert e.1 < e;
      [(e.0, RenderValue(e.1, ctx))] + RenderFields(fs[1..], ctx)
  }

  /** A string that trims to exactly one placeholder renders to the typed
      value of the path, `None` included. */
  lemma RenderTyped(s: string, x: string, ctx: Dict)
    requires IsHoleText(x) && Strip(s) == "${" + x + "}"
    ensures RenderValue(Str(s), ctx) == LookupPath(Strip(x), ctx)
  {
    var st := Strip(s);
    assert st[0] == '$' && st[1] == '{' && st[|st| - 1] == '}';
    assert st[2..|st| - 1] == x;
    assert IsWholePlaceholder(st);
  }

  /** Lists and dicts render element by element, keeping their shape and
      keys; scalars other than strings are returned unchanged. */
  lemma RenderShape(v: Value, ctx: Dict)
    ensures v.Arr? ==> RenderValue(v, ctx).Arr? && |RenderValue(v, ctx).items| == |v.items|
    ensures v.Obj? ==> RenderValue(v, ctx).Obj? && Keys(RenderValue(v, ctx).fields) == Keys(v.fields)
    ensures v.Null? || v.Bool? || v.Int? ==> RenderValue(v, ctx) == v
  {
  }

  /** Strings, at any depth, that contain no "${". */
  predicate NoTemplates(v: Value)
    decreases v, 1
  {
    match v
    case Str(s) => forall i | 0 <= i < |s| - 1 :: !(s[i] == '$' && s[i + 1] == '{')
    case Arr(xs) => NoTemplateItems(xs)
    case Obj(fs) => NoTemplateFields(fs)
    case _ => true
  }

  predicate NoTemplateItems(xs: seq<Value>)
    decreases xs, 0
  {
    xs == [] || (NoTemplates(xs[0]) && NoTemplateItems(xs[1..]))
  }

  predicate NoTemplateFields(fs: Dict)
    decreases fs, 0
  {
    fs == [] || (var e := fs[0]; assert e.1 < e; NoTemplates(e.1) && NoTemplateFields(fs[1..]))
  }

  /** A value with no placeholder anywhere renders to itself. */
  lemma {:induction false} RenderIdentity(v: Value, ctx: Dict)
    requires NoTemplates(v)
    ensures RenderValue(v, ctx) == v
    decreases v, 1
  {
    match v
    case Str(s) =>
      NoWholePlaceholder(s);
      RenderPlain(s, ctx);
    case Arr(xs) =>
      RenderItemsIdentity(xs, ctx);
    case Obj(fs) =>
      RenderFieldsIdentity(fs, ctx);
    case _ =>
  }

  lemma {:induction false} RenderItemsIdentity(xs: seq<Value>, ctx: Dict)
    requires NoTemplateItems(xs)
    ensures RenderItems(xs, ctx) == xs
    decreases xs, 0
  {
    if xs != [] {
      RenderIdentity(xs[0], ctx);
      RenderItemsIdentity(xs[1..], ctx);
      assert xs == [xs[0]] + xs[1..];
    }
  }

  lemma {:induction false} RenderFieldsIdentity(fs: Dict, ctx: Dict)
    requires NoTemplateFields(fs)
    ensures RenderFields(fs, ctx) == fs
    decreases fs, 0
  {
    if fs != [] {
      var e := fs[0];
      assert e.1 < e;
      RenderIdentity(e.1, ctx);
      RenderFieldsIdentity(fs[1..], ctx);
      assert fs == [e] + fs[1..];
    }
  }

  /** A string without "${" cannot trim to a placeholder. */
  lemma NoWholePlaceholder(s: string)
    requires forall i | 0 <= i < |s| - 1 :: !(s[i] == '$' && s[i + 1] == '{')
    ensures !IsWholePlaceholder(Strip(s))
  {
    var st := Strip(s);
    var k := StripIsInfix(s);
    assert |st| >= 2 ==> st[0] == s[k] && st[1] == s[k + 1];
  }
}

=== FILE: server.dfy ===
/**
 * The request helpers of vibeweb/server.py that decide what a listing
 * shows: the per-key rate limiter, HTML escaping, the query-string
 * parsers (`f_<field>` filters, integer parameters, `expand`), the WHERE
 * clause built from a search and filters, the clamps applied before a
 * query, and the admin page arithmetic.
 *
 * The clock is an integer number of seconds; query strings are the
 * `parse_qs` result, a list of names with their values.
 */
module Server {
  import opened Base
  import opened Strings
  import opened Json
  import opened Spec
  import opened Db

  // ---------------------------------------------------------------------
  // RateLimiter
  // ---------------------------------------------------------------------

  /** The window, in seconds, in which at most `limit` hits of one key
      are allowed. */
  const Window: int := 60

  /** `RateLimiter`: the limit and, per key, the start of its current
      window and the hits counted in it. */
  datatype Limiter = Limiter(limit: int, hits: map<string, (int, int)>)

  /** `RateLimiter(limit_per_minute)`. */
  function NewLimiter(perMinute: int): (l: Limiter)
    ensures l.limit >= 1 && l.limit >= perMinute
    ensures perMinute >= 1 ==> l.limit == perMinute
    ensures l.hits == map[]
  {
    Limiter(Max(1, perMinute), map[])
  }

  /** `allow(key)` at time `now`: the hit is counted, in a new window when
      the key is new or its window has run for `Window` seconds, and it is
      allowed while the count does not exceed the limit. A refused hit is
      counted too. */
  function Allow(l: Limiter, key: string, now: int): (r: (Limiter, bool))
    ensures r.0.limit == l.limit
    ensures key in r.0.hits
    ensures forall k | k != key :: (k in r.0.hits <==> k in l.hits) && (k in l.hits ==> r.0.hits[k] == l.hits[k])
    ensures key !in l.hits || now - l.hits[key].0 >= Window ==> r.0.hits[key] == (now, 1)
    ensures key in l.hits && now - l.hits[key].0 < Window ==>
      r.0.hits[key] == (l.hits[key].0, l.hits[key].1 + 1)
    ensures r.1 <==> r.0.hits[key].1 <= l.limit
  {
    var (start, count) := if key in l.hits then l.hits[key] else (now, 0);
    var (start', count') := if now - start >= Window then (now, 0) else (start, count);
    var hits := l.hits[key := (start', count' + 1)];
    (l.(hits := hits), count' + 1 <= l.limit)
  }

  /** The answers to hits of one key at the given times, in order. */
  function AllowAll(l: Limiter, key: string, times: seq<int>): (r: (Limiter, seq<bool>))
    ensures |r.1| == |times|
    ensures r.0.limit == l.limit
    decreases |times|
  {
    if times == [] then (l, [])
    else
      var (l1, ok) := Allow(l, key, times[0]);
      var (l2, oks) := AllowAll(l1, key, times[1..]);
      (l2, [ok] + oks)
  }

  /** Within one window that already holds `used` hits, the i-th further
      hit is allowed exactly while `used + i + 1` stays within the limit. */
  lemma {:induction false} BurstWithinWindow(l: Limiter, key: string, start: int, used: int, times: seq<int>)
    requires key in l.hits && l.hits[key] == (start, used)
    requires forall i | 0 <= i < |times| :: times[i] - start < Window
    ensures forall i | 0 <= i < |times| :: AllowAll(l, key, times).1[i] <==> used + i + 1 <= l.limit
    decreases |times|
  {
    if times != [] {
      var (l1, ok) := Allow(l, key, times[0]);
      BurstWithinWindow(l1, key, start, used + 1, times[1..]);
      var r := AllowAll(l, key, times);
      assert r.1 == [ok] + AllowAll(l1, key, times[1..]).1;
      forall i | 0 <= i < |times| ensures r.1[i] <==> used + i + 1 <= l.limit {
        if i > 0 {
          assert r.1[i] == AllowAll(l1, key, times[1..]).1[i - 1];
        }
      }
    }
  }

  /** A new key gets exactly `limit` hits in its first minute; every
      later hit in that minute is refused. */
  lemma FirstMinute(l: Limiter, key: string, times: seq<int>)
    requires key !in l.hits && times != []
    requires forall i | 0 <= i < |times| :: times[i] - times[0] < Window
    ensures forall i | 0 <= i < |times| :: AllowAll(l, key, times).1[i] <==> i < l.limit
  {
    var (l1, ok) := Allow(l, key, times[0]);
    var r := AllowAll(l, key, times);
    BurstWithinWindow(l1, key, times[0], 1, times[1..]);
    assert r.1 == [ok] + AllowAll(l1, key, times[1..]).1;
    forall i | 0 <= i < |times| ensures r.1[i] <==> i < l.limit {
      if i > 0 {
        assert r.1[i] == AllowAll(l1, key, times[1..]).1[i - 1];
      }
    }
  }

  // ---------------------------------------------------------------------
  // _esc
  // ---------------------------------------------------------------------

  /** `html.escape(c, quote=True)` for one character. */
  function EscapeChar(c: char): (r: string)
    ensures r == [c] <==> c !in "&<>\"'"
    ensures r != [c] ==> |r| >= 4 && r[0] == '&'
  {
    if c == '&' then "&amp;"
    else if c == '<' then "&lt;"
    else if c == '>' then "&gt;"
    else if c == '"' then "&quot;"
    else if c == '\'' then "&#x27;"
    else [c]
  }

  /** `html.escape(s, quote=True)`. */
  function EscapeHtml(s: string): (r: string)
    ensures forall c | c in "<>\"'" :: c !in r
    ensures |r| >= |s|
  {
    if s == [] then "" else EscapeChar(s[0]) + EscapeHtml(s[1..])
  }

  /** `_esc(value)`: `None` is empty, anything else is its `str`
      escaped. */
  function Esc(v: Value): (r: string)
    ensures forall c | c in "<>\"'" :: c !in r
    ensures v.Null? ==> r == ""
  {
    if v.Null? then "" else EscapeHtml(StrOf(v))
  }

  /** The entity at the start of `s`, among the five `EscapeHtml`
      writes: the character it stands for and its length. */
  function Entity(s: string): (r: Option<(char, nat)>)
    ensures r.Some? ==> 4 <= r.value.1 <= |s|
  {
    if |s| >= 4 && s[0] == '&' && (s[1] == 'l' || s[1] == 'g') && s[2] == 't' && s[3] == ';' then
      Some((if s[1] == 'l' then '<' else '>', 4))
    else if |s| >= 5 && s[0] == '&' && s[1] == 'a' && s[2] == 'm' && s[3] == 'p' && s[4] == ';' then
      Some(('&', 5))
    else if |s| >= 6 && s[0] == '&' && s[1] == 'q' && s[2] == 'u' && s[3] == 'o' && s[4] == 't' && s[5] == ';' then
      Some(('"', 6))
    else if |s| >= 6 && s[0] == '&' && s[1] == '#' && s[2] == 'x' && s[3] == '2' && s[4] == '7' && s[5] == ';' then
      Some(('\'', 6))
    else None
  }

  /** The inverse of `EscapeHtml`: the five entities it writes are read
      back as their characters. */
  function UnescapeHtml(s: string): string
    decreases |s|
  {
    if s == [] then ""
    else match Entity(s)
      case Some((c, n)) => [c] + UnescapeHtml(s[n..])
      case None => [s[0]] + UnescapeHtml(s[1..])
  }

  /** Escaping loses nothing: unescaping gives the text back. */
  lemma {:induction false} EscapeRoundTrip(s: string)
    ensures UnescapeHtml(EscapeHtml(s)) == s
    decreases |s|
  {
    if s != [] {
      EscapeRoundTrip(s[1..]);
      UnescapeChar(s[0], EscapeHtml(s[1..]));
      assert s == [s[0]] + s[1..];
    }
  }

  lemma UnescapeChar(c: char, rest: string)
    ensures UnescapeHtml(EscapeChar(c) + rest) == [c] + UnescapeHtml(rest)
  {
    var e := EscapeChar(c);
    var t := e + rest;
    assert t[|e|..] == rest;
    if c in "&<>\"'" {
      assert Entity(t) == Some((c, |e|)) by {
        assert forall i | 0 <= i < |e| :: t[i] == e[i];
      }
    } else {
      assert e == [c] && t[0] == c;
      assert Entity(t).None?;
    }
  }

  // ---------------------------------------------------------------------
  // Query-string parameters
  // ---------------------------------------------------------------------

  /** The `parse_qs` result: each name once, with its values. */
  type Params = seq<(string, seq<string>)>

  function Lookup(params: Params, name: string): (r: Option<seq<string>>)
    ensures r.Some? <==> exists i | 0 <= i < |params| :: params[i].0 == name
    ensures r.Some? ==> exists i | 0 <= i < |params| :: params[i] == (name, r.value)
  {
    if params == [] then None
    else if params[0].0 == name then Some(params[0].1)
    else
      var r := Lookup(params[1..], name);
      assert r.Some? ==> exists i | 0 <= i < |params[1..]| :: params[1..][i] == (name, r.value);
      r
  }

  /** A parameter `_parse_filters` keeps: `f_<field>` for a field of the
      model, whose first value is not empty. */
  predicate IsFilter(fields: seq<(string, string)>, p: (string, seq<string>)) {
    && StartsWith(p.0, "f_")
    && HasField(fields, p.0[2..])
    && p.1 != []
    && p.1[0] != ""
  }

  /** The (field, value) pair a kept parameter contributes. */
  function FilterOf(p: (string, seq<string>)): (string, string)
    requires |p.0| >= 2 && p.1 != []
  {
    (p.0[2..], p.1[0])
  }

  /** `x` is the pair of some kept parameter. */
  predicate FromFilter(fields: seq<(string, string)>, params: Params, x: (string, string)) {
    exists j | 0 <= j < |params| :: IsFilter(fields, params[j]) && x == FilterOf(params[j])
  }

  /** `_parse_filters(model, params)`, in parameter order. */
  function ParseFilters(fields: seq<(string, string)>, params: Params): (r: seq<(string, string)>)
    ensures |r| <= |params|
    ensures forall i | 0 <= i < |r| :: FromFilter(fields, params, r[i])
    ensures forall j | 0 <= j < |params| && IsFilter(fields, params[j]) :: FilterOf(params[j]) in r
    ensures forall i | 0 <= i < |r| :: HasField(fields, r[i].0) && r[i].1 != ""
    decreases |params|
  {
    if params == [] then []
    else
      var rest := ParseFilters(fields, params[1..]);
      FromFilterTail(fields, params, rest);
      assert forall j | 1 <= j < |params| :: params[j] == params[1..][j - 1];
      if IsFilter(fields, params[0]) then [FilterOf(params[0])] + rest
      else rest
  }

  /** A pair kept from the later parameters is kept from all of them. */
  lemma FromFilterTail(fields: seq<(string, string)>, params: Params, rest: seq<(string, string)>)
    requires params != [] && forall i | 0 <= i < |rest| :: FromFilter(fields, params[1..], rest[i])
    ensures forall i | 0 <= i < |rest| :: FromFilter(fields, params, rest[i])
  {
    forall i | 0 <= i < |rest| ensures FromFilter(fields, params, rest[i]) {
      var j :| 0 <= j < |params[1..]| && IsFilter(fields, params[1..][j]) && rest[i] == FilterOf(params[1..][j]);
      assert params[j + 1] == params[1..][j];
    }
  }

  /** `_int_param(params, name, default)`: the first value as an integer,
      the default when it does not parse; a missing parameter reads as
      `str(default)`. An empty value list (which `parse_qs` never
      produces) raises `IndexError`. */
  function IntParam(params: Params, name: string, default: int): (r: Result<int, string>)
    ensures Lookup(params, name).None? ==> r == Ok(default)
    ensures Lookup(params, name) == Some([]) ==> r == Err("IndexError")
    ensures Lookup(params, name).Some? && Lookup(params, name).value != [] ==>
      r == Ok(ParseInt(Lookup(params, name).value[0]).GetOr(default))
  {
    var raw := Lookup(params, name).GetOr([IntToStr(default)]);
    ParseIntOfIntToStr(default);
    if raw == [] then Err("IndexError")
    else Ok(ParseInt(raw[0]).GetOr(default))
  }

  /** `model.fields.get(name)`. */
  function FieldType(fields: seq<(string, string)>, name: string): (r: Option<string>)
    ensures r.Some? <==> HasField(fields, name)
    ensures r.Some? ==> (name, r.value) in fields
  {
    if fields == [] then None
    else if fields[0].0 == name then Some(fields[0].1)
    else
      var r := FieldType(fields[1..], name);
      assert HasField(fields, name) && fields[0].0 != name ==> HasField(fields[1..], name) by {
        if HasField(fields, name) && fields[0].0 != name {
          var i :| 0 <= i < |fields| && fields[i].0 == name;
          assert fields[1..][i - 1].0 == name;
        }
      }
      assert HasField(fields[1..], name) ==> HasField(fields, name) by {
        if HasField(fields[1..], name) {
          var i :| 0 <= i < |fields[1..]| && fields[1..][i].0 == name;
          assert fields[i + 1].0 == name;
        }
      }
      r
  }

  /** A name `expand` keeps: a field whose type is a reference. */
  predicate IsRefField(fields: seq<(string, string)>, name: string) {
    var t := FieldType(fields, name);
    t.Some? && t.value != "" && IsRefType(t.value)
  }

  /** A piece of the `expand` list that is kept: a non-empty name of a
      reference field. */
  predicate Expands(fields: seq<(string, string)>, x: string) {
    x != "" && IsRefField(fields, x)
  }

  /** The trimmed pieces of the comma list that `Expands` keeps, in
      order. */
  function KeepRefs(fields: seq<(string, string)>, pieces: seq<string>): (r: seq<string>)
    ensures |r| <= |pieces|
    ensures forall i | 0 <= i < |r| :: Expands(fields, r[i])
    decreases |pieces|
  {
    if pieces == [] then []
    else
      var f := Strip(pieces[0]);
      var rest := KeepRefs(fields, pieces[1..]);
      if Expands(fields, f) then [f] + rest else rest
  }

  /** `KeepRefs` keeps exactly the trimmed pieces that `Expands` accepts. */
  lemma {:induction false} KeepRefsMembers(fields: seq<(string, string)>, pieces: seq<string>)
    ensures forall x :: x in KeepRefs(fields, pieces) <==>
      exists i | 0 <= i < |pieces| :: x == Strip(pieces[i]) && Expands(fields, x)
    decreases |pieces|
  {
    if pieces != [] {
      KeepRefsMembers(fields, pieces[1..]);
      assert forall i | 1 <= i < |pieces| :: pieces[i] == pieces[1..][i - 1];
      assert forall i | 0 <= i < |pieces[1..]| :: pieces[1..][i] == pieces[i + 1];
    }
  }

  /** `_parse_expand(model, raw)`. */
  function ParseExpand(fields: seq<(string, string)>, raw: string): (r: seq<string>)
    ensures raw == "" ==> r == []
    ensures forall i | 0 <= i < |r| :: Expands(fields, r[i])
  {
    if raw == "" then [] else KeepRefs(fields, Split(raw, ','))
  }

  // ---------------------------------------------------------------------
  // _where_clause
  // ---------------------------------------------------------------------

  /** `_coerce_filter_value(field_type, value)`: the value of a `=`
      filter; `int()` may raise. */
  function CoerceFilterValue(t: string, value: string): (r: Result<Cell, string>)
    ensures (StartsWith(t, "ref:") || t == "int") ==>
      (r.Ok? <==> ParseInt(value).Some?) && (r.Ok? ==> r.value == Integer(ParseInt(value).value))
    ensures !(StartsWith(t, "ref:") || t == "int") ==> r.Ok?
    ensures t == "bool" ==> r == Ok(Integer(if TrueWord(value) then 1 else 0))
  {
    if StartsWith(t, "ref:") || t == "int" then
      assert t != "bool" by {
        if StartsWith(t, "ref:") { assert t[0] == 'r'; }
      }
      match ParseInt(value)
      case Some(n) => Ok(Integer(n))
      case None => Err("ValueError")
    else if t == "float" then Ok(Float(Str(value)))
    else if t == "bool" then Ok(Integer(if TrueWord(value) then 1 else 0))
    else Ok(Text(value))
  }

  /** `raw.replace(c, d)` for single characters. */
  function ReplaceChar(s: string, c: char, d: char): (r: string)
    ensures |r| == |s|
    ensures forall i | 0 <= i < |s| :: r[i] == (if s[i] == c then d else s[i])
  {
    seq(|s|, i requires 0 <= i < |s| => if s[i] == c then d else s[i])
  }

  /** The LIKE pattern of a text or json filter: `*` is a wildcard when
      the filter holds a wildcard; otherwise the filter matches anywhere. */
  function LikePattern(raw: string): (r: string)
    ensures '*' !in r
    ensures ('*' in raw || '%' in raw) ==> |r| == |raw|
    ensures ('*' in raw || '%' in raw) ==>
      forall i | 0 <= i < |raw| :: r[i] == (if raw[i] == '*' then '%' else raw[i])
    ensures !('*' in raw || '%' in raw) ==> r == "%" + raw + "%"
  {
    if '*' in raw || '%' in raw then ReplaceChar(raw, '*', '%') else "%" + raw + "%"
  }

  /** The fields a search looks in: those of type text. */
  function TextFields(fields: seq<(string, string)>): (r: seq<string>)
    ensures forall x :: x in r <==> (x, "text") in fields
    decreases |fields|
  {
    if fields == [] then []
    else
      var rest := TextFields(fields[1..]);
      assert forall p | p in fields[1..] :: p in fields;
      assert forall p | p in fields && p != fields[0] :: p in fields[1..];
      if fields[0].1 == "text" then [fields[0].0] + rest else rest
  }

  function LikeTerms(names: seq<string>): (r: seq<string>)
    ensures |r| == |names|
    ensures forall i | 0 <= i < |names| :: r[i] == names[i] + " LIKE ?"
  {
    seq(|names|, i requires 0 <= i < |names| => names[i] + " LIKE ?")
  }

  /** One condition of the WHERE clause and the parameters it binds. */
  datatype Clause = Clause(sql: string, params: seq<Cell>)

  /** The search clause: `q` LIKE-matched in any text field, one
      parameter per field; none for an empty search or a model without
      text fields. */
  function SearchClause(fields: seq<(string, string)>, q: string): (r: Option<Clause>)
    ensures r.Some? <==> q != "" && TextFields(fields) != []
    ensures r.Some? ==> |r.value.params| == |TextFields(fields)|
    ensures r.Some? ==> forall i | 0 <= i < |r.value.params| :: r.value.params[i] == Text("%" + q + "%")
  {
    var tf := TextFields(fields);
    if q == "" || tf == [] then None
    else
      Some(Clause("(" + Join(LikeTerms(tf), " OR ") + ")",
                  seq(|tf|, _ => Text("%" + q + "%"))))
  }

  /** The clause of one `f_<field>` filter, with its one parameter. */
  function FilterClause(fields: seq<(string, string)>, field: string, raw: string): (r: Result<Clause, string>)
    ensures r.Ok? ==> |r.value.params| == 1
    ensures var t := FieldType(fields, field).GetOr("text");
      (t == "text" || t == "json") ==> r == Ok(Clause(field + " LIKE ?", [Text(LikePattern(raw))]))
  {
    var t := FieldType(fields, field).GetOr("text");
    if t == "text" || t == "json" then Ok(Clause(field + " LIKE ?", [Text(LikePattern(raw))]))
    else
      var v :- CoerceFilterValue(t, raw);
      Ok(Clause(field + " = ?", [v]))
  }

  function FilterClauses(fields: seq<(string, string)>, filters: seq<(string, string)>): (r: Result<seq<Clause>, string>)
    ensures r.Ok? ==> |r.value| == |filters|
    ensures r.Ok? ==> forall i | 0 <= i < |filters| :: FilterClause(fields, filters[i].0, filters[i].1) == Ok(r.value[i])
    decreases |filters|
  {
    if filters == [] then Ok([])
    else
      var c :- FilterClause(fields, filters[0].0, filters[0].1);
      var rest :- FilterClauses(fields, filters[1..]);
      assert forall i | 1 <= i < |filters| :: filters[i] == filters[1..][i - 1];
      Ok([c] + rest)
  }

  function ClauseSql(cs: seq<Clause>): (r: seq<string>)
    ensures |r| == |cs|
    ensures forall i | 0 <= i < |cs| :: r[i] == cs[i].sql
  {
    seq(|cs|, i requires 0 <= i < |cs| => cs[i].sql)
  }

  function ClauseParams(cs: seq<Clause>): seq<Cell>
    decreases |cs|
  {
    if cs == [] then [] else cs[0].params + ClauseParams(cs[1..])
  }

  /** `_where_clause(model, q, filters)`: the search clause first, then one
      clause per filter, joined with AND; the parameters in the same
      order. */
  function WhereClause(fields: seq<(string, string)>, q: string, filters: seq<(string, string)>)
    : (r: Result<(string, seq<Cell>), string>)
    ensures r.Ok? ==> |r.value.1| == (if SearchClause(fields, q).Some? then |TextFields(fields)| else 0) + |filters|
  {
    var search := SearchClause(fields, q);
    var head := if search.Some? then [search.value] else [];
    var rest :- FilterClauses(fields, filters);
    var all := head + rest;
    ClauseParamsCount(rest);
    ClauseParamsAppend(head, rest);
    Ok((Join(ClauseSql(all), " AND "), ClauseParams(all)))
  }

  lemma {:induction false} ClauseParamsCount(cs: seq<Clause>)
    requires forall i | 0 <= i < |cs| :: |cs[i].params| == 1
    ensures |ClauseParams(cs)| == |cs|
    decreases |cs|
  {
    if cs != [] {
      ClauseParamsCount(cs[1..]);
    }
  }

  lemma {:induction false} ClauseParamsAppend(a: seq<Clause>, b: seq<Clause>)
    ensures ClauseParams(a + b) == ClauseParams(a) + ClauseParams(b)
    decreases |a|
  {
    if a == [] {
      assert a + b == b;
    } else {
      ClauseParamsAppend(a[1..], b);
      assert (a + b)[0] == a[0];
      assert (a + b)[1..] == a[1..] + b;
    }
  }

  /** The number of placeholders in all the parts. */
  function MarksIn(parts: seq<string>): nat
    decreases |parts|
  {
    if parts == [] then 0 else Count(parts[0], '?') + MarksIn(parts[1..])
  }

  lemma CountConcat(a: string, b: string)
    ensures Count(a + b, '?') == Count(a, '?') + Count(b, '?')
  {
    assert multiset(a + b) == multiset(a) + multiset(b);
  }

  /** Joining with a separator free of placeholders adds none. */
  lemma {:induction false} JoinMarks(parts: seq<string>, sep: string)
    requires '?' !in sep
    ensures Count(Join(parts, sep), '?') == MarksIn(parts)
    decreases |parts|
  {
    if |parts| == 1 {
      assert MarksIn(parts[1..]) == 0;
    } else if |parts| > 1 {
      JoinMarks(parts[1..], sep);
      CountConcat(parts[0], sep);
      CountConcat(parts[0] + sep, Join(parts[1..], sep));
      assert Count(sep, '?') == 0;
    }
  }

  /** Each LIKE term holds one placeholder. */
  lemma {:induction false} LikeTermsMarks(names: seq<string>)
    requires forall i | 0 <= i < |names| :: '?' !in names[i]
    ensures MarksIn(LikeTerms(names)) == |names|
    decreases |names|
  {
    if names != [] {
      LikeTermsMarks(names[1..]);
      LikeTermsTail(names);
      LikeMark(names[0]);
    }
  }

  lemma LikeTermsTail(names: seq<string>)
    requires names != []
    ensures LikeTerms(names)[1..] == LikeTerms(names[1..])
  {
    var all, rest := LikeTerms(names), LikeTerms(names[1..]);
    forall i | 0 <= i < |rest| ensures all[1..][i] == rest[i] {
      assert names[1..][i] == names[i + 1];
    }
  }

  /** `name = ?` holds one placeholder when the name holds none. */
  lemma EqualsMark(name: string)
    requires '?' !in name
    ensures Count(name + " = ?", '?') == 1
  {
    CountConcat(name, " = ?");
    assert Count(name, '?') == 0;
    assert " = ?" == " = " + "?";
    CountConcat(" = ", "?");
    assert '?' !in " = ";
  }

  /** `name LIKE ?` holds one placeholder when the name holds none. */
  lemma LikeMark(name: string)
    requires '?' !in name
    ensures Count(name + " LIKE ?", '?') == 1
  {
    CountConcat(name, " LIKE ?");
    assert Count(name, '?') == 0;
    assert " LIKE ?" == " LIKE " + "?";
    CountConcat(" LIKE ", "?");
    assert '?' !in " LIKE ";
  }

  /** A clause whose placeholders match its parameters. */
  predicate Balanced(c: Clause) {
    Count(c.sql, '?') == |c.params|
  }

  lemma {:induction false} ClausesMarks(cs: seq<Clause>)
    requires forall i | 0 <= i < |cs| :: Balanced(cs[i])
    ensures MarksIn(ClauseSql(cs)) == |ClauseParams(cs)|
    decreases |cs|
  {
    if cs != [] {
      ClausesMarks(cs[1..]);
      assert ClauseSql(cs)[1..] == ClauseSql(cs[1..]);
    }
  }

  lemma SearchBalanced(fields: seq<(string, string)>, q: string)
    requires SearchClause(fields, q).Some?
    requires forall i | 0 <= i < |fields| :: '?' !in fields[i].0
    ensures Balanced(SearchClause(fields, q).value)
  {
    var tf := TextFields(fields);
    TextFieldsUnmarked(fields);
    LikeTermsMarks(tf);
    JoinMarks(LikeTerms(tf), " OR ");
    var inner := Join(LikeTerms(tf), " OR ");
    ParenthesesUnmarked(inner);
    var c := SearchClause(fields, q).value;
    assert c.sql == "(" + inner + ")";
    assert |c.params| == |tf|;
  }

  lemma TextFieldsUnmarked(fields: seq<(string, string)>)
    requires forall i | 0 <= i < |fields| :: '?' !in fields[i].0
    ensures forall i | 0 <= i < |TextFields(fields)| :: '?' !in TextFields(fields)[i]
  {
    var tf := TextFields(fields);
    forall i | 0 <= i < |tf| ensures '?' !in tf[i] {
      assert tf[i] in tf;
      var j :| 0 <= j < |fields| && fields[j] == (tf[i], "text");
    }
  }

  lemma ParenthesesUnmarked(inner: string)
    ensures Count("(" + inner + ")", '?') == Count(inner, '?')
  {
    CountConcat("(", inner);
    CountConcat("(" + inner, ")");
    assert Count("(", '?') == 0 && Count(")", '?') == 0;
  }

  lemma FilterBalanced(fields: seq<(string, string)>, field: string, raw: string)
    requires FilterClause(fields, field, raw).Ok?
    requires '?' !in field
    ensures Balanced(FilterClause(fields, field, raw).value)
  {
    LikeMark(field);
    EqualsMark(field);
  }

  lemma FiltersBalanced(fields: seq<(string, string)>, filters: seq<(string, string)>)
    requires FilterClauses(fields, filters).Ok?
    requires forall i | 0 <= i < |filters| :: '?' !in filters[i].0
    ensures forall c | c in FilterClauses(fields, filters).value :: Balanced(c)
  {
    var rest := FilterClauses(fields, filters).value;
    forall i | 0 <= i < |rest| ensures Balanced(rest[i]) {
      FilterBalanced(fields, filters[i].0, filters[i].1);
    }
  }

  lemma JoinedBalanced(head: seq<Clause>, rest: seq<Clause>)
    requires forall c | c in head :: Balanced(c)
    requires forall c | c in rest :: Balanced(c)
    ensures Count(Join(ClauseSql(head + rest), " AND "), '?') == |ClauseParams(head + rest)|
  {
    var all := head + rest;
    assert forall i | 0 <= i < |all| :: all[i] in head || all[i] in rest;
    ClausesMarks(all);
    JoinMarks(ClauseSql(all), " AND ");
  }

  /** When no field name holds a `?`, the WHERE clause has exactly one
      placeholder per parameter, in the search and in every filter. */
  lemma WherePlaceholders(fields: seq<(string, string)>, q: string, filters: seq<(string, string)>)
    requires WhereClause(fields, q, filters).Ok?
    requires forall i | 0 <= i < |fields| :: '?' !in fields[i].0
    requires forall i | 0 <= i < |filters| :: '?' !in filters[i].0
    ensures var w := WhereClause(fields, q, filters).value;
      Count(w.0, '?') == |w.1|
  {
    var search := SearchClause(fields, q);
    var head := if search.Some? then [search.value] else [];
    if search.Some? {
      SearchBalanced(fields, q);
    }
    FiltersBalanced(fields, filters);
    JoinedBalanced(head, FilterClauses(fields, filters).value);
  }

  // ---------------------------------------------------------------------
  // _query_rows clamps
  // ---------------------------------------------------------------------

  /** The page size a query uses: between 1 and 500. */
  function ClampLimit(limit: int): (r: int)
    ensures 1 <= r <= 500
    ensures 1 <= limit <= 500 ==> r == limit
  {
    Max(1, Min(limit, 500))
  }

  /** What `_query_rows` passes on: the clamped limit and offset, and the
      ORDER BY built from a known sort field and a direction. */
  datatype Query = Query(limit: int, offset: int, orderBy: string)

  function QueryArgs(fields: seq<(string, string)>, sort: string, direction: string, limit: int, offset: int)
    : (r: Query)
    ensures 1 <= r.limit <= 500 && r.offset >= 0
    ensures 1 <= limit <= 500 ==> r.limit == limit
    ensures offset >= 0 ==> r.offset == offset
    ensures var s := if sort == "id" || HasField(fields, sort) then sort else "id";
      r.orderBy == s + " " + (if Lower(direction) == "asc" then "asc" else "desc")
  {
    var s := if sort == "id" || HasField(fields, sort) then sort else "id";
    var d := if Lower(direction) == "asc" then "asc" else "desc";
    Query(ClampLimit(limit), Max(0, offset), s + " " + d)
  }

  // ---------------------------------------------------------------------
  // Admin pagination
  // ---------------------------------------------------------------------

  /** `math.ceil(a / b)` for a positive `b`. */
  function CeilDiv(a: int, b: int): (r: int)
    requires b > 0
    ensures r * b >= a && (r - 1) * b < a
  {
    (a + b - 1) / b
  }

  /** `total_pages` of `render_admin_model`. */
  function TotalPages(total: int, limit: int): (r: int)
    ensures r >= 1
    ensures r * Max(1, limit) >= total
    ensures total > 0 ==> (r - 1) * Max(1, limit) < total
  {
    Max(1, CeilDiv(total, Max(1, limit)))
  }

  /** The page shown: clamped into [1, total_pages]. */
  function ShownPage(page: int, total: int, limit: int): (r: int)
    ensures 1 <= r <= TotalPages(total, limit)
    ensures 1 <= page <= TotalPages(total, limit) ==> r == page
  {
    Max(1, Min(page, TotalPages(total, limit)))
  }

  /** The offset `_handle_admin` queries with, as written: computed from
      the requested limit, while the query itself clamps the limit. */
  function AdminOffsetAsWritten(page: int, limit: int): (r: int)
    ensures r >= 0
  {
    Max(0, (Max(1, page) - 1) * limit)
  }

  /** With a requested limit above 500, each page shows 500 rows but
      pages start `limit` rows apart, so row 500 (counting from 0) is on
      no page at all. */
  lemma AdminPagesSkipRows(limit: int, page: int)
    requires limit > 500
    ensures var off := AdminOffsetAsWritten(page, limit);
      !(off <= 500 < off + ClampLimit(limit))
  {
    var p := Max(1, page) - 1;
    if p >= 1 {
      assert p * limit >= limit;
    }
  }

  /** The offset as evidently intended: pages of the size the query uses. */
  function AdminOffset(page: int, limit: int): (r: int)
    ensures r >= 0
    ensures page <= 1 ==> r == 0
  {
    (Max(1, page) - 1) * ClampLimit(limit)
  }

  lemma {:induction false} MulStep(a: int, b: int, l: int)
    requires 0 <= a < b && l > 0
    ensures a * l + l <= b * l
    decreases b - a
  {
    if b > a + 1 {
      MulStep(a, b - 1, l);
    }
    assert b * l == (b - 1) * l + l;
  }

  /** With the corrected offset every row is on exactly one page: row `n`
      on page `n / limit + 1`, and the pages do not overlap. */
  lemma AdminPagesTile(n: nat, limit: int)
    ensures var p := n / ClampLimit(limit) + 1;
      AdminOffset(p, limit) <= n < AdminOffset(p, limit) + ClampLimit(limit)
    ensures forall p, p' | 1 <= p < p' ::
      AdminOffset(p, limit) + ClampLimit(limit) <= AdminOffset(p', limit)
  {
    var l := ClampLimit(limit);
    var q := n / l;
    assert n == q * l + n % l && 0 <= n % l < l;
    assert AdminOffset(q + 1, limit) == q * l;
    forall p, p' | 1 <= p < p' ensures AdminOffset(p, limit) + l <= AdminOffset(p', limit) {
      MulStep(p - 1, p' - 1, l);
    }
  }
}

=== FILE: spec.dfy ===
/**
 * The application spec of vibeweb/spec.py: the records a validated spec
 * becomes, and `validate_spec`, which checks a decoded JSON spec in a
 * fixed order and raises `ValueError` with a message naming the first
 * problem it meets.
 *
 * JSON object keys are always strings here, so the source's "field name
 * is not a string" case reduces to the empty-name case.
 */
module Spec {
  import opened Base
  import opened Strings
  import opened Json

  // ---------------------------------------------------------------------
  // Field types
  // ---------------------------------------------------------------------

  /** `ALLOWED_TYPES`. */
  predicate IsAllowedType(t: string) {
    t == "text" || t == "int" || t == "float" || t == "bool" || t == "datetime" || t == "json"
  }

  /** `s.split(c, 1)[1]`: what follows the first `c`; `None` where Python
      would raise `IndexError` because `c` does not occur. */
  function AfterFirst(s: string, c: char): (r: Option<string>)
    ensures r.None? <==> c !in s
    ensures r.Some? ==> |r.value| < |s|
  {
    if s == [] then None
    else if s[0] == c then Some(s[1..])
    else AfterFirst(s[1..], c)
  }

  /** What `AfterFirst` returns follows the first occurrence of `c`:
      the input is a `c`-free prefix, the `c`, and the result. */
  lemma {:induction false} AfterFirstSplits(s: string, c: char)
    requires AfterFirst(s, c).Some?
    ensures var r := AfterFirst(s, c).value;
      && s == s[..|s| - |r| - 1] + [c] + r
      && c !in s[..|s| - |r| - 1]
  {
    if s[0] == c {
      assert s == s[..0] + [c] + s[1..];
    } else {
      AfterFirstSplits(s[1..], c);
      var r := AfterFirst(s, c).value;
      var n := |s[1..]| - |r| - 1;
      assert s[..n + 1] == [s[0]] + s[1..][..n];
    }
  }

  /** `_is_ref_type`. */
  predicate IsRefType(t: string) {
    StartsWith(t, "ref:") && AfterFirst(t, ':').Some? && |AfterFirst(t, ':').value| > 0
  }

  /** `_ref_target`. */
  function RefTarget(t: string): Option<string> {
    AfterFirst(t, ':')
  }

  /** A reference type is "ref:" followed by a non-empty name, and its
      target is that name. */
  lemma RefTypeShape(t: string)
    ensures IsRefType(t) <==> StartsWith(t, "ref:") && |t| > 4
    ensures StartsWith(t, "ref:") ==> RefTarget(t) == Some(t[4..])
  {
    if StartsWith(t, "ref:") {
      assert t[0] == 'r' && t[1] == 'e' && t[2] == 'f' && t[3] == ':';
      assert t[1..][1..][1..] == t[3..] && t[3..][1..] == t[4..];
      assert AfterFirst(t, ':') == AfterFirst(t[1..], ':') == AfterFirst(t[1..][1..], ':')
          == AfterFirst(t[3..], ':') == Some(t[4..]);
    }
  }

  // ---------------------------------------------------------------------
  // The validated records
  // ---------------------------------------------------------------------

  /** `ModelSpec`: a name and its fields with their types, in order. */
  datatype ModelSpec = ModelSpec(name: string, fields: seq<(string, string)>)

  /** `name in model.fields`: a declared field of a model. */
  predicate HasField(fields: seq<(string, string)>, name: string) {
    exists i | 0 <= i < |fields| :: fields[i].0 == name
  }

  /** `PageSpec`. */
  datatype PageSpec = PageSpec(path: string, model: string, title: Option<string>, fields: Option<seq<string>>)

  /** `AppSpec`. */
  datatype AppSpec = AppSpec(
    name: string,
    dbPath: string,
    models: seq<ModelSpec>,
    apiCrud: seq<string>,
    pages: seq<PageSpec>,
    adminEnabled: bool,
    adminPath: string,
    adminAuthType: Option<string>,
    adminUsername: Option<string>,
    adminPassword: Option<string>)

  function ModelNames(models: seq<ModelSpec>): (names: seq<string>)
    ensures |names| == |models|
    ensures forall i | 0 <= i < |models| :: names[i] == models[i].name
  {
    seq(|models|, i requires 0 <= i < |models| => models[i].name)
  }

  predicate Distinct(xs: seq<string>) {
    forall i, j | 0 <= i < j < |xs| :: xs[i] != xs[j]
  }

  /** What every spec `validate_spec` returns satisfies. */
  predicate AppWellFormed(app: AppSpec) {
    var names := ModelNames(app.models);
    && (forall i | 0 <= i < |names| :: names[i] != [])
    && Distinct(names)
    && (forall i | 0 <= i < |app.models| :: ModelWellFormed(app.models[i], names))
    && (forall i | 0 <= i < |app.apiCrud| :: app.apiCrud[i] in names)
    && StartsWith(app.adminPath, "/")
    && (forall i | 0 <= i < |app.pages| ::
          StartsWith(app.pages[i].path, "/") && app.pages[i].model in names)
    && (app.adminAuthType.Some? ==>
          && app.adminEnabled && app.adminAuthType == Some("basic")
          && app.adminUsername.Some? && app.adminUsername.value != []
          && app.adminPassword.Some? && app.adminPassword.value != [])
    && (app.adminAuthType.None? ==> app.adminUsername.None? && app.adminPassword.None?)
  }

  predicate ModelWellFormed(m: ModelSpec, names: seq<string>) {
    && |m.fields| > 0
    && forall j | 0 <= j < |m.fields| :: m.fields[j].0 != [] && TypeOk(m.fields[j].1, names)
  }

  /** A field type is allowed, or refers to a declared model. */
  predicate TypeOk(t: string, names: seq<string>) {
    IsAllowedType(t) || (IsRefType(t) && RefTarget(t).value in names)
  }

  // ---------------------------------------------------------------------
  // The input, piece by piece
  // ---------------------------------------------------------------------

  /** `d.get(k) or default`. */
  function GetOrDefault(d: Dict, k: string, default: Value): Value {
    var v := GetOrNull(d, k);
    if Truthy(v) then v else default
  }

  predicate NonEmptyStr(v: Value) {
    v.Str? && v.s != []
  }

  /** A model entry that passes the first loop: an object with a non-empty
      string name. */
  predicate NamedModel(v: Value) {
    v.Obj? && NonEmptyStr(GetOrNull(v.fields, "name"))
  }

  predicate AllNamed(models: seq<Value>) {
    forall i | 0 <= i < |models| :: NamedModel(models[i])
  }

  function NameOf(v: Value): string
    requires NamedModel(v)
  {
    GetOrNull(v.fields, "name").s
  }

  function Names(models: seq<Value>): (names: seq<string>)
    requires AllNamed(models)
    ensures |names| == |models|
    ensures forall i | 0 <= i < |models| :: names[i] == NameOf(models[i])
  {
    seq(|models|, i requires 0 <= i < |models| && AllNamed(models) => NameOf(models[i]))
  }

  /** The first loop of `validate_spec`: every model is an object with a
      non-empty string name, and no name repeats one seen before. */
  function CollectNames(models: seq<Value>, seen: seq<string>): (r: Result<seq<string>, string>)
    requires Distinct(seen)
    ensures r.Ok? <==> AllNamed(models) && Distinct(seen + Names(models))
    ensures r.Ok? ==> r.value == seen + Names(models)
    decreases |models|
  {
    if models == [] then
      assert seen + Names(models) == seen;
      Ok(seen)
    else if !models[0].Obj? then Err("model must be an object")
    else if !NonEmptyStr(GetOrNull(models[0].fields, "name")) then Err("model.name must be a string")
    else
      var n := NameOf(models[0]);
      NamesCons(models, seen);
      if n in seen then
        if AllNamed(models) then
          RepeatNotDistinct(seen, Names(models));
          Err("duplicate model name: " + n)
        else Err("duplicate model name: " + n)
      else
        assert Distinct(seen + [n]);
        CollectNames(models[1..], seen + [n])
  }

  /** The names of a list whose first model is named: that name, then the
      rest's. */
  lemma NamesCons(models: seq<Value>, seen: seq<string>)
    requires models != [] && NamedModel(models[0])
    ensures AllNamed(models) <==> AllNamed(models[1..])
    ensures AllNamed(models) ==> seen + Names(models) == (seen + [NameOf(models[0])]) + Names(models[1..])
  {
    assert forall i | 1 <= i < |models| :: models[i] == models[1..][i - 1];
    if AllNamed(models) {
      var whole, rest := Names(models), Names(models[1..]);
      forall i | 0 <= i < |whole|
        ensures whole[i] == ([NameOf(models[0])] + rest)[i]
      {
        if i > 0 {
          assert models[i] == models[1..][i - 1];
        }
      }
      assert whole == [NameOf(models[0])] + rest;
    }
  }

  /** A name already seen makes the whole list not distinct. */
  lemma RepeatNotDistinct(seen: seq<string>, names: seq<string>)
    requires names != [] && names[0] in seen
    ensures !Distinct(seen + names)
  {
    var k :| 0 <= k < |seen| && seen[k] == names[0];
    assert (seen + names)[|seen|] == names[0];
    assert (seen + names)[k] == names[0];
  }

  /** One entry of a model's `fields`. */
  predicate FieldOk(f: (string, Value), names: seq<string>) {
    f.0 != [] && f.1.Str? && TypeOk(f.1.s, names)
  }

  /** The `fields` of a validated model: each type as a string. */
  function FieldTypes(fs: Dict): (r: seq<(string, string)>)
    requires forall i | 0 <= i < |fs| :: fs[i].1.Str?
    ensures |r| == |fs|
  {
    seq(|fs|, i requires 0 <= i < |fs| && fs[i].1.Str? => (fs[i].0, fs[i].1.s))
  }

  /** The tail of the message for a field type that is not allowed. */
  const AllowedTypesNote := " (allowed: ['bool', 'datetime', 'float', 'int', 'json', 'text'] or ref:<Model>)"

  /** The field loop for one model. */
  function CheckFields(model: string, fs: Dict, names: seq<string>): (r: Result<(), string>)
    ensures r.Ok? <==> forall i | 0 <= i < |fs| :: FieldOk(fs[i], names)
    decreases |fs|
  {
    if fs == [] then Ok(())
    else
      var (name, t) := fs[0];
      if name == [] then Err("invalid field name in " + model)
      else if !t.Str? then Err("invalid field type in " + model + "." + name)
      else if !IsAllowedType(t.s) && !IsRefType(t.s) then
        Err("invalid field type '" + t.s + "' in " + model + AllowedTypesNote)
      else if IsRefType(t.s) && RefTarget(t.s).value !in names then
        Err("ref target '" + RefTarget(t.s).value + "' not found for " + model + "." + name)
      else
        assert forall i | 1 <= i < |fs| :: fs[i] == fs[1..][i - 1];
        CheckFields(model, fs[1..], names)
  }

  /** A model entry that passes the second loop. */
  predicate ModelOk(v: Value, names: seq<string>) {
    && NamedModel(v)
    && GetOrNull(v.fields, "fields").Obj?
    && |GetOrNull(v.fields, "fields").fields| > 0
    && forall i | 0 <= i < |GetOrNull(v.fields, "fields").fields| ::
         FieldOk(GetOrNull(v.fields, "fields").fields[i], names)
  }

  /** The record a model entry that passes becomes. */
  function ModelOf(v: Value, names: seq<string>): ModelSpec
    requires ModelOk(v, names)
  {
    ModelSpec(NameOf(v), FieldTypes(GetOrNull(v.fields, "fields").fields))
  }

  /** One pass of the second loop of `validate_spec`: the checks on one
      model entry, in the order they are made. */
  function ParseModel(m: Value, names: seq<string>): (r: Result<ModelSpec, string>)
    ensures r.Ok? <==> ModelOk(m, names)
    ensures r.Ok? ==> r.value == ModelOf(m, names)
  {
    if !m.Obj? then Err("model must be an object")
    else if !NonEmptyStr(GetOrNull(m.fields, "name")) then Err("model.name must be a string")
    else
      var name := NameOf(m);
      var fields := GetOrNull(m.fields, "fields");
      if !fields.Obj? || fields.fields == [] then Err("model.fields required for " + name)
      else
        match CheckFields(name, fields.fields, names)
        case Err(e) => Err(e)
        case Ok(_) => Ok(ModelOf(m, names))
  }

  /** The second loop of `validate_spec`. */
  function ParseModels(models: seq<Value>, names: seq<string>): (r: Result<seq<ModelSpec>, string>)
    ensures r.Ok? <==> forall i | 0 <= i < |models| :: ModelOk(models[i], names)
    ensures r.Ok? ==> |r.value| == |models|
    ensures r.Ok? ==> forall i | 0 <= i < |models| :: r.value[i] == ModelOf(models[i], names)
    decreases |models|
  {
    if models == [] then Ok([])
    else
      match ParseModel(models[0], names)
      case Err(e) => Err(e)
      case Ok(first) =>
        assert forall i | 1 <= i < |models| :: models[i] == models[1..][i - 1];
        match ParseModels(models[1..], names)
        case Err(e) => Err(e)
        case Ok(rest) => Ok([first] + rest)
  }

  /** `api.crud`: a list of strings (checked as a whole first), each naming
      a declared model. */
  function ParseCrud(crud: Value, names: seq<string>): (r: Result<seq<string>, string>)
    ensures r.Ok? <==>
      crud.Arr? && (forall i | 0 <= i < |crud.items| :: crud.items[i].Str? && crud.items[i].s in names)
    ensures r.Ok? ==> |r.value| == |crud.items|
    ensures r.Ok? ==> forall i | 0 <= i < |crud.items| :: crud.items[i] == Str(r.value[i])
  {
    if !crud.Arr? || !(forall i | 0 <= i < |crud.items| :: crud.items[i].Str?) then
      Err("api.crud must be list of strings")
    else
      var cs := seq(|crud.items|, i requires 0 <= i < |crud.items| => crud.items[i].s);
      if exists i | 0 <= i < |cs| :: cs[i] !in names then
        Err("api.crud references unknown model: " + cs[FirstUnknown(cs, names)])
      else
        assert forall i | 0 <= i < |cs| :: cs[i] == crud.items[i].s;
        Ok(cs)
  }

  /** The position of the first string not among `names`. */
  function FirstUnknown(cs: seq<string>, names: seq<string>): (k: nat)
    requires exists i | 0 <= i < |cs| :: cs[i] !in names
    ensures k < |cs| && cs[k] !in names
    ensures forall i | 0 <= i < k :: cs[i] in names
  {
    if cs[0] !in names then 0
    else
      assert exists i | 0 <= i < |cs[1..]| :: cs[1..][i] !in names by {
        var i :| 0 <= i < |cs| && cs[i] !in names;
        assert cs[1..][i - 1] == cs[i];
      }
      1 + FirstUnknown(cs[1..], names)
  }

  /** The admin settings of `ui`. */
  datatype Admin = Admin(enabled: bool, path: string, authType: Option<string>,
                         username: Option<string>, password: Option<string>)

  /** An `admin_path` that passes: a string starting with "/". */
  predicate AdminPathOk(path: Value) {
    path.Str? && StartsWith(path.s, "/")
  }

  function ParseAdmin(ui: Dict): (r: Result<Admin, string>)
    ensures r.Ok? ==> StartsWith(r.value.path, "/")
    ensures r.Ok? ==> (r.value.authType.Some? <==> GetOrNull(ui, "admin_auth") != Null)
    ensures r.Ok? && r.value.authType.Some? ==>
      && r.value.enabled && r.value.authType == Some("basic")
      && r.value.username.Some? && r.value.username.value != []
      && r.value.password.Some? && r.value.password.value != []
    ensures r.Ok? && r.value.authType.None? ==>
      r.value.username.None? && r.value.password.None? && r.value.enabled == Truthy(GetOrNull(ui, "admin"))
    ensures r.Ok? ==> Str(r.value.path) == Get(ui, "admin_path").GetOr(Str("/admin"))
    ensures r.Ok? && r.value.authType.Some? ==>
      && GetOrNull(ui, "admin_auth").Obj?
      && GetOrNull(GetOrNull(ui, "admin_auth").fields, "username") == Str(r.value.username.value)
      && GetOrNull(GetOrNull(ui, "admin_auth").fields, "password") == Str(r.value.password.value)
    ensures !AdminPathOk(Get(ui, "admin_path").GetOr(Str("/admin"))) ==>
      r == Err("ui.admin_path must be a string starting with /")
    ensures AdminPathOk(Get(ui, "admin_path").GetOr(Str("/admin"))) ==>
      var auth := GetOrNull(ui, "admin_auth");
      && (auth != Null && !auth.Obj? ==> r == Err("ui.admin_auth must be an object"))
      && (auth.Obj? && Get(auth.fields, "type").GetOr(Str("basic")) != Str("basic") ==>
            r == Err("ui.admin_auth.type must be 'basic'"))
      && (auth.Obj? && Get(auth.fields, "type").GetOr(Str("basic")) == Str("basic") ==>
            (!NonEmptyStr(GetOrNull(auth.fields, "username")) ==> r == Err("ui.admin_auth.username must be a string"))
            && (NonEmptyStr(GetOrNull(auth.fields, "username")) && !NonEmptyStr(GetOrNull(auth.fields, "password")) ==>
                  r == Err("ui.admin_auth.password must be a string")))
  {
    var enabled := Truthy(GetOrNull(ui, "admin"));
    var path := Get(ui, "admin_path").GetOr(Str("/admin"));
    if !AdminPathOk(path) then Err("ui.admin_path must be a string starting with /")
    else
      var auth := GetOrNull(ui, "admin_auth");
      if auth == Null then Ok(Admin(enabled, path.s, None, None, None))
      else if !auth.Obj? then Err("ui.admin_auth must be an object")
      else if Get(auth.fields, "type").GetOr(Str("basic")) != Str("basic") then
        Err("ui.admin_auth.type must be 'basic'")
      else
        var user := GetOrNull(auth.fields, "username");
        var pass := GetOrNull(auth.fields, "password");
        if !NonEmptyStr(user) then Err("ui.admin_auth.username must be a string")
        else if !NonEmptyStr(pass) then Err("ui.admin_auth.password must be a string")
        else Ok(Admin(true, path.s, Some("basic"), Some(user.s), Some(pass.s)))
  }

  /** A page entry that passes. */
  predicate PageOk(v: Value, names: seq<string>) {
    && v.Obj?
    && GetOrNull(v.fields, "path").Str? && StartsWith(GetOrNull(v.fields, "path").s, "/")
    && GetOrNull(v.fields, "model").Str? && GetOrNull(v.fields, "model").s in names
    && (GetOrNull(v.fields, "title") == Null || GetOrNull(v.fields, "title").Str?)
    && (GetOrNull(v.fields, "fields") == Null || StrList(GetOrNull(v.fields, "fields")))
  }

  predicate StrList(v: Value) {
    v.Arr? && forall i | 0 <= i < |v.items| :: v.items[i].Str?
  }

  function Strs(v: Value): (r: seq<string>)
    requires StrList(v)
    ensures |r| == |v.items| && forall i | 0 <= i < |r| :: v.items[i] == Str(r[i])
  {
    seq(|v.items|, i requires 0 <= i < |v.items| => v.items[i].s)
  }

  /** The record a page entry that passes becomes. */
  function PageOf(v: Value, names: seq<string>): PageSpec
    requires PageOk(v, names)
  {
    var title := GetOrNull(v.fields, "title");
    var fields := GetOrNull(v.fields, "fields");
    PageSpec(GetOrNull(v.fields, "path").s, GetOrNull(v.fields, "model").s,
             if title == Null then None else Some(title.s),
             if fields == Null then None else Some(Strs(fields)))
  }

  /** The checks on one page entry, in the order they are made. */
  function ParsePage(p: Value, names: seq<string>): (r: Result<PageSpec, string>)
    ensures r.Ok? <==> PageOk(p, names)
    ensures r.Ok? ==> r.value == PageOf(p, names)
  {
    if !p.Obj? then Err("page must be an object")
    else
      var path := GetOrNull(p.fields, "path");
      var model := GetOrNull(p.fields, "model");
      var title := GetOrNull(p.fields, "title");
      var fields := GetOrNull(p.fields, "fields");
      if !path.Str? || !StartsWith(path.s, "/") then Err("page.path must be a string starting with /")
      else if !model.Str? || model.s !in names then Err("page.model must reference a known model")
      else if title != Null && !title.Str? then Err("page.title must be string")
      else if fields != Null && !StrList(fields) then Err("page.fields must be list of strings")
      else Ok(PageOf(p, names))
  }

  /** The page loop: the pages keep their order. */
  function ParsePages(pages: seq<Value>, names: seq<string>): (r: Result<seq<PageSpec>, string>)
    ensures r.Ok? <==> forall i | 0 <= i < |pages| :: PageOk(pages[i], names)
    ensures r.Ok? ==> |r.value| == |pages|
    ensures r.Ok? ==> forall i | 0 <= i < |pages| :: r.value[i] == PageOf(pages[i], names)
    decreases |pages|
  {
    if pages == [] then Ok([])
    else
      match ParsePage(pages[0], names)
      case Err(e) => Err(e)
      case Ok(first) =>
        assert forall i | 1 <= i < |pages| :: pages[i] == pages[1..][i - 1];
        match ParsePages(pages[1..], names)
        case Err(e) => Err(e)
        case Ok(rest) => Ok([first] + rest)
  }

  // ---------------------------------------------------------------------
  // validate_spec
  // ---------------------------------------------------------------------

  /** `spec.get("db", {}) or {}`, and likewise for `api` and `ui`. */
  function DbBlock(spec: Dict): Value {
    GetOrDefault(spec, "db", Obj([]))
  }

  function ApiBlock(spec: Dict): Value {
    GetOrDefault(spec, "api", Obj([]))
  }

  function UiBlock(spec: Dict): Value {
    GetOrDefault(spec, "ui", Obj([]))
  }

  /** `db.get("path") or "vibeweb.db"`. */
  function DbPathRaw(spec: Dict): Value
    requires DbBlock(spec).Obj?
  {
    GetOrDefault(DbBlock(spec).fields, "path", Str("vibeweb.db"))
  }

  /** `db.get("models", []) or []`. */
  function ModelsValue(spec: Dict): Value
    requires DbBlock(spec).Obj?
  {
    GetOrDefault(DbBlock(spec).fields, "models", Arr([]))
  }

  /** The list under `db.models`, when `db` is an object and it is a
      list. */
  function ModelsRaw(spec: Dict): seq<Value> {
    if DbBlock(spec).Obj? && ModelsValue(spec).Arr? then ModelsValue(spec).items else []
  }

  /** `api.get("crud", []) or []`. */
  function CrudRaw(spec: Dict): Value
    requires ApiBlock(spec).Obj?
  {
    GetOrDefault(ApiBlock(spec).fields, "crud", Arr([]))
  }

  /** `ui.get("pages", []) or []`. */
  function PagesValue(spec: Dict): Value
    requires UiBlock(spec).Obj?
  {
    GetOrDefault(UiBlock(spec).fields, "pages", Arr([]))
  }

  /** The `db` block: its path (by default "vibeweb.db") and its list of
      models (by default empty). */
  function ParseDb(spec: Dict): (r: Result<(string, seq<Value>), string>)
    ensures r.Ok? <==> DbBlock(spec).Obj? && DbPathRaw(spec).Str? && ModelsValue(spec).Arr?
    ensures r.Ok? ==> Str(r.value.0) == DbPathRaw(spec) && r.value.1 == ModelsRaw(spec)
  {
    var db := DbBlock(spec);
    if !db.Obj? then Err("db must be an object") else
    var dbPath := DbPathRaw(spec);
    if !dbPath.Str? then Err("db.path must be a string") else
    var modelsRaw := ModelsValue(spec);
    if !modelsRaw.Arr? then Err("db.models must be a list") else
    Ok((dbPath.s, modelsRaw.items))
  }

  /** The `api` block. */
  function ParseApi(spec: Dict, names: seq<string>): (r: Result<seq<string>, string>)
    ensures r.Ok? ==> ApiBlock(spec).Obj?
    ensures r.Ok? ==> forall i | 0 <= i < |r.value| :: r.value[i] in names
  {
    var api := ApiBlock(spec);
    if !api.Obj? then Err("api must be an object") else
    ParseCrud(CrudRaw(spec), names)
  }

  /** The `ui` block: the list of pages is checked to be a list before the
      admin settings, and its entries after them. */
  function ParseUi(spec: Dict, names: seq<string>): (r: Result<(Admin, seq<PageSpec>), string>)
    ensures r.Ok? <==> UiBlock(spec).Obj? && PagesValue(spec).Arr? && ParseAdmin(UiBlock(spec).fields).Ok? &&
                       forall i | 0 <= i < |PagesValue(spec).items| :: PageOk(PagesValue(spec).items[i], names)
    ensures r.Ok? ==> r.value.0 == ParseAdmin(UiBlock(spec).fields).value
    ensures r.Ok? ==> |r.value.1| == |PagesValue(spec).items|
    ensures r.Ok? ==> forall i | 0 <= i < |r.value.1| :: r.value.1[i] == PageOf(PagesValue(spec).items[i], names)
  {
    var ui := UiBlock(spec);
    if !ui.Obj? then Err("ui must be an object") else
    var pagesRaw := PagesValue(spec);
    if !pagesRaw.Arr? then Err("ui.pages must be a list") else
    var admin :- ParseAdmin(ui.fields);
    var pages :- ParsePages(pagesRaw.items, names);
    Ok((admin, pages))
  }

  /** Everything `validate_spec` checks, each part stated on its own. */
  predicate SpecOk(spec: Dict) {
    var raw := ModelsRaw(spec);
    && GetOrDefault(spec, "name", Str("VibeWeb App")).Str?
    && DbBlock(spec).Obj? && DbPathRaw(spec).Str? && ModelsValue(spec).Arr?
    && AllNamed(raw) && Distinct(Names(raw))
    && (forall i | 0 <= i < |raw| :: ModelOk(raw[i], Names(raw)))
    && ApiBlock(spec).Obj? && CrudRaw(spec).Arr?
    && (forall i | 0 <= i < |CrudRaw(spec).items| ::
          CrudRaw(spec).items[i].Str? && CrudRaw(spec).items[i].s in Names(raw))
    && UiBlock(spec).Obj? && PagesValue(spec).Arr? && ParseAdmin(UiBlock(spec).fields).Ok?
    && (forall i | 0 <= i < |PagesValue(spec).items| :: PageOk(PagesValue(spec).items[i], Names(raw)))
  }

  /** The models the two loops accept are well formed against the names
      the first loop collected, which are theirs. */
  lemma ParsedModelsWellFormed(raw: seq<Value>, names: seq<string>, models: seq<ModelSpec>)
    requires CollectNames(raw, []) == Ok(names)
    requires ParseModels(raw, names) == Ok(models)
    ensures ModelNames(models) == names
    ensures forall i | 0 <= i < |models| :: ModelWellFormed(models[i], names)
  {
    assert names == Names(raw);
    forall i | 0 <= i < |models| ensures ModelNames(models)[i] == names[i] {
      assert models[i] == ModelOf(raw[i], names);
    }
    assert ModelNames(models) == names;
    forall i | 0 <= i < |models| ensures ModelWellFormed(models[i], names) {
      ModelOfWellFormed(raw[i], names);
    }
  }

  /** The record of an accepted model entry is well formed. */
  lemma ModelOfWellFormed(v: Value, names: seq<string>)
    requires ModelOk(v, names)
    ensures ModelWellFormed(ModelOf(v, names), names)
  {
    var fs := GetOrNull(v.fields, "fields").fields;
    assert forall j | 0 <= j < |fs| :: FieldOk(fs[j], names);
  }

  /** The admin settings an `AppSpec` carries. */
  function AdminOf(app: AppSpec): Admin {
    Admin(app.adminEnabled, app.adminPath, app.adminAuthType, app.adminUsername, app.adminPassword)
  }

  /** `validate_spec(spec)`: it accepts exactly the specs whose every part
      passes; the name and database path fall back to "VibeWeb App" and
      "vibeweb.db"; the models, the crud list and the pages are the input's,
      in the input's order. */
  function ValidateSpec(spec: Dict): (r: Result<AppSpec, string>)
    ensures r.Ok? ==> SpecOk(spec)
    ensures r.Ok? ==> AppWellFormed(r.value)
    ensures r.Ok? ==> Str(r.value.name) == GetOrDefault(spec, "name", Str("VibeWeb App"))
    ensures r.Ok? ==> DbBlock(spec).Obj? && Str(r.value.dbPath) == DbPathRaw(spec)
    ensures r.Ok? ==> ModelNames(r.value.models) == Names(ModelsRaw(spec))
    ensures r.Ok? ==> |r.value.models| == |ModelsRaw(spec)|
    ensures r.Ok? ==> forall i | 0 <= i < |ModelsRaw(spec)| ::
      ModelOk(ModelsRaw(spec)[i], ModelNames(r.value.models))
    ensures r.Ok? ==> forall i | 0 <= i < |ModelsRaw(spec)| ::
      r.value.models[i] == ModelOf(ModelsRaw(spec)[i], ModelNames(r.value.models))
    ensures r.Ok? ==> ApiBlock(spec).Obj? && |r.value.apiCrud| == |CrudRaw(spec).items|
    ensures r.Ok? ==> forall i | 0 <= i < |r.value.apiCrud| :: CrudRaw(spec).items[i] == Str(r.value.apiCrud[i])
    ensures r.Ok? ==> UiBlock(spec).Obj? && |r.value.pages| == |PagesValue(spec).items|
    ensures r.Ok? ==> forall i | 0 <= i < |r.value.pages| ::
      r.value.pages[i] == PageOf(PagesValue(spec).items[i], ModelNames(r.value.models))
    ensures r.Ok? ==> AdminOf(r.value) == ParseAdmin(UiBlock(spec).fields).value
    ensures !GetOrDefault(spec, "name", Str("VibeWeb App")).Str? ==> r == Err("name must be a string")
  {
    var name := GetOrDefault(spec, "name", Str("VibeWeb App"));
    if !name.Str? then Err("name must be a string") else
    var db :- ParseDb(spec);
    var names :- CollectNames(db.1, []);
    var models :- ParseModels(db.1, names);
    var crud :- ParseApi(spec, names);
    var ui :- ParseUi(spec, names);
    var admin := ui.0;
    ParsedModelsWellFormed(db.1, names, models);
    Ok(AppSpec(name.s, db.0, models, crud, ui.1,
               admin.enabled, admin.path, admin.authType, admin.username, admin.password))
  }

  /** `validate_spec` raises on every spec that fails one of its checks:
      it accepts exactly the specs whose every part passes. */
  lemma ValidateSpecAccepts(spec: Dict)
    ensures ValidateSpec(spec).Ok? <==> SpecOk(spec)
  {
    if SpecOk(spec) {
      var raw := ModelsRaw(spec);
      assert ParseDb(spec) == Ok((DbPathRaw(spec).s, raw));
      assert [] + Names(raw) == Names(raw);
      assert Distinct([]);
      assert CollectNames(raw, []) == Ok(Names(raw));
      assert ParseModels(raw, Names(raw)).Ok?;
      assert ParseCrud(CrudRaw(spec), Names(raw)).Ok?;
      assert ParseApi(spec, Names(raw)).Ok?;
      assert ParseUi(spec, Names(raw)).Ok?;
    }
  }
}

=== FILE: strings.dfy ===
/**
 * The handful of Python `str` operations the repository relies on, written
 * out over `seq<char>`: whitespace stripping, splitting and joining,
 * prefix/suffix tests, ASCII case mapping, and decimal integer text.
 */
module Strings {
  import opened Base

  /** Python's `str.isspace` for one character. */
  predicate IsSpace(c: char) {
    || c == ' '
    || ('\t' <= c <= '\r')
    || ('\U{1c}' <= c <= '\U{1f}')
    || c == '\U{85}' || c == '\U{a0}' || c == '\U{1680}'
    || ('\U{2000}' <= c <= '\U{200a}')
    || c == '\U{2028}' || c == '\U{2029}' || c == '\U{202f}'
    || c == '\U{205f}' || c == '\U{3000}'
  }

  predicate AllSpace(s: string) {
    forall i | 0 <= i < |s| :: IsSpace(s[i])
  }

  predicate NoSpace(s: string) {
    forall i | 0 <= i < |s| :: !IsSpace(s[i])
  }

  /** `s.lstrip()`: the suffix left after dropping leading whitespace. */
  function LStrip(s: string): (r: string)
    ensures |r| <= |s|
    ensures r == [] || !IsSpace(r[0])
  {
    if |s| > 0 && IsSpace(s[0]) then LStrip(s[1..]) else s
  }

  /** What `LStrip` keeps is a suffix of its input. */
  lemma {:induction false} LStripIsSuffix(s: string)
    ensures LStrip(s) == s[|s| - |LStrip(s)|..]
  {
    if |s| > 0 && IsSpace(s[0]) {
      LStripIsSuffix(s[1..]);
    }
  }

  /** What `LStrip` drops is whitespace. */
  lemma {:induction false} LStripDropsSpace(s: string)
    ensures AllSpace(s[..|s| - |LStrip(s)|])
  {
    if |s| > 0 && IsSpace(s[0]) {
      LStripDropsSpace(s[1..]);
      var k := |s| - |LStrip(s)|;
      assert s[..k] == [s[0]] + s[1..][..k - 1];
    }
  }

  /** `s.rstrip()`: the prefix left after dropping trailing whitespace. */
  function RStrip(s: string): (r: string)
    ensures |r| <= |s|
    ensures r == [] || !IsSpace(r[|r| - 1])
  {
    if |s| > 0 && IsSpace(s[|s| - 1]) then RStrip(s[..|s| - 1]) else s
  }

  /** What `RStrip` keeps is a prefix of its input. */
  lemma {:induction false} RStripIsPrefix(s: string)
    ensures RStrip(s) == s[..|RStrip(s)|]
  {
    if |s| > 0 && IsSpace(s[|s| - 1]) {
      RStripIsPrefix(s[..|s| - 1]);
    }
  }

  /** What `RStrip` drops is whitespace. */
  lemma {:induction false} RStripDropsSpace(s: string)
    ensures AllSpace(s[|RStrip(s)|..])
  {
    if |s| > 0 && IsSpace(s[|s| - 1]) {
      RStripDropsSpace(s[..|s| - 1]);
      var k := |RStrip(s)|;
      assert s[k..] == s[..|s| - 1][k..] + [s[|s| - 1]];
    }
  }

  /** `s.strip()`. */
  function Strip(s: string): string {
    RStrip(LStrip(s))
  }

  /** The stripped text is a contiguous part of the original. */
  lemma StripIsInfix(s: string) returns (k: nat)
    ensures k + |Strip(s)| <= |s| && Strip(s) == s[k..k + |Strip(s)|]
  {
    var l := LStrip(s);
    k := |s| - |l|;
    var r := RStrip(l);
    LStripIsSuffix(s);
    RStripIsPrefix(l);
    assert r == s[k..][..|r|] == s[k..k + |r|];
  }

  /** `not s.strip()`: the string is empty or whitespace only. */
  predicate IsBlank(s: string) {
    AllSpace(s)
  }

  lemma {:induction false} LStripOfAllSpace(s: string)
    requires AllSpace(s)
    ensures LStrip(s) == []
  {
    if |s| > 0 {
      LStripOfAllSpace(s[1..]);
    }
  }

  /** Blank is exactly "strips to nothing". */
  lemma BlankIffStripsEmpty(s: string)
    ensures IsBlank(s) <==> Strip(s) == []
  {
    if AllSpace(s) {
      LStripOfAllSpace(s);
    }
    if Strip(s) == [] {
      var l := LStrip(s);
      RStripDropsSpace(l);
      assert l[0..] == l;
      assert l == [];
      LStripDropsSpace(s);
      assert s[..|s|] == s;
    }
  }

  lemma StripOfNoEdgeSpace(s: string)
    requires s == [] || (!IsSpace(s[0]) && !IsSpace(s[|s| - 1]))
    ensures Strip(s) == s
  {
  }

  lemma StripOfNoSpace(s: string)
    requires NoSpace(s)
    ensures Strip(s) == s
  {
    NoSpaceEdges(s);
    StripOfNoEdgeSpace(s);
  }

  lemma NoSpaceEdges(s: string)
    requires NoSpace(s)
    ensures s == [] || (!IsSpace(s[0]) && !IsSpace(s[|s| - 1]))
  {
  }

  predicate StartsWith(s: string, prefix: string) {
    |prefix| <= |s| && s[..|prefix|] == prefix
  }

  predicate EndsWith(s: string, suffix: string) {
    |suffix| <= |s| && s[|s| - |suffix|..] == suffix
  }

  lemma EndsWithAppend(s: string, suffix: string)
    ensures EndsWith(s + suffix, suffix)
  {
    assert (s + suffix)[|s|..] == suffix;
  }

  /** Python's `needle in hay` for strings. */
  predicate Contains(hay: string, needle: string) {
    exists i | 0 <= i <= |hay| - |needle| :: OccursAt(hay, needle, i)
  }

  predicate OccursAt(hay: string, needle: string, i: nat) {
    i + |needle| <= |hay| && hay[i..i + |needle|] == needle
  }

  /** `sep.join(parts)`. */
  function Join(parts: seq<string>, sep: string): string {
    if |parts| == 0 then ""
    else if |parts| == 1 then parts[0]
    else parts[0] + sep + Join(parts[1..], sep)
  }

  /** `s.split(sep)` for a one-character separator: never empty, and the
      pieces joined back with the separator give the input again. */
  function Split(s: string, sep: char): (r: seq<string>)
    ensures |r| >= 1
    ensures forall i | 0 <= i < |r| :: sep !in r[i]
    ensures Join(r, [sep]) == s
  {
    if |s| == 0 then [""]
    else
      var rest := Split(s[1..], sep);
      if s[0] == sep then [""] + rest
      else [[s[0]] + rest[0]] + rest[1..]
  }

  /** Splitting pieces that were joined with a separator they do not
      contain gives them back. */
  lemma {:induction false} SplitJoin(parts: seq<string>, sep: char)
    requires |parts| >= 1
    requires forall i | 0 <= i < |parts| :: sep !in parts[i]
    ensures Split(Join(parts, [sep]), sep) == parts
  {
    if |parts| == 1 {
      SplitSepFree(parts[0], "", sep);
      assert parts[0] + "" == parts[0];
    } else {
      var rest := Join(parts[1..], [sep]);
      SplitJoin(parts[1..], sep);
      assert Join(parts, [sep]) == parts[0] + ([sep] + rest);
      SplitSepFree(parts[0], [sep] + rest, sep);
      assert ([sep] + rest)[1..] == rest;
      assert Split([sep] + rest, sep) == [""] + parts[1..];
      assert parts[0] + "" == parts[0];
      assert parts == [parts[0]] + parts[1..];
    }
  }

  /** A separator-free prefix is glued onto the first piece. */
  lemma {:induction false} SplitSepFree(a: string, tail: string, sep: char)
    requires sep !in a
    ensures Split(a + tail, sep) == [a + Split(tail, sep)[0]] + Split(tail, sep)[1..]
  {
    if a == [] {
      var t := Split(tail, sep);
      assert a + tail == tail && a + t[0] == t[0];
      assert t == [t[0]] + t[1..];
    } else {
      SplitSepFree(a[1..], tail, sep);
      var t := Split(tail, sep);
      assert a + tail == [a[0]] + (a[1..] + tail);
      SplitCons(a[0], a[1..] + tail, sep);
      assert [a[0]] + (a[1..] + t[0]) == a + t[0];
    }
  }

  lemma SplitCons(c: char, s: string, sep: char)
    requires c != sep
    ensures Split([c] + s, sep) == [[c] + Split(s, sep)[0]] + Split(s, sep)[1..]
  {
    assert ([c] + s)[1..] == s;
  }

  /** Length of the longest whitespace-free prefix. */
  function WordLen(s: string): (n: nat)
    ensures n <= |s| && NoSpace(s[..n])
    ensures n == |s| || IsSpace(s[n])
  {
    if |s| == 0 || IsSpace(s[0]) then 0 else 1 + WordLen(s[1..])
  }

  /** `s.split()` with no argument: the maximal runs of non-whitespace. */
  function SplitWs(s: string): seq<string>
    decreases |s|
  {
    var t := LStrip(s);
    if t == [] then []
    else
      var n := WordLen(t);
      [t[..n]] + SplitWs(t[n..])
  }

  /** Non-empty pieces without whitespace. */
  predicate Words(ws: seq<string>) {
    forall i | 0 <= i < |ws| :: ws[i] != [] && NoSpace(ws[i])
  }

  /** Every piece `s.split()` yields is a non-empty run of non-whitespace. */
  lemma {:induction false} SplitWsWords(s: string)
    ensures Words(SplitWs(s))
    decreases |s|
  {
    var t := LStrip(s);
    if t != [] {
      var n := WordLen(t);
      var w := t[..n];
      var rest := SplitWs(t[n..]);
      SplitWsWords(t[n..]);
      var r := [w] + rest;
      assert SplitWs(s) == r;
      forall i | 0 <= i < |r| ensures r[i] != [] && NoSpace(r[i]) {
        if i > 0 {
          assert r[i] == rest[i - 1];
        }
      }
    }
  }

  /** Splitting words that were joined with single spaces gives them back. */
  lemma {:induction false} SplitWsJoin(ws: seq<string>)
    requires Words(ws)
    ensures SplitWs(Join(ws, " ")) == ws
  {
    if |ws| == 1 {
      SplitWsJoinOne(ws);
    } else if |ws| > 1 {
      SplitWsJoin(ws[1..]);
      SplitWsJoinCons(ws);
    }
  }

  lemma SplitWsJoinOne(ws: seq<string>)
    requires Words(ws) && |ws| == 1
    ensures SplitWs(Join(ws, " ")) == ws
  {
    SplitWsOfWord(ws[0]);
  }

  lemma SplitWsJoinCons(ws: seq<string>)
    requires Words(ws) && |ws| > 1
    requires SplitWs(Join(ws[1..], " ")) == ws[1..]
    ensures SplitWs(Join(ws, " ")) == ws
  {
    var rest := Join(ws[1..], " ");
    var w := ws[0];
    assert w != [] && NoSpace(w);
    JoinCons(ws, " ");
    SplitWsWordThen(w, " " + rest);
    SplitWsSpaceCons(rest);
    calc {
      SplitWs(Join(ws, " "));
      SplitWs(w + (" " + rest));
      [w] + SplitWs(" " + rest);
      [w] + SplitWs(rest);
      [w] + ws[1..];
      ws;
    }
  }

  lemma JoinCons(parts: seq<string>, sep: string)
    requires |parts| > 1
    ensures Join(parts, sep) == parts[0] + (sep + Join(parts[1..], sep))
  {
  }

  lemma SplitWsWordThen(w: string, tail: string)
    requires w != [] && NoSpace(w)
    requires tail == [] || IsSpace(tail[0])
    ensures SplitWs(w + tail) == [w] + SplitWs(tail)
  {
    var s := w + tail;
    assert LStrip(s) == s;
    WordLenOfWord(w, tail);
    assert s[..|w|] == w;
    assert s[|w|..] == tail;
  }

  lemma SplitWsOfWord(w: string)
    requires w != [] && NoSpace(w)
    ensures SplitWs(w) == [w]
  {
    SplitWsWordThen(w, "");
    assert w + "" == w;
    assert SplitWs("") == [];
  }

  lemma SplitWsSpaceCons(s: string)
    ensures SplitWs(" " + s) == SplitWs(s)
  {
    LStripSpaceCons(s);
  }

  lemma {:induction false} WordLenOfWord(w: string, tail: string)
    requires NoSpace(w)
    requires tail == [] || IsSpace(tail[0])
    ensures WordLen(w + tail) == |w|
  {
    if |w| > 0 {
      assert (w + tail)[1..] == w[1..] + tail;
      WordLenOfWord(w[1..], tail);
    } else {
      assert w + tail == tail;
    }
  }

  lemma LStripSpaceCons(s: string)
    ensures LStrip(" " + s) == LStrip(s)
  {
    assert (" " + s)[1..] == s;
  }

  function AsciiLowerChar(c: char): char {
    if 'A' <= c <= 'Z' then (c as int + 32) as char else c
  }

  function AsciiUpperChar(c: char): char {
    if 'a' <= c <= 'z' then (c as int - 32) as char else c
  }

  /** `s.lower()`, for ASCII letters. */
  function Lower(s: string): (r: string)
    ensures |r| == |s|
    ensures forall i | 0 <= i < |s| :: r[i] == AsciiLowerChar(s[i])
  {
    seq(|s|, i requires 0 <= i < |s| => AsciiLowerChar(s[i]))
  }

  /** `s.upper()`, for ASCII letters. */
  function Upper(s: string): (r: string)
    ensures |r| == |s|
    ensures forall i | 0 <= i < |s| :: r[i] == AsciiUpperChar(s[i])
  {
    seq(|s|, i requires 0 <= i < |s| => AsciiUpperChar(s[i]))
  }

  predicate IsDigit(c: char) {
    '0' <= c <= '9'
  }

  /** `s.isdigit()` for ASCII digits: non-empty and all digits. */
  predicate IsDigits(s: string) {
    |s| > 0 && forall i | 0 <= i < |s| :: IsDigit(s[i])
  }

  predicate IsAsciiLetter(c: char) {
    ('a' <= c <= 'z') || ('A' <= c <= 'Z')
  }

  predicate IsAsciiAlnum(c: char) {
    IsAsciiLetter(c) || IsDigit(c)
  }

  /** The regular expression `^[A-Za-z_][A-Za-z0-9_]*$`, shared by the
      SQL-identifier check and the VibeLang identifier check. */
  predicate IsIdentifier(s: string) {
    && |s| > 0
    && (IsAsciiLetter(s[0]) || s[0] == '_')
    && forall i | 1 <= i < |s| :: IsAsciiAlnum(s[i]) || s[i] == '_'
  }

  /** What `re.match(r"^[A-Za-z_][A-Za-z0-9_]*$", s)` accepts: without
      the MULTILINE flag, `$` also matches just before a final newline, so
      an identifier followed by one "\n" passes as well. */
  predicate IdentifierReMatch(s: string) {
    || IsIdentifier(s)
    || (|s| > 0 && s[|s| - 1] == '\n' && IsIdentifier(s[..|s| - 1]))
  }

  /** The regular expression accepts every identifier, and an identifier
      with a trailing newline that is not one. */
  lemma IdentifierReMatchNewline(s: string)
    requires IsIdentifier(s)
    ensures IdentifierReMatch(s) && IdentifierReMatch(s + "\n")
    ensures !IsIdentifier(s + "\n")
  {
    assert (s + "\n")[..|s|] == s;
    assert (s + "\n")[|s|] == '\n';
  }

  /** Decimal value of a string of digits (leading zeros allowed). */
  function DigitsValue(s: string): nat
    requires forall i | 0 <= i < |s| :: IsDigit(s[i])
  {
    if |s| == 0 then 0
    else
      assert IsDigit(s[|s| - 1]);
      10 * DigitsValue(s[..|s| - 1]) + (s[|s| - 1] as int - '0' as int)
  }

  function DigitChar(d: nat): char
    requires d < 10
  {
    ('0' as int + d) as char
  }

  /** `str(n)` for a natural number. */
  function NatToStr(n: nat): (r: string)
    ensures IsDigits(r)
    ensures |r| > 1 ==> r[0] != '0'
    ensures DigitsValue(r) == n
  {
    if n < 10 then [DigitChar(n)]
    else
      var r := NatToStr(n / 10) + [DigitChar(n % 10)];
      assert r[..|r| - 1] == NatToStr(n / 10);
      r
  }

  /** `str(i)` for a Python int. */
  function IntToStr(i: int): (r: string)
    ensures |r| > 0
    ensures i < 0 <==> r[0] == '-'
  {
    if i < 0 then "-" + NatToStr(-i) else NatToStr(i)
  }

  /** Digits with single underscores between them, as `int()` accepts. */
  predicate IsUnderscoredDigits(s: string) {
    && IsDigits(RemoveUnderscores(s))
    && |s| > 0 && s[0] != '_' && s[|s| - 1] != '_'
    && (forall i | 0 <= i < |s| :: IsDigit(s[i]) || s[i] == '_')
    && (forall i | 0 <= i < |s| - 1 :: !(s[i] == '_' && s[i + 1] == '_'))
  }

  function RemoveUnderscores(s: string): (r: string)
    ensures forall c :: c in r <==> c in s && c != '_'
  {
    if |s| == 0 then ""
    else if s[0] == '_' then RemoveUnderscores(s[1..])
    else [s[0]] + RemoveUnderscores(s[1..])
  }

  /** Python's `int(s)` on a string: surrounding whitespace, an optional
      sign and decimal digits (with `_` separators); `None` where Python
      raises `ValueError`. */
  function ParseInt(s: string): (r: Option<int>)
    ensures r.Some? ==> exists i | 0 <= i < |s| :: IsDigit(s[i])
  {
    var t := Strip(s);
    if |t| > 0 && (t[0] == '-' || t[0] == '+') then
      var body := t[1..];
      if IsUnderscoredDigits(body) then
        ContainsDigitWitness(body, s, t);
        var v: int := DigitsValue(RemoveUnderscores(body));
        Some(if t[0] == '-' then -v else v)
      else None
    else if IsUnderscoredDigits(t) then
      ContainsDigitWitness(t, s, t);
      Some(DigitsValue(RemoveUnderscores(t)))
    else None
  }

  lemma ContainsDigitWitness(body: string, s: string, t: string)
    requires IsUnderscoredDigits(body)
    requires t == Strip(s)
    requires body == t || (|t| > 0 && body == t[1..])
    ensures exists i | 0 <= i < |s| :: IsDigit(s[i])
  {
    var l := LStrip(s);
    LStripIsSuffix(s);
    RStripIsPrefix(l);
    assert t == l[..|t|];
    assert body[0] in body;
    var k :| 0 <= k < |body| && body[k] == body[0];
    var j := if body == t then k else k + 1;
    assert t[j] == body[k];
    assert s[|s| - |l| + j] == t[j];
  }

  lemma {:induction false} RemoveUnderscoresOfDigits(s: string)
    requires forall i | 0 <= i < |s| :: IsDigit(s[i])
    ensures RemoveUnderscores(s) == s
  {
    if |s| > 0 {
      RemoveUnderscoresOfDigits(s[1..]);
    }
  }

  lemma DigitsAreUnderscoredDigits(d: string)
    requires IsDigits(d)
    ensures IsUnderscoredDigits(d)
    ensures RemoveUnderscores(d) == d
  {
    RemoveUnderscoresOfDigits(d);
  }

  /** A plain digit string parses to its decimal value. */
  lemma ParseIntOfDigits(d: string)
    requires IsDigits(d)
    ensures ParseInt(d) == Some(DigitsValue(d))
  {
    DigitsAreUnderscoredDigits(d);
    StripOfNoEdgeSpace(d);
    assert d[0] != '-' && d[0] != '+';
  }

  /** A minus sign followed by digits parses to the negated value. */
  lemma ParseIntOfNegDigits(d: string)
    requires IsDigits(d)
    ensures ParseInt("-" + d) == Some(-(DigitsValue(d) as int))
  {
    var r := "-" + d;
    assert !IsSpace(r[0]) && !IsSpace(r[|r| - 1]) by {
      assert r[|r| - 1] == d[|d| - 1];
    }
    StripOfNoEdgeSpace(r);
    ParseIntOfMinus(r, d);
  }

  lemma ParseIntOfMinus(s: string, d: string)
    requires Strip(s) == "-" + d && IsDigits(d)
    ensures ParseInt(s) == Some(-(DigitsValue(d) as int))
  {
    DigitsAreUnderscoredDigits(d);
    var t := Strip(s);
    assert t[0] == '-' && t[1..] == d;
  }

  /** `int(str(i)) == i`. */
  lemma ParseIntOfIntToStr(i: int)
    ensures ParseInt(IntToStr(i)) == Some(i)
  {
    if i < 0 {
      ParseIntOfNegDigits(NatToStr(-i));
    } else {
      ParseIntOfDigits(NatToStr(i));
    }
  }

  // ---------------------------------------------------------------------
  // str.splitlines
  // ---------------------------------------------------------------------

  /** The characters `str.splitlines` breaks at. */
  predicate IsLineBreak(c: char) {
    || c == '\n' || c == '\r' || c == '\U{0b}' || c == '\U{0c}'
    || c == '\U{1c}' || c == '\U{1d}' || c == '\U{1e}'
    || c == '\U{85}' || c == '\U{2028}' || c == '\U{2029}'
  }

  predicate NoLineBreak(s: string) {
    forall i | 0 <= i < |s| :: !IsLineBreak(s[i])
  }

  /** Index of the first line break of `s`, or `|s|`. */
  function BreakAt(s: string): (k: nat)
    ensures k <= |s|
    ensures NoLineBreak(s[..k])
    ensures k < |s| ==> IsLineBreak(s[k])
  {
    if s == [] || IsLineBreak(s[0]) then 0
    else
      var k := 1 + BreakAt(s[1..]);
      assert s[..k] == [s[0]] + s[1..][..k - 1];
      k
  }

  /** Length of the line break at the start of `s`: "\r\n" counts as one. */
  function BreakLen(s: string): nat
    requires s != [] && IsLineBreak(s[0])
  {
    if s[0] == '\r' && |s| > 1 && s[1] == '\n' then 2 else 1
  }

  /** `s.splitlines()`: the text between line breaks, without a final
      empty line after a trailing break. */
  function Lines(s: string): (r: seq<string>)
    ensures forall i | 0 <= i < |r| :: NoLineBreak(r[i])
    decreases |s|
  {
    if s == [] then []
    else
      var k := BreakAt(s);
      if k == |s| then [s] else [s[..k]] + Lines(s[k + BreakLen(s[k..])..])
  }

  /** One line followed by "\n" and more text splits off as that line. */
  lemma LinesCons(line: string, rest: string)
    requires NoLineBreak(line)
    ensures Lines(line + "\n" + rest) == [line] + Lines(rest)
  {
    var s := line + "\n" + rest;
    var nl := "\n" + rest;
    assert s == line + nl;
    BreakAtOfLine(line, nl);
    var k := |line|;
    assert s[k..] == nl && BreakLen(nl) == 1;
    assert s[..k] == line;
    assert s[k + 1..] == rest;
    assert Lines(s) == [s[..k]] + Lines(s[k + BreakLen(s[k..])..]);
  }

  lemma {:induction false} BreakAtOfLine(line: string, rest: string)
    requires NoLineBreak(line)
    requires rest != [] && IsLineBreak(rest[0])
    ensures BreakAt(line + rest) == |line|
  {
    if line != [] {
      assert (line + rest)[1..] == line[1..] + rest;
      BreakAtOfLine(line[1..], rest);
    }
  }

  /** Lines joined with "\n" split back into the same lines, provided the
      last one is not empty (a trailing empty line is dropped). */
  lemma {:induction false} LinesJoin(ls: seq<string>)
    requires forall i | 0 <= i < |ls| :: NoLineBreak(ls[i])
    requires ls != [] ==> ls[|ls| - 1] != ""
    ensures Lines(Join(ls, "\n")) == ls
  {
    if |ls| == 1 {
      BreakAtOfWhole(ls[0]);
    } else if |ls| > 1 {
      LinesJoin(ls[1..]);
      LinesCons(ls[0], Join(ls[1..], "\n"));
    }
  }

  lemma {:induction false} BreakAtOfWhole(s: string)
    requires NoLineBreak(s)
    ensures BreakAt(s) == |s|
  {
    if s != [] {
      BreakAtOfWhole(s[1..]);
    }
  }
}

=== FILE: vbl_compiler.dfy ===
/**
 * The source emitter of vibelang/compiler.py: IR expressions to Python
 * expression text, statements to indented lines, steps to decorated
 * functions, and a whole validated IR object to one Python module.
 *
 * Python's runtime failures on malformed IR (KeyError, TypeError, the
 * explicit ValueError) are all `Err`. The compiled source is only
 * produced, never parsed or run.
 */
module VblCompiler {
  import opened Base
  import opened Strings
  import opened Json
  import opened VblIr

  const Unsupported := "Unsupported expression node"
  const UnsupportedStmt := "Unsupported statement node"
  const KeyError := "KeyError"
  const TypeError := "TypeError"

  /** `" " * n`. */
  function Pad(n: nat): (r: string)
    ensures |r| == n && forall i | 0 <= i < n :: r[i] == ' '
  {
    if n == 0 then "" else " " + Pad(n - 1)
  }

  // ---------------------------------------------------------------------
  // _expr_to_py
  // ---------------------------------------------------------------------

  /** `_expr_to_py`: the first node kind the object names decides the
      rendering; a bare string is source text, other scalars are their
      `repr`, a list is refused. A `python` or `name` payload is returned
      as it is, whatever its type: only the caller's use of it (an f-string
      or a string operation) decides whether a non-string is an error. */
  function ExprToPy(v: Value): (r: Result<Value, string>)
    ensures v.Str? ==> r == Ok(v)
    ensures v.Null? || v.Bool? || v.Int? ==> r == Ok(Str(Repr(v)))
    ensures v.Arr? ==> r.Err?
    ensures v.Obj? && Has(v, "python") ==> r == Ok(Member(v, "python"))
    ensures v.Obj? && !Has(v, "python") && Has(v, "name") ==> r == Ok(Member(v, "name"))
    ensures r.Ok? && !r.value.Str? ==> v.Obj? && (Has(v, "python") || Has(v, "name"))
    decreases v, 3
  {
    match v
    case Obj(_) =>
      if Has(v, "python") then Ok(Member(v, "python"))
      else if Has(v, "name") then Ok(Member(v, "name"))
      else if Has(v, "literal") then Ok(Str(Repr(Member(v, "literal"))))
      else
        var text :- NodeToPy(v);
        Ok(Str(text))
    case Arr(_) => Err(Unsupported)
    case Str(_) => Ok(v)
    case _ => Ok(Str(Repr(v)))
  }

  /** The node kinds after `literal`, each of which renders to text. */
  function NodeToPy(v: Value): (r: Result<string, string>)
    requires v.Obj?
    decreases v, 2
  {
    if Has(v, "call") then CallToPy(v)
    else
      var validated :- ValidateToPy(v);
      if validated.Some? then Ok(validated.value)
      else if Has(v, "parallel") then ParallelToPy(Member(v, "parallel"))
      else if Has(v, "attr") then AttrToPy(Member(v, "attr"))
      else if Has(v, "index") then IndexToPy(Member(v, "index"))
      else if Has(v, "list") then
        var items :- IterToPy(Member(v, "list"));
        var texts :- Texts(items);
        Ok("[" + Join(texts, ", ") + "]")
      else if Has(v, "tuple") then
        var items :- IterToPy(Member(v, "tuple"));
        var texts :- Texts(items);
        Ok(TupleText(texts))
      else if Has(v, "dict") then DictToPy(Member(v, "dict"))
      else if Has(v, "binop") then BinopToPy(Member(v, "binop"))
      else Err(Unsupported)
  }

  /** `_expr_to_py(v)` placed in an f-string: its `str()`, so a payload of
      any type is accepted. */
  function ExprText(v: Value): (r: Result<string, string>)
    ensures r.Ok? <==> ExprToPy(v).Ok?
    ensures r.Ok? ==> r.value == StrOf(ExprToPy(v).value)
    decreases v, 4
  {
    var x :- ExprToPy(v);
    Ok(StrOf(x))
  }

  /** `_expr_to_py(v)` concatenated to a string: a non-string payload
      raises TypeError. */
  function ExprStr(v: Value): (r: Result<string, string>)
    ensures r.Ok? <==> ExprToPy(v).Ok? && ExprToPy(v).value.Str?
    ensures r.Ok? ==> Str(r.value) == ExprToPy(v).value
    ensures ExprToPy(v).Ok? && !ExprToPy(v).value.Str? ==> r == Err(TypeError)
  {
    var x :- ExprToPy(v);
    if x.Str? then Ok(x.s) else Err(TypeError)
  }

  /** The items `str.join` receives: all strings, or TypeError. */
  function Texts(xs: seq<Value>): (r: Result<seq<string>, string>)
    ensures r.Ok? <==> AllStr(xs)
    ensures r.Ok? ==> |r.value| == |xs| && forall i | 0 <= i < |xs| :: xs[i] == Str(r.value[i])
    ensures r.Err? ==> r.error == TypeError
  {
    if AllStr(xs) then Ok(seq(|xs|, i requires 0 <= i < |xs| => xs[i].s)) else Err(TypeError)
  }

  /** A tuple display: a one-element tuple needs its trailing comma. */
  function TupleText(items: seq<string>): (r: string)
    ensures |items| == 1 ==> r == "(" + items[0] + ",)"
    ensures |items| != 1 ==> r == "(" + Join(items, ", ") + ")"
  {
    "(" + Join(items, ", ") + (if |items| == 1 then "," else "") + ")"
  }

  /** A call: the function (a name, or an expression's `str()`), the
      positional arguments, then `key=value` keyword arguments. Every
      argument and keyword is rendered before `str.join` checks that the
      positional ones are strings. */
  function CallToPy(v: Value): (r: Result<string, string>)
    requires Has(v, "call")
    decreases v, 1
  {
    var func := Member(v, "call");
    var f :- if func.Str? then Ok(func.s) else ExprText(func);
    var args :- if Has(v, "args") then IterToPy(Member(v, "args")) else Ok([]);
    if Has(v, "kwargs") && !Member(v, "kwargs").Obj? then Err("'kwargs' has no items()")
    else
      var kws :- if Has(v, "kwargs") then KwargsToPy(Member(v, "kwargs").fields) else Ok([]);
      var argTexts :- Texts(args);
      Ok(f + "(" + Join(argTexts + kws, ", ") + ")")
  }

  /** The validate node, or `None` when it names neither a schema nor a
      model (the node then falls through to the later kinds). */
  function ValidateToPy(v: Value): (r: Result<Option<string>, string>)
    requires v.Obj?
    decreases v, 1
  {
    if !Has(v, "validate") then Ok(None)
    else
      var info := Member(v, "validate");
      if !Has(info, "data") then Err(KeyError)
      else
        var data :- ExprText(Member(info, "data"));
        if Has(info, "schema") then
          var schema :- ExprText(Member(info, "schema"));
          Ok(Some("vbl.validate_jsonschema(" + data + ", " + schema + ")"))
        else if Has(info, "model") then
          var model :- ExprText(Member(info, "model"));
          Ok(Some("vbl.validate_pydantic(" + model + ", " + data + ")"))
        else Ok(None)
  }

  /** Iterating a value and rendering each element: a list's items, a
      string's characters, an object's keys. */
  function IterToPy(x: Value): (r: Result<seq<Value>, string>)
    ensures x.Arr? ==> r == ItemsToPy(x.items)
    ensures x.Str? ==> r.Ok? && |r.value| == |x.s| && forall i | 0 <= i < |x.s| :: r.value[i] == Str([x.s[i]])
    decreases x, 1
  {
    match x
    case Arr(xs) => ItemsToPy(xs)
    case Str(s) => Ok(seq(|s|, i requires 0 <= i < |s| => Str([s[i]])))
    case Obj(fs) => Ok(seq(|fs|, i requires 0 <= i < |fs| => Str(fs[i].0)))
    case _ => Err(TypeError)
  }

  function ItemsToPy(xs: seq<Value>): (r: Result<seq<Value>, string>)
    ensures r.Ok? <==> forall i | 0 <= i < |xs| :: ExprToPy(xs[i]).Ok?
    ensures r.Ok? ==> |r.value| == |xs|
    ensures r.Ok? ==> forall i | 0 <= i < |xs| :: ExprToPy(xs[i]) == Ok(r.value[i])
    decreases xs, 0
  {
    if xs == [] then Ok([])
    else
      var x :- ExprToPy(xs[0]);
      var rest :- ItemsToPy(xs[1..]);
      assert forall i | 1 <= i < |xs| :: xs[i] == xs[1..][i - 1];
      Ok([x] + rest)
  }

  /** `f"{k}={_expr_to_py(v)}"` for each keyword, in order. */
  function KwargsToPy(fs: Dict): (r: Result<seq<string>, string>)
    ensures r.Ok? ==> |r.value| == |fs|
    decreases fs, 0
  {
    if fs == [] then Ok([])
    else
      var e := fs[0];
      assert e.1 < e;
      var x :- ExprText(e.1);
      var rest :- KwargsToPy(fs[1..]);
      Ok([e.0 + "=" + x] + rest)
  }

  /** `vbl.parallel({name: (lambda: call), ...})`. */
  function ParallelToPy(x: Value): (r: Result<string, string>)
    decreases x, 1
  {
    match x
    case Arr(xs) =>
      var tasks :- TasksToPy(xs);
      Ok("vbl.parallel({" + Join(tasks, ", ") + "})")
    case Str(s) => if s == [] then Ok("vbl.parallel({})") else Err(TypeError)
    case Obj(fs) => if fs == [] then Ok("vbl.parallel({})") else Err(TypeError)
    case _ => Err(TypeError)
  }

  function TasksToPy(xs: seq<Value>): (r: Result<seq<string>, string>)
    decreases xs, 0
  {
    if xs == [] then Ok([])
    else if !Has(xs[0], "name") || !Has(xs[0], "call") then Err(KeyError)
    else
      var call :- ExprText(Member(xs[0], "call"));
      var rest :- TasksToPy(xs[1..]);
      Ok([Repr(Member(xs[0], "name")) + ": (lambda: " + call + ")"] + rest)
  }

  /** `base.attr`, the base being `base` when truthy, else `object`. */
  function AttrToPy(info: Value): (r: Result<string, string>)
    decreases info, 1
  {
    if !info.Obj? then Err(TypeError)
    else
      var base :-
        if Has(info, "base") && Truthy(Member(info, "base")) then ExprText(Member(info, "base"))
        else if Has(info, "object") then ExprText(Member(info, "object"))
        else Ok("None");
      if !Has(info, "attr") then Err(KeyError)
      else Ok(base + "." + StrOf(Member(info, "attr")))
  }

  /** `base[index]`. */
  function IndexToPy(info: Value): (r: Result<string, string>)
    decreases info, 1
  {
    if !Has(info, "base") then Err(KeyError)
    else
      var base :- ExprText(Member(info, "base"));
      if !Has(info, "index") then Err(KeyError)
      else
        var index :- ExprText(Member(info, "index"));
        Ok(base + "[" + index + "]")
  }

  /** A dict display: from an object (keys shown with `repr`) or from a
      list of key/value entries. */
  function DictToPy(d: Value): (r: Result<string, string>)
    decreases d, 1
  {
    match d
    case Obj(fs) =>
      var parts :- FieldsToPy(fs);
      Ok("{" + Join(parts, ", ") + "}")
    case Arr(xs) =>
      var parts :- EntriesToPy(xs);
      Ok("{" + Join(parts, ", ") + "}")
    case Str(s) => if s == [] then Ok("{}") else Err(TypeError)
    case _ => Err(TypeError)
  }

  function FieldsToPy(fs: Dict): (r: Result<seq<string>, string>)
    decreases fs, 0
  {
    if fs == [] then Ok([])
    else
      var e := fs[0];
      assert e.1 < e;
      var x :- ExprText(e.1);
      var rest :- FieldsToPy(fs[1..]);
      Ok([ReprStr(e.0) + ": " + x] + rest)
  }

  function EntriesToPy(xs: seq<Value>): (r: Result<seq<string>, string>)
    decreases xs, 0
  {
    if xs == [] then Ok([])
    else if !Has(xs[0], "key") || !Has(xs[0], "value") then Err(KeyError)
    else
      var k :- ExprText(Member(xs[0], "key"));
      var x :- ExprText(Member(xs[0], "value"));
      var rest :- EntriesToPy(xs[1..]);
      Ok([k + ": " + x] + rest)
  }

  /** `(left op right)`: always parenthesised. */
  function BinopToPy(info: Value): (r: Result<string, string>)
    ensures r.Ok? ==> |r.value| >= 2 && r.value[0] == '(' && r.value[|r.value| - 1] == ')'
    decreases info, 1
  {
    if !Has(info, "left") then Err(KeyError)
    else
      var left :- ExprText(Member(info, "left"));
      if !Has(info, "right") then Err(KeyError)
      else
        var right :- ExprText(Member(info, "right"));
        if !Has(info, "op") then Err(KeyError)
        else Ok("(" + left + " " + StrOf(Member(info, "op")) + " " + right + ")")
  }

  // ---------------------------------------------------------------------
  // _stmt_to_lines and _render_block
  // ---------------------------------------------------------------------

  /** Lines given as a value: a string's `splitlines()`, a list of
      strings, an object's keys; a false value gives none. */
  function PyLines(v: Value): (r: Result<seq<string>, string>)
    ensures v.Str? ==> r == Ok(Lines(v.s))
    ensures !Truthy(v) ==> r == Ok([])
  {
    match v
    case Str(s) => Ok(Lines(s))
    case Arr(xs) => if xs == [] then Ok([]) else if AllStr(xs) then Ok(seq(|xs|, i requires 0 <= i < |xs| => xs[i].s)) else Err(TypeError)
    case Obj(fs) => if fs == [] then Ok([]) else Ok(Keys(fs))
    case _ => if Truthy(v) then Err(TypeError) else Ok([])
  }

  /** The line starts with at least `n` spaces. */
  predicate LeadingSpaces(line: string, n: nat) {
    n <= |line| && forall j | 0 <= j < n :: line[j] == ' '
  }

  /** Every line is indented by at least `n`. */
  predicate Indented(lines: seq<string>, n: nat) {
    forall i | 0 <= i < |lines| :: LeadingSpaces(lines[i], n)
  }

  /** Each line with `n` spaces in front. */
  function Indent(n: nat, lines: seq<string>): (r: seq<string>)
    ensures |r| == |lines| && Indented(r, n)
    ensures forall i | 0 <= i < |r| :: r[i][n..] == lines[i]
  {
    var r := seq(|lines|, i requires 0 <= i < |lines| => Pad(n) + lines[i]);
    forall i | 0 <= i < |r|
      ensures LeadingSpaces(r[i], n) && r[i][n..] == lines[i]
    {
      assert r[i] == Pad(n) + lines[i];
    }
    r
  }

  lemma {:induction false} PadAdd(n: nat)
    ensures Pad(n + 4) == Pad(n) + "    "
    decreases n
  {
    if n > 0 {
      PadAdd(n - 1);
    }
  }

  lemma IndentedWeaken(lines: seq<string>, n: nat)
    requires Indented(lines, n + 4)
    ensures Indented(lines, n)
  {
  }

  lemma IndentedConcat(a: seq<string>, b: seq<string>, n: nat)
    requires Indented(a, n) && Indented(b, n)
    ensures Indented(a + b, n)
  {
    forall i | 0 <= i < |a + b|
      ensures LeadingSpaces((a + b)[i], n)
    {
      if i >= |a| {
        assert (a + b)[i] == b[i - |a|];
      }
    }
  }

  /** `_stmt_to_lines(stmt, indent, in_step=inStep)`: python, set, expr,
      return, if and for statements; any other statement is refused. */
  function StmtToLines(stmt: Value, indent: nat, inStep: bool): (r: Result<seq<string>, string>)
    ensures r.Ok? ==> r.value != [] && Indented(r.value, indent)
    decreases stmt, 1
  {
    if !stmt.Obj? then Err(UnsupportedStmt)
    else if Has(stmt, "python") then
      var lines :- PyLines(Member(stmt, "python"));
      Ok(Indent(indent, if lines == [] then ["pass"] else lines))
    else if Has(stmt, "set") then
      var info := Member(stmt, "set");
      if !Has(info, "name") || !Has(info, "value") then Err(KeyError)
      else
        var e :- ExprText(Member(info, "value"));
        Ok(Indent(indent, [StrOf(Member(info, "name")) + " = " + e]))
    else if Has(stmt, "expr") then
      var e :- ExprStr(Member(stmt, "expr"));
      Ok(Indent(indent, [e]))
    else if Has(stmt, "return") then
      var e :- ExprText(Member(stmt, "return"));
      Ok(Indent(indent, [ReturnText(e, inStep)]))
    else if Has(stmt, "if") then IfLines(Member(stmt, "if"), indent, inStep)
    else if Has(stmt, "for") then ForLines(Member(stmt, "for"), indent, inStep)
    else Err(UnsupportedStmt)
  }

  /** An `if` statement: the then-suite (or `pass`), and an `else:`
      suite only when the else body is non-empty. */
  function IfLines(info: Value, indent: nat, inStep: bool): (r: Result<seq<string>, string>)
    ensures r.Ok? ==> r.value != [] && Indented(r.value, indent)
    decreases info, 1
  {
    if !Has(info, "cond") then Err(KeyError)
    else
      var cond :- ExprText(Member(info, "cond"));
      var thenLines :- Suite(info, "then", indent, inStep);
      var elseLines :-
        if Has(info, "else") && Truthy(Member(info, "else")) then
          var ls :- BodyLines(Member(info, "else"), indent + 4, inStep);
          IndentedWeaken(ls, indent);
          IndentedConcat(Indent(indent, ["else:"]), ls, indent);
          Ok(Indent(indent, ["else:"]) + ls)
        else Ok([]);
      var head := Indent(indent, ["if " + cond + ":"]);
      IndentedWeaken(thenLines, indent);
      IndentedConcat(head, thenLines, indent);
      IndentedConcat(head + thenLines, elseLines, indent);
      Ok(head + thenLines + elseLines)
  }

  /** A `for` statement with its suite (or `pass`). */
  function ForLines(info: Value, indent: nat, inStep: bool): (r: Result<seq<string>, string>)
    ensures r.Ok? ==> r.value != [] && Indented(r.value, indent)
    decreases info, 1
  {
    if !Has(info, "var") || !Has(info, "iter") then Err(KeyError)
    else
      var iter :- ExprText(Member(info, "iter"));
      var body :- Suite(info, "body", indent, inStep);
      var head := Indent(indent, ["for " + StrOf(Member(info, "var")) + " in " + iter + ":"]);
      IndentedWeaken(body, indent);
      IndentedConcat(head, body, indent);
      Ok(head + body)
  }

  /** The suite under an `if` or `for`: the body stored under `key`
      four deeper, or `pass` when that body is missing or empty. */
  function Suite(info: Value, key: string, indent: nat, inStep: bool): (r: Result<seq<string>, string>)
    requires info.Obj?
    ensures r.Ok? ==> r.value != [] && Indented(r.value, indent + 4)
    ensures !Truthy(MemberOr(info, key, Arr([]))) ==> r == Ok([Pad(indent) + "    pass"])
    decreases info, 0
  {
    if Has(info, key) && Truthy(Member(info, key)) then BodyLines(Member(info, key), indent + 4, inStep)
    else
      assert Pad(indent) + "    pass" == Indent(indent + 4, ["pass"])[0] by { PadAdd(indent); }
      Ok([Pad(indent) + "    pass"])
  }

  /** A return statement: a real `return` inside a step, an assignment to
      the result variable elsewhere. */
  function ReturnText(e: string, inStep: bool): (r: string)
    ensures inStep <==> StartsWith(r, "return ")
  {
    var r := if inStep then "return " + e else "__vbl_result__ = " + e;
    assert r[0] == (if inStep then 'r' else '_');
    r
  }

  /** The statements of a non-empty body, rendered one after another (a
      body that is not a list cannot be rendered). */
  function BodyLines(body: Value, indent: nat, inStep: bool): (r: Result<seq<string>, string>)
    ensures r.Ok? ==> body.Arr? && (body.items != [] ==> r.value != [])
    ensures r.Ok? ==> Indented(r.value, indent)
    decreases body, 0
  {
    if body.Arr? then StmtsLines(body.items, indent, inStep) else Err(UnsupportedStmt)
  }

  function StmtsLines(xs: seq<Value>, indent: nat, inStep: bool): (r: Result<seq<string>, string>)
    ensures r.Ok? && xs != [] ==> r.value != []
    ensures r.Ok? ==> Indented(r.value, indent)
    decreases xs, 0
  {
    if xs == [] then Ok([])
    else
      var first :- StmtToLines(xs[0], indent, inStep);
      var rest :- StmtsLines(xs[1..], indent, inStep);
      IndentedConcat(first, rest, indent);
      Ok(first + rest)
  }

  /** `_render_block`: a false block (an empty list, say) is a single
      `pass`; otherwise its statements are rendered in turn. */
  function RenderBlock(stmts: Value, indent: nat, inStep: bool): (r: Result<seq<string>, string>)
    ensures !Truthy(stmts) ==> r == Ok([Pad(indent) + "pass"])
    ensures r.Ok? ==> r.value != [] && Indented(r.value, indent)
  {
    if !Truthy(stmts) then Ok([Pad(indent) + "pass"]) else BodyLines(stmts, indent, inStep)
  }

  // ---------------------------------------------------------------------
  // _render_step
  // ---------------------------------------------------------------------

  /** The step keys that become decorator keywords, in the order
      `_render_step` emits them. */
  const DecoratorKeys: seq<string> := ["retry", "timeout", "guard", "produces"]

  /** One decorator keyword: `key=repr(value)`. */
  function DecoratorArg(step: Value, k: string): string
    requires Has(step, k)
  {
    k + "=" + Repr(Member(step, k))
  }

  /** How many of the first `n` decorator keys the step has: the position
      the n-th key's keyword takes when present. */
  function PresentBefore(step: Value, n: nat): nat
    requires step.Obj? && n <= |DecoratorKeys|
  {
    if n == 0 then 0
    else PresentBefore(step, n - 1) + (if Has(step, DecoratorKeys[n - 1]) then 1 else 0)
  }

  /** The decorator keywords a step has, in the fixed order retry,
      timeout, guard, produces, whatever the step object's key order: one
      keyword per key the step has, the i-th key's at the position given by
      the keys before it. */
  function DecoratorArgs(step: Value): (r: seq<string>)
    requires step.Obj?
    ensures |r| == PresentBefore(step, |DecoratorKeys|)
    ensures forall i | 0 <= i < |DecoratorKeys| && Has(step, DecoratorKeys[i]) ::
      PresentBefore(step, i) < |r| && r[PresentBefore(step, i)] == DecoratorArg(step, DecoratorKeys[i])
  {
    var ks := DecoratorKeys;
    var a := if Has(step, ks[0]) then [DecoratorArg(step, ks[0])] else [];
    var b := if Has(step, ks[1]) then [DecoratorArg(step, ks[1])] else [];
    var c := if Has(step, ks[2]) then [DecoratorArg(step, ks[2])] else [];
    var d := if Has(step, ks[3]) then [DecoratorArg(step, ks[3])] else [];
    assert PresentBefore(step, 1) == |a| && PresentBefore(step, 2) == |a| + |b|;
    assert PresentBefore(step, 3) == |a| + |b| + |c| && PresentBefore(step, 4) == |a| + |b| + |c| + |d|;
    a + b + c + d
  }

  /** The text of a step's parameter list. A validated step always has a
      list of strings here. */
  function ParamsText(step: Value): (r: Result<string, string>)
    requires step.Obj?
  {
    var params := MemberOr(step, "params", Arr([]));
    if IsStrList(params) then Ok(Join(seq(|params.items|, i requires 0 <= i < |params.items| => params.items[i].s), ", "))
    else Err(TypeError)
  }

  /** `_render_step`: the decorator line, the `def` line, then the body
      indented by four: a block, source lines, a return expression, or
      `pass`. */
  function RenderStep(step: Value): (r: Result<seq<string>, string>)
    ensures r.Ok? ==> step.Obj? && |r.value| >= 3
    ensures r.Ok? ==> r.value[0] == "@step(" + Join(DecoratorArgs(step), ", ") + ")"
    ensures r.Ok? ==> Indented(r.value[2..], 4)
  {
    if !step.Obj? then Err(TypeError)
    else
      var params :- ParamsText(step);
      if !Has(step, "name") then Err(KeyError)
      else
        var head := ["@step(" + Join(DecoratorArgs(step), ", ") + ")",
                     "def " + StrOf(Member(step, "name")) + "(" + params + "):"];
        var body :- StepBody(step);
        assert (head + body)[2..] == body;
        Ok(head + body)
  }

  /** The indented body of a step: its block, its source lines (a body
      object's `python` entry stands for the body), a `return` of its
      return expression, or `pass`. */
  function StepBody(step: Value): (r: Result<seq<string>, string>)
    requires step.Obj?
    ensures r.Ok? ==> r.value != [] && Indented(r.value, 4)
  {
    var body := if Has(step, "body") then
                  var b := Member(step, "body");
                  if Has(b, "python") then Member(b, "python") else b
                else Null;
    if !body.Null? then
      if Has(body, "block") then RenderBlock(Member(body, "block"), 4, true)
      else
        var lines :- PyLines(body);
        Ok(Indent(4, if lines == [] then ["pass"] else lines))
    else if Has(step, "return") then
      var e :- ExprText(Member(step, "return"));
      Ok(Indent(4, ["return " + e]))
    else Ok(Indent(4, ["pass"]))
  }

  // ---------------------------------------------------------------------
  // _format_import and compile_ir_to_source
  // ---------------------------------------------------------------------

  /** `_format_import`: `import m`, `from m import a, b` or
      `import m as a`. */
  function FormatImport(item: Value): (r: Result<string, string>)
    ensures r.Ok? ==> StartsWith(r.value, "import ") || StartsWith(r.value, "from ")
  {
    if item.Str? then Ok("import " + item.s)
    else if !item.Obj? then Err(TypeError)
    else if Has(item, "from") then
      var names := MemberOr(item, "import", Null);
      if !IsStrList(names) then Err(TypeError)
      else Ok("from " + StrOf(Member(item, "from")) + " import "
              + Join(seq(|names.items|, i requires 0 <= i < |names.items| => names.items[i].s), ", "))
    else if !Has(item, "import") then Err(KeyError)
    else if Has(item, "as") then Ok("import " + StrOf(Member(item, "import")) + " as " + StrOf(Member(item, "as")))
    else Ok("import " + StrOf(Member(item, "import")))
  }

  function FormatImports(xs: seq<Value>): (r: Result<seq<string>, string>)
    ensures r.Ok? ==> |r.value| == |xs|
  {
    if xs == [] then Ok([])
    else
      var x :- FormatImport(xs[0]);
      var rest :- FormatImports(xs[1..]);
      Ok([x] + rest)
  }

  /** One line per input: `name = __vbl_inputs__.get('name')`. */
  function InputLines(names: seq<string>): (r: seq<string>)
    ensures |r| == |names|
  {
    seq(|names|, i requires 0 <= i < |names| => names[i] + " = __vbl_inputs__.get(" + ReprStr(names[i]) + ")")
  }

  function StepsLines(steps: seq<Value>): (r: Result<seq<string>, string>)
  {
    if steps == [] then Ok([])
    else
      var first :- RenderStep(steps[0]);
      var rest :- StepsLines(steps[1..]);
      Ok(first + [""] + rest)
  }

  /** The lines that compute the program's result from its run entry. */
  function RunLines(run: Value): (r: Result<seq<string>, string>)
    ensures r.Ok? ==> r.value != []
  {
    if Has(run, "python") then
      var lines :- PyLines(Member(run, "python"));
      Ok(["__vbl_result__ = None"] + lines)
    else if Has(run, "block") then
      var lines :- RenderBlock(Member(run, "block"), 4, true);
      Ok(["def __vbl_run__():"] + lines + ["__vbl_result__ = __vbl_run__()"])
    else
      var e :- ExprText(run);
      Ok(["__vbl_result__ = " + e])
  }

  const Prelude := ["from vibelang.runtime import step", "import vibelang.std as vbl", ""]

  /** The first two prelude lines, as they open every compiled module. */
  const Header := Prelude[0] + "\n" + Prelude[1]

  /** `"\n".join(lines).rstrip() + "\n"` for lines that open with the
      prelude: the text keeps the header and ends in exactly one newline
      after its last non-blank character. */
  function Assemble(lines: seq<string>): (r: string)
    requires |lines| >= 3 && lines[..3] == Prelude
    ensures StartsWith(r, Header)
    ensures |r| > |Header| && r[|r| - 1] == '\n' && !IsSpace(r[|r| - 2])
  {
    var joined := Join(lines, "\n");
    HeaderOfJoin(lines);
    var stripped := RStrip(joined);
    RStripKeepsHeader(joined);
    stripped + "\n"
  }

  lemma HeaderOfJoin(lines: seq<string>)
    requires |lines| >= 3 && lines[..3] == Prelude
    ensures StartsWith(Join(lines, "\n"), Header)
  {
    assert lines[0] == Prelude[0] && lines[1] == Prelude[1];
    JoinOpens(lines, "\n");
  }

  /** A join of three or more parts opens with the first two. */
  lemma JoinOpens(lines: seq<string>, sep: string)
    requires |lines| >= 3
    ensures StartsWith(Join(lines, sep), lines[0] + sep + lines[1])
  {
    var a, b := lines[0], lines[1];
    var rest := Join(lines[2..], sep);
    assert lines[1..][1..] == lines[2..];
    assert Join(lines, sep) == (a + sep + b) + (sep + rest);
  }

  lemma RStripKeepsHeader(s: string)
    requires StartsWith(s, Header)
    ensures StartsWith(RStrip(s), Header)
  {
    var k := |RStrip(s)|;
    RStripDropsSpace(s);
    assert !IsSpace(s[|Header| - 1]) by {
      assert s[|Header| - 1] == Header[|Header| - 1] == 'l';
    }
    if k < |Header| {
      assert false;
    }
    assert RStrip(s)[..|Header|] == s[..|Header|];
  }

  /** `compile_ir_to_source(ir)`: validation first, then the prelude,
      imports, inputs, steps and the run lines, joined with newlines,
      trailing whitespace cut and one newline added. */
  function CompileIrToSource(ir: Dict): (r: Result<string, string>)
    ensures ValidateIr(ir).Err? ==> r == Err(ValidateIr(ir).error)
    ensures r.Ok? ==> StartsWith(r.value, Header)
    ensures r.Ok? ==> r.value[|r.value| - 1] == '\n' && !IsSpace(r.value[|r.value| - 2])
  {
    var u :- ValidateIr(ir);
    var imports := Get(ir, "imports").GetOr(Arr([]));
    var importLines :- if imports.Arr? then FormatImports(imports.items) else Err(TypeError);
    var inputs := Get(ir, "inputs").GetOr(Obj([]));
    var inputLines := if inputs.Obj? && inputs.fields != [] then InputLines(Keys(inputs.fields)) + [""] else [];
    var steps := Get(ir, "steps").GetOr(Arr([]));
    var stepLines :- if steps.Arr? then StepsLines(steps.items) else if Truthy(steps) then Err(TypeError) else Ok([]);
    var runLines :- RunLines(GetOrNull(ir, "run"));
    var lines := Prelude + importLines + (if Truthy(imports) then [""] else [])
                 + inputLines + stepLines + runLines;
    Ok(Assemble(lines))
  }
}

=== FILE: vbl_compiler_laws.dfy ===
/**
 * Laws relating the VibeLang compiler to the form readers and the
 * validator: what the compiler emits for the IR the readers build, which
 * validated IR it accepts, and which it refuses.
 */
module VblCompilerLaws {
  import opened Base
  import opened Strings
  import opened Json
  import opened VblParser
  import opened VblForms
  import opened VblIr
  import opened VblCompiler
  import opened VblLaws

  // ---------------------------------------------------------------------
  // Expressions
  // ---------------------------------------------------------------------

  /** A name compiles to itself, a literal to its `repr`. */
  lemma NameAndLiteralText(name: string, v: Value)
    ensures ExprToPy(NameIr(name)) == Ok(Str(name)) && ExprText(NameIr(name)) == Ok(name)
    ensures ExprText(LiteralIr(v)) == Ok(Repr(v))
  {
    OneKey("name", Str(name));
    OneKey("literal", v);
  }

  /** `(l op r)`: an operation in the fully parenthesised form the
      compiler writes. */
  function Infix(op: string, l: string, r: string): string {
    "(" + l + " " + op + " " + r + ")"
  }

  /** A binop compiles to its operands' texts around the operator, in
      parentheses. */
  lemma BinopText(op: string, l: Value, r: Value, lt: string, rt: string)
    requires ExprText(l) == Ok(lt) && ExprText(r) == Ok(rt)
    ensures ExprText(BinopIr(op, l, r)) == Ok(Infix(op, lt, rt))
  {
    var info := Obj([("op", Str(op)), ("left", l), ("right", r)]);
    var v := BinopIr(op, l, r);
    OneKey("binop", info);
    Fields3("op", Str(op), "left", l, "right", r);
    assert BinopToPy(info) == Ok(Infix(op, lt, rt));
    assert ValidateToPy(v) == Ok(None);
    assert NodeToPy(v) == Ok(Infix(op, lt, rt));
  }

  /** The reference text of a left fold: `((a op b) op c) ...`. */
  function TextFold(op: string, acc: string, ts: seq<string>): string
    decreases |ts|
  {
    if ts == [] then acc else TextFold(op, Infix(op, acc, ts[0]), ts[1..])
  }

  /** The text of a left fold is the left-nested, fully parenthesised
      text of its operands. */
  lemma {:induction false} LeftFoldText(op: string, acc: Value, xs: seq<Value>, accText: string, texts: seq<string>)
    requires ExprText(acc) == Ok(accText)
    requires |texts| == |xs| && forall i | 0 <= i < |xs| :: ExprText(xs[i]) == Ok(texts[i])
    ensures ExprText(LeftFold(op, acc, xs)) == Ok(TextFold(op, accText, texts))
    decreases |xs|
  {
    if xs != [] {
      BinopText(op, acc, xs[0], accText, texts[0]);
      LeftFoldText(op, BinopIr(op, acc, xs[0]), xs[1..],
                   Infix(op, accText, texts[0]), texts[1..]);
    }
  }

  /** `(op a b c)` over three symbols reads and compiles to
      `((a op b) op c)`. */
  lemma ThreeOperandText(op: string, a: string, b: string, c: string)
    requires op in BinOps
    ensures var form := [Sym(op), Sym(a), Sym(b), Sym(c)];
      && Expr(List(form)).Ok?
      && ExprText(Expr(List(form)).value) == Ok(Infix(op, Infix(op, a, b), c))
  {
    var form := [Sym(op), Sym(a), Sym(b), Sym(c)];
    var names := [NameIr(a), NameIr(b), NameIr(c)];
    OperatorIsLeftFold(form);
    ThreeNames(form[1..], a, b, c);
    assert Expr(List(form)) == Ok(LeftFold(op, names[0], names[1..]));
    NamesText(a, b, c, names);
    LeftFoldText(op, names[0], names[1..], a, [b, c]);
    TextFoldTwo(op, a, b, c);
  }

  lemma TextFoldTwo(op: string, a: string, b: string, c: string)
    ensures TextFold(op, a, [b, c]) == Infix(op, Infix(op, a, b), c)
  {
    assert [b, c][1..] == [c] && [c][1..] == [];
    assert TextFold(op, a, [b, c]) == TextFold(op, Infix(op, a, b), [c]);
    assert TextFold(op, Infix(op, a, b), [c]) == TextFold(op, Infix(op, Infix(op, a, b), c), []);
  }

  lemma ThreeNames(ns: seq<Node>, a: string, b: string, c: string)
    requires ns == [Sym(a), Sym(b), Sym(c)]
    ensures ExprList(ns) == Ok([NameIr(a), NameIr(b), NameIr(c)])
  {
    var names := [NameIr(a), NameIr(b), NameIr(c)];
    assert forall i | 0 <= i < 3 :: Expr(ns[i]) == Ok(names[i]);
    var r := ExprList(ns);
    assert r.Ok?;
    assert r.value == names;
  }

  lemma NamesText(a: string, b: string, c: string, names: seq<Value>)
    requires names == [NameIr(a), NameIr(b), NameIr(c)]
    ensures ExprText(names[0]) == Ok(a)
    ensures forall i | 0 <= i < 2 :: ExprText(names[1..][i]) == Ok([b, c][i])
  {
    NameAndLiteralText(a, Null);
    NameAndLiteralText(b, Null);
    NameAndLiteralText(c, Null);
    assert names[1..] == [NameIr(b), NameIr(c)];
  }

  /** A `name` (or `python`) payload that is not a string is kept as it
      is: an f-string shows its `str()`, while an expression statement
      and a list display, which need a string, raise TypeError. */
  lemma NonStringPayload(n: int, indent: nat)
    ensures ExprToPy(Obj([("name", Int(n))])) == Ok(Int(n))
    ensures ExprText(Obj([("name", Int(n))])) == Ok(IntToStr(n))
    ensures StmtToLines(Obj([("expr", Obj([("name", Int(n))]))]), indent, true) == Err(TypeError)
    ensures ExprToPy(Obj([("list", Arr([Obj([("name", Int(n))])]))])) == Err(TypeError)
  {
    var e := Obj([("name", Int(n))]);
    OneKey("name", Int(n));
    OneKey("expr", e);
    OneKey("list", Arr([e]));
    assert ExprToPy(e) == Ok(Int(n));
    assert ItemsToPy([e]).Ok?;
    assert ItemsToPy([e]).value[0] == Int(n);
    assert ValidateToPy(Obj([("list", Arr([e]))])) == Ok(None);
  }

  /** `f"{k}={v}"` for each keyword, given the text of each value. */
  function KwParts(kws: Dict, texts: seq<string>): (r: seq<string>)
    requires |texts| == |kws|
    ensures |r| == |kws| && forall i | 0 <= i < |kws| :: r[i] == kws[i].0 + "=" + texts[i]
  {
    seq(|kws|, i requires 0 <= i < |kws| => kws[i].0 + "=" + texts[i])
  }

  /** The keyword parts are rendered in order, each value through its
      `str()`. */
  lemma {:induction false} KwargsText(kws: Dict, texts: seq<string>)
    requires |texts| == |kws| && forall i | 0 <= i < |kws| :: ExprText(kws[i].1) == Ok(texts[i])
    ensures KwargsToPy(kws) == Ok(KwParts(kws, texts))
    decreases |kws|
  {
    if kws != [] {
      assert forall i | 0 <= i < |kws| - 1 :: kws[1..][i] == kws[i + 1];
      KwargsText(kws[1..], texts[1..]);
      assert KwParts(kws, texts) == [kws[0].0 + "=" + texts[0]] + KwParts(kws[1..], texts[1..]);
    }
  }

  /** The positional arguments, each of which compiles to a string. */
  lemma ArgsText(args: seq<Value>, texts: seq<string>)
    requires |texts| == |args| && forall i | 0 <= i < |args| :: ExprToPy(args[i]) == Ok(Str(texts[i]))
    ensures IterToPy(Arr(args)).Ok? && Texts(IterToPy(Arr(args)).value) == Ok(texts)
  {
    var items := ItemsToPy(args);
    assert IterToPy(Arr(args)) == items;
    assert items.Ok?;
    assert forall i | 0 <= i < |args| :: items.value[i] == Str(texts[i]);
    var t := Texts(items.value);
    assert t.Ok?;
    assert forall i | 0 <= i < |texts| :: t.value[i] == texts[i];
    assert t.value == texts;
  }

  /** The object a call form builds names only `call`, `args` and
      `kwargs`. */
  lemma CallIrShape(f: Value, args: seq<Value>, kws: Dict)
    ensures var v := CallIr(f, args, kws);
      && Has(v, "call") && Member(v, "call") == f
      && Has(v, "args") && Member(v, "args") == Arr(args)
      && Has(v, "kwargs") && Member(v, "kwargs") == Obj(kws)
      && !Has(v, "python") && !Has(v, "name") && !Has(v, "literal")
  {
    var v := CallIr(f, args, kws);
    Fields3("call", f, "args", Arr(args), "kwargs", Obj(kws));
    assert Keys(v.fields) == ["call", "args", "kwargs"];
    assert "python" != "call" && "python" != "args" && "python" != "kwargs";
    assert "name" != "call" && "name" != "args" && "name" != "kwargs";
    assert "literal" != "call" && "literal" != "args" && "literal" != "kwargs";
  }

  /** A call of a named function compiles to the name, then its
      positional arguments and its `key=value` keywords, separated by
      commas, in parentheses. */
  lemma CallText(fname: string, args: seq<Value>, argTexts: seq<string>, kws: Dict, kwTexts: seq<string>)
    requires |argTexts| == |args| && forall i | 0 <= i < |args| :: ExprToPy(args[i]) == Ok(Str(argTexts[i]))
    requires |kwTexts| == |kws| && forall i | 0 <= i < |kws| :: ExprText(kws[i].1) == Ok(kwTexts[i])
    ensures ExprText(CallIr(Str(fname), args, kws))
         == Ok(fname + "(" + Join(argTexts + KwParts(kws, kwTexts), ", ") + ")")
  {
    var v := CallIr(Str(fname), args, kws);
    CallIrShape(Str(fname), args, kws);
    var text := fname + "(" + Join(argTexts + KwParts(kws, kwTexts), ", ") + ")";
    assert CallToPy(v) == Ok(text) by {
      ArgsText(args, argTexts);
      KwargsText(kws, kwTexts);
    }
    assert NodeToPy(v) == Ok(text);
    assert ExprToPy(v) == Ok(Str(text));
  }

  /** A positional argument that compiles to something other than a
      string makes the call raise TypeError, once every argument and
      keyword has been rendered without error. */
  lemma CallRefusesNonStringArg(fname: string, args: seq<Value>, kws: Dict, i: nat)
    requires forall j | 0 <= j < |args| :: ExprToPy(args[j]).Ok?
    requires i < |args| && !ExprToPy(args[i]).value.Str?
    requires forall j | 0 <= j < |kws| :: ExprText(kws[j].1).Ok?
    ensures ExprToPy(CallIr(Str(fname), args, kws)) == Err(TypeError)
  {
    var v := CallIr(Str(fname), args, kws);
    CallIrShape(Str(fname), args, kws);
    assert CallToPy(v) == Err(TypeError) by {
      var texts := seq(|kws|, j requires 0 <= j < |kws| => ExprText(kws[j].1).value);
      KwargsText(kws, texts);
      var items := ItemsToPy(args);
      assert IterToPy(Arr(args)) == items;
      assert items.Ok? && items.value[i] == ExprToPy(args[i]).value;
      assert !AllStr(items.value);
    }
    assert NodeToPy(v) == Err(TypeError);
  }

  // ---------------------------------------------------------------------
  // Imports
  // ---------------------------------------------------------------------

  /** Every import the validator accepts has a rendering. */
  lemma ValidImportFormats(x: Value)
    requires ImportValid(x).Ok?
    ensures FormatImport(x).Ok?
  {
  }

  lemma {:induction false} ValidImportsFormat(xs: seq<Value>)
    requires ImportsValid(xs).Ok?
    ensures FormatImports(xs).Ok?
  {
    if xs != [] {
      ValidImportFormats(xs[0]);
      assert ImportsValid(xs[1..]).Ok?;
      ValidImportsFormat(xs[1..]);
    }
  }

  /** Names as string values. */
  function StrList(names: seq<string>): (r: seq<Value>)
    ensures |r| == |names| && forall i | 0 <= i < |names| :: r[i] == Str(names[i])
  {
    seq(|names|, i requires 0 <= i < |names| => Str(names[i]))
  }

  /** The import shapes the `import` and `from` forms build. */
  lemma ImportText(m: string, alias: string, names: seq<string>)
    ensures FormatImport(Str(m)) == Ok("import " + m)
    ensures FormatImport(Obj([("import", Str(m)), ("as", Str(alias))])) == Ok("import " + m + " as " + alias)
    ensures FormatImport(Obj([("from", Str(m)), ("import", Arr(StrList(names)))]))
         == Ok("from " + m + " import " + Join(names, ", "))
  {
    Fields2("import", Str(m), "as", Str(alias));
    var items := StrList(names);
    Fields2("from", Str(m), "import", Arr(items));
    assert IsStrList(Arr(items));
    assert seq(|items|, i requires 0 <= i < |items| => items[i].s) == names;
  }

  // ---------------------------------------------------------------------
  // Statements the compiler refuses
  // ---------------------------------------------------------------------

  /** `while`, `with`, `break`, `continue`, `raise` and `assert`
      statements have no rendering. */
  lemma UnrenderedStatements(k: string, x: Value, indent: nat, inStep: bool)
    requires k in {"while", "with", "break", "continue", "raise", "assert"}
    ensures StmtToLines(Obj([(k, x)]), indent, inStep) == Err(UnsupportedStmt)
  {
    OneKey(k, x);
  }

  /** A while form reads into a statement the validator accepts and the
      compiler refuses. */
  lemma WhileReadsButDoesNotCompile(items: seq<Node>, indent: nat, inStep: bool)
    requires items != [] && items[0] == Sym("while") && StmtForm(items).Ok?
    ensures ValidateStmt(StmtForm(items).value).Ok?
    ensures StmtToLines(StmtForm(items).value, indent, inStep) == Err(UnsupportedStmt)
  {
    WhileStmtValid(items);
    var cond := Expr(items[1]).value;
    var body := DoBlock(items[2], "while body must be (do ...)", "while body must be (do ...)").value;
    assert StmtForm(items) == Ok(Obj([("while", Obj([("cond", cond), ("body", Arr(body))]))]));
    UnrenderedStatements("while", Obj([("cond", cond), ("body", Arr(body))]), indent, inStep);
  }

  // ---------------------------------------------------------------------
  // Steps
  // ---------------------------------------------------------------------

  /** The decorator keywords depend only on the step's entries, not on
      the order they were written in. */
  lemma DecoratorsIgnoreKeyOrder(s1: Value, s2: Value)
    requires s1.Obj? && s2.Obj?
    requires forall k | k in ["retry", "timeout", "guard", "produces"] :: Get(s1.fields, k) == Get(s2.fields, k)
    ensures DecoratorArgs(s1) == DecoratorArgs(s2)
  {
    forall k | k in ["retry", "timeout", "guard", "produces"]
      ensures Has(s1, k) == Has(s2, k) && (Has(s1, k) ==> Member(s1, k) == Member(s2, k))
    {
    }
  }

  /** A step with all four decorator keys gets them in the order retry,
      timeout, guard, produces. */
  lemma DecoratorOrder(step: Value)
    requires step.Obj? && Has(step, "retry") && Has(step, "timeout") && Has(step, "guard") && Has(step, "produces")
    ensures DecoratorArgs(step) == [DecoratorArg(step, "retry"), DecoratorArg(step, "timeout"),
                                    DecoratorArg(step, "guard"), DecoratorArg(step, "produces")]
  {
    var ks := DecoratorKeys;
    assert ks[0] == "retry" && ks[1] == "timeout" && ks[2] == "guard" && ks[3] == "produces";
    assert PresentBefore(step, 1) == 1 && PresentBefore(step, 2) == 2 && PresentBefore(step, 3) == 3;
  }

  /** A step with none of the decorator keys gets an empty `@step()`. */
  lemma NoDecorators(step: Value)
    requires step.Obj? && !Has(step, "retry") && !Has(step, "timeout") && !Has(step, "guard") && !Has(step, "produces")
    ensures DecoratorArgs(step) == []
  {
    var ks := DecoratorKeys;
    assert ks[0] == "retry" && ks[1] == "timeout" && ks[2] == "guard" && ks[3] == "produces";
  }

  /** A return statement is a real `return` exactly inside a step. */
  lemma ReturnInStep(e: Value, text: string, indent: nat, inStep: bool)
    requires ExprText(e) == Ok(text)
    ensures StmtToLines(Obj([("return", e)]), indent, inStep).Ok?
    ensures var line := StmtToLines(Obj([("return", e)]), indent, inStep).value[0];
      line[indent..] == (if inStep then "return " else "__vbl_result__ = ") + text
  {
    OneKey("return", e);
  }
}

=== FILE: vbl_forms.dfy ===
/**
 * The form readers of vibelang/parser.py: `_expr` and `_stmt` turn parsed
 * nodes into IR objects, and `parse_vbl` turns a whole program into the
 * IR object with `meta`, `imports`, `inputs`, `steps` and `run`.
 *
 * The IR is JSON (`Json.Value`). Float numerals are refused: the value
 * type has no floats.
 */
module VblForms {
  import opened Base
  import opened Strings
  import opened Json
  import opened VblLexer
  import opened VblParser

  /** The binary operators. */
  const BinOps: set<string> :=
    {"+", "-", "*", "/", "//", "%", "**", "and", "or", "==", "!=", "<", ">", "<=", ">="}

  const FloatsLeftOut := "float literals are not part of this model"

  /** `repr` of a parsed node: a symbol as its frozen dataclass shows it, a
      literal as `repr` of its value, a list as a Python list of the
      elements' `repr`. A float numeral shows as written. */
  function NodeRepr(n: Node): string
    decreases n, 1
  {
    match n
    case Sym(name) => "Symbol(name=" + Repr(Str(name)) + ")"
    case Lit(v) => Repr(v)
    case FloatLit(raw) => raw
    case List(items) => "[" + NodeReprItems(items) + "]"
  }

  function NodeReprItems(ns: seq<Node>): string
    decreases ns, 0
  {
    if ns == [] then ""
    else if |ns| == 1 then NodeRepr(ns[0])
    else NodeRepr(ns[0]) + ", " + NodeReprItems(ns[1..])
  }

  /** `str` of a parsed node, as an f-string shows it: a string literal
      is its own text, anything else its `repr`. */
  function NodeStr(n: Node): string {
    if n.Lit? && n.v.Str? then n.v.s else NodeRepr(n)
  }

  /** `_sym`: the name of a symbol node. */
  function SymName(n: Node): (r: Result<string, string>)
    ensures r.Ok? <==> n.Sym?
    ensures r.Ok? ==> r.value == n.name
    ensures r.Err? ==> r.error == "Expected symbol, got: " + NodeStr(n)
  {
    if n.Sym? then Ok(n.name) else Err("Expected symbol, got: " + NodeStr(n))
  }

  /** The names of symbol nodes, as string values; any other node is an
      error. */
  function SymNames(ns: seq<Node>): (r: Result<seq<Value>, string>)
    ensures r.Ok? ==> |r.value| == |ns|
    ensures r.Ok? ==> forall i | 0 <= i < |ns| :: ns[i].Sym? && r.value[i] == Str(ns[i].name)
    ensures r.Err? ==> exists i | 0 <= i < |ns| :: !ns[i].Sym?
  {
    if ns == [] then Ok([])
    else
      var x :- SymName(ns[0]);
      var xs :- SymNames(ns[1..]);
      Ok([Str(x)] + xs)
  }

  predicate IsStrNode(n: Node) {
    n.Lit? && n.v.Str?
  }

  function StrValues(ns: seq<Node>): (r: seq<Value>)
    requires forall i | 0 <= i < |ns| :: IsStrNode(ns[i])
    ensures |r| == |ns| && forall i | 0 <= i < |r| :: IsStrNode(ns[i]) && r[i] == ns[i].v
  {
    if ns == [] then []
    else
      assert IsStrNode(ns[0]);
      [ns[0].v] + StrValues(ns[1..])
  }

  // ---------------------------------------------------------------------
  // IR objects
  // ---------------------------------------------------------------------

  function NameIr(name: string): Value {
    Obj([("name", Str(name))])
  }

  function LiteralIr(v: Value): Value {
    Obj([("literal", v)])
  }

  function BinopIr(op: string, left: Value, right: Value): Value {
    Obj([("binop", Obj([("op", Str(op)), ("left", left), ("right", right)]))])
  }

  function CallIr(f: Value, args: seq<Value>, kwargs: Dict): Value {
    Obj([("call", f), ("args", Arr(args)), ("kwargs", Obj(kwargs))])
  }

  // ---------------------------------------------------------------------
  // _expr
  // ---------------------------------------------------------------------

  /** `_expr(node)`. */
  function Expr(n: Node): (r: Result<Value, string>)
    ensures r.Ok? ==> r.value.Obj?
    decreases n, 2
  {
    match n
    case Sym(name) => Ok(NameIr(name))
    case Lit(v) => Ok(LiteralIr(v))
    case FloatLit(_) => Err(FloatsLeftOut)
    case List(items) =>
      if items == [] then Err("Empty expression list") else FormExpr(items)
  }

  /** `_expr` of a non-empty list, by its head. */
  function FormExpr(items: seq<Node>): (r: Result<Value, string>)
    requires items != []
    ensures r.Ok? ==> r.value.Obj?
    decreases items, 1
  {
    var head := items[0];
    if head.Sym? && head.name in BinOps then
      if |items| < 3 then Err("Operator " + head.name + " requires operands")
      else
        var left :- Expr(items[1]);
        var right :- Expr(items[2]);
        FoldBinop(head.name, BinopIr(head.name, left, right), items[3..])
    else if head == Sym("attr") then
      if |items| != 3 then Err("attr requires base and attr name")
      else
        var base :- Expr(items[1]);
        var name :- SymName(items[2]);
        Ok(Obj([("attr", Obj([("base", base), ("attr", Str(name))]))]))
    else if head == Sym("index") then
      if |items| != 3 then Err("index requires base and index")
      else
        var base :- Expr(items[1]);
        var index :- Expr(items[2]);
        Ok(Obj([("index", Obj([("base", base), ("index", index)]))]))
    else if head == Sym("list") then
      var xs :- ExprList(items[1..]);
      Ok(Obj([("list", Arr(xs))]))
    else if head == Sym("tuple") then
      var xs :- ExprList(items[1..]);
      Ok(Obj([("tuple", Arr(xs))]))
    else if head == Sym("dict") then
      var es :- DictEntries(items[1..]);
      Ok(Obj([("dict", Arr(es))]))
    else if head == Sym("python") then
      if |items| != 2 || !IsStrNode(items[1]) then Err("python expression requires a string")
      else Ok(Obj([("python", items[1].v)]))
    else if head == Sym("validate") then
      ValidateForm(items)
    else if head == Sym("parallel") then
      var tasks :- ParallelTasks(items[1..]);
      Ok(Obj([("parallel", Arr(tasks))]))
    else if head == Sym("call") then
      if |items| < 2 then Err("call requires function")
      else
        var f :- Expr(items[1]);
        var (args, kwargs) :- CallArgs(items[2..], [], []);
        Ok(CallIr(f, args, kwargs))
    else
      var f :- if head.Sym? then Ok(Str(head.name)) else Expr(head);
      var (args, kwargs) :- CallArgs(items[1..], [], []);
      Ok(CallIr(f, args, kwargs))
  }

  /** The loop over extra operands: each one becomes the right side of a
      new binop whose left side is everything so far. */
  function FoldBinop(op: string, acc: Value, extras: seq<Node>): (r: Result<Value, string>)
    requires acc.Obj?
    ensures r.Ok? ==> r.value.Obj?
    decreases extras, 0
  {
    if extras == [] then Ok(acc)
    else
      var x :- Expr(extras[0]);
      FoldBinop(op, BinopIr(op, acc, x), extras[1..])
  }

  /** `[_expr(n) for n in ns]`. */
  function ExprList(ns: seq<Node>): (r: Result<seq<Value>, string>)
    ensures r.Ok? ==> |r.value| == |ns|
    ensures r.Ok? ==> forall i | 0 <= i < |ns| :: Expr(ns[i]) == Ok(r.value[i])
    ensures r.Err? ==> exists i | 0 <= i < |ns| :: Expr(ns[i]).Err?
    decreases ns, 0
  {
    if ns == [] then Ok([])
    else
      var x :- Expr(ns[0]);
      var xs :- ExprList(ns[1..]);
      Ok([x] + xs)
  }

  /** A two-item list node. */
  predicate IsPair(n: Node) {
    n.List? && |n.items| == 2
  }

  /** `(key value)` entries of a dict form. */
  function DictEntries(ns: seq<Node>): (r: Result<seq<Value>, string>)
    ensures r.Ok? ==> |r.value| == |ns|
    decreases ns, 0
  {
    if ns == [] then Ok([])
    else if !IsPair(ns[0]) then Err("dict entries must be (key value)")
    else
      var k :- Expr(ns[0].items[0]);
      var v :- Expr(ns[0].items[1]);
      var rest :- DictEntries(ns[1..]);
      Ok([Obj([("key", k), ("value", v)])] + rest)
  }

  /** `(name expr)` tasks of a parallel form. */
  function ParallelTasks(ns: seq<Node>): (r: Result<seq<Value>, string>)
    ensures r.Ok? ==> |r.value| == |ns|
    decreases ns, 0
  {
    if ns == [] then Ok([])
    else if !IsPair(ns[0]) then Err("parallel tasks must be (name expr)")
    else
      var name :- SymName(ns[0].items[0]);
      var call :- Expr(ns[0].items[1]);
      var rest :- ParallelTasks(ns[1..]);
      Ok([Obj([("name", Str(name)), ("call", call)])] + rest)
  }

  /** A `(kw key value)` argument (of any length). */
  predicate IsKwNode(n: Node) {
    n.List? && n.items != [] && n.items[0] == Sym("kw")
  }

  /** The argument loop of a call: `(kw k v)` items set `kwargs[k]` (a
      repeated key keeps its first position and takes the last value), all
      other items are positional, in order. */
  function CallArgs(ns: seq<Node>, args: seq<Value>, kwargs: Dict): (r: Result<(seq<Value>, Dict), string>)
    decreases ns, 0
  {
    if ns == [] then Ok((args, kwargs))
    else if IsKwNode(ns[0]) then
      if |ns[0].items| != 3 then Err("kw requires key and value")
      else
        var v :- Expr(ns[0].items[2]);
        var k :- SymName(ns[0].items[1]);
        CallArgs(ns[1..], args, Put(kwargs, k, v))
    else
      var v :- Expr(ns[0]);
      CallArgs(ns[1..], args + [v], kwargs)
  }

  /** The validate form: three items are schema and data by position;
      otherwise keyed `(schema X)`, `(data X)`, `(model X)` entries, the
      last of each kind winning, with `model` and `schema` sharing one
      slot. */
  function ValidateForm(items: seq<Node>): (r: Result<Value, string>)
    requires items != [] && items[0] == Sym("validate")
    ensures r.Ok? ==> r.value.Obj?
    decreases items, 0
  {
    if |items| == 3 then
      var schema :- Expr(items[1]);
      var data :- Expr(items[2]);
      Ok(Obj([("validate", Obj([("schema", schema), ("data", data)]))]))
    else
      var (schema, data) :- ValidateEntries(items[1..], None, None);
      if data.None? then Err("validate requires data")
      else if schema.None? then Err("validate requires schema or model")
      else if schema.value.0 then Ok(Obj([("validate", Obj([("model", schema.value.1), ("data", data.value)]))]))
      else Ok(Obj([("validate", Obj([("schema", schema.value.1), ("data", data.value)]))]))
  }

  /** The entry loop of the keyed validate form; the schema slot holds
      whether it came from `model`. */
  function ValidateEntries(ns: seq<Node>, schema: Option<(bool, Value)>, data: Option<Value>)
    : (r: Result<(Option<(bool, Value)>, Option<Value>), string>)
    ensures ns != [] && IsPair(ns[0]) && ns[0].items[0].Sym? && ns[0].items[0].name !in {"schema", "data", "model"} ==>
      r == Err("Unknown validate key: " + ns[0].items[0].name)
    decreases ns, 0
  {
    if ns == [] then Ok((schema, data))
    else if !IsPair(ns[0]) then Err("validate entries must be (schema X) or (data X)")
    else
      var key :- SymName(ns[0].items[0]);
      if key == "schema" then
        var x :- Expr(ns[0].items[1]);
        ValidateEntries(ns[1..], Some((false, x)), data)
      else if key == "data" then
        var x :- Expr(ns[0].items[1]);
        ValidateEntries(ns[1..], schema, Some(x))
      else if key == "model" then
        var x :- Expr(ns[0].items[1]);
        ValidateEntries(ns[1..], Some((true, x)), data)
      else Err("Unknown validate key: " + key)
  }

  // ---------------------------------------------------------------------
  // _stmt
  // ---------------------------------------------------------------------

  /** `_stmt(node)`: a non-list or empty node is an expression statement. */
  function Stmt(n: Node): (r: Result<Value, string>)
    ensures r.Ok? ==> r.value.Obj?
    decreases n, 2
  {
    if !n.List? || n.items == [] then
      var e :- Expr(n);
      Ok(Obj([("expr", e)]))
    else StmtForm(n.items)
  }

  /** `[_stmt(p) for p in ns]`. */
  function StmtList(ns: seq<Node>): (r: Result<seq<Value>, string>)
    ensures r.Ok? ==> |r.value| == |ns|
    ensures r.Ok? ==> forall i | 0 <= i < |ns| :: Stmt(ns[i]) == Ok(r.value[i])
    decreases ns, 0
  {
    if ns == [] then Ok([])
    else
      var x :- Stmt(ns[0]);
      var xs :- StmtList(ns[1..]);
      Ok([x] + xs)
  }

  /** A `(do stmt...)` body: a non-empty list headed by the symbol `do`.
      A part that is not a non-empty list is refused with `shapeMsg`, one
      with another head with `tagMsg` (the `for` form spells the two
      differently). */
  function DoBlock(part: Node, shapeMsg: string, tagMsg: string): (r: Result<seq<Value>, string>)
    decreases part, 1
  {
    if !part.List? || part.items == [] then Err(shapeMsg)
    else
      var tag :- SymName(part.items[0]);
      if tag != "do" then Err(tagMsg) else StmtList(part.items[1..])
  }

  /** `_stmt` of a non-empty list, by its head. */
  function StmtForm(items: seq<Node>): (r: Result<Value, string>)
    requires items != []
    ensures r.Ok? ==> r.value.Obj?
    decreases items, 1
  {
    var head := items[0];
    if head == Sym("set") then
      if |items| != 3 then Err("set requires name and value")
      else
        var name :- SymName(items[1]);
        var value :- Expr(items[2]);
        Ok(Obj([("set", Obj([("name", Str(name)), ("value", value)]))]))
    else if head == Sym("return") then
      if |items| != 2 then Err("return requires value")
      else
        var e :- Expr(items[1]);
        Ok(Obj([("return", e)]))
    else if head == Sym("expr") then
      if |items| != 2 then Err("expr requires expression")
      else
        var e :- Expr(items[1]);
        Ok(Obj([("expr", e)]))
    else if head == Sym("python") then
      if exists i | 1 <= i < |items| :: !IsStrNode(items[i]) then Err("python statements must be strings")
      else Ok(Obj([("python", Arr(StrValues(items[1..])))]))
    else if head == Sym("if") then
      if |items| < 3 then Err("if requires condition and body")
      else
        var cond :- Expr(items[1]);
        var (thenBlock, elseBlock) :- IfParts(items[2..], [], []);
        Ok(Obj([("if", Obj([("cond", cond), ("then", Arr(thenBlock)), ("else", Arr(elseBlock))]))]))
    else if head == Sym("for") then
      if |items| < 4 then Err("for requires var, iter, and body")
      else
        var v :- SymName(items[1]);
        var it :- Expr(items[2]);
        var body :- DoBlock(items[3], "for body must be (do ...) ", "for body must be (do ...)");
        Ok(Obj([("for", Obj([("var", Str(v)), ("iter", it), ("body", Arr(body))]))]))
    else if head == Sym("while") then
      if |items| < 3 then Err("while requires condition and body")
      else
        var cond :- Expr(items[1]);
        var body :- DoBlock(items[2], "while body must be (do ...)", "while body must be (do ...)");
        Ok(Obj([("while", Obj([("cond", cond), ("body", Arr(body))]))]))
    else if head == Sym("break") then Ok(Obj([("break", Bool(true))]))
    else if head == Sym("continue") then Ok(Obj([("continue", Bool(true))]))
    else if head == Sym("raise") then
      if |items| == 1 then Ok(Obj([("raise", Null)]))
      else if |items| == 2 then
        var e :- Expr(items[1]);
        Ok(Obj([("raise", e)]))
      else Err("raise takes zero or one argument")
    else if head == Sym("assert") then
      if |items| < 2 then Err("assert requires condition")
      else
        var cond :- Expr(items[1]);
        if |items| > 2 then
          var msg :- Expr(items[2]);
          Ok(Obj([("assert", Obj([("cond", cond), ("msg", msg)]))]))
        else Ok(Obj([("assert", Obj([("cond", cond)]))]))
    else if head == Sym("with") then
      WithForm(items)
    else
      var e :- FormExpr(items);
      Ok(Obj([("expr", e)]))
  }

  /** The `(then ...)`/`(do ...)` and `(else ...)` parts of an if form; a
      repeated part replaces the earlier one. */
  function IfParts(ns: seq<Node>, thenBlock: seq<Value>, elseBlock: seq<Value>)
    : (r: Result<(seq<Value>, seq<Value>), string>)
    decreases ns, 0
  {
    if ns == [] then Ok((thenBlock, elseBlock))
    else if !ns[0].List? || ns[0].items == [] then Err("if body must be (then ...) or (else ...)")
    else
      var tag :- SymName(ns[0].items[0]);
      if tag == "then" || tag == "do" then
        var b :- StmtList(ns[0].items[1..]);
        IfParts(ns[1..], b, elseBlock)
      else if tag == "else" then
        var b :- StmtList(ns[0].items[1..]);
        IfParts(ns[1..], thenBlock, b)
      else Err("if body must be (then ...) or (else ...)")
  }

  /** One `with` item: a context expression and an optional `as` name. */
  function WithItem(item: seq<Node>): (r: Result<Value, string>)
    requires item != []
    decreases item, 0
  {
    var context :- Expr(item[0]);
    if |item| > 1 then
      var name :- SymName(item[1]);
      Ok(Obj([("context", context), ("as", Str(name))]))
    else Ok(Obj([("context", context)]))
  }

  /** The items of a with form written as a list of `(context var?)`. */
  function WithItems(ns: seq<Node>): (r: Result<seq<Value>, string>)
    ensures r.Ok? ==> |r.value| == |ns|
    decreases ns, 1
  {
    if ns == [] then Ok([])
    else if !ns[0].List? || ns[0].items == [] then Err("with item must be (context var?)")
    else
      var x :- WithItem(ns[0].items);
      var xs :- WithItems(ns[1..]);
      Ok([x] + xs)
  }

  /** The with form: either one `(context var?)` or a list of them, then a
      `(do ...)` body. */
  function WithForm(items: seq<Node>): (r: Result<Value, string>)
    requires items != [] && items[0] == Sym("with")
    ensures r.Ok? ==> r.value.Obj?
    decreases items, 0
  {
    if |items| < 3 then Err("with requires items and body")
    else if !items[1].List? || items[1].items == [] then Err("with items must be a list")
    else
      var spec := items[1].items;
      var withItems :- if spec[0].List? then WithItems(spec) else
        var one :- WithItem(spec);
        Ok([one]);
      var body :- DoBlock(items[2], "with body must be (do ...)", "with body must be (do ...)");
      Ok(Obj([("with", Obj([("items", Arr(withItems)), ("body", Arr(body))]))]))
  }

  // ---------------------------------------------------------------------
  // parse_vbl
  // ---------------------------------------------------------------------

  /** A value written in place: a symbol stands for its name. A Python
      list of nodes keeps its symbols as Symbol objects; here they become
      their names as well. */
  function RawValue(n: Node): (r: Result<Value, string>)
    decreases n, 1
  {
    match n
    case Sym(name) => Ok(Str(name))
    case Lit(v) => Ok(v)
    case FloatLit(_) => Err(FloatsLeftOut)
    case List(items) =>
      var xs :- RawValues(items);
      Ok(Arr(xs))
  }

  function RawValues(ns: seq<Node>): (r: Result<seq<Value>, string>)
    ensures r.Ok? ==> |r.value| == |ns|
    decreases ns, 0
  {
    if ns == [] then Ok([])
    else
      var x :- RawValue(ns[0]);
      var xs :- RawValues(ns[1..]);
      Ok([x] + xs)
  }

  /** The IR being built by `parse_vbl`. */
  datatype Program = Program(
    meta: Dict, imports: seq<Value>, inputs: Dict, steps: seq<Value>, run: Option<Value>)

  const EmptyProgram := Program([], [], [], [], None)

  /** The IR object: its keys in the order `parse_vbl` creates them. */
  function ProgramIr(p: Program): Value {
    Obj([("meta", Obj(p.meta)), ("imports", Arr(p.imports)), ("inputs", Obj(p.inputs)),
         ("steps", Arr(p.steps)), ("run", p.run.GetOr(Null))])
  }

  /** `(key value)` entries assigned into a dict, as meta and inputs do. */
  function Entries(ns: seq<Node>, d: Dict, msg: string): (r: Result<Dict, string>)
    decreases ns
  {
    if ns == [] then Ok(d)
    else if !IsPair(ns[0]) then Err(msg)
    else
      var v :- RawValue(ns[0].items[1]);
      var k :- SymName(ns[0].items[0]);
      Entries(ns[1..], Put(d, k, v), msg)
  }

  /** The options of a step form, assigned into the step object. */
  function StepParts(ns: seq<Node>, step: Dict): (r: Result<Dict, string>)
    decreases ns
  {
    if ns == [] then Ok(step)
    else if !ns[0].List? || ns[0].items == [] then Err("step options must be lists")
    else
      var xs := ns[0].items;
      var key :- SymName(xs[0]);
      var next :- StepOption(key, xs, step);
      StepParts(ns[1..], next)
  }

  /** One step option `(key ...)` assigned into the step object. */
  /** The option keys a step form knows. */
  const StepAttributes: set<string> := {"params", "retry", "timeout", "guard", "produces", "body", "return"}

  function StepOption(key: string, xs: seq<Node>, d: Dict): (r: Result<Dict, string>)
    requires xs != []
    ensures key !in StepAttributes ==> r == Err("Unknown step attribute: " + key)
  {
    if key == "params" then
      var ps :- SymNames(xs[1..]);
      Ok(Put(d, "params", Arr(ps)))
    else if key == "retry" || key == "timeout" then
      if |xs| != 2 || !xs[1].Lit? || !IsNumber(xs[1].v) then Err(key + " requires integer")
      else Ok(Put(d, key, xs[1].v))
    else if key == "guard" then
      if exists i | 1 <= i < |xs| :: !IsStrNode(xs[i]) then Err("guard entries must be strings")
      else Ok(Put(d, "guard", Arr(StrValues(xs[1..]))))
    else if key == "produces" then
      if |xs| != 2 then Err("produces requires value")
      else
        var v :- RawValue(xs[1]);
        Ok(Put(d, "produces", v))
    else if key == "body" then
      if |xs| == 1 then Ok(Put(d, "body", Arr([])))
      else if forall i | 1 <= i < |xs| :: IsStrNode(xs[i]) then
        Ok(Put(d, "body", Arr(StrValues(xs[1..]))))
      else if exists i | 1 <= i < |xs| :: IsStrNode(xs[i]) then
        Err("body must be all strings or all statements")
      else
        var block :- StmtList(xs[1..]);
        Ok(Put(d, "body", Obj([("block", Arr(block))])))
    else if key == "return" then
      if |xs| != 2 then Err("return requires expression")
      else
        var e :- Expr(xs[1]);
        Ok(Put(d, "return", e))
    else Err("Unknown step attribute: " + key)
  }

  /** The run form's payload: `(block stmt...)` or one expression. */
  function RunValue(n: Node): (r: Result<Value, string>)
    ensures r.Ok? ==> r.value.Obj?
  {
    if n.List? && n.items != [] && n.items[0] == Sym("block") then
      var block :- StmtList(n.items[1..]);
      Ok(Obj([("block", Arr(block))]))
    else Expr(n)
  }

  const ImportForm := "import form: (import module) or (import module as alias)"
  const FromForm := "from form: (from module import name1 name2)"

  /** A form headed by the `run` symbol. */
  predicate IsRunForm(form: Node) {
    form.List? && form.items != [] && form.items[0] == Sym("run")
  }

  /** One top-level form applied to the program. */
  /** The heads of the top-level forms `parse_vbl` knows. */
  const TopFormNames: set<string> := {"meta", "import", "from", "input", "inputs", "step", "run"}

  function TopForm(form: Node, p: Program): (r: Result<Program, string>)
    ensures r.Ok? && p.run.Some? ==> r.value.run.Some?
    ensures r.Ok? && !IsRunForm(form) ==> r.value.run == p.run
    ensures form.List? && form.items != [] && form.items[0].Sym? && form.items[0].name !in TopFormNames ==>
      r == Err("Unknown top-level form: " + form.items[0].name)
  {
    if !form.List? || form.items == [] then Err("Top-level forms must be lists")
    else if !form.items[0].Sym? then Err("Top-level forms must start with a symbol")
    else
      var items := form.items;
      var name := items[0].name;
      if name == "meta" then
        var meta :- Entries(items[1..], p.meta, "meta entries must be (key value)");
        Ok(p.(meta := meta))
      else if name == "import" then
        if |items| == 2 then
          var m :- RawValue(items[1]);
          Ok(p.(imports := p.imports + [m]))
        else if |items| == 4 then
          var kw :- SymName(items[2]);
          if kw != "as" then Err(ImportForm)
          else
            var m :- SymName(items[1]);
            var alias :- SymName(items[3]);
            Ok(p.(imports := p.imports + [Obj([("import", Str(m)), ("as", Str(alias))])]))
        else Err(ImportForm)
      else if name == "from" then
        if |items| < 4 then Err(FromForm)
        else
          var kw :- SymName(items[2]);
          if kw != "import" then Err(FromForm)
          else
            var m :- SymName(items[1]);
            var names :- SymNames(items[3..]);
            Ok(p.(imports := p.imports + [Obj([("from", Str(m)), ("import", Arr(names))])]))
      else if name == "input" then
        if |items| != 3 then Err("input form: (input name value)")
        else
          var v :- RawValue(items[2]);
          var k :- SymName(items[1]);
          Ok(p.(inputs := Put(p.inputs, k, v)))
      else if name == "inputs" then
        var inputs :- Entries(items[1..], p.inputs, "inputs entries must be (name value)");
        Ok(p.(inputs := inputs))
      else if name == "step" then
        if |items| < 2 then Err("step requires a name")
        else
          var stepName :- SymName(items[1]);
          var step :- StepParts(items[2..], [("name", Str(stepName)), ("params", Arr([]))]);
          Ok(p.(steps := p.steps + [Obj(step)]))
      else if name == "run" then
        if |items| != 2 then Err("run requires single expression or block")
        else
          var run :- RunValue(items[1]);
          Ok(p.(run := Some(run)))
      else Err("Unknown top-level form: " + name)
  }

  /** The form loop of `parse_vbl`. */
  function TopForms(forms: seq<Node>, p: Program): (r: Result<Program, string>)
    ensures r.Ok? && p.run.Some? ==> r.value.run.Some?
    ensures r.Ok? && (forall i | 0 <= i < |forms| :: !IsRunForm(forms[i])) ==> r.value.run == p.run
    ensures r.Ok? && r.value.run.Some? && p.run.None? ==> exists i | 0 <= i < |forms| :: IsRunForm(forms[i])
    decreases forms
  {
    if forms == [] then Ok(p)
    else
      var p' :- TopForm(forms[0], p);
      TopForms(forms[1..], p')
  }

  const MissingRun := "Program requires a run form"

  /** The source read into its top-level forms. */
  function SourceForms(src: string): Result<seq<Node>, string> {
    var ts :- Tokenize(src);
    ParseTokens(ts)
  }

  /** `parse_vbl(src)`: a program without a `(run ...)` form is refused
      once its other forms are accepted; an accepted program has one. */
  function ParseVbl(src: string): (r: Result<Value, string>)
    ensures r.Ok? ==> SourceForms(src).Ok?
    ensures r.Ok? ==> exists i | 0 <= i < |SourceForms(src).value| :: IsRunForm(SourceForms(src).value[i])
    ensures r.Ok? ==> r.value.Obj? && Keys(r.value.fields) == ["meta", "imports", "inputs", "steps", "run"]
    ensures SourceForms(src).Ok? && TopForms(SourceForms(src).value, EmptyProgram).Ok? &&
            (forall i | 0 <= i < |SourceForms(src).value| :: !IsRunForm(SourceForms(src).value[i])) ==>
              r == Err(MissingRun)
    ensures SourceForms(src).Err? ==> r == Err(SourceForms(src).error)
  {
    var forms :- SourceForms(src);
    var p :- TopForms(forms, EmptyProgram);
    if p.run.None? then Err(MissingRun) else Ok(ProgramIr(p))
  }
}

=== FILE: vbl_ir.dfy ===
/**
 * `validate_ir` of vibelang/ir.py: the structural check an IR object must
 * pass before it is compiled. Expressions are checked permissively (only
 * known node kinds, recursing only into dict entries); statements are
 * checked recursively through their bodies.
 *
 * The identifier test is a parameter: `_is_identifier` as written lets a
 * name with one trailing newline through (see `ValidateIrAsWritten`),
 * and the rest of the model uses the intended test (`ValidateIr`).
 */
module VblIr {
  import opened Base
  import opened Strings
  import opened Json

  type Check = Result<(), string>

  const Pass: Check := Ok(())

  /** A value taken out of a dict is smaller than the dict. */
  lemma GetBelow(d: Dict, k: string)
    ensures Get(d, k).Some? ==> Get(d, k).value < Obj(d)
  {
    if Get(d, k).Some? {
      var i :| 0 <= i < |d| && d[i] == (k, Get(d, k).value);
      assert d[i].1 < d[i];
    }
  }

  /** `k in v` for an object. */
  predicate Has(v: Value, k: string) {
    v.Obj? && k in Keys(v.fields)
  }

  /** `v[k]` for an object that has `k`. */
  function Member(v: Value, k: string): (r: Value)
    requires Has(v, k)
    ensures r < v
    ensures Get(v.fields, k) == Some(r)
  {
    GetBelow(v.fields, k);
    Get(v.fields, k).value
  }

  /** `v.get(k, default)` for an object. */
  function MemberOr(v: Value, k: string, default: Value): (r: Value)
    requires v.Obj?
    ensures Has(v, k) ==> r == Member(v, k)
    ensures !Has(v, k) ==> r == default
  {
    Get(v.fields, k).GetOr(default)
  }

  predicate AllStr(xs: seq<Value>) {
    forall i | 0 <= i < |xs| :: xs[i].Str?
  }

  /** A list of strings. */
  predicate IsStrList(v: Value) {
    v.Arr? && AllStr(v.items)
  }

  // ---------------------------------------------------------------------
  // _validate_expr
  // ---------------------------------------------------------------------

  /** `_validate_expr`: literals pass, lists fail, and an object is
      checked only for the shape of the node kinds it names. */
  function ValidateExpr(v: Value): (r: Check)
    ensures v.Arr? ==> r.Err?
    ensures !v.Arr? && !v.Obj? ==> r.Ok?
    decreases v, 1
  {
    match v
    case Arr(_) => Err("Expression must be literal or object")
    case Obj(_) =>
      if Has(v, "call") && Has(v, "args") && !Member(v, "args").Arr? then Err("'call.args' must be list")
      else if Has(v, "call") && Has(v, "kwargs") && !Member(v, "kwargs").Obj? then Err("'call.kwargs' must be object")
      else if Has(v, "attr") && !Has(Member(v, "attr"), "attr") then Err("'attr' must be object with 'attr'")
      else if Has(v, "index") && !(Has(Member(v, "index"), "base") && Has(Member(v, "index"), "index")) then
        Err("'index' must be object with base/index")
      else if Has(v, "list") && !Member(v, "list").Arr? then Err("'list' must be list")
      else if Has(v, "tuple") && !Member(v, "tuple").Arr? then Err("'tuple' must be list")
      else if Has(v, "dict") && !Member(v, "dict").Arr? && !Member(v, "dict").Obj? then Err("'dict' must be list or object")
      else
        var u :- if Has(v, "dict") && Member(v, "dict").Arr? then DictItemsValid(Member(v, "dict").items) else Pass;
        if Has(v, "validate") && !Member(v, "validate").Obj? then Err("'validate' must be object")
        else if Has(v, "parallel") && !Member(v, "parallel").Arr? then Err("'parallel' must be list")
        else Pass
    case _ => Pass
  }

  /** The entries of a list-shaped dict node: objects with a key and a
      value, both valid expressions. */
  function DictItemsValid(xs: seq<Value>): (r: Check)
    ensures r.Ok? <==> forall i | 0 <= i < |xs| ::
      Has(xs[i], "key") && Has(xs[i], "value")
      && ValidateExpr(Member(xs[i], "key")).Ok? && ValidateExpr(Member(xs[i], "value")).Ok?
    decreases xs, 0
  {
    if xs == [] then Pass
    else if !(Has(xs[0], "key") && Has(xs[0], "value")) then Err("'dict' list items must be objects with key/value")
    else
      var u :- ValidateExpr(Member(xs[0], "key"));
      var w :- ValidateExpr(Member(xs[0], "value"));
      var rest := DictItemsValid(xs[1..]);
      assert forall i | 1 <= i < |xs| :: xs[i] == xs[1..][i - 1];
      rest
  }

  // ---------------------------------------------------------------------
  // _validate_stmt
  // ---------------------------------------------------------------------

  /** `_validate_stmt`: the first statement kind the object names decides
      the check; an object naming none of them is refused. */
  function ValidateStmt(v: Value): (r: Check)
    ensures !v.Obj? ==> r.Err?
    decreases v, 2
  {
    if !v.Obj? then Err("Statement must be object")
    else if Has(v, "python") then
      var p := Member(v, "python");
      if p.Str? || p.Arr? then Pass else Err("'python' statement must be string or list")
    else if Has(v, "set") then
      var info := Member(v, "set");
      if !(Has(info, "name") && Has(info, "value")) then Err("'set' statement requires name and value")
      else ValidateExpr(Member(info, "value"))
    else if Has(v, "expr") then ValidateExpr(Member(v, "expr"))
    else if Has(v, "return") then ValidateExpr(Member(v, "return"))
    else if Has(v, "if") then IfValid(Member(v, "if"))
    else if Has(v, "for") then ForValid(Member(v, "for"))
    else if Has(v, "while") then WhileValid(Member(v, "while"))
    else if Has(v, "break") || Has(v, "continue") then Pass
    else if Has(v, "raise") then
      var x := Member(v, "raise");
      if x.Null? then Pass else ValidateExpr(x)
    else if Has(v, "with") then WithValid(Member(v, "with"))
    else if Has(v, "assert") then AssertValid(Member(v, "assert"))
    else Err("Unknown statement type")
  }

  /** The body of an `if` statement. */
  function IfValid(info: Value): (r: Check)
    decreases info, 1
  {
    if !(Has(info, "cond") && Has(info, "then")) then Err("'if' statement requires cond/then")
    else
      var u :- ValidateExpr(Member(info, "cond"));
      var t := Member(info, "then");
      if !t.Arr? then Err("'if.then' must be list")
      else
        var w :- StmtsValid(t.items);
        ElseValid(info, "'if.else' must be list")
  }

  /** The body of a `for` statement. */
  function ForValid(info: Value): (r: Check)
    decreases info, 1
  {
    if !(Has(info, "var") && Has(info, "iter") && Has(info, "body")) then Err("'for' statement requires var/iter/body")
    else
      var u :- ValidateExpr(Member(info, "iter"));
      var b := Member(info, "body");
      if !b.Arr? then Err("'for.body' must be list") else StmtsValid(b.items)
  }

  /** The body of a `while` statement. */
  function WhileValid(info: Value): (r: Check)
    decreases info, 1
  {
    if !(Has(info, "cond") && Has(info, "body")) then Err("'while' statement requires cond/body")
    else
      var u :- ValidateExpr(Member(info, "cond"));
      var b := Member(info, "body");
      if !b.Arr? then Err("'while.body' must be list")
      else
        var w :- StmtsValid(b.items);
        ElseValid(info, "'while.else' must be list")
  }

  /** The body of a `with` statement. */
  function WithValid(info: Value): (r: Check)
    decreases info, 1
  {
    if !(Has(info, "items") && Has(info, "body")) then Err("'with' statement requires items/body")
    else
      var items := Member(info, "items");
      if !items.Arr? || items.items == [] then Err("'with.items' must be list")
      else
        var u :- WithItemsValid(items.items);
        var b := Member(info, "body");
        if !b.Arr? then Err("'with.body' must be list") else StmtsValid(b.items)
  }

  /** The body of an `assert` statement. */
  function AssertValid(info: Value): (r: Check)
    decreases info, 1
  {
    if !Has(info, "cond") then Err("'assert' statement requires cond")
    else
      var u :- ValidateExpr(Member(info, "cond"));
      if Has(info, "msg") then ValidateExpr(Member(info, "msg")) else Pass
  }

  /** The optional `else` list of an if or while statement. */
  function ElseValid(info: Value, msg: string): (r: Check)
    requires info.Obj?
    decreases info, 0
  {
    if !Has(info, "else") then Pass
    else
      var e := Member(info, "else");
      if !e.Arr? then Err(msg) else StmtsValid(e.items)
  }

  /** Every statement of a body is valid. */
  function StmtsValid(xs: seq<Value>): (r: Check)
    ensures r.Ok? <==> forall i | 0 <= i < |xs| :: ValidateStmt(xs[i]).Ok?
    decreases xs, 0
  {
    if xs == [] then Pass
    else
      var u :- ValidateStmt(xs[0]);
      var rest := StmtsValid(xs[1..]);
      assert forall i | 1 <= i < |xs| :: xs[i] == xs[1..][i - 1];
      rest
  }

  /** The items of a with statement: objects with a valid context and an
      optional string `as`. */
  function WithItemsValid(xs: seq<Value>): (r: Check)
    decreases xs, 0
  {
    if xs == [] then Pass
    else if !Has(xs[0], "context") then Err("'with.items' entries require context")
    else
      var u :- ValidateExpr(Member(xs[0], "context"));
      if Has(xs[0], "as") && !Member(xs[0], "as").Str? then Err("'with.items.as' must be string")
      else WithItemsValid(xs[1..])
  }

  // ---------------------------------------------------------------------
  // validate_ir
  // ---------------------------------------------------------------------

  /** One import: a module name, `{"from": m, "import": [names]}` or
      `{"import": m, "as"?: alias}`. */
  function ImportValid(x: Value): (r: Check)
    ensures r.Ok? <==> || x.Str?
                       || (Has(x, "from") && Member(x, "from").Str? && Has(x, "import") && IsStrList(Member(x, "import")))
                       || (!Has(x, "from") && Has(x, "import") && Member(x, "import").Str?
                           && (Has(x, "as") ==> Member(x, "as").Str?))
  {
    if x.Str? then Pass
    else if !x.Obj? then Err("Each import must be a string or object")
    else if Has(x, "from") then
      if !Member(x, "from").Str? then Err("'from' import must be a string")
      else if !(Has(x, "import") && IsStrList(Member(x, "import"))) then
        Err("'import' in from-import must be list of strings")
      else Pass
    else if Has(x, "import") then
      if !Member(x, "import").Str? then Err("'import' must be a string")
      else if Has(x, "as") && !Member(x, "as").Str? then Err("'as' must be a string")
      else Pass
    else Err("Import objects require 'import' or 'from'")
  }

  function ImportsValid(xs: seq<Value>): (r: Check)
    ensures r.Ok? <==> forall i | 0 <= i < |xs| :: ImportValid(xs[i]).Ok?
  {
    if xs == [] then Pass
    else
      var u :- ImportValid(xs[0]);
      var rest := ImportsValid(xs[1..]);
      assert forall i | 1 <= i < |xs| :: xs[i] == xs[1..][i - 1];
      rest
  }

  /** A step's body: a string, a list of strings, or `{"block": [stmts]}`,
      possibly wrapped as `{"python": ...}`. */
  function BodyValid(body: Value): (r: Check)
  {
    var b := if Has(body, "python") then Member(body, "python") else body;
    if Has(b, "block") then
      var block := Member(b, "block");
      if !block.Arr? then Err("Step body block must be list") else StmtsValid(block.items)
    else if b.Str? || IsStrList(b) then Pass
    else Err("Step body must be string, list of strings, or block")
  }

  /** One step, given the names of the steps before it; its name when it
      passes. */
  function StepValid(step: Value, seen: set<string>, ident: string -> bool): (r: Result<string, string>)
    ensures r.Ok? ==> Has(step, "name") && Member(step, "name") == Str(r.value)
    ensures r.Ok? ==> ident(r.value) && r.value !in seen
    ensures r.Ok? ==> Has(step, "body") || Has(step, "return")
  {
    if !step.Obj? then Err("Step must be an object")
    else if !(Has(step, "name") && Member(step, "name").Str? && ident(Member(step, "name").s)) then
      Err("Step requires valid 'name'")
    else
      var name := Member(step, "name").s;
      if name in seen then Err("Duplicate step name")
      else
        var params := MemberOr(step, "params", Arr([]));
        if !IsStrList(params) then Err("Step 'params' must be list of strings")
        else if exists i | 0 <= i < |params.items| :: !ident(params.items[i].s) then
          Err("Step params must be identifiers")
        else if !Has(step, "body") && !Has(step, "return") then Err("Step must include 'body' or 'return'")
        else
          var u :- if Has(step, "body") then BodyValid(Member(step, "body")) else Pass;
          if Has(step, "guard") && !IsStrList(Member(step, "guard")) then Err("Step guard must be list of strings")
          else if Has(step, "retry") && !IsNumber(Member(step, "retry")) then Err("Step retry must be integer")
          else if Has(step, "timeout") && !IsNumber(Member(step, "timeout")) then Err("Step timeout must be integer seconds")
          else Ok(name)
  }

  /** The step loop, with the set of names seen so far. */
  function StepsValid(xs: seq<Value>, seen: set<string>, ident: string -> bool): (r: Check)
  {
    if xs == [] then Pass
    else
      var name :- StepValid(xs[0], seen, ident);
      StepsValid(xs[1..], seen + {name}, ident)
  }

  /** The run entry: a `{"block": [stmts]}` object, or an expression. */
  function RunValid(run: Value): (r: Check)
  {
    if Has(run, "block") then
      var block := Member(run, "block");
      if !block.Arr? then Err("'run.block' must be list") else StmtsValid(block.items)
    else if run.Null? then Pass
    else ValidateExpr(run)
  }

  /** The position of the first key that is not an identifier, as the
      loop over `inputs.keys()` meets it. */
  function FirstBadKey(fs: Dict, ident: string -> bool): (r: Option<nat>)
    ensures r.None? <==> forall i | 0 <= i < |fs| :: ident(fs[i].0)
    ensures r.Some? ==> r.value < |fs| && !ident(fs[r.value].0)
    ensures r.Some? ==> forall j | 0 <= j < r.value :: ident(fs[j].0)
  {
    if fs == [] then None
    else if !ident(fs[0].0) then Some(0)
    else
      match FirstBadKey(fs[1..], ident)
      case None => None
      case Some(k) => Some(k + 1)
  }

  /** `validate_ir` with the identifier test as a parameter. */
  function ValidateIrWith(ir: Dict, ident: string -> bool): (r: Check)
    ensures r.Ok? ==> "run" in Keys(ir)
  {
    if "run" !in Keys(ir) then Err("IR must include a 'run' entry")
    else
      var meta := GetOrNull(ir, "meta");
      if !meta.Null? && !meta.Obj? then Err("'meta' must be an object")
      else
        var imports := Get(ir, "imports").GetOr(Arr([]));
        if !imports.Arr? then Err("'imports' must be a list")
        else
          var u1 :- ImportsValid(imports.items);
          var inputs := Get(ir, "inputs").GetOr(Obj([]));
          if !inputs.Null? && !inputs.Obj? then Err("'inputs' must be an object")
          else if inputs.Obj? && FirstBadKey(inputs.fields, ident).Some? then
            Err("Input name must be identifier: " + inputs.fields[FirstBadKey(inputs.fields, ident).value].0)
          else
            var steps := Get(ir, "steps").GetOr(Arr([]));
            if !steps.Null? && !steps.Arr? then Err("'steps' must be a list")
            else
              var u2 :- if steps.Arr? then StepsValid(steps.items, {}, ident) else Pass;
              RunValid(GetOrNull(ir, "run"))
  }

  /** `validate_ir` as written: `^[A-Za-z_][A-Za-z0-9_]*$` without
      `fullmatch` also takes a name ending in one newline. */
  function ValidateIrAsWritten(ir: Dict): (r: Check)
    ensures r.Ok? ==> "run" in Keys(ir)
  {
    ValidateIrWith(ir, IdentifierReMatch)
  }

  /** `validate_ir` with names that are exactly identifiers. */
  function ValidateIr(ir: Dict): (r: Check)
    ensures r.Ok? ==> "run" in Keys(ir)
  {
    ValidateIrWith(ir, IsIdentifier)
  }

  // ---------------------------------------------------------------------
  // Laws
  // ---------------------------------------------------------------------

  /** The step loop passes only steps whose names are identifiers, new to
      `seen`, and pairwise distinct. */
  lemma {:induction false} StepsValidNames(xs: seq<Value>, seen: set<string>, ident: string -> bool)
    requires StepsValid(xs, seen, ident).Ok?
    ensures forall i | 0 <= i < |xs| ::
      Has(xs[i], "name") && Member(xs[i], "name").Str?
      && ident(Member(xs[i], "name").s) && Member(xs[i], "name").s !in seen
    ensures forall i, j | 0 <= i < j < |xs| :: Member(xs[i], "name") != Member(xs[j], "name")
  {
    if xs != [] {
      var name := StepValid(xs[0], seen, ident).value;
      StepsValidNames(xs[1..], seen + {name}, ident);
      forall i | 1 <= i < |xs|
        ensures Has(xs[i], "name") && Member(xs[i], "name").Str?
        ensures Member(xs[i], "name").s !in seen + {name}
        ensures ident(Member(xs[i], "name").s)
      {
        assert xs[i] == xs[1..][i - 1];
      }
      forall i, j | 0 <= i < j < |xs|
        ensures Member(xs[i], "name") != Member(xs[j], "name")
      {
        if i > 0 {
          assert xs[i] == xs[1..][i - 1] && xs[j] == xs[1..][j - 1];
        }
      }
    }
  }

  /** An IR object with one step called `name` and no run value. */
  function OneStepIr(name: string): Dict {
    [("run", Null), ("steps", Arr([Obj([("name", Str(name)), ("return", Null)])]))]
  }

  /** `validate_ir` as written accepts a step named by an identifier and
      a newline; with exact identifiers the same IR is refused. */
  lemma NewlineStepName(s: string)
    requires IsIdentifier(s)
    ensures ValidateIrAsWritten(OneStepIr(s + "\n")).Ok?
    ensures ValidateIr(OneStepIr(s + "\n")).Err?
  {
    IdentifierReMatchNewline(s);
    var name := s + "\n";
    var step := Obj([("name", Str(name)), ("return", Null)]);
    assert Keys(step.fields) == ["name", "return"];
    assert StepValid(step, {}, IdentifierReMatch) == Ok(name);
    assert StepValid(step, {}, IsIdentifier).Err?;
    var ir := OneStepIr(name);
    assert Keys(ir) == ["run", "steps"];
    assert Get(ir, "steps") == Some(Arr([step]));
    assert StepsValid([step], {}, IdentifierReMatch) == StepsValid([], {name}, IdentifierReMatch);
  }
}

=== FILE: vbl_laws.dfy ===
/**
 * Laws of the VibeLang pipeline: what the form readers build, that the
 * validator accepts it, and what the compiler makes of it.
 */
module VblLaws {
  import opened Base
  import opened Strings
  import opened Json
  import opened VblParser
  import opened VblForms
  import opened VblIr
  import opened VblCompiler

  // ---------------------------------------------------------------------
  // What `_sym` reports
  // ---------------------------------------------------------------------

  /** `_sym` reports a refused string literal as its bare text. */
  lemma ExpectedSymbolShowsString()
    ensures SymName(Lit(Str("x"))) == Err("Expected symbol, got: x")
  {
    assert NodeStr(Lit(Str("x"))) == "x";
    assert "Expected symbol, got: " + "x" == "Expected symbol, got: x";
  }

  /** Text that `repr` shows between single quotes, unchanged. */
  predicate PlainText(s: string) {
    forall i | 0 <= i < |s| :: PlainChar(s[i]) && s[i] != '\'' && s[i] != '\\'
  }

  /** `_sym` reports a refused number as its decimal text. */
  lemma ExpectedSymbolShowsInt(n: int)
    ensures SymName(Lit(Int(n))) == Err("Expected symbol, got: " + IntToStr(n))
  {
  }

  /** `_sym` reports a refused list as Python shows a list: the `repr` of
      each element, a symbol as its dataclass. */
  lemma ExpectedSymbolShowsList(a: string)
    requires PlainText(a)
    ensures SymName(List([Sym(a)])) == Err("Expected symbol, got: [Symbol(name='" + a + "')]")
  {
    SymListText(a);
    var e := "Expected symbol, got: ";
    var p := "Expected symbol, got: [Symbol(name='" + a;
    assert e + ("[Symbol(name='" + a + "')]") == p + "')]";
  }

  lemma SymListText(a: string)
    requires PlainText(a)
    ensures NodeStr(List([Sym(a)])) == "[Symbol(name='" + a + "')]"
  {
    var t := "Symbol(name='" + a + "')";
    assert NodeRepr(Sym(a)) == t by { ReprPlainStr(a); }
    assert NodeReprItems([Sym(a)]) == NodeRepr(Sym(a));
    assert "[" + t + "]" == "[Symbol(name='" + a + "')]";
  }

  // ---------------------------------------------------------------------
  // Operators are left folds
  // ---------------------------------------------------------------------

  /** The reference meaning of `(op a b c ...)`: `((a op b) op c) ...`. */
  function LeftFold(op: string, acc: Value, xs: seq<Value>): Value
    decreases |xs|
  {
    if xs == [] then acc else LeftFold(op, BinopIr(op, acc, xs[0]), xs[1..])
  }

  /** The loop over extra operands is the left fold of their IR, and fails
      with the first operand that fails. */
  lemma {:induction false} FoldBinopIsLeftFold(op: string, acc: Value, extras: seq<Node>)
    requires acc.Obj?
    ensures FoldBinop(op, acc, extras) ==
      match ExprList(extras)
      case Ok(xs) => Ok(LeftFold(op, acc, xs))
      case Err(e) => Err(e)
    decreases extras
  {
    if extras != [] {
      var x := Expr(extras[0]);
      if x.Ok? {
        var acc' := BinopIr(op, acc, x.value);
        FoldBinopIsLeftFold(op, acc', extras[1..]);
        var rest := ExprList(extras[1..]);
        if rest.Ok? {
          assert ([x.value] + rest.value)[1..] == rest.value;
        }
      }
    }
  }

  /** An operator form with at least two operands means the left fold of
      its operands; with fewer it is refused. */
  lemma OperatorIsLeftFold(items: seq<Node>)
    requires items != [] && items[0].Sym? && items[0].name in BinOps
    ensures |items| < 3 ==> FormExpr(items) == Err("Operator " + items[0].name + " requires operands")
    ensures |items| >= 3 ==> (FormExpr(items) ==
      match ExprList(items[1..])
      case Ok(xs) => Ok(LeftFold(items[0].name, xs[0], xs[1..]))
      case Err(e) => Err(e))
  {
    if |items| >= 3 {
      var op := items[0].name;
      var ns := items[1..];
      assert ns[0] == items[1] && ns[1..][0] == items[2] && ns[1..][1..] == items[3..];
      var l := Expr(items[1]);
      var r := Expr(items[2]);
      if l.Ok? && r.Ok? {
        FoldBinopIsLeftFold(op, BinopIr(op, l.value, r.value), items[3..]);
        var rest := ExprList(items[3..]);
        if rest.Ok? {
          var xs := [l.value] + ([r.value] + rest.value);
          assert ExprList(ns) == Ok(xs);
          assert xs[0] == l.value && xs[1..][0] == r.value && xs[1..][1..] == rest.value;
        }
      }
    }
  }

  // ---------------------------------------------------------------------
  // Call arguments
  // ---------------------------------------------------------------------

  predicate NoKeywords(ns: seq<Node>) {
    forall i | 0 <= i < |ns| :: !IsKwNode(ns[i])
  }

  /** Without keyword items, the argument loop collects the positional
      arguments in order, and fails with the first argument that fails. */
  lemma {:induction false} CallArgsPositional(ns: seq<Node>, args: seq<Value>, kwargs: Dict)
    requires NoKeywords(ns)
    ensures ExprList(ns).Ok? ==> CallArgs(ns, args, kwargs) == Ok((args + ExprList(ns).value, kwargs))
    ensures ExprList(ns).Err? ==> CallArgs(ns, args, kwargs) == Err(ExprList(ns).error)
    decreases ns
  {
    if ns != [] {
      assert !IsKwNode(ns[0]);
      assert NoKeywords(ns[1..]) by {
        forall i | 0 <= i < |ns| - 1 ensures !IsKwNode(ns[1..][i]) {
          assert ns[1..][i] == ns[i + 1];
        }
      }
      var x := Expr(ns[0]);
      if x.Ok? {
        CallArgsPositional(ns[1..], args + [x.value], kwargs);
        assert CallArgs(ns, args, kwargs) == CallArgs(ns[1..], args + [x.value], kwargs);
        var rest := ExprList(ns[1..]);
        if rest.Ok? {
          assert ExprList(ns).value == [x.value] + rest.value;
          AppendAssoc(args, [x.value], rest.value);
        }
      }
    } else {
      assert args + [] == args;
    }
  }

  lemma AppendAssoc<T>(a: seq<T>, b: seq<T>, c: seq<T>)
    ensures a + b + c == a + (b + c)
  {
  }

  /** Keyword arguments never repeat a key. */
  lemma {:induction false} CallArgsUniqueKeys(ns: seq<Node>, args: seq<Value>, kwargs: Dict)
    requires UniqueKeys(kwargs)
    ensures CallArgs(ns, args, kwargs).Ok? ==> UniqueKeys(CallArgs(ns, args, kwargs).value.1)
    decreases ns
  {
    if ns != [] {
      if IsKwNode(ns[0]) {
        if |ns[0].items| == 3 {
          var v := Expr(ns[0].items[2]);
          var k := SymName(ns[0].items[1]);
          if v.Ok? && k.Ok? {
            PutUnique(kwargs, k.value, v.value);
            CallArgsUniqueKeys(ns[1..], args, Put(kwargs, k.value, v.value));
          }
        }
      } else if Expr(ns[0]).Ok? {
        CallArgsUniqueKeys(ns[1..], args + [Expr(ns[0]).value], kwargs);
      }
    }
  }

  /** The positional items of a call, in order. */
  function Positionals(ns: seq<Node>): seq<Node> {
    if ns == [] then []
    else (if IsKwNode(ns[0]) then [] else [ns[0]]) + Positionals(ns[1..])
  }

  /** The keyword items alone, applied in order as `kwargs[k] = v`;
      positional items are passed over. */
  function KwAssign(ns: seq<Node>, kwargs: Dict): Result<Dict, string> {
    if ns == [] then Ok(kwargs)
    else if !IsKwNode(ns[0]) then KwAssign(ns[1..], kwargs)
    else if |ns[0].items| != 3 then Err("kw requires key and value")
    else
      var v :- Expr(ns[0].items[2]);
      var k :- SymName(ns[0].items[1]);
      KwAssign(ns[1..], Put(kwargs, k, v))
  }

  /** With keyword and positional items mixed in any order, the argument
      loop succeeds exactly when the positional items and the keyword items
      each succeed on their own, and then the positional arguments are the
      positional items in order and the keyword arguments are the keyword
      assignments in order: interleaving does not matter. */
  lemma {:induction false} CallArgsSplit(ns: seq<Node>, args: seq<Value>, kwargs: Dict)
    ensures CallArgs(ns, args, kwargs).Ok? <==> ExprList(Positionals(ns)).Ok? && KwAssign(ns, kwargs).Ok?
    ensures CallArgs(ns, args, kwargs).Ok? ==>
              CallArgs(ns, args, kwargs).value == (args + ExprList(Positionals(ns)).value, KwAssign(ns, kwargs).value)
    decreases ns
  {
    if ns == [] {
      assert args + [] == args;
    } else if IsKwNode(ns[0]) {
      assert Positionals(ns) == Positionals(ns[1..]);
      if |ns[0].items| == 3 {
        var v := Expr(ns[0].items[2]);
        var k := SymName(ns[0].items[1]);
        if v.Ok? && k.Ok? {
          CallArgsSplit(ns[1..], args, Put(kwargs, k.value, v.value));
        }
      }
    } else {
      var ps := Positionals(ns[1..]);
      assert Positionals(ns) == [ns[0]] + ps;
      assert ([ns[0]] + ps)[0] == ns[0];
      assert ([ns[0]] + ps)[1..] == ps;
      var v := Expr(ns[0]);
      if v.Ok? {
        CallArgsSplit(ns[1..], args + [v.value], kwargs);
        if ExprList(ps).Ok? {
          assert ExprList(Positionals(ns)).value == [v.value] + ExprList(ps).value;
          AppendAssoc(args, [v.value], ExprList(ps).value);
        }
      }
    }
  }

  // ---------------------------------------------------------------------
  // What the form readers build passes the validator
  // ---------------------------------------------------------------------

  /** A one-entry expression object passes `_validate_expr` when its entry
      has the shape the validator asks of that node kind. */
  lemma OneKeyValid(k: string, x: Value)
    requires k in {"list", "tuple", "parallel"} ==> x.Arr?
    requires k == "validate" ==> x.Obj?
    requires k == "attr" ==> Has(x, "attr")
    requires k == "index" ==> Has(x, "base") && Has(x, "index")
    requires k == "dict" ==> x.Arr? && DictItemsValid(x.items).Ok?
    requires k != "call"
    ensures ValidateExpr(Obj([(k, x)])).Ok?
  {
    var v := Obj([(k, x)]);
    assert Keys(v.fields) == [k];
    forall kk | Has(v, kk)
      ensures kk == k && Member(v, kk) == x
    {
    }
    if k == "dict" {
      assert Member(v, "dict") == x;
    }
  }

  /** A call object passes: its arguments are a list, its keywords an
      object. */
  lemma CallIrValid(f: Value, args: seq<Value>, kwargs: Dict)
    ensures ValidateExpr(CallIr(f, args, kwargs)).Ok?
  {
    var v := CallIr(f, args, kwargs);
    assert Keys(v.fields) == ["call", "args", "kwargs"];
    assert Member(v, "args") == Arr(args);
    assert Member(v, "kwargs") == Obj(kwargs);
  }

  /** A left fold over at least one operand is a binop object. */
  lemma {:induction false} LeftFoldIsBinop(op: string, acc: Value, xs: seq<Value>)
    requires xs != []
    ensures ValidateExpr(LeftFold(op, acc, xs)).Ok?
    decreases |xs|
  {
    if |xs| == 1 {
      assert LeftFold(op, acc, xs) == LeftFold(op, BinopIr(op, acc, xs[0]), []);
      OneKeyValid("binop", Obj([("op", Str(op)), ("left", acc), ("right", xs[0])]));
    } else {
      LeftFoldIsBinop(op, BinopIr(op, acc, xs[0]), xs[1..]);
    }
  }

  /** Every expression the reader builds passes `_validate_expr`. */
  lemma {:induction false} ExprValid(n: Node)
    requires Expr(n).Ok?
    ensures ValidateExpr(Expr(n).value).Ok?
    decreases n, 2
  {
    match n
    case Sym(name) => OneKeyValid("name", Str(name));
    case Lit(v) => OneKeyValid("literal", v);
    case List(items) => FormExprValid(items);
  }

  lemma {:induction false} FormExprValid(items: seq<Node>)
    requires items != [] && FormExpr(items).Ok?
    ensures ValidateExpr(FormExpr(items).value).Ok?
    decreases items, 1
  {
    var head := items[0];
    var r := FormExpr(items).value;
    if head.Sym? && head.name in BinOps {
      OperatorIsLeftFold(items);
      var xs := ExprList(items[1..]).value;
      LeftFoldIsBinop(head.name, xs[0], xs[1..]);
    } else if head == Sym("attr") {
      var base := Expr(items[1]).value;
      var name := SymName(items[2]).value;
      var x := Obj([("base", base), ("attr", Str(name))]);
      assert Keys(x.fields) == ["base", "attr"];
      OneKeyValid("attr", x);
    } else if head == Sym("index") {
      var x := Obj([("base", Expr(items[1]).value), ("index", Expr(items[2]).value)]);
      assert Keys(x.fields) == ["base", "index"];
      OneKeyValid("index", x);
    } else if head == Sym("list") {
      OneKeyValid("list", Arr(ExprList(items[1..]).value));
    } else if head == Sym("tuple") {
      OneKeyValid("tuple", Arr(ExprList(items[1..]).value));
    } else if head == Sym("dict") {
      DictEntriesValid(items[1..]);
      OneKeyValid("dict", Arr(DictEntries(items[1..]).value));
    } else if head == Sym("python") {
      OneKeyValid("python", items[1].v);
    } else if head == Sym("validate") {
      ValidateFormValid(items);
    } else if head == Sym("parallel") {
      OneKeyValid("parallel", Arr(ParallelTasks(items[1..]).value));
    } else if head == Sym("call") {
      var f := Expr(items[1]).value;
      var (args, kwargs) := CallArgs(items[2..], [], []).value;
      CallIrValid(f, args, kwargs);
    } else {
      var f := if head.Sym? then Str(head.name) else Expr(head).value;
      var (args, kwargs) := CallArgs(items[1..], [], []).value;
      CallIrValid(f, args, kwargs);
    }
  }

  lemma ValidateFormValid(items: seq<Node>)
    requires items != [] && items[0] == Sym("validate") && ValidateForm(items).Ok?
    ensures ValidateExpr(ValidateForm(items).value).Ok?
  {
    if |items| == 3 {
      OneKeyValid("validate", Obj([("schema", Expr(items[1]).value), ("data", Expr(items[2]).value)]));
    } else {
      var (schema, data) := ValidateEntries(items[1..], None, None).value;
      var kind := if schema.value.0 then "model" else "schema";
      OneKeyValid("validate", Obj([(kind, schema.value.1), ("data", data.value)]));
    }
  }

  /** The key/value entries of a dict form pass the validator's entry
      check. */
  lemma {:induction false} DictEntriesValid(ns: seq<Node>)
    requires DictEntries(ns).Ok?
    ensures DictItemsValid(DictEntries(ns).value).Ok?
    decreases ns, 0
  {
    if ns != [] {
      var k := Expr(ns[0].items[0]).value;
      var v := Expr(ns[0].items[1]).value;
      ExprValid(ns[0].items[0]);
      ExprValid(ns[0].items[1]);
      DictEntriesValid(ns[1..]);
      var e := Obj([("key", k), ("value", v)]);
      assert Keys(e.fields) == ["key", "value"];
      assert Member(e, "key") == k && Member(e, "value") == v;
      var rest := DictEntries(ns[1..]).value;
      assert DictEntries(ns).value == [e] + rest;
      assert ([e] + rest)[1..] == rest;
    }
  }

  /** The entries of an object with three distinct keys. */
  lemma Fields3(a: string, x: Value, b: string, y: Value, c: string, z: Value)
    requires a != b && b != c && a != c
    ensures var v := Obj([(a, x), (b, y), (c, z)]);
      && Has(v, a) && Member(v, a) == x
      && Has(v, b) && Member(v, b) == y
      && Has(v, c) && Member(v, c) == z
  {
    var v := Obj([(a, x), (b, y), (c, z)]);
    assert Keys(v.fields) == [a, b, c];
  }

  lemma Fields2(a: string, x: Value, b: string, y: Value)
    requires a != b
    ensures var v := Obj([(a, x), (b, y)]);
      && Has(v, a) && Member(v, a) == x
      && Has(v, b) && Member(v, b) == y
      && !Has(v, "else") == (a != "else" && b != "else")
      && !Has(v, "as") == (a != "as" && b != "as")
      && !Has(v, "msg") == (a != "msg" && b != "msg")
  {
    var v := Obj([(a, x), (b, y)]);
    assert Keys(v.fields) == [a, b];
  }

  /** A one-entry statement object: its only key decides the check. */
  lemma OneKey(k: string, x: Value)
    ensures var v := Obj([(k, x)]);
      Has(v, k) && Member(v, k) == x && forall kk | Has(v, kk) :: kk == k
  {
    var v := Obj([(k, x)]);
    assert Keys(v.fields) == [k];
  }

  /** Every statement the reader builds passes `_validate_stmt`. */
  lemma {:induction false} StmtValid(n: Node)
    requires Stmt(n).Ok?
    ensures ValidateStmt(Stmt(n).value).Ok?
    decreases n, 3
  {
    if !n.List? || n.items == [] {
      ExprValid(n);
      OneKey("expr", Expr(n).value);
    } else {
      StmtFormValid(n.items);
    }
  }

  lemma {:induction false} StmtListValid(ns: seq<Node>)
    requires StmtList(ns).Ok?
    ensures StmtsValid(StmtList(ns).value).Ok?
    decreases ns, 0
  {
    var xs := StmtList(ns).value;
    forall i | 0 <= i < |ns|
      ensures ValidateStmt(xs[i]).Ok?
    {
      StmtValid(ns[i]);
    }
  }

  lemma {:induction false} DoBlockValid(part: Node, shapeMsg: string, tagMsg: string)
    requires DoBlock(part, shapeMsg, tagMsg).Ok?
    ensures StmtsValid(DoBlock(part, shapeMsg, tagMsg).value).Ok?
    decreases part, 1
  {
    StmtListValid(part.items[1..]);
  }

  lemma {:induction false} IfPartsValid(ns: seq<Node>, thenBlock: seq<Value>, elseBlock: seq<Value>)
    requires StmtsValid(thenBlock).Ok? && StmtsValid(elseBlock).Ok?
    requires IfParts(ns, thenBlock, elseBlock).Ok?
    ensures StmtsValid(IfParts(ns, thenBlock, elseBlock).value.0).Ok?
    ensures StmtsValid(IfParts(ns, thenBlock, elseBlock).value.1).Ok?
    decreases ns, 0
  {
    if ns != [] {
      var tag := SymName(ns[0].items[0]).value;
      var b := StmtList(ns[0].items[1..]).value;
      StmtListValid(ns[0].items[1..]);
      if tag == "then" || tag == "do" {
        IfPartsValid(ns[1..], b, elseBlock);
      } else {
        IfPartsValid(ns[1..], thenBlock, b);
      }
    }
  }

  lemma {:induction false} StmtFormValid(items: seq<Node>)
    requires items != [] && StmtForm(items).Ok?
    ensures ValidateStmt(StmtForm(items).value).Ok?
    decreases items, 2
  {
    var head := items[0];
    if head == Sym("set") || head == Sym("return") || head == Sym("expr") || head == Sym("python") {
      SimpleStmtValid(items);
    } else if head == Sym("if") {
      IfStmtValid(items);
    } else if head == Sym("for") {
      ForStmtValid(items);
    } else if head == Sym("while") {
      WhileStmtValid(items);
    } else if head == Sym("break") || head == Sym("continue") || head == Sym("raise") {
      JumpStmtValid(items);
    } else if head == Sym("assert") {
      AssertStmtValid(items);
    } else if head == Sym("with") {
      WithStmtValid(items);
    } else {
      FormExprValid(items);
      assert StmtForm(items) == Ok(Obj([("expr", FormExpr(items).value)]));
      OneKeyStmtValid("expr", FormExpr(items).value);
    }
  }

  /** A one-entry statement object passes when its entry does. */
  lemma OneKeyStmtValid(k: string, x: Value)
    requires k in {"expr", "return", "raise", "break", "continue", "python"}
    requires k in {"expr", "return", "raise"} ==> ValidateExpr(x).Ok?
    requires k == "python" ==> x.Arr?
    ensures ValidateStmt(Obj([(k, x)])).Ok?
  {
    OneKey(k, x);
  }

  lemma {:induction false} SimpleStmtValid(items: seq<Node>)
    requires items != [] && StmtForm(items).Ok?
    requires items[0] in {Sym("set"), Sym("return"), Sym("expr"), Sym("python")}
    ensures ValidateStmt(StmtForm(items).value).Ok?
    decreases items, 1
  {
    var head := items[0];
    if head == Sym("set") {
      var value := Expr(items[2]).value;
      var info := Obj([("name", Str(SymName(items[1]).value)), ("value", value)]);
      assert StmtForm(items) == Ok(Obj([("set", info)]));
      ExprValid(items[2]);
      Fields2("name", Str(SymName(items[1]).value), "value", value);
      OneKey("set", info);
    } else if head == Sym("return") || head == Sym("expr") {
      var k := head.name;
      assert StmtForm(items) == Ok(Obj([(k, Expr(items[1]).value)]));
      ExprValid(items[1]);
      OneKeyStmtValid(k, Expr(items[1]).value);
    } else {
      assert StmtForm(items) == Ok(Obj([("python", Arr(StrValues(items[1..])))]));
      OneKeyStmtValid("python", Arr(StrValues(items[1..])));
    }
  }

  lemma {:induction false} JumpStmtValid(items: seq<Node>)
    requires items != [] && StmtForm(items).Ok?
    requires items[0] in {Sym("break"), Sym("continue"), Sym("raise")}
    ensures ValidateStmt(StmtForm(items).value).Ok?
    decreases items, 1
  {
    var head := items[0];
    if head == Sym("break") || head == Sym("continue") {
      assert StmtForm(items) == Ok(Obj([(head.name, Bool(true))]));
      OneKeyStmtValid(head.name, Bool(true));
    } else if |items| == 1 {
      assert StmtForm(items) == Ok(Obj([("raise", Null)]));
      OneKeyStmtValid("raise", Null);
    } else {
      assert StmtForm(items) == Ok(Obj([("raise", Expr(items[1]).value)]));
      ExprValid(items[1]);
      OneKeyStmtValid("raise", Expr(items[1]).value);
    }
  }

  lemma {:induction false} IfStmtValid(items: seq<Node>)
    requires items != [] && items[0] == Sym("if") && StmtForm(items).Ok?
    ensures ValidateStmt(StmtForm(items).value).Ok?
    decreases items, 1
  {
    var cond := Expr(items[1]).value;
    ExprValid(items[1]);
    StmtsValid0();
    IfPartsValid(items[2..], [], []);
    var (t, e) := IfParts(items[2..], [], []).value;
    assert StmtForm(items) == Ok(Obj([("if", Obj([("cond", cond), ("then", Arr(t)), ("else", Arr(e))]))]));
    IfIrValid(cond, t, e);
  }

  lemma IfIrValid(cond: Value, t: seq<Value>, e: seq<Value>)
    requires ValidateExpr(cond).Ok? && StmtsValid(t).Ok? && StmtsValid(e).Ok?
    ensures ValidateStmt(Obj([("if", Obj([("cond", cond), ("then", Arr(t)), ("else", Arr(e))]))])).Ok?
  {
    var info := Obj([("cond", cond), ("then", Arr(t)), ("else", Arr(e))]);
    Fields3("cond", cond, "then", Arr(t), "else", Arr(e));
    OneKey("if", info);
    assert ElseValid(info, "'if.else' must be list") == StmtsValid(e);
    assert IfValid(info).Ok?;
  }

  lemma StmtsValid0()
    ensures StmtsValid([]).Ok?
  {
  }

  lemma {:induction false} ForStmtValid(items: seq<Node>)
    requires items != [] && items[0] == Sym("for") && StmtForm(items).Ok?
    ensures ValidateStmt(StmtForm(items).value).Ok?
    decreases items, 1
  {
    var v := Str(SymName(items[1]).value);
    var it := Expr(items[2]).value;
    ExprValid(items[2]);
    var body := DoBlock(items[3], "for body must be (do ...) ", "for body must be (do ...)").value;
    DoBlockValid(items[3], "for body must be (do ...) ", "for body must be (do ...)");
    assert StmtForm(items) == Ok(Obj([("for", Obj([("var", v), ("iter", it), ("body", Arr(body))]))]));
    ForIrValid(v, it, body);
  }

  lemma ForIrValid(v: Value, it: Value, body: seq<Value>)
    requires ValidateExpr(it).Ok? && StmtsValid(body).Ok?
    ensures ValidateStmt(Obj([("for", Obj([("var", v), ("iter", it), ("body", Arr(body))]))])).Ok?
  {
    var info := Obj([("var", v), ("iter", it), ("body", Arr(body))]);
    Fields3("var", v, "iter", it, "body", Arr(body));
    OneKey("for", info);
    assert ForValid(info).Ok?;
  }

  /** The two `for` body refusals keep their own spellings: a body that
      is not a non-empty list is refused with a trailing space, one headed
      by another symbol without it. */
  lemma ForBodyRefusals(items: seq<Node>, tag: string)
    requires |items| >= 4 && items[0] == Sym("for")
    requires SymName(items[1]).Ok? && Expr(items[2]).Ok?
    ensures (!items[3].List? || items[3].items == []) ==>
      StmtForm(items) == Err("for body must be (do ...) ")
    ensures items[3].List? && items[3].items != [] && items[3].items[0] == Sym(tag) && tag != "do" ==>
      StmtForm(items) == Err("for body must be (do ...)")
  {
  }

  lemma {:induction false} WhileStmtValid(items: seq<Node>)
    requires items != [] && items[0] == Sym("while") && StmtForm(items).Ok?
    ensures ValidateStmt(StmtForm(items).value).Ok?
    decreases items, 1
  {
    var cond := Expr(items[1]).value;
    ExprValid(items[1]);
    var body := DoBlock(items[2], "while body must be (do ...)", "while body must be (do ...)").value;
    DoBlockValid(items[2], "while body must be (do ...)", "while body must be (do ...)");
    assert StmtForm(items) == Ok(Obj([("while", Obj([("cond", cond), ("body", Arr(body))]))]));
    WhileIrValid(cond, body);
  }

  lemma WhileIrValid(cond: Value, body: seq<Value>)
    requires ValidateExpr(cond).Ok? && StmtsValid(body).Ok?
    ensures ValidateStmt(Obj([("while", Obj([("cond", cond), ("body", Arr(body))]))])).Ok?
  {
    var info := Obj([("cond", cond), ("body", Arr(body))]);
    Fields2("cond", cond, "body", Arr(body));
    OneKey("while", info);
    assert WhileValid(info).Ok?;
  }

  lemma {:induction false} AssertStmtValid(items: seq<Node>)
    requires items != [] && items[0] == Sym("assert") && StmtForm(items).Ok?
    ensures ValidateStmt(StmtForm(items).value).Ok?
    decreases items, 1
  {
    var cond := Expr(items[1]).value;
    ExprValid(items[1]);
    if |items| > 2 {
      var msg := Expr(items[2]).value;
      ExprValid(items[2]);
      assert StmtForm(items) == Ok(Obj([("assert", Obj([("cond", cond), ("msg", msg)]))]));
      Fields2("cond", cond, "msg", msg);
      AssertIrValid(Obj([("cond", cond), ("msg", msg)]), cond, Some(msg));
    } else {
      assert StmtForm(items) == Ok(Obj([("assert", Obj([("cond", cond)]))]));
      OneKey("cond", cond);
      AssertIrValid(Obj([("cond", cond)]), cond, None);
    }
  }

  lemma AssertIrValid(info: Value, cond: Value, msg: Option<Value>)
    requires ValidateExpr(cond).Ok? && (msg.Some? ==> ValidateExpr(msg.value).Ok?)
    requires Has(info, "cond") && Member(info, "cond") == cond
    requires Has(info, "msg") ==> msg.Some? && Member(info, "msg") == msg.value
    ensures ValidateStmt(Obj([("assert", info)])).Ok?
  {
    OneKey("assert", info);
  }

  lemma {:induction false} WithStmtValid(items: seq<Node>)
    requires items != [] && items[0] == Sym("with") && StmtForm(items).Ok?
    ensures ValidateStmt(StmtForm(items).value).Ok?
    decreases items, 1
  {
    var spec := items[1].items;
    var ws := if spec[0].List? then WithItems(spec).value else [WithItem(spec).value];
    if spec[0].List? {
      WithItemsOk(spec);
    } else {
      WithItemOk(spec);
      assert WithItemsValid([WithItem(spec).value]) == WithItemsValid([]);
    }
    var body := DoBlock(items[2], "with body must be (do ...)", "with body must be (do ...)").value;
    DoBlockValid(items[2], "with body must be (do ...)", "with body must be (do ...)");
    assert StmtForm(items) == WithForm(items) == Ok(Obj([("with", Obj([("items", Arr(ws)), ("body", Arr(body))]))]));
    WithIrValid(ws, body);
  }

  lemma WithIrValid(ws: seq<Value>, body: seq<Value>)
    requires ws != [] && WithItemsValid(ws).Ok? && StmtsValid(body).Ok?
    ensures ValidateStmt(Obj([("with", Obj([("items", Arr(ws)), ("body", Arr(body))]))])).Ok?
  {
    var info := Obj([("items", Arr(ws)), ("body", Arr(body))]);
    Fields2("items", Arr(ws), "body", Arr(body));
    assert WithValid(info).Ok?;
    OneKey("with", info);
  }

  /** One with item has a valid context and a string `as`. */
  lemma {:induction false} WithItemOk(item: seq<Node>)
    requires item != [] && WithItem(item).Ok?
    ensures var x := WithItem(item).value;
      Has(x, "context") && ValidateExpr(Member(x, "context")).Ok?
      && (Has(x, "as") ==> Member(x, "as").Str?)
    decreases item, 0
  {
    var context := Expr(item[0]).value;
    ExprValid(item[0]);
    if |item| > 1 {
      Fields2("context", context, "as", Str(SymName(item[1]).value));
    } else {
      OneKey("context", context);
    }
  }

  lemma {:induction false} WithItemsOk(ns: seq<Node>)
    requires WithItems(ns).Ok?
    ensures WithItemsValid(WithItems(ns).value).Ok?
    decreases ns, 1
  {
    if ns != [] {
      WithItemOk(ns[0].items);
      WithItemsOk(ns[1..]);
      var xs := WithItems(ns).value;
      assert xs[1..] == WithItems(ns[1..]).value;
    }
  }

  // ---------------------------------------------------------------------
  // Parsed run and step bodies pass the validator
  // ---------------------------------------------------------------------

  /** A `(run (block stmt...))` payload passes the run check: the block is a
      list and every statement in it is valid. */
  lemma RunBlockValid(n: Node)
    requires n.List? && n.items != [] && n.items[0] == Sym("block")
    requires RunValue(n).Ok?
    ensures RunValid(RunValue(n).value).Ok?
  {
    var block := StmtList(n.items[1..]).value;
    StmtListValid(n.items[1..]);
    var v := RunValue(n).value;
    assert v == Obj([("block", Arr(block))]);
    assert Keys(v.fields) == ["block"];
    assert Member(v, "block") == Arr(block);
  }

  /** Every body a `(body ...)` step option can build passes the step body
      check: no items, string items, or a block of valid statements. */
  lemma StepBodyValid(xs: seq<Node>, d: Dict)
    requires xs != [] && StepOption("body", xs, d).Ok?
    ensures BodyValid(GetOrNull(StepOption("body", xs, d).value, "body")).Ok?
  {
    var body := GetOrNull(StepOption("body", xs, d).value, "body");
    if |xs| == 1 {
      assert body == Arr([]);
    } else if forall i | 1 <= i < |xs| :: IsStrNode(xs[i]) {
      var vs := StrValues(xs[1..]);
      assert body == Arr(vs);
      assert AllStr(vs) by {
        forall i | 0 <= i < |vs| ensures vs[i].Str? {
          assert IsStrNode(xs[1..][i]);
        }
      }
    } else {
      var block := StmtList(xs[1..]).value;
      StmtListValid(xs[1..]);
      assert body == Obj([("block", Arr(block))]);
      assert Keys(body.fields) == ["block"];
      assert !Has(body, "python");
      assert Member(body, "block") == Arr(block);
    }
  }
}

=== FILE: vbl_lexer.dfy ===
/**
 * The VibeLang tokenizer of vibelang/parser.py: string literals with
 * backslash escapes, `#`/`;` comments, parens, and atoms classified as
 * numbers, the literals true/false/null, or symbols.
 *
 * Python walks the source with an index; the model walks the remaining
 * suffix, which is the same thing.
 */
module VblLexer {
  import opened Base
  import opened Strings
  import opened Json

  datatype Token =
    | Open
    | Close
    | StrTok(text: string)
    | IntTok(n: int)
    /** A float numeral, kept as its text (floats are not modelled). */
    | FloatTok(raw: string)
    /** true, false or null. */
    | LitTok(v: Value)
    | SymTok(name: string)

  const Unterminated := "Unterminated string literal"

  // ---------------------------------------------------------------------
  // _read_string
  // ---------------------------------------------------------------------

  /** The character an escape `\c` stands for: n, t and r are control
      characters, anything else (the quote and the backslash included)
      stands for itself. */
  function Unescape(c: char): (r: char)
    ensures c !in "ntr" ==> r == c
  {
    if c == 'n' then '\n'
    else if c == 't' then '\t'
    else if c == 'r' then '\r'
    else c
  }

  /** `_read_string` after the opening quote: the decoded text and the
      number of characters consumed, closing quote included. A missing
      closing quote, or a backslash as the last character, is an error. */
  function ReadBody(s: string): (r: Result<(string, nat), string>)
    ensures r.Ok? ==> 0 < r.value.1 <= |s| && s[r.value.1 - 1] == '"'
    ensures r.Ok? ==> |r.value.0| < r.value.1
    ensures r.Err? ==> r.error == Unterminated
    ensures '"' !in s ==> r.Err?
  {
    if s == [] then Err(Unterminated)
    else if s[0] == '\\' then
      if |s| == 1 then Err(Unterminated)
      else
        var rest :- ReadBody(s[2..]);
        Ok(([Unescape(s[1])] + rest.0, rest.1 + 2))
    else if s[0] == '"' then Ok(("", 1))
    else
      var rest :- ReadBody(s[1..]);
      Ok(([s[0]] + rest.0, rest.1 + 1))
  }

  /** `_read_string(src, i)` with `src[i]` the opening quote: the text and
      the index just past the closing quote. */
  function ReadString(src: string, i: nat): (r: Result<(string, nat), string>)
    requires i < |src| && src[i] == '"'
    ensures r.Ok? ==> i + 2 <= r.value.1 <= |src| && src[r.value.1 - 1] == '"'
    ensures r.Err? <==> ReadBody(src[i + 1..]).Err?
  {
    var (text, n) :- ReadBody(src[i + 1..]);
    Ok((text, i + 1 + n))
  }

  /** How one character is written inside a string literal: quotes and
      backslashes escaped, newlines, tabs and carriage returns written as
      `\n`, `\t`, `\r`, anything else as itself. */
  function LiteralChar(c: char): (e: string)
    ensures e == [c] || (|e| == 2 && e[0] == '\\' && Unescape(e[1]) == c)
    ensures '"' in e ==> e == "\\\""
  {
    if c == '"' then "\\\"" else if c == '\\' then "\\\\"
    else if c == '\n' then "\\n" else if c == '\t' then "\\t"
    else if c == '\r' then "\\r" else [c]
  }

  /** A string literal's body for a text. */
  function LiteralBody(text: string): (r: string)
    ensures '"' in r ==> '\\' in r
  {
    if text == [] then ""
    else
      var e := LiteralChar(text[0]);
      var rest := LiteralBody(text[1..]);
      assert '"' in e + rest ==> '"' in e || '"' in rest;
      e + rest
  }

  /** Reading back an escaped text stops at the closing quote and gives
      the text again, whatever follows. */
  lemma {:induction false} ReadLiteralBody(text: string, tail: string)
    ensures ReadBody(LiteralBody(text) + "\"" + tail) == Ok((text, |LiteralBody(text)| + 1))
  {
    if text != [] {
      ReadLiteralBody(text[1..], tail);
      var rest := LiteralBody(text[1..]) + "\"" + tail;
      ReadLiteralChar(text[0], rest);
      QuotedRest(LiteralChar(text[0]), LiteralBody(text[1..]), tail);
      assert text == [text[0]] + text[1..];
    }
  }

  lemma QuotedRest(e: string, body: string, tail: string)
    ensures (e + body) + "\"" + tail == e + (body + "\"" + tail)
  {
  }

  lemma ReadLiteralChar(c: char, rest: string)
    requires ReadBody(rest).Ok?
    ensures ReadBody(LiteralChar(c) + rest)
         == Ok(([c] + ReadBody(rest).value.0, |LiteralChar(c)| + ReadBody(rest).value.1))
  {
    var e := LiteralChar(c);
    var s := e + rest;
    if |e| == 2 {
      assert s[0] == '\\' && s[1] == e[1];
      assert s[2..] == rest;
    } else {
      assert s[0] == c && c != '"' && c != '\\';
      assert s[1..] == rest;
    }
  }

  // ---------------------------------------------------------------------
  // tokenize
  // ---------------------------------------------------------------------

  /** The whitespace `tokenize` skips. */
  predicate IsWs(c: char) {
    c == ' ' || c == '\t' || c == '\r' || c == '\n'
  }

  /** Characters that end an atom. */
  predicate IsDelim(c: char) {
    IsWs(c) || c == '(' || c == ')'
  }

  /** Length of a comment: everything up to the next newline. */
  function CommentLen(s: string): (k: nat)
    ensures k <= |s|
    ensures forall i | 0 <= i < k :: s[i] != '\n'
    ensures k < |s| ==> s[k] == '\n'
  {
    if s == [] || s[0] == '\n' then 0 else 1 + CommentLen(s[1..])
  }

  /** Length of the atom at the start of `s`: the run without whitespace
      or parens. */
  function AtomLen(s: string): (k: nat)
    ensures k <= |s|
    ensures forall i | 0 <= i < k :: !IsDelim(s[i])
    ensures k < |s| ==> IsDelim(s[k])
  {
    if s == [] || IsDelim(s[0]) then 0 else 1 + AtomLen(s[1..])
  }

  /** `-?\d+` (the integer half of the number pattern). */
  predicate IsIntNumeral(raw: string) {
    if raw != [] && raw[0] == '-' then IsDigits(raw[1..]) else IsDigits(raw)
  }

  function IntNumeralValue(raw: string): int
    requires IsIntNumeral(raw)
  {
    if raw[0] == '-' then 0 - DigitsValue(raw[1..]) else DigitsValue(raw)
  }

  /** Index of the first '.', or the length. */
  function DotAt(raw: string): (j: nat)
    ensures j <= |raw|
    ensures '.' !in raw[..j]
    ensures j < |raw| ==> raw[j] == '.'
  {
    if raw == [] || raw[0] == '.' then 0
    else
      var j := 1 + DotAt(raw[1..]);
      assert raw[..j] == [raw[0]] + raw[1..][..j - 1];
      j
  }

  /** `-?\d+\.\d+`. The pattern's `$` could also match before a final
      newline, but an atom never holds one. */
  predicate IsFloatNumeral(raw: string) {
    var j := DotAt(raw);
    j < |raw| && IsIntNumeral(raw[..j]) && IsDigits(raw[j + 1..])
  }

  /** What an atom becomes: a number when it matches the number pattern
      (an int unless it has a '.'), true/false/null, else a symbol. */
  function ClassifyAtom(raw: string): (t: Token)
    ensures t.IntTok? <==> IsIntNumeral(raw)
    ensures t.FloatTok? <==> IsFloatNumeral(raw) && !IsIntNumeral(raw)
    ensures t.LitTok? <==> !IsIntNumeral(raw) && !IsFloatNumeral(raw) && raw in ["true", "false", "null"]
    ensures t.SymTok? ==> t.name == raw
  {
    if IsIntNumeral(raw) then IntTok(IntNumeralValue(raw))
    else if IsFloatNumeral(raw) then FloatTok(raw)
    else if raw == "true" then LitTok(Bool(true))
    else if raw == "false" then LitTok(Bool(false))
    else if raw == "null" then LitTok(Null)
    else SymTok(raw)
  }

  /** `tokenize(src)`: the only error is an unterminated string. */
  function Tokenize(s: string): (r: Result<seq<Token>, string>)
    ensures r.Err? ==> r.error == Unterminated
    decreases |s|
  {
    if s == [] then Ok([])
    else if IsWs(s[0]) then Tokenize(s[1..])
    else if s[0] == '#' || s[0] == ';' then Tokenize(s[CommentLen(s)..])
    else if s[0] == '(' then
      var ts :- Tokenize(s[1..]);
      Ok([Open] + ts)
    else if s[0] == ')' then
      var ts :- Tokenize(s[1..]);
      Ok([Close] + ts)
    else if s[0] == '"' then
      var (text, n) :- ReadBody(s[1..]);
      var ts :- Tokenize(s[1 + n..]);
      Ok([StrTok(text)] + ts)
    else
      var k := AtomLen(s);
      var ts :- Tokenize(s[k..]);
      Ok([ClassifyAtom(s[..k])] + ts)
  }

  // ---------------------------------------------------------------------
  // Writing tokens back
  // ---------------------------------------------------------------------

  /** A symbol name that reads back as that symbol. */
  predicate SymbolText(name: string) {
    && name != []
    && name[0] !in "#;\""
    && (forall i | 0 <= i < |name| :: !IsDelim(name[i]))
    && ClassifyAtom(name) == SymTok(name)
  }

  /** A token the tokenizer can produce from its own text. */
  predicate Writable(t: Token) {
    match t
    case SymTok(name) => SymbolText(name)
    case FloatTok(raw) => false
    case LitTok(v) => v in [Bool(true), Bool(false), Null]
    case _ => true
  }

  /** The source text of one token. */
  function TokenText(t: Token): string {
    match t
    case Open => "("
    case Close => ")"
    case StrTok(text) => "\"" + LiteralBody(text) + "\""
    case IntTok(n) => IntToStr(n)
    case FloatTok(raw) => raw
    case LitTok(v) => if v == Bool(true) then "true" else if v == Bool(false) then "false" else "null"
    case SymTok(name) => name
  }

  /** Tokens written out, each followed by a space. */
  function Untokenize(ts: seq<Token>): string {
    if ts == [] then "" else TokenText(ts[0]) + " " + Untokenize(ts[1..])
  }

  /** A token put in front of a tokenizer result; an error stays. */
  function Prepend(t: Token, r: Result<seq<Token>, string>): Result<seq<Token>, string> {
    match r
    case Ok(ts) => Ok([t] + ts)
    case Err(e) => Err(e)
  }

  /** Writing tokens out and tokenizing the text gives the tokens back. */
  lemma {:induction false} TokenizeUntokenize(ts: seq<Token>)
    requires forall i | 0 <= i < |ts| :: Writable(ts[i])
    ensures Tokenize(Untokenize(ts)) == Ok(ts)
  {
    if ts != [] {
      TokenizeUntokenize(ts[1..]);
      TokenizeOne(ts[0], Untokenize(ts[1..]));
      assert Untokenize(ts) == TokenText(ts[0]) + " " + Untokenize(ts[1..]);
      assert ts == [ts[0]] + ts[1..];
    }
  }

  lemma TokenizeOne(t: Token, rest: string)
    requires Writable(t)
    ensures Tokenize(TokenText(t) + " " + rest) == Prepend(t, Tokenize(rest))
  {
    match t
    case Open => ParenThenSpace(t, rest);
    case Close => ParenThenSpace(t, rest);
    case StrTok(text) => StringThenSpace(text, rest);
    case IntTok(n) =>
      IntTextIsAtom(n);
      AtomThenSpace(TokenText(t), rest);
    case LitTok(v) =>
      AtomThenSpace(TokenText(t), rest);
    case SymTok(name) =>
      AtomThenSpace(name, rest);
  }

  lemma ParenThenSpace(t: Token, rest: string)
    requires t == Open || t == Close
    ensures Tokenize(TokenText(t) + " " + rest) == Prepend(t, Tokenize(rest))
  {
    var s := TokenText(t) + " " + rest;
    assert s[1..] == " " + rest;
    assert (" " + rest)[1..] == rest;
  }

  lemma StringThenSpace(text: string, rest: string)
    ensures Tokenize(TokenText(StrTok(text)) + " " + rest) == Prepend(StrTok(text), Tokenize(rest))
  {
    var s := TokenText(StrTok(text)) + " " + rest;
    var n := |LiteralBody(text)| + 1;
    assert s[1..] == LiteralBody(text) + "\"" + (" " + rest);
    ReadLiteralBody(text, " " + rest);
    assert s[0] == '"' && ReadBody(s[1..]) == Ok((text, n));
    TokenizeQuote(s);
    assert s[1 + n..] == " " + rest;
    assert (" " + rest)[1..] == rest;
    assert Tokenize(" " + rest) == Tokenize(rest);
  }

  /** A string literal at the front becomes a string token. */
  lemma TokenizeQuote(s: string)
    requires s != [] && s[0] == '"' && ReadBody(s[1..]).Ok?
    ensures Tokenize(s) == Prepend(StrTok(ReadBody(s[1..]).value.0), Tokenize(s[1 + ReadBody(s[1..]).value.1..]))
  {
  }

  /** An atom's text followed by a space tokenizes as that atom. */
  lemma AtomThenSpace(a: string, rest: string)
    requires a != [] && a[0] !in "#;\""
    requires forall i | 0 <= i < |a| :: !IsDelim(a[i])
    ensures Tokenize(a + " " + rest) == Prepend(ClassifyAtom(a), Tokenize(rest))
  {
    var s := a + " " + rest;
    AtomLenOf(a, " " + rest);
    assert s == a + (" " + rest);
    assert s[..|a|] == a;
    assert s[|a|..] == " " + rest;
    assert (" " + rest)[1..] == rest;
  }

  lemma {:induction false} AtomLenOf(a: string, rest: string)
    requires forall i | 0 <= i < |a| :: !IsDelim(a[i])
    requires rest != [] && IsDelim(rest[0])
    ensures AtomLen(a + rest) == |a|
  {
    if a != [] {
      assert (a + rest)[1..] == a[1..] + rest;
      AtomLenOf(a[1..], rest);
    }
  }

  /** `str(n)` is an atom that classifies as the number `n`. */
  lemma IntTextIsAtom(n: int)
    ensures var a := IntToStr(n);
      && a != [] && a[0] !in "#;\""
      && (forall i | 0 <= i < |a| :: !IsDelim(a[i]))
      && ClassifyAtom(a) == IntTok(n)
  {
    var a := IntToStr(n);
    if n < 0 {
      var d := NatToStr(-n);
      assert a == "-" + d && a[1..] == d;
      assert forall i | 0 <= i < |a| :: a[i] == '-' || IsDigit(a[i]);
    } else {
      assert forall i | 0 <= i < |a| :: IsDigit(a[i]);
    }
  }

  /** The number pattern does not take a trailing dot, a bare sign or a
      leading '+'. */
  lemma NumeralEdges()
    ensures ClassifyAtom("1.") == SymTok("1.")
    ensures ClassifyAtom("-") == SymTok("-")
    ensures ClassifyAtom("+1") == SymTok("+1")
    ensures ClassifyAtom("-12") == IntTok(-12)
    ensures ClassifyAtom("1.5") == FloatTok("1.5")
  {
    assert DotAt("1.") == 1;
    assert DotAt("+1") == 2;
    assert DotAt("-") == 1;
    assert DotAt("1.5") == 1 && "1.5"[..1] == "1" && "1.5"[2..] == "5";
    assert "-12"[1..] == "12";
    assert DigitsValue("12") == 12 by {
      assert "12"[..1] == "1";
    }
  }
}

=== FILE: vbl_parser.dfy ===
/**
 * `parse_tokens` of vibelang/parser.py: tokens to nested nodes. A node is
 * a symbol, a literal (string, int, true/false/null), a float numeral
 * kept as text, or a parenthesised list.
 */
module VblParser {
  import opened Base
  import opened Json
  import opened VblLexer

  datatype Node =
    | Sym(name: string)
    | Lit(v: Value)
    | FloatLit(raw: string)
    | List(items: seq<Node>)

  const EndOfInput := "Unexpected end of input"
  const MissingClose := "Missing closing parenthesis"
  const StrayClose := "Unexpected ')' "

  /** The node for a token that is not a paren. */
  function AtomNode(t: Token): (n: Node)
    requires !t.Open? && !t.Close?
    ensures !n.List?
  {
    match t
    case StrTok(s) => Lit(Str(s))
    case IntTok(i) => Lit(Int(i))
    case FloatTok(raw) => FloatLit(raw)
    case LitTok(v) => Lit(v)
    case SymTok(name) => Sym(name)
  }

  /** `parse_expr`: one node and the tokens after it. */
  function ParseExpr(ts: seq<Token>): (r: Result<(Node, seq<Token>), string>)
    ensures r.Ok? ==> |r.value.1| < |ts|
    ensures r.Err? ==> r.error in {EndOfInput, MissingClose, StrayClose}
    decreases |ts|, 0
  {
    if ts == [] then Err(EndOfInput)
    else if ts[0] == Open then
      var (items, rest) :- ParseItems(ts[1..]);
      Ok((List(items), rest))
    else if ts[0] == Close then Err(StrayClose)
    else Ok((AtomNode(ts[0]), ts[1..]))
  }

  /** The loop inside a list: items up to the closing ')', which is
      consumed. Running out of tokens first is an error. */
  function ParseItems(ts: seq<Token>): (r: Result<(seq<Node>, seq<Token>), string>)
    ensures r.Ok? ==> |r.value.1| < |ts|
    ensures r.Err? ==> r.error in {EndOfInput, MissingClose, StrayClose}
    decreases |ts|, 1
  {
    if ts == [] then Err(MissingClose)
    else if ts[0] == Close then Ok(([], ts[1..]))
    else
      var (n, rest) :- ParseExpr(ts);
      var (ns, rest2) :- ParseItems(rest);
      Ok(([n] + ns, rest2))
  }

  /** `parse_tokens`: top-level forms until the tokens run out. */
  function ParseTokens(ts: seq<Token>): (r: Result<seq<Node>, string>)
    ensures r.Err? ==> r.error in {EndOfInput, MissingClose, StrayClose}
    decreases |ts|
  {
    if ts == [] then Ok([])
    else
      var (n, rest) :- ParseExpr(ts);
      var ns :- ParseTokens(rest);
      Ok([n] + ns)
  }

  // ---------------------------------------------------------------------
  // Writing nodes back as tokens
  // ---------------------------------------------------------------------

  /** A node the parser can produce: literals are strings, ints,
      booleans or null. */
  predicate Parsable(n: Node)
    decreases n, 1
  {
    match n
    case Lit(v) => v.Str? || v.Int? || v.Bool? || v.Null?
    case List(items) => AllParsable(items)
    case _ => true
  }

  predicate AllParsable(ns: seq<Node>)
    decreases ns, 0
  {
    forall i | 0 <= i < |ns| :: Parsable(ns[i])
  }

  /** The tokens of a node. */
  function NodeTokens(n: Node): seq<Token>
    requires Parsable(n)
    decreases n, 1
  {
    match n
    case Sym(name) => [SymTok(name)]
    case FloatLit(raw) => [FloatTok(raw)]
    case Lit(v) =>
      if v.Str? then [StrTok(v.s)] else if v.Int? then [IntTok(v.i)] else [LitTok(v)]
    case List(items) => [Open] + ItemsTokens(items) + [Close]
  }

  /** The tokens of several nodes, one after the other. */
  function ItemsTokens(ns: seq<Node>): seq<Token>
    requires AllParsable(ns)
    decreases ns, 0
  {
    if ns == [] then [] else NodeTokens(ns[0]) + ItemsTokens(ns[1..])
  }

  /** Parsing a node's tokens gives the node back, and leaves what follows. */
  lemma {:induction false} ParseNodeTokens(n: Node, rest: seq<Token>)
    requires Parsable(n)
    ensures ParseExpr(NodeTokens(n) + rest) == Ok((n, rest))
    decreases n, 1
  {
    var ts := NodeTokens(n) + rest;
    match n
    case List(items) =>
      ParseItemsTokens(items, rest);
      assert ts[1..] == ItemsTokens(items) + [Close] + rest;
    case _ =>
      assert ts[1..] == rest;
  }

  lemma {:induction false} ParseItemsTokens(ns: seq<Node>, rest: seq<Token>)
    requires AllParsable(ns)
    ensures ParseItems(ItemsTokens(ns) + [Close] + rest) == Ok((ns, rest))
    decreases ns, 0
  {
    var ts := ItemsTokens(ns) + [Close] + rest;
    if ns == [] {
      assert ts[1..] == rest;
    } else {
      var tail := ItemsTokens(ns[1..]) + [Close] + rest;
      assert ts == NodeTokens(ns[0]) + tail;
      ParseNodeTokens(ns[0], tail);
      ParseItemsTokens(ns[1..], rest);
      assert NodeTokens(ns[0]) != [] && NodeTokens(ns[0])[0] != Close;
      assert ns == [ns[0]] + ns[1..];
    }
  }

  /** Parsing the tokens of a list of forms gives the forms back. */
  lemma {:induction false} ParseFormsTokens(ns: seq<Node>)
    requires AllParsable(ns)
    ensures ParseTokens(ItemsTokens(ns)) == Ok(ns)
  {
    if ns != [] {
      ParseNodeTokens(ns[0], ItemsTokens(ns[1..]));
      ParseFormsTokens(ns[1..]);
      assert ns == [ns[0]] + ns[1..];
    }
  }

  /** A token the lexer can make: its literal tokens are true, false and
      null. */
  predicate Lexed(t: Token) {
    t.LitTok? ==> t.v.Bool? || t.v.Null?
  }

  predicate AllLexed(ts: seq<Token>) {
    forall i | 0 <= i < |ts| :: Lexed(ts[i])
  }

  /** Conversely, a successful parse consumed exactly the tokens of the
      node it returns. */
  lemma {:induction false} ParseExprSound(ts: seq<Token>)
    requires AllLexed(ts) && ParseExpr(ts).Ok?
    ensures var (n, rest) := ParseExpr(ts).value;
      Parsable(n) && NodeTokens(n) + rest == ts
    decreases |ts|, 0
  {
    if ts[0] == Open {
      ParseItemsSound(ts[1..]);
      assert ts == [Open] + ts[1..];
    } else {
      assert Lexed(ts[0]);
      assert ts == [ts[0]] + ts[1..];
    }
  }

  lemma {:induction false} ParseItemsSound(ts: seq<Token>)
    requires AllLexed(ts) && ParseItems(ts).Ok?
    ensures var (ns, rest) := ParseItems(ts).value;
      AllParsable(ns) && ItemsTokens(ns) + [Close] + rest == ts
    decreases |ts|, 1
  {
    if ts[0] == Close {
      assert ts == [Close] + ts[1..];
    } else {
      ParseExprSound(ts);
      var (n, rest) := ParseExpr(ts).value;
      SuffixLexed(NodeTokens(n), rest);
      ParseItemsSound(rest);
      var (ns, rest2) := ParseItems(rest).value;
      assert ParseItems(ts).value.0 == [n] + ns;
      assert ([n] + ns)[1..] == ns;
    }
  }

  /** A parse of lexed tokens yields the forms whose tokens they are. */
  lemma {:induction false} ParseTokensSound(ts: seq<Token>)
    requires AllLexed(ts) && ParseTokens(ts).Ok?
    ensures AllParsable(ParseTokens(ts).value)
    ensures ItemsTokens(ParseTokens(ts).value) == ts
    decreases |ts|
  {
    if ts != [] {
      ParseExprSound(ts);
      var (n, rest) := ParseExpr(ts).value;
      SuffixLexed(NodeTokens(n), rest);
      ParseTokensSound(rest);
      var ns := ParseTokens(rest).value;
      assert ([n] + ns)[1..] == ns;
    }
  }

  lemma SuffixLexed(a: seq<Token>, b: seq<Token>)
    requires AllLexed(a + b)
    ensures AllLexed(b)
  {
    forall i | 0 <= i < |b|
      ensures Lexed(b[i])
    {
      assert b[i] == (a + b)[|a| + i];
    }
  }

  /** The lexer only makes lexed tokens. */
  lemma {:induction false} TokenizeLexed(s: string)
    requires Tokenize(s).Ok?
    ensures AllLexed(Tokenize(s).value)
    decreases |s|, 1
  {
    if s != [] {
      if IsWs(s[0]) {
        TokenizeLexed(s[1..]);
        assert Tokenize(s) == Tokenize(s[1..]);
      } else if s[0] == '#' || s[0] == ';' {
        TokenizeLexed(s[CommentLen(s)..]);
        assert Tokenize(s) == Tokenize(s[CommentLen(s)..]);
      } else if s[0] == '(' || s[0] == ')' {
        TokenizeLexed(s[1..]);
        var t := if s[0] == '(' then Open else Close;
        assert Tokenize(s) == Prepend(t, Tokenize(s[1..]));
        LexedPrepend(t, Tokenize(s[1..]));
      } else {
        TokenLexed(s);
      }
    }
  }

  /** The step of `TokenizeLexed` for a string or an atom token. */
  lemma {:induction false} TokenLexed(s: string)
    requires s != [] && !IsWs(s[0]) && s[0] !in "#;()"
    requires Tokenize(s).Ok?
    ensures AllLexed(Tokenize(s).value)
    decreases |s|, 0
  {
    if s[0] == '"' {
      var (text, n) := ReadBody(s[1..]).value;
      TokenizeQuote(s);
      TokenizeLexed(s[1 + n..]);
      LexedPrepend(StrTok(text), Tokenize(s[1 + n..]));
    } else {
      var k := AtomLen(s);
      TokenizeLexed(s[k..]);
      AtomStep(s);
      LexedPrepend(ClassifyAtom(s[..k]), Tokenize(s[k..]));
    }
  }

  /** An atom is its classified token followed by the rest. */
  lemma AtomStep(s: string)
    requires s != [] && !IsWs(s[0]) && s[0] !in "#;()\""
    ensures Tokenize(s) == Prepend(ClassifyAtom(s[..AtomLen(s)]), Tokenize(s[AtomLen(s)..]))
  {
  }

  lemma LexedPrepend(t: Token, r: Result<seq<Token>, string>)
    requires Lexed(t) && (r.Ok? ==> AllLexed(r.value))
    ensures Prepend(t, r).Ok? ==> AllLexed(Prepend(t, r).value)
  {
    if r.Ok? {
      assert forall i | 1 <= i < |r.value| + 1 :: Prepend(t, r).value[i] == r.value[i - 1];
    }
  }

  /** Every token sequence that parses balances its parens. */
  lemma {:induction false} ParsedParensBalance(ts: seq<Token>)
    requires AllLexed(ts) && ParseTokens(ts).Ok?
    ensures multiset(ts)[Open] == multiset(ts)[Close]
  {
    ParseTokensSound(ts);
    ItemsBalance(ParseTokens(ts).value);
  }

  lemma {:induction false} NodeBalance(n: Node)
    requires Parsable(n)
    ensures multiset(NodeTokens(n))[Open] == multiset(NodeTokens(n))[Close]
    decreases n, 1
  {
    if n.List? {
      ItemsBalance(n.items);
    }
  }

  lemma {:induction false} ItemsBalance(ns: seq<Node>)
    requires AllParsable(ns)
    ensures multiset(ItemsTokens(ns))[Open] == multiset(ItemsTokens(ns))[Close]
    decreases ns, 0
  {
    if ns != [] {
      NodeBalance(ns[0]);
      ItemsBalance(ns[1..]);
    }
  }

  /** A `)` after whole forms is refused as stray, whatever follows it. */
  lemma {:induction false} StrayCloseRefused(ns: seq<Node>, rest: seq<Token>)
    requires AllParsable(ns)
    ensures ParseTokens(ItemsTokens(ns) + [Close] + rest) == Err(StrayClose)
    decreases ns
  {
    var ts := ItemsTokens(ns) + [Close] + rest;
    if ns != [] {
      var tail := ItemsTokens(ns[1..]) + [Close] + rest;
      assert ts == NodeTokens(ns[0]) + tail;
      ParseNodeTokens(ns[0], tail);
      StrayCloseRefused(ns[1..], rest);
    }
  }

  /** A `(` whose items run to the end of the input is refused as
      missing its `)`. */
  lemma MissingCloseRefused(ns: seq<Node>)
    requires AllParsable(ns)
    ensures ParseTokens([Open] + ItemsTokens(ns)) == Err(MissingClose)
  {
    ItemsUnclosed(ns);
    assert ([Open] + ItemsTokens(ns))[1..] == ItemsTokens(ns);
  }

  lemma {:induction false} ItemsUnclosed(ns: seq<Node>)
    requires AllParsable(ns)
    ensures ParseItems(ItemsTokens(ns)) == Err(MissingClose)
    decreases ns
  {
    if ns != [] {
      ParseNodeTokens(ns[0], ItemsTokens(ns[1..]));
      assert NodeTokens(ns[0]) != [] && NodeTokens(ns[0])[0] != Close;
      ItemsUnclosed(ns[1..]);
    }
  }
}

=== FILE: version.dfy ===
/**
 * The release checks of scripts/check_version.py and the version reader of
 * vibeweb/version.py: SemVer acceptance, the CHANGELOG headings, the
 * list checks that decide the script's exit code, and the two line
 * scanners that read `[project].version` from pyproject.toml without a
 * TOML parser.
 *
 * File contents are parameters; whether a file exists is an `Option`.
 */
module Version {
  import opened Base
  import opened Strings
  import opened Json

  // ---------------------------------------------------------------------
  // SEMVER_RE
  // ---------------------------------------------------------------------

  /** Length of the leading run of ASCII digits. */
  function DigitRun(s: string): (n: nat)
    ensures n <= |s|
    ensures forall i | 0 <= i < n :: IsDigit(s[i])
    ensures n < |s| ==> !IsDigit(s[n])
  {
    if s == [] || !IsDigit(s[0]) then 0 else 1 + DigitRun(s[1..])
  }

  /** `(0|[1-9]\d*)`: digits without a leading zero. */
  predicate NumericId(d: string) {
    IsDigits(d) && (d[0] != '0' || |d| == 1)
  }

  /** The numeric identifier at the start of `s` and what follows it. */
  function Component(s: string): (r: Option<(string, string)>)
    ensures r.Some? ==> NumericId(r.value.0) && s == r.value.0 + r.value.1
    ensures r.Some? ==> r.value.1 == [] || !IsDigit(r.value.1[0])
  {
    var n := DigitRun(s);
    if n > 0 && NumericId(s[..n]) then
      assert s == s[..n] + s[n..];
      Some((s[..n], s[n..]))
    else None
  }

  /** The three numbers of a version and the text after them. */
  datatype Core = Core(major: string, minor: string, patch: string, tail: string)

  function CoreOf(v: string): (r: Option<Core>)
    ensures r.Some? ==> v == r.value.major + "." + r.value.minor + "." + r.value.patch + r.value.tail
    ensures r.Some? ==> NumericId(r.value.major) && NumericId(r.value.minor) && NumericId(r.value.patch)
    ensures r.Some? ==> r.value.tail == [] || !IsDigit(r.value.tail[0])
  {
    var c1 := Component(v);
    if c1.None? || c1.value.1 == [] || c1.value.1[0] != '.' then None
    else
      var c2 := Component(c1.value.1[1..]);
      if c2.None? || c2.value.1 == [] || c2.value.1[0] != '.' then None
      else
        var c3 := Component(c2.value.1[1..]);
        if c3.None? then None
        else
          Glue(v, c1.value.0, c1.value.1, c2.value.0, c2.value.1, c3.value.0, c3.value.1);
          Some(Core(c1.value.0, c2.value.0, c3.value.0, c3.value.1))
  }

  lemma Glue(v: string, a: string, r1: string, b: string, r2: string, c: string, t: string)
    requires v == a + r1 && r1 != [] && r1[1..] == b + r2 && r1[0] == '.'
    requires r2 != [] && r2[1..] == c + t && r2[0] == '.'
    ensures v == a + "." + b + "." + c + t
  {
    assert r1 == "." + r1[1..];
    assert r2 == "." + r2[1..];
  }

  predicate SuffixChar(c: char) {
    IsAsciiAlnum(c) || c == '.' || c == '-'
  }

  /** `(?:[-+][0-9A-Za-z.-]+)?$`; the `$` also matches before a final
      newline. */
  predicate ValidTail(t: string) {
    var u := if t != [] && t[|t| - 1] == '\n' then t[..|t| - 1] else t;
    u == [] || (|u| >= 2 && (u[0] == '-' || u[0] == '+') && forall i | 1 <= i < |u| :: SuffixChar(u[i]))
  }

  /** `SEMVER_RE.match(v)` succeeds. */
  predicate IsSemVer(v: string) {
    var c := CoreOf(v);
    c.Some? && ValidTail(c.value.tail)
  }

  lemma {:induction false} DigitRunOfDigits(d: string, rest: string)
    requires forall i | 0 <= i < |d| :: IsDigit(d[i])
    requires rest == [] || !IsDigit(rest[0])
    ensures DigitRun(d + rest) == |d|
    decreases |d|
  {
    if d == [] {
      assert d + rest == rest;
    } else {
      DigitRunOfDigits(d[1..], rest);
      assert (d + rest)[1..] == d[1..] + rest;
    }
  }

  lemma ComponentOf(d: string, rest: string)
    requires NumericId(d)
    requires rest == [] || !IsDigit(rest[0])
    ensures Component(d + rest) == Some((d, rest))
  {
    DigitRunOfDigits(d, rest);
    assert (d + rest)[..|d|] == d && (d + rest)[|d|..] == rest;
  }

  lemma NumericIdOfNat(n: nat)
    ensures NumericId(NatToStr(n))
  {
  }

  /** A release number written out is accepted. */
  lemma SemVerOfNumbers(a: nat, b: nat, c: nat)
    ensures IsSemVer(NatToStr(a) + "." + NatToStr(b) + "." + NatToStr(c))
  {
    var sa, sb, sc := NatToStr(a), NatToStr(b), NatToStr(c);
    NumericIdOfNat(a);
    NumericIdOfNat(b);
    NumericIdOfNat(c);
    CoreAccepts(sa, sb, sc, []);
    assert sa + "." + sb + "." + sc + [] == sa + "." + sb + "." + sc;
  }

  /** Numbers without leading zeros, with or without a pre-release or
      build suffix, are accepted. */
  lemma SemVerWithSuffix(a: string, b: string, c: string, sign: char, suffix: string)
    requires NumericId(a) && NumericId(b) && NumericId(c)
    requires sign == '-' || sign == '+'
    requires suffix != [] && forall i | 0 <= i < |suffix| :: SuffixChar(suffix[i])
    ensures IsSemVer(a + "." + b + "." + c + [sign] + suffix)
  {
    SuffixTail(sign, suffix);
    CoreAccepts(a, b, c, [sign] + suffix);
    assert a + "." + b + "." + c + ([sign] + suffix) == a + "." + b + "." + c + [sign] + suffix;
  }

  lemma SuffixTail(sign: char, suffix: string)
    requires sign == '-' || sign == '+'
    requires suffix != [] && forall i | 0 <= i < |suffix| :: SuffixChar(suffix[i])
    ensures ValidTail([sign] + suffix) && !IsDigit(sign)
  {
    var t := [sign] + suffix;
    assert t[|t| - 1] == suffix[|suffix| - 1];
    assert forall i | 1 <= i < |t| :: t[i] == suffix[i - 1];
  }

  lemma CoreAccepts(a: string, b: string, c: string, t: string)
    requires NumericId(a) && NumericId(b) && NumericId(c)
    requires t == [] || !IsDigit(t[0])
    requires ValidTail(t)
    ensures IsSemVer(a + "." + b + "." + c + t)
  {
    CoreOfParts(a, b, c, t);
    assert a + ("." + (b + ("." + (c + t)))) == a + "." + b + "." + c + t;
  }

  lemma CoreOfParts(a: string, b: string, c: string, t: string)
    requires NumericId(a) && NumericId(b) && NumericId(c)
    requires t == [] || !IsDigit(t[0])
    ensures CoreOf(a + ("." + (b + ("." + (c + t))))) == Some(Core(a, b, c, t))
  {
    var r2 := "." + (c + t);
    var r1 := "." + (b + r2);
    ComponentOf(a, r1);
    assert r1[1..] == b + r2;
    ComponentOf(b, r2);
    assert r2[1..] == c + t;
    ComponentOf(c, t);
  }

  /** A number with a leading zero is refused. */
  lemma LeadingZeroRefused(v: string)
    requires |v| >= 2 && v[0] == '0' && IsDigit(v[1])
    ensures !IsSemVer(v)
  {
    var n := DigitRun(v);
    assert n >= 2 by {
      assert DigitRun(v) == 1 + DigitRun(v[1..]);
    }
    assert v[..n][0] == '0';
  }

  // ---------------------------------------------------------------------
  // _parse_changelog_versions
  // ---------------------------------------------------------------------

  /** Index of the first `c` in `s`, or `|s|`. */
  function IndexOfChar(s: string, c: char): (k: nat)
    ensures k <= |s|
    ensures forall i | 0 <= i < k :: s[i] != c
    ensures k < |s| ==> s[k] == c
  {
    if s == [] || s[0] == c then 0 else 1 + IndexOfChar(s[1..], c)
  }

  /** `\d{4}-\d{2}-\d{2}`. */
  predicate IsDate(d: string) {
    && |d| == 10
    && IsDigit(d[0]) && IsDigit(d[1]) && IsDigit(d[2]) && IsDigit(d[3])
    && d[4] == '-' && IsDigit(d[5]) && IsDigit(d[6])
    && d[7] == '-' && IsDigit(d[8]) && IsDigit(d[9])
  }

  /** `\s+-\s+<date>\s*$`. */
  predicate DatedTail(t: string) {
    var t1 := LStrip(t);
    && |t1| < |t| && t1 != [] && t1[0] == '-'
    && var t3 := LStrip(t1[1..]);
    && |t3| < |t1[1..]| && |t3| >= 10 && IsDate(t3[..10]) && AllSpace(t3[10..])
  }

  /** `heading_re.match(line)`: the bracketed name, stripped, of a line
      `## [name]` optionally followed by ` - YYYY-MM-DD`. The name runs
      to the first `]` and is not empty. */
  function HeadingName(line: string): (r: Option<string>)
    ensures r.Some? ==> |line| >= 2 && line[0] == '#' && line[1] == '#'
    ensures r.Some? ==> ']' !in r.value
  {
    if |line| < 2 || line[0] != '#' || line[1] != '#' then None
    else
      var rest := line[2..];
      var a := LStrip(rest);
      if |a| == |rest| || a == [] || a[0] != '[' then None
      else
        var body := a[1..];
        var k := IndexOfChar(body, ']');
        if k == |body| || k == 0 then None
        else
          var tail := body[k + 1..];
          if AllSpace(tail) || DatedTail(tail) then
            StripIsInfixNoChar(body[..k], ']');
            Some(Strip(body[..k]))
          else None
  }

  lemma StripIsInfixNoChar(s: string, c: char)
    requires c !in s
    ensures c !in Strip(s)
  {
    var k := StripIsInfix(s);
    forall i | 0 <= i < |Strip(s)| ensures Strip(s)[i] != c {
      assert Strip(s)[i] == s[k + i];
    }
  }

  /** A line `## [name]` for a name without `]` and without surrounding
      whitespace gives the name back. */
  lemma HeadingRoundTrip(name: string)
    requires name != [] && ']' !in name
    requires !IsSpace(name[0]) && !IsSpace(name[|name| - 1])
    ensures HeadingName("## [" + name + "]") == Some(name)
  {
    var line := "## [" + name + "]";
    assert line[0] == '#' && line[1] == '#' && line[2] == ' ' && line[3] == '[';
    assert line[4..] == name + "]";
    HeadingOfBody(line, name);
    StripOfNoEdgeSpace(name);
  }

  /** `##`, one blank, `[`, the name and `]` make a heading. */
  lemma HeadingOfBody(line: string, name: string)
    requires |line| >= 4 && line[0] == '#' && line[1] == '#' && IsSpace(line[2]) && line[3] == '['
    requires line[4..] == name + "]"
    requires name != [] && ']' !in name
    ensures HeadingName(line) == Some(Strip(name))
  {
    var rest := line[2..];
    assert LStrip(rest) == LStrip(rest[1..]);
    var a := rest[1..];
    assert a[0] == '[';
    assert LStrip(a) == a;
    var body := a[1..];
    assert body == line[4..];
    IndexOfCharAfter(name, "]", ']');
    assert body[|name| + 1..] == [];
    assert body[..|name|] == name;
  }

  lemma {:induction false} IndexOfCharAfter(s: string, t: string, c: char)
    requires c !in s && t != [] && t[0] == c
    ensures IndexOfChar(s + t, c) == |s|
    decreases |s|
  {
    if s == [] {
      assert s + t == t;
    } else {
      IndexOfCharAfter(s[1..], t, c);
      assert (s + t)[1..] == s[1..] + t;
    }
  }

  /** The present values, in order. */
  function Somes(xs: seq<Option<string>>): (r: seq<string>)
    ensures |r| <= |xs|
    ensures forall i | 0 <= i < |r| :: Some(r[i]) in xs
    ensures forall j | 0 <= j < |xs| && xs[j].Some? :: xs[j].value in r
    decreases |xs|
  {
    if xs == [] then []
    else
      var rest := Somes(xs[1..]);
      assert forall j | 1 <= j < |xs| :: xs[j] == xs[1..][j - 1];
      assert forall x | x in xs[1..] :: x in xs;
      if xs[0].Some? then [xs[0].value] + rest else rest
  }

  /** The heading of each line, stripped first. */
  function Headings(lines: seq<string>): (r: seq<Option<string>>)
    ensures |r| == |lines|
    ensures forall i | 0 <= i < |lines| :: r[i] == HeadingName(Strip(lines[i]))
  {
    seq(|lines|, i requires 0 <= i < |lines| => HeadingName(Strip(lines[i])))
  }

  /** Some line, stripped, is a heading named `x`. */
  predicate HeadingOf(lines: seq<string>, x: string) {
    exists j | 0 <= j < |lines| :: HeadingName(Strip(lines[j])) == Some(x)
  }

  /** `_parse_changelog_versions(text)`: the heading names, in file
      order; a name is in the list exactly when some line is a heading
      with that name. */
  function ChangelogVersions(text: string): (r: seq<string>)
    ensures forall i | 0 <= i < |r| :: ']' !in r[i]
    ensures forall x :: x in r <==> HeadingOf(Lines(text), x)
  {
    HeadingNames(Lines(text));
    Somes(Headings(Lines(text)))
  }

  /** The present headings are exactly the names some line is a heading
      of, and none holds a `]`. */
  lemma HeadingNames(lines: seq<string>)
    ensures var r := Somes(Headings(lines));
      && (forall i | 0 <= i < |r| :: ']' !in r[i])
      && (forall x :: x in r <==> HeadingOf(lines, x))
  {
    var hs := Headings(lines);
    var r := Somes(hs);
    forall i | 0 <= i < |r| ensures ']' !in r[i] {
      assert Some(r[i]) in hs;
      var j :| 0 <= j < |hs| && hs[j] == Some(r[i]);
    }
    forall x ensures x in r <==> HeadingOf(lines, x) {
      if x in r {
        var i :| 0 <= i < |r| && r[i] == x;
        assert Some(x) in hs;
        var j :| 0 <= j < |hs| && hs[j] == Some(x);
        assert HeadingName(Strip(lines[j])) == Some(x);
      }
      if HeadingOf(lines, x) {
        var j :| 0 <= j < |lines| && HeadingName(Strip(lines[j])) == Some(x);
        assert hs[j].Some? && hs[j].value == x;
      }
    }
  }

  // ---------------------------------------------------------------------
  // main
  // ---------------------------------------------------------------------

  /** `versions.index(x)` for an `x` in the list. */
  function IndexOf(xs: seq<string>, x: string): (k: nat)
    requires x in xs
    ensures k < |xs| && xs[k] == x
    ensures forall i | 0 <= i < k :: xs[i] != x
  {
    if xs[0] == x then 0 else 1 + IndexOf(xs[1..], x)
  }

  const MissingPyproject := "Missing pyproject.toml"
  const MissingChangelog := "Missing CHANGELOG.md"
  const MissingUnreleased := "CHANGELOG.md must include '## [Unreleased]'"
  const OutOfOrder := "CHANGELOG.md: version entry must come after [Unreleased]"

  function ReadFailed(msg: string): string {
    "Failed to read version from pyproject.toml: " + msg
  }

  function NotSemVer(v: string): string {
    "pyproject.toml version is not valid SemVer: " + ReprStr(v) + " (expected MAJOR.MINOR.PATCH[...])"
  }

  function MissingEntry(v: string): string {
    "CHANGELOG.md must include an entry for version " + ReprStr(v)
  }

  /** The version `main` goes on with: empty when the file is missing or
      could not be read. */
  function VersionOf(pyproject: Option<Result<string, string>>): string {
    if pyproject.Some? && pyproject.value.Ok? then pyproject.value.value else ""
  }

  /** The checks of the changelog's headings. */
  function ChangelogErrors(version: string, versions: seq<string>): (r: seq<string>)
    ensures MissingUnreleased in r <==> "Unreleased" !in versions
    ensures version != "" ==> (MissingEntry(version) in r <==> version !in versions)
    ensures OutOfOrder in r <==>
      version != "" && "Unreleased" in versions && version in versions
      && IndexOf(versions, version) < IndexOf(versions, "Unreleased")
    ensures r == [] <==> ("Unreleased" in versions &&
      (version == "" || (version in versions && IndexOf(versions, version) >= IndexOf(versions, "Unreleased"))))
  {
    var e1 := if "Unreleased" !in versions then [MissingUnreleased] else [];
    var e2 := if version != "" && version !in versions then [MissingEntry(version)] else [];
    var e3 := if version != "" && "Unreleased" in versions && version in versions
                && IndexOf(versions, version) < IndexOf(versions, "Unreleased")
              then [OutOfOrder] else [];
    MessagesDiffer(version);
    e1 + e2 + e3
  }

  lemma MessagesDiffer(version: string)
    ensures MissingUnreleased != OutOfOrder
    ensures MissingEntry(version) != MissingUnreleased
    ensures MissingEntry(version) != OutOfOrder
  {
    assert MissingUnreleased[12] == ' ' && OutOfOrder[12] == ':';
    var m := MissingEntry(version);
    assert m[26] == 'a' && MissingUnreleased[26] == '\'';
    assert m[12] == ' ';
  }

  /** The errors `main` collects, in order. A missing pyproject.toml or
      CHANGELOG.md is an error; an empty CHANGELOG.md is not checked at
      all. */
  function CheckErrors(pyproject: Option<Result<string, string>>, changelog: Option<string>): (r: seq<string>)
    ensures pyproject.None? ==> MissingPyproject in r
    ensures pyproject.Some? && pyproject.value.Err? ==> ReadFailed(pyproject.value.error) in r
    ensures changelog.None? ==> MissingChangelog in r
    ensures r == [] <==>
      && pyproject.Some? && pyproject.value.Ok? && changelog.Some?
      && (VersionOf(pyproject) == "" || IsSemVer(VersionOf(pyproject)))
      && (changelog.value == "" || ChangelogErrors(VersionOf(pyproject), ChangelogVersions(changelog.value)) == [])
  {
    var version := VersionOf(pyproject);
    var e1 := if pyproject.None? then [MissingPyproject]
              else if pyproject.value.Err? then [ReadFailed(pyproject.value.error)] else [];
    var e2 := if version != "" && !IsSemVer(version) then [NotSemVer(version)] else [];
    var text := if changelog.Some? then changelog.value else "";
    var e3 := if changelog.None? then [MissingChangelog] else [];
    var e4 := if text != "" then ChangelogErrors(version, ChangelogVersions(text)) else [];
    e1 + e2 + e3 + e4
  }

  /** `main()`'s exit code. */
  function MainExit(pyproject: Option<Result<string, string>>, changelog: Option<string>): (code: int)
    ensures code == 0 || code == 1
    ensures code == 0 <==> CheckErrors(pyproject, changelog) == []
  {
    if CheckErrors(pyproject, changelog) != [] then 1 else 0
  }

  /** A release that is SemVer and listed after `[Unreleased]` passes. */
  lemma ReleasePasses(version: string, text: string)
    requires version != "" && IsSemVer(version)
    requires "Unreleased" in ChangelogVersions(text) && version in ChangelogVersions(text)
    requires IndexOf(ChangelogVersions(text), version) > IndexOf(ChangelogVersions(text), "Unreleased")
    ensures MainExit(Some(Ok(version)), Some(text)) == 0
  {
    assert VersionOf(Some(Ok(version))) == version;
    assert ChangelogErrors(version, ChangelogVersions(text)) == [];
    assert CheckErrors(Some(Ok(version)), Some(text)) == [];
  }

  /** An empty CHANGELOG.md passes, although it has no `[Unreleased]`
      heading and no entry for the version. */
  lemma EmptyChangelogPasses(version: string)
    requires version == "" || IsSemVer(version)
    ensures MainExit(Some(Ok(version)), Some("")) == 0
    ensures ChangelogErrors(version, ChangelogVersions("")) != []
  {
    assert ChangelogVersions("") == [];
  }

  /** The check as evidently intended: a CHANGELOG.md that exists is
      checked even when it is empty. */
  function CheckErrorsIntended(pyproject: Option<Result<string, string>>, changelog: Option<string>): (r: seq<string>)
    ensures changelog.Some? ==>
      forall e | e in ChangelogErrors(VersionOf(pyproject), ChangelogVersions(changelog.value)) :: e in r
    ensures changelog.Some? && "Unreleased" !in ChangelogVersions(changelog.value) ==> r != []
  {
    var version := VersionOf(pyproject);
    var e1 := if pyproject.None? then [MissingPyproject]
              else if pyproject.value.Err? then [ReadFailed(pyproject.value.error)] else [];
    var e2 := if version != "" && !IsSemVer(version) then [NotSemVer(version)] else [];
    var e3 := if changelog.None? then [MissingChangelog] else [];
    var e4 := if changelog.Some? then ChangelogErrors(version, ChangelogVersions(changelog.value)) else [];
    e1 + e2 + e3 + e4
  }

  /** The intended check refuses an empty CHANGELOG.md. */
  lemma EmptyChangelogRefused(pyproject: Option<Result<string, string>>)
    ensures CheckErrorsIntended(pyproject, Some("")) != []
  {
    assert ChangelogVersions("") == [];
  }

  // ---------------------------------------------------------------------
  // pyproject.toml line scanners
  // ---------------------------------------------------------------------

  /** `^\s*\[(?P<section>[^\]]+)\]\s*$` on a stripped line: the text up
      to the first `]`. A line such as `[[tool.x]]` is not a header. */
  function SectionName(line: string): (r: Option<string>)
    ensures r.Some? ==> ']' !in r.value && r.value != []
  {
    var a := LStrip(line);
    if a == [] || a[0] != '[' then None
    else
      var body := a[1..];
      var k := IndexOfChar(body, ']');
      if k == |body| || k == 0 || !AllSpace(body[k + 1..]) then None
      else Some(body[..k])
  }

  /** `^\s*version\s*=\s*(["'])(?P<version>[^"']+)\1\s*$` on a raw
      line: the quoted value, which holds no quote of either kind. */
  function VersionValue(raw: string): (r: Option<string>)
    ensures r.Some? ==> r.value != [] && '"' !in r.value && '\'' !in r.value
  {
    var a := LStrip(raw);
    if |a| < 7 || a[..7] != "version" then None
    else
      var b := LStrip(a[7..]);
      if b == [] || b[0] != '=' then None
      else
        var c := LStrip(b[1..]);
        if c == [] || (c[0] != '"' && c[0] != '\'') then None
        else
          var body := c[1..];
          var k := QuoteAt(body);
          if k == |body| || k == 0 || body[k] != c[0] || !AllSpace(body[k + 1..]) then None
          else Some(body[..k])
  }

  /** Index of the first quote of either kind, or `|s|`. */
  function QuoteAt(s: string): (k: nat)
    ensures k <= |s|
    ensures forall i | 0 <= i < k :: s[i] != '"' && s[i] != '\''
    ensures k < |s| ==> s[k] == '"' || s[k] == '\''
  {
    if s == [] || s[0] == '"' || s[0] == '\'' then 0 else 1 + QuoteAt(s[1..])
  }

  /** What the scanners make of one line: nothing (blank or a `#`
      comment), a section header (whether it is `[project]`), or any
      other line with the version value it may hold, stripped. */
  datatype LineKind = Skip | Header(isProject: bool) | Other(version: Option<string>)

  function Classify(raw: string): (k: LineKind)
    ensures k.Other? && k.version.Some? ==> '"' !in k.version.value && '\'' !in k.version.value
    ensures k.Other? && k.version.Some? && k.version.value != [] ==>
      !IsSpace(k.version.value[0]) && !IsSpace(k.version.value[|k.version.value| - 1])
  {
    var line := Strip(raw);
    if line == [] || line[0] == '#' then Skip
    else match SectionName(line)
      case Some(sec) => Header(Strip(sec) == "project")
      case None =>
        var v := VersionValue(raw);
        if v.Some? then
          StrippedValue(v.value);
          Other(Some(Strip(v.value)))
        else Other(None)
  }

  function Kinds(lines: seq<string>): (r: seq<LineKind>)
    ensures |r| == |lines|
    ensures forall i | 0 <= i < |lines| :: r[i] == Classify(lines[i])
  {
    seq(|lines|, i requires 0 <= i < |lines| => Classify(lines[i]))
  }

  /** Whether the scanners are inside `[project]` before line `n`: the
      last header before it is `[project]`. */
  function InProject(ks: seq<LineKind>, n: nat): bool
    requires n <= |ks|
  {
    if n == 0 then false
    else if ks[n - 1].Header? then ks[n - 1].isProject
    else InProject(ks, n - 1)
  }

  /** Line `n` is a version line inside `[project]`. */
  predicate VersionLine(ks: seq<LineKind>, n: nat)
    requires n < |ks|
  {
    ks[n].Other? && ks[n].version.Some? && InProject(ks, n)
  }

  function ValueAt(ks: seq<LineKind>, n: nat): string
    requires n < |ks| && VersionLine(ks, n)
  {
    ks[n].version.value
  }

  /** The loop of `_read_pyproject_version`'s fallback in
      scripts/check_version.py, from line `i` on: a version line whose
      value strips to nothing is passed over. */
  function ScanChecked(ks: seq<LineKind>, i: nat, inProject: bool): (r: Result<string, string>)
    requires i <= |ks| && inProject == InProject(ks, i)
    ensures r.Ok? ==> r.value != [] && exists n | i <= n < |ks| ::
      VersionLine(ks, n) && ValueAt(ks, n) == r.value &&
      forall m | i <= m < n :: !(VersionLine(ks, m) && ValueAt(ks, m) != [])
    ensures r.Err? <==> forall n | i <= n < |ks| :: !(VersionLine(ks, n) && ValueAt(ks, n) != [])
    ensures r.Err? ==> r.error == "Could not read version from pyproject.toml"
    decreases |ks| - i
  {
    if i == |ks| then Err("Could not read version from pyproject.toml")
    else
      match ks[i]
      case Skip => ScanChecked(ks, i + 1, inProject)
      case Header(p) => ScanChecked(ks, i + 1, p)
      case Other(v) =>
        if inProject && v.Some? && v.value != [] then
          assert VersionLine(ks, i);
          Ok(v.value)
        else ScanChecked(ks, i + 1, inProject)
  }

  /** The loop of `_read_pyproject_version_regex` in vibeweb/version.py,
      from line `i` on: the first version line decides, and a value that
      strips to nothing gives `None`. */
  function ScanRegex(ks: seq<LineKind>, i: nat, inProject: bool): (r: Option<string>)
    requires i <= |ks| && inProject == InProject(ks, i)
    ensures r.Some? ==> r.value != [] && exists n | i <= n < |ks| ::
      VersionLine(ks, n) && ValueAt(ks, n) == r.value &&
      forall m | i <= m < n :: !VersionLine(ks, m)
    ensures (forall n | i <= n < |ks| :: !VersionLine(ks, n)) ==> r.None?
    decreases |ks| - i
  {
    if i == |ks| then None
    else
      match ks[i]
      case Skip => ScanRegex(ks, i + 1, inProject)
      case Header(p) => ScanRegex(ks, i + 1, p)
      case Other(v) =>
        if inProject && v.Some? then
          assert VersionLine(ks, i);
          if v.value != [] then Some(v.value) else None
        else ScanRegex(ks, i + 1, inProject)
  }

  /** The fallback reader of scripts/check_version.py. */
  function ReadPyprojectChecked(text: string): (r: Result<string, string>)
    ensures r.Ok? ==> r.value != [] && !IsSpace(r.value[0]) && !IsSpace(r.value[|r.value| - 1])
    ensures r.Ok? ==> '"' !in r.value && '\'' !in r.value
  {
    var ks := Kinds(Lines(text));
    var r := ScanChecked(ks, 0, false);
    if r.Ok? then
      var n :| 0 <= n < |ks| && VersionLine(ks, n) && ValueAt(ks, n) == r.value;
      r
    else r
  }

  /** `_read_pyproject_version_regex` of vibeweb/version.py. */
  function ReadPyprojectRegex(text: string): (r: Option<string>)
    ensures r.Some? ==> r.value != [] && !IsSpace(r.value[0]) && !IsSpace(r.value[|r.value| - 1])
    ensures r.Some? ==> '"' !in r.value && '\'' !in r.value
  {
    var ks := Kinds(Lines(text));
    var r := ScanRegex(ks, 0, false);
    if r.Some? then
      var n :| 0 <= n < |ks| && VersionLine(ks, n) && ValueAt(ks, n) == r.value;
      r
    else r
  }

  lemma StrippedValue(v: string)
    requires '"' !in v && '\'' !in v
    ensures var s := Strip(v);
      && '"' !in s && '\'' !in s
      && (s != [] ==> !IsSpace(s[0]) && !IsSpace(s[|s| - 1]))
  {
    StripIsInfixNoChar(v, '"');
    StripIsInfixNoChar(v, '\'');
    StripEdges(v);
  }

  lemma StripEdges(s: string)
    ensures Strip(s) == [] || (!IsSpace(Strip(s)[0]) && !IsSpace(Strip(s)[|Strip(s)| - 1]))
  {
    var l := LStrip(s);
    var r := RStrip(l);
    RStripIsPrefix(l);
    assert r == [] || r[0] == l[0];
  }

  /** The two readers agree whenever the package's reader finds a
      version; they differ only when the first version line in
      `[project]` is blank, where the script reads on. */
  lemma {:induction false} ReadersAgree(ks: seq<LineKind>, i: nat, inProject: bool)
    requires i <= |ks| && inProject == InProject(ks, i)
    ensures ScanRegex(ks, i, inProject).Some? ==>
      ScanChecked(ks, i, inProject) == Ok(ScanRegex(ks, i, inProject).value)
    decreases |ks| - i
  {
    if i < |ks| {
      match ks[i]
      case Skip => ReadersAgree(ks, i + 1, inProject);
      case Header(p) => ReadersAgree(ks, i + 1, p);
      case Other(v) =>
        if !(inProject && v.Some?) {
          ReadersAgree(ks, i + 1, inProject);
        }
    }
  }

  /** Where the first version line in `[project]` is blank, the package's
      reader gives up and the script's reader goes on to later lines. */
  lemma BlankFirstVersion(ks: seq<LineKind>, i: nat)
    requires i < |ks| && VersionLine(ks, i) && ValueAt(ks, i) == []
    requires forall m | 0 <= m < i :: !VersionLine(ks, m)
    ensures ScanRegex(ks, 0, false).None?
    ensures ScanChecked(ks, 0, false) == ScanChecked(ks, i + 1, InProject(ks, i + 1))
  {
    RegexStopsAt(ks, 0, i);
    CheckedSkipsTo(ks, 0, i);
  }

  lemma {:induction false} RegexStopsAt(ks: seq<LineKind>, j: nat, i: nat)
    requires j <= i < |ks| && VersionLine(ks, i) && ValueAt(ks, i) == []
    requires forall m | j <= m < i :: !VersionLine(ks, m)
    ensures ScanRegex(ks, j, InProject(ks, j)).None?
    decreases i - j
  {
    if j < i {
      assert !VersionLine(ks, j);
      RegexStopsAt(ks, j + 1, i);
    }
  }

  lemma {:induction false} CheckedSkipsTo(ks: seq<LineKind>, j: nat, i: nat)
    requires j <= i < |ks| && VersionLine(ks, i) && ValueAt(ks, i) == []
    requires forall m | j <= m < i :: !VersionLine(ks, m)
    ensures ScanChecked(ks, j, InProject(ks, j)) == ScanChecked(ks, i + 1, InProject(ks, i + 1))
    decreases i - j
  {
    CheckedStep(ks, j);
    if j < i {
      CheckedSkipsTo(ks, j + 1, i);
      var next := ScanChecked(ks, j + 1, InProject(ks, j + 1));
      assert ScanChecked(ks, j, InProject(ks, j)) == next;
      assert next == ScanChecked(ks, i + 1, InProject(ks, i + 1));
    }
  }

  /** The script's loop passes over a line that is not a version line
      with a non-blank value. */
  lemma CheckedStep(ks: seq<LineKind>, j: nat)
    requires j < |ks| && !(VersionLine(ks, j) && ValueAt(ks, j) != [])
    ensures ScanChecked(ks, j, InProject(ks, j)) == ScanChecked(ks, j + 1, InProject(ks, j + 1))
  {
  }
}
